=== FILE: README.md ===
# SIGEPOL back-office core, modelled in Dafny

SIGEPOL is a Django back-office for an insurance broker. It imports policy
spreadsheets, tracks how fresh each client's data is, raises and manages
alerts, runs a small rule engine, builds reports, manages collections
(cobranzas) and guards its endpoints by user role. This project models the
pure core of that system:

- the import primitives (RUT normalisation and shape check, the "X AL Y"
  validity window, Chilean amounts) and the 500-row batch ETL loop of
  `process_upload`, with its counters and final status;
- the upload-status helpers and the structural validator's verdict;
- the pure helpers of the legacy upload view: header detection, column
  synonyms, the validity-window separator, day repair and row counters;
- per-client freshness (`DataFreshness`) and the per-policy freshness ladder;
- the alert factory (`crear_alerta`: deduplication, deadline by severity,
  confidence from freshness, history mirroring), the alert state machine,
  the notification filter, the expiry-alert action, the resolve view and
  the ML-results import;
- the rule registry, the rule executor with per-rule failure isolation,
  and the built-in rules' arithmetic;
- the four reports (expired, expiring, monthly production, top clients)
  and the risk ladders of the analytics service;
- collections: predicates, days-late recompute, creation idempotent on
  (poliza, tipo, PENDIENTE), the at-risk and per-client queries, the list
  actions, payment and cancellation guards, statistics;
- roles, the permission classes and the user-administration guards.

The database is replaced by maps keyed by each table's unique key (policy
number, client RUT, rule code, ...) and by sequences where rows are
identified by position (alerts, history rows, collections). "Today" is an
explicit day number and "now" an explicit number of seconds. Foreign parsers
(pandas date parsing, `float()` on text that is not a plain decimal,
fuzzy matching, Unicode NFKD) are function parameters. Python floats are
modelled as reals.

Files, one module each: `base.dfy` (cells, results, growth of logs),
`text.dfy` (the string methods used), `rut.dfy`, `amounts.dfy`,
`vigencia.dfy`, `uploads.dfy`, `polizas.dfy` (policies and the client
store), `freshness.dfy`, `etl.dfy`, `validators.dfy`, `legacy.dfy`,
`calendar.dfy`, `alerts.dfy`, `grouping.dfy`, `rules.dfy`, `reports.dfy`,
`risk.dfy`, `cobranzas.dfy`, `usuarios.dfy`.

## Model

| member | source | states |
|---|---|---|
| Base.FillEmpty | importaciones/etl.py:201 | `fillna('')` turns a null cell into the empty string and leaves every other cell alone |
| Rut.NormalizeRut | importaciones/etl.py:34-55 | non-text input gives None; text gives None exactly when fewer than eight characters remain after deleting '.', ' ' and '-'; otherwise the result is the grouped form `body[:-6].body[-6:-3].body[-3:]-DV` of the upper-cased remainder |
| Rut.LongFormat | importaciones/etl.py:39-53 | every accepted remainder has a body of at least seven characters, so only the three-group layout is ever produced and the two shorter branches are unreachable |
| Rut.IsValidRut | importaciones/etl.py:31-62 | a falsy value is rejected; an accepted value has at least nine characters; anything in the dotted or the plain shape is accepted |
| Rut.NormalizeThenValidate | importaciones/etl.py:31-62 | normalise-then-validate accepts exactly the inputs whose significant characters are eight or nine, all digits except a final digit or K |
| Rut.GroupedValid | importaciones/etl.py:31-62 | a grouped identifier passes the pattern exactly when its significant characters are well formed |
| Rut.NormalizeIdempotent | importaciones/etl.py:39-55 | normalising keeps the significant characters, and normalising a normalised identifier gives it back unchanged |
| Rut.SameStrippedSameResult | importaciones/etl.py:39 | two inputs with the same significant characters normalise to the same identifier, whatever their separators or letter case |
| Rut.StrippedOfGrouped | importaciones/etl.py:39-53 | deleting the separators of the grouped form and upper-casing gives back the significant characters |
| Rut.GroupsNineDigits | importaciones/etl.py:39-55 | any input whose significant characters are 123456789 normalises to 12.345.678-9 |
| Rut.ExampleDashed | importaciones/etl.py:39-55 | 12345678-9 normalises to 12.345.678-9 |
| Rut.ExampleBare | importaciones/etl.py:39-55 | 123456789 normalises to 12.345.678-9 |
| Rut.CheckDigitIgnored | importaciones/etl.py:31-62 | any check character after a well-formed dotted body is accepted: the check digit is never computed |
| Rut.ExampleWrongCheckDigit | importaciones/etl.py:31-62 | 12.345.678-0 is accepted although its check digit is wrong |
| Amounts.FloatFromStr | importaciones/etl.py:99-112 | None/NaN and blank text are rejected; otherwise every '.' is deleted, ',' becomes '.', and the rewritten text is parsed, a plain decimal exactly and anything else by the `float()` oracle; a non-plain rewrite succeeds exactly when `float()` accepts it, with `float()`'s value, and its failure is reported as "No se puede convertir '<rewrite>' a float: <float()'s message>" |
| Amounts.FloatFromStrNoDigits | importaciones/etl.py:104-112 | text with no digit is never a plain decimal, so when `float()` rejects digit-free text the amount is an error naming the rewritten text |
| Amounts.FloatFromStrAbc | importaciones/tests.py:93-96 | `float_from_str("abc")` raises whenever `float()` rejects digit-free text |
| Amounts.Rewrite | importaciones/etl.py:109 | the text handed to `float()` is no longer than the input and holds no ',' |
| Amounts.DotsAreThousands | importaciones/etl.py:109-110 | on digits and dots every dot is dropped, so the value is the integer the digits spell |
| Amounts.CommaIsDecimalMark | importaciones/etl.py:109-110 | with dots before a single comma and digits after it, the dots are thousands separators and the comma is the decimal mark |
| Amounts.FloatOfDottedDigits | importaciones/etl.py:99-112 | `float_from_str` on trimmed digits and dots returns the integer the digits spell |
| Amounts.FloatOfPlain | importaciones/etl.py:99-112 | trimmed text whose rewriting is a plain decimal is read as that decimal |
| Amounts.ExampleDotIsNotDecimal | importaciones/etl.py:109-110 | "1.5" is read as 15, not 1.5 |
| Vigencia.ParseVigencia | importaciones/etl.py:65-96 | an empty input and an input with neither "AL" nor "A" (after upper-casing) are errors; any success comes from an input that contains "A" |
| Vigencia.ParseEnds | importaciones/etl.py:86-96 | the window is returned exactly when both trimmed ends parse, start first, and holds the two parsed dates |
| Vigencia.PiecesAtLeastTwo | importaciones/etl.py:78-84 | once a separator was found the cut yields at least two pieces, so the "no tiene dos fechas" error is never raised |
| Vigencia.ParseVigenciaErrors | importaciones/etl.py:70-96 | the parse fails only on an empty input, on one without "A", or because a date does not parse |
| Vigencia.WindowFromFirstTwo | importaciones/etl.py:78-92 | with an "AL", the dates come from the text before the first "AL" and between the first and the second; anything after a second "AL" is ignored |
| Vigencia.WindowFromA | importaciones/etl.py:80-92 | without any "AL", a lone "A" separates the two dates |
| Uploads.StatusCodeRoundTrip | importaciones/models.py:33-41 | each of the seven states has a code and reading the code back gives the state |
| Uploads.NewUpload | importaciones/models.py:52-58 | a new upload is pendiente with no message, no details and counters at zero |
| Uploads.UpdateStatus | importaciones/utils.py:7-33 | the state is always overwritten; the message only when the new one is truthy, the details only when the new ones are truthy; otherwise the old values survive |
| Uploads.MarkUploadError | importaciones/utils.py:36-48 | the upload becomes error with the given message (an empty message keeps the old one) and the details are untouched |
| Uploads.MarkUploadCompleted | importaciones/utils.py:51-63 | the upload becomes completado and the previous error message stays in place |
| Uploads.UpdateStatusIdempotent | importaciones/utils.py:24-30 | repeating the same update changes nothing more |
| Uploads.StatusOnlyUpdatesKeepMessage | importaciones/utils.py:24-27 | after updates that carry no message the last state wins and the original message survives |
| Uploads.GetResumen | importaciones/models.py:92-104 | the summary reports errores as processed minus inserted minus updated, so the three add up to the processed count |
| Polizas.Ladder | polizas/models.py:51-64 | the grade of an age, each grade exactly on its own band: at most 7 days excelente, above 7 and at most 30 bueno, above 30 and at most 60 advertencia, above 60 critico |
| Polizas.LadderMonotone | polizas/models.py:53-64 | an older record never gets a better grade |
| Polizas.ActualizarFrescura | polizas/models.py:45-66 | the stored grade is the grade of the age on the given day; `datos_confiables` holds exactly when the age is at most 30 days, i.e. when the grade is excelente or bueno; no other field changes |
| Polizas.ActualizarFrescuraIdempotent | polizas/models.py:45-66 | grading twice on the same day gives the same record |
| Polizas.UpsertPoliza | importaciones/etl.py:258-267 | `update_or_create` on the unique policy number: the key is added or kept, the other policies are untouched, and the row holds the given client, dates, amount and VIGENTE |
| Polizas.UpsertKeyed | polizas/models.py:21 | an upsert keeps the store keyed by the unique policy number |
| Polizas.UpsertIdempotent | importaciones/etl.py:258-267 | upserting the same values twice leaves the store as one upsert does |
| Polizas.GetOrCreateClient | importaciones/etl.py:234-238 | `get_or_create` on the RUT: a known client keeps its name, a new one gets the given name, no other client changes |
| Polizas.ClientsWithPolicies | importaciones/etl.py:345-347 | the selected RUTs are exactly the clients owning at least one policy |
| Freshness.ActualizarDias | importaciones/models.py:190-200 | the age becomes today minus the last update and the flag is raised iff the age is at least 30; no other field changes |
| Freshness.ActualizarDiasFixesCurrent | importaciones/models.py:190-200 | a row already recomputed today is left as it is |
| Freshness.EsFresca | importaciones/models.py:202-205 | the row is recomputed first, then it is fresh iff its age is below the limit |
| Freshness.FreshIffNotFlagged | importaciones/models.py:194-205 | with the default limit of 30 a row is fresh exactly when it is not flagged |
| Freshness.GradeOf | importaciones/models.py:211-226 | each state exactly on its own band: under 15 days EXCELENTE, 15 to 29 BUENO, 30 to 44 ADVERTENCIA, 45 or more CRITICO |
| Freshness.ObtenerEstadoFrescura | importaciones/models.py:207-236 | the row is recomputed, the reported age is today's, the state is the band of that age, the message is the band's emoji, name and "hace N días", and `confiable` holds exactly for EXCELENTE and BUENO |
| Freshness.ConfiableIffFresh | importaciones/models.py:202-236 | the grade says trustworthy exactly when `es_fresca` with the default limit holds |
| Freshness.RegistrarCarga | importaciones/models.py:238-264 | upsert on the unique client key: found or created, the row ends up updated today, loaded today, with age 0, no flag, and the given user and count; other rows unchanged |
| Freshness.RegistrarCargaIdempotent | importaciones/models.py:238-264 | registering twice on the same day equals registering once |
| Freshness.ClientesDesactualizados | importaciones/models.py:266-270 | exactly the rows whose last update is strictly more than `limite` days old are listed |
| Freshness.ListedAreNotFresh | importaciones/models.py:202-270 | every listed client fails `es_fresca` with the same limit |
| Freshness.BoundaryRowNotListed | importaciones/models.py:202-270 | a row exactly `limite` days old fails `es_fresca` yet is not listed |
| Freshness.ObtenerEstadisticas | importaciones/models.py:272-304 | each count is the size of its band of stored ages (under 30, 30 to 44, 45 or more) and the three make up the total; the stale list is exactly the rows with at least 30 stored days, as many as the last two bands; each percentage times the total is its count times 100, and all are 0 with no rows |
| Freshness.PorcentajesSuman | importaciones/models.py:288-293 | with at least one row the three exact percentages add up to 100 |
| Etl.Rename | importaciones/etl.py:193-195 | an alias is renamed to its standard name only when the alias is present and the standard name is not |
| Etl.MapColumns | importaciones/etl.py:175-195 | the loader's headers are the trimmed, upper-cased headers after the renames, one per input header |
| Etl.MappedTargets | importaciones/etl.py:178-195 | after the mapping RUT is present iff RUT or RUT CONTRATANTE was, PRIMA_NETA iff PRIMA_NETA, PRIMA NETA or MONTO was, and VIGENCIA iff it was |
| Etl.Get | importaciones/etl.py:227-241 | `row.get` on a missing column gives a missing cell, and on a present one the cell under its first occurrence (a short row gives a missing cell) |
| Etl.ApplyAll | importaciones/etl.py:201-207 | a column-wide parse succeeds exactly when every element parses, keeps order and length, and otherwise reports the first failure |
| Etl.ParseColumns | importaciones/etl.py:197-207 | each row's window is the parse of its VIGENCIA cell and its amount the conversion of its amount cell, or none without the column; parsing succeeds exactly when every present column parses in every row, and a failure is the first bad VIGENCIA cell, or, when all windows parse, the first bad amount |
| Etl.Windows | importaciones/etl.py:197-204 | each row's window is the parse of its VIGENCIA cell; the column succeeds exactly when every cell parses, and fails with the first bad cell's error |
| Etl.Montos | importaciones/etl.py:206-207 | each row's amount is the conversion of its amount cell; the column succeeds exactly when every cell converts, and fails with the first bad cell's error |
| Etl.Prepare | importaciones/etl.py:161-207 | an unreadable sheet fails with "Error leyendo Excel: ..."; an empty one with "Archivo Excel vacío"; a success has one prepared row per sheet row |
| Etl.ClientName | importaciones/etl.py:234-237 | a new client's name is the cell if truthy, else SIN_NOMBRE, cut to 200 characters |
| Etl.Read | importaciones/etl.py:226-255 | the RUT is accepted exactly when normalise-then-validate accepts the RUT cell; the window is the column-wide parse; a missing amount becomes 0.0 |
| Etl.ProcessRow | importaciones/etl.py:225-279 | a bad RUT fails with "RUT inválido" without touching the store; otherwise the client is looked up or created first, then a bad number fails with "Número de póliza inválido o vacío" and a missing window with "Vigencia inválida"; a row fails exactly when it is not accepted, is inserted exactly when accepted with a new number, and updated exactly when accepted with a known number |
| Etl.RunCounts | importaciones/etl.py:217-279 | every row is counted once and ends in exactly one outcome: processed = inserted + updated + errors |
| Etl.RunErrors | importaciones/etl.py:222-279 | error entries carry row numbers index + 2, in increasing order |
| Etl.RunErrorsFailed | importaciones/etl.py:222-279 | there is an error entry for row k + 2 exactly when row k failed |
| Etl.RunKeyed | importaciones/etl.py:258-267 | the policy store stays keyed by policy number through the loop |
| Etl.Record | importaciones/etl.py:222-279 | one row's bookkeeping increments processed and then exactly one of inserted, updated or the error list |
| Etl.ProcessBatches | importaciones/etl.py:30-290 | the loop over batches of 500 rows, each row numbered start + index + 2, computes the one-row-at-a-time reference run, so processed = rows = inserted + updated + errors |
| Etl.ProcessBatch | importaciones/etl.py:217-290 | one batch continues the reference run from its first row |
| Etl.RegisterAll | importaciones/etl.py:343-358 | every given client gets the row `registrar_carga` produces; other freshness rows are untouched |
| Etl.FatalOutcome | importaciones/etl.py:414-428 | after a fatal error the upload is marked error with the raw message, the result carries it under 'error', and nothing is stored |
| Etl.Counted | importaciones/etl.py:292-295 | the upload stores the three counters of the run |
| Etl.RowErrorsOutcome | importaciones/etl.py:297-316 | with row errors the upload ends in error with "N filas con error de M procesadas", one error alert, and no 'error' key in the result |
| Etl.FatalBeforeLoop | importaciones/etl.py:161-428 | an unreadable or empty sheet, or a bad window or amount cell, marks the upload error with its message; no client, policy or freshness row is written |
| Etl.RowErrorsEndInError | importaciones/etl.py:217-316 | if some row failed, the upload ends in error with the count message, the counters add up, and the result has no 'error' key |
| Etl.RowErrorsCounted | importaciones/etl.py:293-303 | the row-error outcome stores the run's counts and names them in its message |
| Etl.CleanLoadEndsInError | importaciones/etl.py:317-428 | as written, a load in which every row succeeds registers freshness for every client with a policy, then ends in state error with the text of the NameError raised by the undefined `logger` |
| Etl.FinishClean | importaciones/etl.py:317-364 | the error-free tail as written: success alert, freshness registered for the clients owning a policy, then state error |
| Etl.IntendedFinalStatus | importaciones/etl.py:297-322 | as intended: the upload ends in error exactly when some row failed, otherwise in ml or completado as requested, keeping any earlier message |
| Etl.FinishIntendedStatus | importaciones/etl.py:297-322 | the intended tail fails exactly when some row failed and otherwise lands in the state chosen by `run_ml` with a clean result |
| Etl.IntendedDiffersOnlyInStatus | importaciones/etl.py:297-364 | the as-written and the intended run store, register and alert the same; they differ only in the final state and the result |
| Validators.CheckFile | importaciones/validators.py:93-112 | the file passes exactly when it exists, has a .xlsx/.xls/.csv extension in any letter case, and is at most 50 MiB; otherwise the first failing check adds its one error and the later checks are skipped |
| Validators.ReaderFor | importaciones/validators.py:114-120 | the CSV reader is chosen exactly on a case-sensitive ".csv" suffix |
| Validators.UpperCaseCsvGoesToExcelReader | importaciones/validators.py:102-120 | a name ending in ".CSV" passes the extension check yet is handed to the Excel reader |
| Validators.NormalizeHeaders | importaciones/validators.py:133 | every header is lower-cased, trimmed and has its spaces turned into underscores, one output per header |
| Validators.DetectType | importaciones/validators.py:186-202 | a column mentioning "poliza" gives polizas; else "pago" or "cobranza" gives cobranzas; else "rut" or "cliente" gives clientes; else none |
| Validators.DetectTypeExtraColumn | importaciones/validators.py:186-202 | adding a column can only move the detected type to one of higher precedence |
| Validators.DetectTypeOrderFree | importaciones/validators.py:186-202 | the detected type depends only on the set of column names, not on their order or repetition |
| Validators.ColumnAdvice | importaciones/validators.py:130-145 | missing expected columns of the detected type add at most one advisory and never an error |
| Validators.EmptyRowCountIsSize | importaciones/validators.py:169 | the empty-row count is the number of rows whose every cell is null |
| Validators.CheckCritical | importaciones/validators.py:174-184 | no error is added exactly when each critical column (numero_poliza, cliente, rut) is absent or has at most 10% nulls; each error names a column over the threshold; a name held by several columns crashes the check |
| Validators.Validar | importaciones/validators.py:53-214 | the verdict equals the report's `es_valido` and holds exactly when no error was recorded; a file error or a load failure ends early with that one error; after a load, validity depends only on the critical columns, so advisories never block |
| Validators.FileErrorSkipsLoad | importaciones/validators.py:62-65 | a failed file check decides a False verdict with one error, whatever the file's content |
| Legacy.HeaderRow | importaciones/views.py:54-64 | the header row is the first row with at least five non-null cells whose upper-cased text contains one of the eight keywords, and row 0 when there is none |
| Legacy.NormalizeColumn | importaciones/views.py:72-76 | the normalised name holds only ASCII and has no blank at either end |
| Legacy.NormalizeColumnIdempotent | importaciones/views.py:72-76 | normalising a normalised name gives it back |
| Legacy.NormalizedColumnsFrom | importaciones/views.py:78 | every entry of the normalised-name dict pairs a column with its own normalised name |
| Legacy.NormalizedColumnsLast | importaciones/views.py:78 | a name is mapped to the last column that normalises to it |
| Legacy.Best | importaciones/views.py:91-105 | the candidate kept by `score > best_score` from 0 is absent exactly when no score is positive, and otherwise is a positive-scoring one |
| Legacy.Chosen | importaciones/views.py:107-109 | a requirement only ever takes a column that is in the dict |
| Legacy.ColumnMapFromChoices | importaciones/views.py:89-109 | every entry of `column_map` is some requirement's chosen column with that requirement's target |
| Legacy.ColumnMapLast | importaciones/views.py:89-109 | when several targets pick the same column, the later target wins; a column picked by no later target maps to its own target |
| Legacy.Rename | importaciones/views.py:112-115 | renaming replaces exactly the columns with the old name and keeps the rest in place |
| Legacy.PolicyNumberFallback | importaciones/views.py:117-136 | an existing NUMERO_POLIZA column leaves the names alone; otherwise a document-number column, if any, is renamed NUMERO_POLIZA |
| Legacy.Missing | importaciones/views.py:151-157 | the missing list holds exactly the required names that are absent |
| Legacy.ClampDay | importaciones/views.py:247-277 | the repaired day is the day clamped to 29 for February, 30 for April, June, September and November, 31 otherwise; a day within the cap is unchanged |
| Legacy.ClampDayMatchesCalendar | importaciones/views.py:253-258 | the caps are the month lengths of a leap year: a real day of any year is left alone, and only February 29 of a common year can be produced out of range |
| Legacy.ParseEnd | importaciones/views.py:204-277 | the repair runs only when the parse failed |
| Legacy.RepairDate | importaciones/views.py:247-277 | text without '-' is never repaired |
| Legacy.Partes | importaciones/views.py:180-199 | " AL " (looked for in the upper-cased text) splits once; else a single " a " splits once; else exactly five dashes take the first and last words of three or more; else nothing |
| Legacy.SepararVigencia | importaciones/views.py:168-284 | never raises: a null cell gives no window, a timestamp gives the same day twice, text gives the window of its two parts when both dates come out |
| Legacy.LowerCaseAlGivesNothing | importaciones/views.py:184-199 | a lower-case " al " is detected on the upper-cased text but the cut uses the original, so no window comes out |
| Legacy.RepeatedLowerAGivesNothing | importaciones/views.py:186-199 | with two or more " a ", no " AL " and not five dashes there is no window |
| Legacy.FiveDashesTakeOuterWords | importaciones/views.py:188-196 | with exactly five dashes and no word separator the first and last words are the two dates |
| Legacy.MontoUf | importaciones/views.py:297-313 | the stored amount is the coerced value of the text with dots deleted, commas made dots and trimmed; a value that does not parse is stored as 0.0 |
| Legacy.MontoChileanFormat | importaciones/views.py:297-313 | digits with dots, a comma and digits are read with dots as thousands separators and the comma as decimal mark |
| Legacy.Write | importaciones/views.py:338-366 | a rejected row writes nothing; an accepted row gets or creates its client by the upper-cased RUT and adds or keeps its policy number |
| Legacy.Tick | importaciones/views.py:322-387 | a row missing its number or RUT, or its dates, counts one error and is skipped; an accepted row counts as inserted when its number is new and updated otherwise |
| Legacy.ReachedMembers | importaciones/views.py:350-354 | a number is remembered exactly when some accepted row carries it |
| Legacy.RunCounts | importaciones/views.py:322-387 | every row is counted once: inserted + updated + errors = rows, and every error is described once |
| Legacy.RunErrors | importaciones/views.py:322-387 | the error count is the number of rejected rows |
| Legacy.RunPolicies | importaciones/views.py:350-366 | the remembered numbers are those of the accepted rows, and the store gains exactly those keys |
| Legacy.InsertedStep | importaciones/views.py:357-381 | one more row inserts one more policy exactly when it is accepted and its number is not yet stored |
| Legacy.NewCountIsSize | importaciones/views.py:357-369 | the number of inserting rows is the number of distinct new policy numbers |
| Legacy.RunInserted | importaciones/views.py:357-369 | the inserted counter counts the rows that bring a policy number not yet stored |
| Legacy.HistoryOf | importaciones/views.py:400-408 | the history row's message is capped at 5000 characters and its client count is the number of distinct policy numbers reached |
| Legacy.ReadRow | importaciones/views.py:325-340 | the row is read by column name; the RUT is only trimmed and upper-cased; a null name becomes "Sin nombre" |
| Legacy.ImportRows | importaciones/views.py:315-408 | over rows that all have a window: inserted + updated + errors = rows, errors are the rejected rows, `polizas_unicas` counts the distinct numbers reached, inserted counts the new ones, the store gains exactly those keys, and the message is capped |
| Legacy.DropEmptyColumns | importaciones/views.py:69 | `dropna(axis=1, how='all')`: every column holding a value somewhere is kept, in order, every kept column holds a value, rows are cut to the kept columns, and a sheet without rows keeps no column |
| Legacy.MapHeaders | importaciones/views.py:71-136 | the header mapping keeps the number and place of the columns, and each column keeps its name or takes a required name |
| Legacy.LegacyImport | importaciones/views.py:66-408 | the columns without any value are dropped before the headers are mapped, so a sheet with headers and no rows is refused with all five required names missing |
| Legacy.ImportMapped | importaciones/views.py:151-408 | a missing required column rejects with the missing names; otherwise any row without a window rejects the whole file with a sample of at most three cells before anything is written; otherwise every row has a window, so the per-row date branch is unreachable, and the loop runs |
| Alerts.MarcarComoLeida | alertas/models.py:118-128 | succeeds exactly on a pending alert, which becomes LEIDA with the reading time and, when a user is given, that assignee; a refusal changes nothing |
| Alerts.MarcarComoResuelta | alertas/models.py:130-140 | succeeds exactly on a pending or read alert, which becomes RESUELTA with the resolution time; a refusal changes nothing |
| Alerts.Descartar | alertas/models.py:142-148 | succeeds exactly on a pending or read alert, which becomes DESCARTADA; nothing but the state changes |
| Alerts.AplicarAdvances | alertas/models.py:118-148 | a successful transition moves strictly forward in PENDIENTE, LEIDA, closed; a refused one leaves the alert unchanged |
| Alerts.TerminalAbsorbs | alertas/models.py:118-148 | RESUELTA and DESCARTADA are terminal: no sequence of the three actions changes such an alert |
| Alerts.ReplayNeverGoesBack | alertas/models.py:118-148 | along any sequence of actions the state never moves back |
| Alerts.OverdueOnlyWhilePending | alertas/models.py:96-128 | an overdue alert is pending, and once read it is never overdue |
| Alerts.DiasPendiente | alertas/models.py:104-111 | whole days since creation while pending, 0 in any other state |
| Alerts.TiempoResolucion | alertas/models.py:243-248 | None until the history row is resolved, then the hours between creation and resolution |
| Alerts.HistDiasPendiente | alertas/models.py:250-257 | a history row counts whole days since creation only while it is 'nueva', else 0 |
| Alerts.DebeNotificarFilters | alertas/models.py:312-329 | notify exactly when e-mails are on, the flag of a known severity is on, and the tipo is listed when a list is given; an unknown severity passes |
| Alerts.DebeNotificarMonotone | alertas/models.py:312-329 | turning flags on or widening the list of tipos never silences an alert that was notified |
| Alerts.PlazoDias | alertas/utils.py:24-31 | 1 day for critical, 3 for warning, 7 for info and for any other severity |
| Alerts.DeadlineBySeverity | alertas/utils.py:12-32 | the deadline is now + 1 day for critical, earlier than warning's, earlier than info's; an unknown severity gets info's week |
| Alerts.LabelListed | alertas/utils.py:53-54 | the display label is found exactly for a listed code, and it is the one listed with it |
| Alerts.TituloDefaults | alertas/utils.py:53-54 | without a title a known tipo is titled with its label and an unknown one with itself |
| Alerts.FindDuplicate | alertas/utils.py:58-67 | a duplicate is found exactly when some active alert has the same tipo and policy, and the one found is such an alert |
| Alerts.Confiabilidad | alertas/utils.py:69-100 | the alert is untrusted, with its reason, exactly when the client's RUT has a freshness row that `es_fresca(30)` finds stale; the check recomputes only that row |
| Alerts.CrearAlerta | alertas/utils.py:35-137 | with a policy and an active same-tipo alert for it, the existing alert is returned and nothing is written; otherwise one PENDIENTE alert with the deadline of its severity, the default title and the freshness confidence is appended, with exactly one history row 'nueva' mirroring it |
| Alerts.Insertar | alertas/utils.py:69-135 | the creating path appends one alert and one history row that mirrors it |
| Alerts.CrearAlertaIdempotent | alertas/utils.py:56-67 | with a policy, repeating the call creates nothing and returns the same alert |
| Alerts.NoDedupWithoutPoliza | alertas/utils.py:56-67 | without a policy every call creates one alert and one history row |
| Alerts.ReglasAutomaticas | alertas/utils.py:140-196 | at most three requests: 'produccion_baja' iff no policy starts today, 'sistema' iff there are no policies, 'crecimiento_negativo' iff the prior week is positive and the last seven days fall below 70% of it |
| Alerts.Pedido | alertas/utils.py:153-192 | the empty-table request is critical and the other two are warnings |
| Alerts.CrearTodas | alertas/utils.py:149-192 | each request goes through the factory and adds one alert and one history row answering it |
| Alerts.AlertasAutomaticas | alertas/utils.py:140-196 | one new alert and one history row per rule that fires, with that rule's tipo, in order |
| Alerts.EmptyTableAlerts | alertas/utils.py:149-169 | an empty policy table raises the zero-production warning and the critical 'sistema' alert, and no growth warning |
| Alerts.StatsPartition | alertas/utils.py:273-296 | total = pendientes + leidas + resueltas leaves out exactly the dismissed alerts; critical and overdue counts are among the active ones |
| Alerts.PorVencerEn | alertas/views.py:269-276 | the view looks at exactly the VIGENTE policies expiring between today and today + dias |
| Alerts.SeveridadVencimientoMonotone | alertas/views.py:288-289 | fewer days left never gives a milder alert: at most 7 critical, at most 15 warning, else info |
| Alerts.AlertaVencimiento | alertas/views.py:291-300 | the created alert is a PENDIENTE 'vencimientos' alert for the policy and its client, with the severity of its days left and the deadline at midnight of expiry |
| Alerts.VencimientoUno | alertas/views.py:279-301 | a policy with an active 'vencimientos' alert is skipped; otherwise one alert is appended; afterwards the policy is covered |
| Alerts.Vencimientos | alertas/views.py:278-301 | the loop only appends expiry alerts, at most one per policy, and leaves every policy covered |
| Alerts.CrearAlertaVencimiento | alertas/views.py:263-306 | no history row is written; the policies reviewed are the selected ones, and the created count is the number of alerts appended, at most that |
| Alerts.CrearAlertaVencimientoPedido | alertas/views.py:263-306 | a request without `dias` asks for 30 days, one with an integer for that many, and text `int()` rejects fails with its ValueError before anything is read or written; an answered request reviews the policies due within the days asked for and only appends alerts |
| Alerts.CrearAlertaVencimientoTwice | alertas/views.py:279-301 | running the action again the same day creates nothing |
| Alerts.VencimientosNothingNew | alertas/views.py:280-287 | when every selected policy is covered the loop creates nothing |
| Alerts.AlertarPoliza | reportes/services.py:33-45 | one factory call per policy with tipo 'vencimientos': afterwards the policy is covered, earlier alerts untouched, and an already covered policy changes nothing |
| Alerts.AlertarPolizasCovers | reportes/services.py:33-45 | after the loop every policy has an active 'vencimientos' alert |
| Alerts.AlertarPolizasCovered | reportes/services.py:33-45 | over policies already covered the loop creates nothing yet counts every call |
| Alerts.HistorialDe | alertas/views.py:65 | `.last()` under the newest-first ordering picks the oldest history row of the alert, if any |
| Alerts.ResolverAlerta | alertas/views.py:58-75 | an unknown id answers "Alerta no encontrada"; otherwise an active alert becomes RESUELTA, others keep their state, and its history row is marked resolved with time and user in any case; nothing else changes |
| Alerts.DismissedButHistoryResolved | alertas/views.py:58-71 | a dismissed alert stays dismissed while its history row says resolved |
| Alerts.Accionar | alertas/views.py:188-231 | the three actions answer 400 with the alert untouched exactly when the model method refuses, and 200 with the alert moved forward otherwise |
| Alerts.MlTipos | alertas/ml_views.py:102-194 | a row raises ML_RIESGO_PRODUCCION iff cluster is 0, ML_VARIACION_NEGATIVA iff the variation is below -20, ML_ANOMALIA iff flagged: 0 to 3 independent alerts |
| Alerts.MlStep | alertas/ml_views.py:86-209 | each row is counted once as processed, not found or failed; a failure records one error line and processing continues; only appended alerts are counted as created |
| Alerts.MlEncontrado | alertas/ml_views.py:100-194 | a known client's row appends its alerts, between 0 and 3, counted one per condition that holds |
| Alerts.MlFallo | alertas/ml_views.py:207-209 | a row whose conversion raised adds one error line and changes nothing else |
| Alerts.MlLoop | alertas/ml_views.py:86-209 | processed + not found + errors = rows, the created alerts are appended after the existing ones, at most three per processed client |
| Alerts.MlImport | alertas/ml_views.py:71-209 | a file missing cliente_rut, cluster or prima_total is refused with the missing names and no alerts; otherwise every row is handled, alerts are appended without deduplication or history |
| Alerts.MlRowAlerts | alertas/ml_views.py:92-194 | a found client's row with cluster 0 and anomalia "True" raises both critical alerts, plus the variation alert exactly when below -20 |
| Agrupacion.NoCountNoSum | rules_engine/executor.py:85-95 | a client none of whose policies is counted has a total of zero |
| Agrupacion.FindAcum | rules_engine/executor.py:88 | the lookup by RUT finds nothing exactly when no tally names the client, and otherwise a tally of that client |
| Agrupacion.Acumular | rules_engine/executor.py:82-95 | one tally per client, in first-met order, each holding the client's summed amount and policy count over the sequence |
| Registry.RegisterRule | rules_engine/registry.py:12-25 | the decorator hands the function back unchanged, stores it under the code, keeps every other code's function, and keeps a re-registered code in its first place |
| Registry.GetRule | rules_engine/registry.py:33-35 | the function registered under the code, or nothing exactly when the code is unknown |
| Registry.IsRuleRegistered | rules_engine/registry.py:38-40 | true exactly when a lookup of the code finds a function |
| Registry.ListRuleCodes | rules_engine/registry.py:43-45 | every registered code, each once |
| Registry.LastRegistrationWins | rules_engine/registry.py:22-24 | a second registration replaces the function while the code keeps its first position in the listing |
| Registry.RegisterKeepsOthers | rules_engine/registry.py:22-24 | registering one code changes no other code's lookup |
| Registry.GetRegisteredRules | rules_engine/registry.py:28-30 | the returned table holds exactly the registered codes, each with the function a lookup of that code gives |
| Rules.NuevaRegla | rules_engine/models.py:36-57 | a new rule is active, first in execution order, without parameters and with all counters at zero |
| Rules.TasaExito | rules_engine/models.py:72-77 | zero for a rule never run, otherwise the successful share of runs in percent, between 0 and 100 when the counters are consistent |
| Rules.Habilitada | rules_engine/models.py:79-82 | habilitada is true exactly when the rule is active |
| Rules.ExecExitosa | rules_engine/models.py:129-131 | an execution counts as successful exactly when its stored state is 'exitosa' |
| Rules.TiempoEjecucion | rules_engine/models.py:133-140 | N/A exactly when no duration was stored, seconds below one minute, otherwise minutes of at least one |
| Rules.Execute | rules_engine/executor.py:332-393 | one call adds one run and one log row carrying the code, parameters and duration; a success records end, result and cleared error (and the next run a day later on the run-all path), a failure records only the error; nothing else of the rule changes |
| Rules.Seleccion | rules_engine/executor.py:310-313 | the ids selected are exactly the active rules when only active ones run and all rules otherwise, in increasing table order |
| Rules.Insert | rules_engine/executor.py:311 | inserting an id grows the list by one with exactly that id added, keeping ids distinct |
| Rules.InsertSorted | rules_engine/executor.py:311 | inserting into a list sorted by orden_ejecucion keeps it sorted |
| Rules.SortByOrden | rules_engine/executor.py:311 | the result is a reordering of the ids, sorted by orden_ejecucion, without duplicates when given none |
| Rules.MotorStep | rules_engine/executor.py:322-395 | an unregistered code only gets an error entry; a registered one runs once, counted as a success or a failure, and no other rule changes |
| Rules.MotorLoop | rules_engine/executor.py:322-397 | the loop runs every registered rule it visits once, counts each as a success or a failure, and appends one log row per run |
| Rules.MotorLoopRules | rules_engine/executor.py:322-397 | after the loop each rule has run exactly when it was visited and registered, and every visited code has an entry in the answer |
| Rules.Orden | rules_engine/executor.py:310-313 | the visited ids are the selected rules, each once, sorted by orden_ejecucion |
| Rules.EjecutarMotorReglas | rules_engine/executor.py:303-397 | executed = successful + failed = the number of selected rules whose code is registered; the log grows by one row per executed rule |
| Rules.EjecutarMotorReglasEffects | rules_engine/executor.py:310-397 | each selected registered rule runs once, every other rule (unregistered, or inactive when only active ones run) is untouched, and every selected code is answered for |
| Rules.FindCodigo | rules_engine/executor.py:405-406 | the rule with the code, or nothing exactly when no rule has it |
| Rules.EjecutarReglaIndividual | rules_engine/executor.py:400-472 | an unknown code and an unregistered code are errors with their messages; otherwise that rule alone runs once, one log row is added, and the next run is not scheduled |
| Rules.Caida | rules_engine/executor.py:161-165 | the drop is zero without earlier production, otherwise the lost share of the earlier count in percent, never above 100 |
| Rules.CaidaMonotone | rules_engine/executor.py:161-168 | a lower current count never gives a smaller drop |
| Rules.ProduccionBaja | rules_engine/executor.py:143-175 | the earlier and current counts come from the query windows, the drop from them, and the alert fires exactly when the drop reaches the threshold |
| Rules.ProduccionBajaWindow | rules_engine/executor.py:147-153 | the earlier window holds one single day, so with a positive threshold a day without production never alerts |
| Rules.Elegibles | rules_engine/executor.py:83-86 | exactly the VIGENTE policies with a non-zero amount |
| Rules.Top | rules_engine/executor.py:98-101 | exactly the tallies that reach min_uf, in the same order |
| Rules.AlertarCliente | rules_engine/executor.py:107-114 | one new info alert of type cliente_top naming the client and no policy |
| Rules.AlertarClientes | rules_engine/executor.py:105-114 | one new alert per top client, in order, each naming its client |
| Rules.ClientesTop | rules_engine/executor.py:68-130 | the answer counts the top clients, details the first ten met, each with the client's total over the counting policies, and one alert is created per top client only when asked |
| Rules.Resumir | rules_engine/executor.py:116-129 | the count of top clients, the alerts asked for, and the first ten clients as details |
| Rules.TopTotals | rules_engine/executor.py:81-101 | every top client's total is at least min_uf and equals the sum of its counting policies |
| Rules.SanidadDatos | rules_engine/executor.py:248-298 | a problem is reported exactly when the date check is on and some policy is past its end without being VENCIDA or CANCELADA |
| Rules.Inconsistentes | rules_engine/executor.py:274-279 | the count is positive exactly when some policy is past its end and neither VENCIDA nor CANCELADA |
| Rules.VigenciaIrregular | rules_engine/executor.py:188-245 | a client is reported exactly when it has a policy started within the window and the number of its policies started within the window reaches `min_renovaciones` |
| Rules.SeleccionPorExpirar | rules_engine/executor.py:37-42 | exactly the VIGENTE or POR_RENOVAR policies ending between today and today + dias |
| Rules.PolizasPorExpirar | rules_engine/executor.py:21-65 | alertas_creadas is the number of selected policies, and earlier alerts are kept in place |
| Rules.PolizasPorExpirarRepeated | rules_engine/executor.py:44-56 | every selected policy ends with an active expiry alert, and a second run adds nothing while reporting the same count |
| Calendar.PrevMonth | reportes/services.py:147-150 | the first of the previous month, with January going back to December of the year before |
| Calendar.NextMonth | reportes/services.py:165-168 | the first of the following month, with December going on to January of the next year |
| Calendar.PrevThenNext | reportes/services.py:147-168 | the previous month's end bound is the first of the report's own month |
| Calendar.NextMonthStart | reportes/services.py:155 | day arithmetic: the first of the next month lies as many days after the first of a month as that month has |
| Reports.InsertVencimiento | reportes/services.py:30 | inserting a policy adds exactly that policy to the multiset |
| Reports.InsertVencimientoAscending | reportes/services.py:30 | inserting into a list ordered by expiry date keeps it ordered |
| Reports.SortByVencimiento | reportes/services.py:30 | the same policies, as a multiset, ordered by expiry date |
| Reports.Filter | reportes/services.py:28-30 | exactly the policies satisfying the condition, each as often as in the table |
| Reports.Listado | reportes/services.py:28-30 | exactly the policies satisfying the condition, each as often as in the table, ordered by expiry date |
| Reports.FilasVencidas | reportes/services.py:47-56 | one row per listed policy, in order, naming the policy, its client and the days since it expired |
| Reports.ReportePolizasVencidas | reportes/services.py:14-62 | exactly the policies expired before today, oldest expiry first, each with a row showing at least one day of delay; earlier alerts are kept in place |
| Reports.VencidasCovered | reportes/services.py:33-45 | every listed policy ends with an active 'vencimientos' alert, and when all already had one the alert table is unchanged |
| Reports.RecomendacionPorDias | reportes/services.py:91-100 | urgent up to 5 days, contact up to 15, prepare beyond |
| Reports.RecomendacionMonotone | reportes/services.py:91-100 | fewer days left never gives a less urgent recommendation |
| Reports.FilasPorExpirar | reportes/services.py:113-123 | one row per listed policy, in order, naming the policy, its client, the days left and the recommendation for them |
| Reports.ReportePolizasPorExpirar | reportes/services.py:65-129 | exactly the vigente policies ending within the next 30 days, soonest first, each row with 0 to 30 days left; earlier alerts are kept in place |
| Reports.CuentaEntreSingle | reportes/services.py:153-156 | a policy is counted in a month window exactly when it starts inside it |
| Reports.LimiteEscritoOvershoots | reportes/services.py:155 | the bound day 28 + 4 days lies 31 minus the month length days past the next month's first day, so it is exact only for 31-day months |
| Reports.ProduccionAsWrittenCountsNextMonth | reportes/services.py:153-172 | in a month shorter than 31 days, a policy starting on the next month's first day is counted in this month's production and again in the next month's |
| Reports.LimiteMesExact | reportes/services.py:153-156 | with the next month's first day as bound, the current window holds exactly the days of the current month |
| Reports.Porcentaje | reportes/services.py:204-212 | the difference in percent of the earlier value, or 0 when that value is not positive |
| Reports.ProduccionEntre | reportes/services.py:158-162 | the summed amount and count of the policies starting in the window, and their average (0 when there are none) |
| Reports.VariacionEntre | reportes/services.py:181-213 | the differences of amount and count from the previous month, each also in percent of the previous value |
| Reports.ProduccionMensualHasta | reportes/services.py:132-218 | the month and the previous month, the production of each window, the variation between them and the vigente count; a report made in January of year 1 fails |
| Reports.MesesContiguos | reportes/services.py:164-173 | with the intended bound, a report's previous-month production equals the current production of the report made a month earlier |
| Reports.InsertTotalSorted | reportes/services.py:249 | inserting into a list ordered largest total first keeps it ordered |
| Reports.SortByTotal | reportes/services.py:249 | the same tallies, as a multiset, largest total first |
| Reports.Grupos | reportes/services.py:242-249 | one tally per client of the policies, no client twice, with the client's total and positive policy count, largest total first |
| Reports.DistinctPermuted | reportes/services.py:242-249 | sorting tallies by total keeps each client in one tally only |
| Reports.AcumularAgrupa | reportes/services.py:244-248 | the accumulated tallies name each client once and give every client of the policies its total and count |
| Reports.FilaDe | reportes/services.py:255-266 | a ranking row carries the position, the client, the total, the count, the share of the month's total (0 when that is not positive) and the average per policy |
| Reports.Filas | reportes/services.py:252-267 | the first n clients' rows, at positions 1 to n |
| Reports.ReporteTopClientes | reportes/services.py:221-275 | over the policies starting this month: the month's total, at most ten rows at positions 1..n, largest first, no client in two rows, and no client left out of the ranking has a larger total than one listed |
| Reports.PresentCounted | reportes/services.py:247 | a client with a policy in the month has a positive policy count |
| Riesgo.MapearRiesgoIndividual | analytics/services.py:170-188 | CRÍTICO exactly when the rate is above 0.5 or there are more than 5 alerts, ALTO for above 0.3 or more than 2 otherwise, MEDIO for above 0.1 or any alert otherwise, else BAJO |
| Riesgo.MapearRiesgoMonotone | analytics/services.py:170-188 | a higher rate or more alerts never lowers the level, and the cluster id and pending collections never change it |
| Riesgo.NivelPorScore | analytics/services.py:160-167 | the score thresholds 0.7, 0.5 and 0.3 split the four levels, each bound belonging to the lower level |
| Riesgo.NivelPorScoreMonotone | analytics/services.py:160-167 | a higher score never gives a lower level |
| Riesgo.ConPendientes | analytics/services.py:156 | the clients with pending collections are at most the clients of the cluster |
| Riesgo.DeterminarRiesgo | analytics/services.py:151-167 | an empty cluster is BAJO; otherwise each level exactly on its band of the weighted score: above 0.7 CRÍTICO, above 0.5 ALTO, above 0.3 MEDIO, else BAJO |
| Riesgo.SumasBounded | analytics/services.py:154-155 | with every rate and density in [0, 1], their sums lie between 0 and the cluster size |
| Riesgo.ScoreBounded | analytics/services.py:154-158 | with rates and densities in [0, 1] the weighted score lies in [0, 1] |
| Riesgo.DeterminarRiesgoExtremes | analytics/services.py:151-167 | a cluster of clients with no delinquency, alerts or debts is BAJO, and one of fully delinquent, fully alerted, owing clients is CRÍTICO |
| Riesgo.Constant | analytics/services.py:154-156 | over rows that all share rate, density and owing, the sums are those values times the size |
| Cobranzas.DiasVencimiento | cobranzas/models.py:70-75 | the signed number of days from today to the due date, negative exactly when the due date has passed |
| Cobranzas.CalcularMontoPesos | cobranzas/models.py:88-94 | with a non-zero UF value it stores that value and the peso amount (the UF amount times it) and returns the amount; otherwise nothing changes and None is returned |
| Cobranzas.ActualizarDiasAtraso | cobranzas/models.py:96-105 | a paid or cancelled collection keeps its value; an open one gets the days past its due date, positive exactly when it is overdue; the stored value is returned |
| Cobranzas.ActualizarDiasAtrasoIdempotent | cobranzas/models.py:96-105 | recomputing a second time on the same day changes nothing |
| Cobranzas.DetectarPagosPendientes | cobranzas/utils.py:13-54 | only stored policies in force today, issued at least the given days ago, and only the named policy when one is given |
| Cobranzas.DetectarPagosVencidos | cobranzas/utils.py:57-78 | only stored policies past their end with a positive amount |
| Cobranzas.DeteccionesDisjuntas | cobranzas/utils.py:30-78 | no policy is both pending and overdue on the same day; a policy is detected exactly when it meets its conditions, a paid collection excluding it from both |
| Cobranzas.DetectarCobranzasEnRiesgo | cobranzas/utils.py:81-109 | every collection reported is PENDIENTE or EN_PROCESO, overdue by more than fifteen days, of a stored policy whose client has a collection with positive days late; none is reported twice, the latest issued come first, and nothing is reported when no collection is late |
| Cobranzas.EnRiesgoCompleto | cobranzas/utils.py:93-109 | conversely, every PENDIENTE or EN_PROCESO collection more than fifteen days overdue whose client has a late collection is reported |
| Cobranzas.EnRiesgoPorAtrasoPropio | cobranzas/utils.py:93-109 | an open collection of a stored policy, more than fifteen days overdue and itself late, is always reported, because its own lateness puts its client in the history |
| Cobranzas.Coincidencias | cobranzas/utils.py:132-135 | the get_or_create lookup finds some row exactly when a PENDIENTE collection of that policy and kind exists |
| Cobranzas.Primera | cobranzas/utils.py:132-135 | the first row the lookup finds, present exactly when some row matches |
| Cobranzas.CrearCobranzaDesdePoliza | cobranzas/utils.py:112-148 | without a match a PENDIENTE row is appended with the policy's amount, today as issue date and a due date 30 days after the policy's start; a single match is returned uncreated and unchanged; several matches raise |
| Cobranzas.CrearCobranzaIdempotente | cobranzas/utils.py:132-148 | asking twice for the same policy and kind returns the first call's row uncreated, whatever origin field and date the second call passes |
| Cobranzas.TipoPara | cobranzas/utils.py:175-179 | PAGO_VENCIDO exactly when the policy's end date has passed, otherwise PAGO_VIGENTE |
| Cobranzas.CrearCobranzasDesdeEtl | cobranzas/utils.py:151-196 | created + duplicated + errors = policies processed; the table only grows, by the number created |
| Cobranzas.CrearCobranzasDesdeEtlCovers | cobranzas/utils.py:172-191 | after a run every listed policy has a PENDIENTE collection of its kind |
| Cobranzas.CrearCobranzasDesdeEtlCovered | cobranzas/utils.py:172-191 | when every listed policy already has its collection a run creates nothing and leaves the table unchanged |
| Cobranzas.CrearCobranzasDesdeEtlTwice | cobranzas/utils.py:151-196 | a second run on the same day creates nothing and keeps the first run's table |
| Cobranzas.PendientesSonVigentes | cobranzas/utils.py:169-179 | with the default policy list every collection created is of kind PAGO_VIGENTE |
| Cobranzas.MarcarComoPagada | cobranzas/utils.py:248-268 | an unknown id fails; otherwise only that row changes: PAGADA, paid today, with the method and document given and zero days late |
| Cobranzas.PagadaSaleDeDetecciones | cobranzas/utils.py:248-268 | once paid, a collection is never overdue, its days late stay 0, and its policy leaves both detections |
| Cobranzas.GenerarAlertaFinanciera | cobranzas/utils.py:271-288 | an unknown id fails; otherwise only that row changes: flagged with the reason, of kind RIESGO_FINANCIERO, state untouched, and at risk on every day |
| Cobranzas.ObtenerEstadisticas | cobranzas/utils.py:199-230 | the total is the table size; pending, in-process and paid are the sizes of the sets of rows in those states, overdue the open rows past their date, at-risk the open rows with a financial alert; the open amount is the sum of UF over the open rows; the average delay is the mean days late of the open rows at least one day late, zero exactly when there are none |
| Cobranzas.CountDonde | cobranzas/utils.py:209-220 | counting the rows a filter keeps gives the size of the set of their positions |
| Cobranzas.SumaMontoDonde | cobranzas/utils.py:221-223 | summing UF over the rows a filter keeps equals the sum over the set of their positions |
| Cobranzas.EstadisticasCoherentes | cobranzas/utils.py:208-228 | overdue and at-risk are among the open rows, and open plus paid never exceed the total |
| Cobranzas.ObtenerCobranzasPorCliente | cobranzas/utils.py:233-245 | exactly the collections of the client's policies, each as often as in the table, latest issued first |
| Cobranzas.ListarVencidas | cobranzas/views.py:78-86 | exactly the collections past their date and neither paid nor cancelled, latest issued first (the model's `-fecha_emision` ordering) |
| Cobranzas.VencidasTienenAtraso | cobranzas/views.py:78-86 | every listed overdue collection gets, when recomputed the same day, a positive delay equal to the days past its date |
| Cobranzas.ListarPendientes | cobranzas/views.py:71-76 | exactly the PENDIENTE collections, each once, latest issued first, as many as the statistics report as pending |
| Cobranzas.PorVencer | cobranzas/views.py:88-101 | as intended: exactly the PENDIENTE collections due from today to `dias` days on, none of them overdue, latest issued first; a non-integer `dias` is a server error |
| Cobranzas.PorVencerEscrito | cobranzas/views.py:91-93 | as written: computing the limit through `datetime.timedelta` fails, so every request is a server error with an empty answer |
| Cobranzas.PorVencerEscritoFalla | cobranzas/views.py:88-101 | for every integer `dias` the intended action answers 200 while the written one answers 500 |
| Cobranzas.TasaCobro | cobranzas/views.py:234 | 0 without collections, otherwise the paid share in percent, within [0, 100] |
| Cobranzas.EstadisticasVista | cobranzas/views.py:206-235 | the total is the table size; pending, paid and cancelled are the sizes of the sets of rows in those states; the overdue count equals the overdue listing's length; the pending and paid amounts are the UF sums over those sets; the pay rate is the paid share of the total, zero for an empty table |
| Cobranzas.VencidasUtilsVsVista | cobranzas/views.py:206-235 | the helper's overdue count never exceeds the view's, and they agree exactly when no VENCIDA row is past its date |
| Cobranzas.Validar | cobranzas/serializers.py:44-62 | a non-empty policy number must exist and then replaces the policy, and the due date must not precede the issue date, with the number checked first; each failure has its message; the policy itself is a required field checked before |
| Cobranzas.Crear | cobranzas/serializers.py:64-73 | one PENDIENTE PAGO_VIGENTE row appended with the request's policy, amounts and dates, and a peso amount exactly when a non-zero UF value is given |
| Cobranzas.ActualizarPago | cobranzas/serializers.py:83-98 | omitted fields keep their values, the peso amount changes only for a non-zero UF value, the state becomes PAGADA, and the days late are not reset |
| Cobranzas.RegistrarPago | cobranzas/views.py:103-153 | as intended: a paid collection is refused with 400 and unchanged; any other, cancelled ones included, becomes PAGADA with 200 |
| Cobranzas.RegistrarPagoEscrito | cobranzas/views.py:103-153 | as written: every request ends in a server error, with the payment already saved on the payment path |
| Cobranzas.RegistrarPagoEscritoFalla | cobranzas/views.py:108-147 | the written action never answers with the intended status |
| Cobranzas.Cancelar | cobranzas/views.py:155-204 | as intended: a paid collection is refused with 400 and unchanged; any other becomes CANCELADA with the dated note appended and nothing else changed |
| Cobranzas.CancelarEscrito | cobranzas/views.py:155-204 | as written: every request ends in a server error, after the cancellation has been saved when the collection was not paid |
| Cobranzas.CancelarEscritoFalla | cobranzas/views.py:160-191 | the written action never answers with the intended status |
| Cobranzas.CanceladaPuedePagarse | cobranzas/views.py:108-181 | only PAGADA is guarded: a cancelled collection can still be paid, and a paid one can be neither paid again nor cancelled |
| Usuarios.NuevoUsuario | usuarios/models.py:15-22 | a user created with defaults is an active comercial: commercial, neither administrator nor auditor, with a valid role |
| Usuarios.RolesJerarquia | usuarios/models.py:34-41 | every administrator is commercial, no auditor is administrator or commercial, and a role is one of the choices exactly when the user is commercial or auditor |
| Usuarios.PermisosJerarquia | usuarios/permissions.py:12-218 | the administrator-only classes (with the class-level check of CanDeleteUser) agree, the commercial classes agree and admit every administrator, every role class admits only authenticated users, and the read-only classes admit safe methods for anyone and otherwise coincide with their role class |
| Usuarios.CanViewAllUsers | usuarios/permissions.py:78-89 | an administrator sees every user and anyone else only themselves; an anonymous user makes the check fail on its role |
| Usuarios.CanModifyUser | usuarios/permissions.py:182-202 | an administrator may modify anyone; others only themselves, and then only without asking for a different role |
| Usuarios.IsOwnerOrAdmin | usuarios/permissions.py:226-244 | granted exactly to administrators and to the object's user or owner |
| Usuarios.RoleBasedPermission | usuarios/permissions.py:92-111 | anonymous users are refused; without a role table every authenticated user passes; with one, exactly the roles listed for the method pass |
| Usuarios.RequireRole | usuarios/permissions.py:251-280 | the view runs exactly when the user is authenticated with one of the roles; otherwise 401 for anonymous users and 403 for the rest |
| Usuarios.RequireAdmin | usuarios/permissions.py:283-300 | the view runs exactly for administrators, and refusals have the same status as require_role with the single role admin |
| Usuarios.CheckRolePermission | usuarios/permissions.py:324-352 | no requirement passes everyone, anonymous users are refused when one exists, administrators always pass, others pass exactly when their role is the one (or in the list) required |
| Usuarios.CheckRolePermissionLista | usuarios/permissions.py:343-350 | a single role and the one-element list of it decide alike, and widening the list never refuses someone it admitted |
| Usuarios.GetUserPermissions | usuarios/permissions.py:382-422 | the administrator gets all six flags, changing roles and ML processing are the administrator's alone, and everyone sees errors |
| Usuarios.GetUserPermissionsAdminMaximal | usuarios/permissions.py:382-422 | every flag of any role is also the administrator's, and every role outside admin and comercial gets the auditor's flags |
| Usuarios.PermisosVsClases | usuarios/permissions.py:42-51 | the auditing flag agrees with CanAccessAuditorias (or the role is not a choice) and the role-changing flag with IsAdmin |
| Usuarios.Desactivar | usuarios/admin_views.py:149-205 | non-administrators are refused, an administrator's own account is rejected with its message, and any other user is deactivated with nothing else changed; an administrator succeeds exactly when the object-level check of CanDeleteUser (usuarios/permissions.py:219-223) admits the target |
| Usuarios.Activar | usuarios/admin_views.py:207-229 | non-administrators are refused; otherwise the user is reactivated without further check |
| Usuarios.DesactivarActivar | usuarios/admin_views.py:149-229 | deactivating then activating restores an active user exactly, and both actions are idempotent |
| Usuarios.ChangeRole | usuarios/admin_views.py:260-300 | a missing, empty or unknown role is rejected with the user unchanged; otherwise only the role is replaced and the old and new roles are logged |
| Usuarios.ChangeRoleRoundTrip | usuarios/admin_views.py:260-300 | changing to a role and back restores the user |
| Usuarios.Cambios | usuarios/admin_views.py:120-132 | at most the five audited fields, naming role and is_active exactly when they changed |
| Usuarios.AuditoriaUpdate | usuarios/admin_views.py:102-147 | an audit row is written exactly when one of the five audited fields changed, holding their old and new values |
| Usuarios.UpdateSinAuditoria | usuarios/admin_views.py:130-145 | a change confined to other fields, such as the username, is never audited |
| Usuarios.Coincidentes | usuarios/admin_views.py:363-367 | exactly the users whose username, email or names contain the query, ignoring case |
| Usuarios.CoincidentesConcat | usuarios/admin_views.py:363-368 | the matches keep the queryset's order: those of two lists in a row are the first list's, then the second's, and one user is kept exactly when it matches |
| Usuarios.Search | usuarios/admin_views.py:352-368 | queries shorter than two characters are rejected; otherwise the first twenty matching users in the queryset's order (all of them when there are no more than twenty), each a user whose fields contain the query |

## Left out

- HTTP and REST-framework plumbing: response shaping, routing, the
  serializers other than the collection ones, the admin sites, the 401/403
  answers of the permission layer (the model returns the decision only),
  the dashboard, audit, analytics and export views, and the file-storage
  and export parts of `importaciones/views.py` (lines 434-1191).
- The database: ORM queries are maps and sequences, a queryset's order is
  the model's `Meta.ordering` where a member states one and the order of
  the sequence given otherwise, and database failures (integrity
  errors, lost connections) are not modelled. The per-batch transaction
  (`importaciones/etl.py:220`) and Celery retries are not modelled; batches
  run one after the other.
- Foreign code: pandas reading and date parsing, `float()` on text that is
  not a plain decimal, fuzzy matching and Unicode NFKD normalisation are
  function parameters whose results are taken as given.
- Part of the hooks that follow a successful load in `process_upload`
  (`importaciones/etl.py:324-405`): the success alert, the freshness
  registration and the NameError of the undefined `logger` that ends the
  run are modelled; the rule pass, the ML dataset regeneration and the
  audit are not.
- E-mail and notification sending (`alertas/notificaciones.py`, the test
  e-mail view), audit logging (`auditorias/*`, `usuarios/audita.py`) and
  every audit row written by the collection and user views.
- The ML predictor, clustering and dataset code (`analytics/services.py:16-148`,
  the `bigdata` and `analytics/ml` packages, `prepare_dataset_ml_v2.py`)
  and the read-only ML views (`alertas/ml_views.py:259-359`).
- `importaciones/models_frescura.py`, a second freshness model no modelled
  code imports.
- `crear_cobranzas_lote` and `generar_cobranzas_faltantes`
  (`cobranzas/utils.py:291-340`): they call names that are never defined,
  and `importaciones/views.py:25-29` replaces the missing one by a no-op.
  The import fallbacks of `importaciones/etl.py:24-28` are left out too.
- The preview generator and `validar_excel_simple`
  (`importaciones/validators.py:216-288`).
- The type check `_validar_tipos` (`importaciones/validators.py:147-165`).
  Its conversions use `errors='coerce'` and do not raise on bad values, but
  when two columns normalise to the same typed name (`validators.py:133`)
  `df[col]` is a frame, the conversion raises, and an advisory is added;
  that advisory is not modelled.
- The management commands, which wrap logic modelled here.
- The list and query endpoints that only filter (alert lists by state,
  type, owner, severity and due date, alert statistics, the active-alert
  and history views, `alertas_por_carga_etl`, `obtener_alertas_activas`,
  `obtener_alertas_historial`), and `DescargaArchivo.marcar_descargado`.
- User creation, `reset_password` (random passwords), `audit_history`,
  `by_role`, `activity_report` and the list and retrieve overrides of the
  user views.
- `perform_create` of the collection view: like `registrar_pago` and
  `cancelar` it reads `cobranza.numero` after saving, so a create also
  ends in a server error after the row is stored; only the serializer's
  validation and creation are modelled.
- The serializer-invalid path of `registrar_pago` (`cobranzas/views.py:153`),
  which answers 400 with the serializer's errors.
- Rounding of percentages and averages to two decimals, and number
  formatting in messages.
- Text.Upper and Text.Lower map one character to one character, for ASCII
  and Latin-1 letters only. Python's `str.upper()` expands some characters
  ('ß' becomes "SS") and maps letters of other scripts; neither is
  modelled, so names with such characters are not normalised as Python
  does.
- Etl.Get: a header present twice after strip and upper-casing (`Rut` and
  `RUT `) reads its first column; pandas' `row.get` returns both cells, so
  `normalize_rut` gives None and every row fails with "RUT inválido"
  (`importaciones/etl.py:35-36`, `227-231`). Duplicate headers are not
  modelled.
- Etl.Read: through Etl.Get, a duplicated header is read as its first
  column, not as the failing pair of cells.
- Legacy.ReadRow: through Etl.Get, a duplicated mapped header is read as
  its first column.
- Rules.MotorStep: a rule result holding a Decimal (the `total_uf` of
  CLIENTES_TOP_PRODUCCION when some client qualifies,
  `rules_engine/executor.py:91-125`) cannot be encoded into the JSON field
  `ultimo_resultado`, so `regla.save()` raises; the failure handler's own
  save raises again and the exception leaves the loop. The model treats
  every result as storable.
- Rules.EjecutarMotorReglas: for the same reason a run in which
  CLIENTES_TOP_PRODUCCION reports a client stops at that rule with an
  exception; the model completes the loop.
- Rules.EjecutarReglaIndividual: the same failure of `regla.save()` ends
  the single run with an exception instead of a stored result.
- Registry.GetRegisteredRules: the copy the source returns is a value
  here, so "changing the copy leaves the registry alone" holds by
  construction and is not stated.
- Freshness.ObtenerEstadisticas: the percentages are exact; the rounding
  to one decimal (`importaciones/models.py:288-291`) is not modelled.
- Freshness.PorcentajesSuman: holds for the exact percentages only; after
  the source's rounding to one decimal the three can add up to 99.9 or
  100.1.
- Cobranzas.TasaCobro: the percentage is exact; the rounding to two
  decimals is not modelled.
- Rules.SanidadDatos: the counts of policies without a client or without a
  start date are not modelled, because every modelled policy has both; only
  the date-inconsistency message is stated.
- Alerts.CrearAlertaVencimientoPedido: which values `int()` accepts
  (surrounding blanks, a sign, underscores, a JSON float it truncates) is
  not modelled; the request value arrives already classified as absent,
  an integer, or rejected text.
- Rules.ProduccionBaja, Rules.VigenciaIrregular and Rules.SanidadDatos:
  the alerts these rules create through `crear_alerta` (one critical
  `produccion_baja` alert, one warning `vigencia_irregular` alert per
  reported client, one warning `sanidad_datos` alert joining the problems;
  `rules_engine/executor.py:168-175`, `228-237`, `284-290`) are not
  modelled; each model returns only what decides them.
- The defaults that the rules read from their JSON parameters
  (`dias` 30, `severidad` "warning", `min_uf` 500, `generar_alerta` true,
  `dias_comparar` 7, `porcentaje_caida` 30, `dias_analisis` 90,
  `min_renovaciones` 3, both `alertar_*` flags true;
  `rules_engine/executor.py:31-32`, `78-79`, `143-144`, `199-200`,
  `258-259`) are not modelled: each rule takes its parameters as
  arguments, and the lookup in the JSON field with its fallback is left to
  the caller.
- Reports.FilaDe: the client's id and name are joins the model does not
  make; a row carries the RUT, and the rounding to two decimals is not modelled.

## Findings

| source | as written | input that shows it | evidently intended | confidence | as-written member | corrected member |
|---|---|---|---|---|---|---|
| importaciones/etl.py:338-428 | the post-load hooks call `logger`, which the module never defines, and their own handlers call it again | any upload whose rows all load without error | the run ends in the state chosen after the loop (`completado`, or `ml` when ML processing is asked for) | high, not executed | Etl.CleanLoadEndsInError | Etl.IntendedFinalStatus |
| reportes/services.py:153-156 | the current month ends at `hoy.replace(day=28) + 4 days`, which is past the next month's first day in months shorter than 31 days | a report made in February 2024 and a policy starting on 1 March 2024 | the window ends on the next month's first day | high, not executed | Reports.ProduccionAsWrittenCountsNextMonth | Reports.LimiteMesExact |
| cobranzas/views.py:103-204 | the audit descriptions of `registrar_pago` and `cancelar` read `cobranza.numero`, a field a collection does not have | any payment or cancellation request | 200 after the change, or 400 for a collection already paid | high, not executed | Cobranzas.RegistrarPagoEscrito | Cobranzas.RegistrarPago |
| cobranzas/views.py:88-101 | `por_vencer` computes its limit with `datetime.timedelta`, but `datetime` names the class imported from the datetime module, which has no `timedelta` attribute | any request to the action | the pending collections due within the next `dias` days | high, not executed | Cobranzas.PorVencerEscrito | Cobranzas.PorVencer |

=== FILE: alerts.dfy ===
/** Alerts: the lifecycle of one alert, its history row, the notification
    filter, the factory every rule-based alert goes through (deduplication,
    deadline by severity, confidence taken from the client's data freshness,
    one history row per new alert), the automatic rules run after an import,
    and the statistics. Instants are seconds, dates day numbers; the alert
    table is a sequence whose indices are the alert ids, in creation order. */
module Alerts {
  import opened Base
  import opened Text
  import opened Freshness
  import opened Polizas

  const DaySeconds := 86400

  datatype Estado = Pendiente | Leida | Resuelta | Descartada {
    function Code(): string {
      match this
      case Pendiente => "PENDIENTE"
      case Leida => "LEIDA"
      case Resuelta => "RESUELTA"
      case Descartada => "DESCARTADA"
    }

    /** How far along the lifecycle a state is. */
    function Rank(): nat {
      match this
      case Pendiente => 0
      case Leida => 1
      case Resuelta => 2
      case Descartada => 2
    }
  }

  /** activa: the alert still needs attention. */
  predicate Activa(e: Estado) {
    e == Pendiente || e == Leida
  }

  /** One Alerta row. Users and clients are named by their keys. */
  datatype Alerta = Alerta(
    tipo: string,
    severidad: string,
    titulo: string,
    mensaje: string,
    estado: Estado,
    confiable: bool,
    razonNoConfiable: string,
    poliza: Option<string>,
    cliente: Option<string>,
    creadaPor: Option<string>,
    asignadaA: Option<string>,
    fechaCreacion: int,
    fechaLectura: Option<int>,
    fechaResolucion: Option<int>,
    fechaLimite: Option<int>)

  // ---------------------------------------------------------------------
  // Lifecycle of one alert
  // ---------------------------------------------------------------------

  /** The assignee after a transition done by `usuario`, when one is given. */
  function Assigned(a: Alerta, usuario: Option<string>): Option<string> {
    if usuario.Some? then usuario else a.asignadaA
  }

  /** marcar_como_leida: only a pending alert is read. */
  function MarcarComoLeida(a: Alerta, usuario: Option<string>, now: int): (r: (Alerta, bool))
    ensures r.1 <==> a.estado == Pendiente
    ensures !r.1 ==> r.0 == a
    ensures r.1 ==> r.0.estado == Leida && r.0.fechaLectura == Some(now)
    ensures r.1 && usuario.Some? ==> r.0.asignadaA == usuario
    ensures usuario.None? ==> r.0.asignadaA == a.asignadaA
    ensures r.0.(estado := a.estado, fechaLectura := a.fechaLectura, asignadaA := a.asignadaA) == a
  {
    if a.estado == Pendiente then
      (a.(estado := Leida, fechaLectura := Some(now), asignadaA := Assigned(a, usuario)), true)
    else (a, false)
  }

  /** marcar_como_resuelta: a pending or read alert is resolved. */
  function MarcarComoResuelta(a: Alerta, usuario: Option<string>, now: int): (r: (Alerta, bool))
    ensures r.1 <==> Activa(a.estado)
    ensures !r.1 ==> r.0 == a
    ensures r.1 ==> r.0.estado == Resuelta && r.0.fechaResolucion == Some(now)
    ensures r.1 && usuario.Some? ==> r.0.asignadaA == usuario
    ensures usuario.None? ==> r.0.asignadaA == a.asignadaA
    ensures r.0.(estado := a.estado, fechaResolucion := a.fechaResolucion, asignadaA := a.asignadaA) == a
  {
    if Activa(a.estado) then
      (a.(estado := Resuelta, fechaResolucion := Some(now), asignadaA := Assigned(a, usuario)), true)
    else (a, false)
  }

  /** descartar: a pending or read alert is dismissed; only the state changes. */
  function Descartar(a: Alerta): (r: (Alerta, bool))
    ensures r.1 <==> Activa(a.estado)
    ensures r.0.estado == (if r.1 then Descartada else a.estado)
    ensures r.0.(estado := a.estado) == a
  {
    if Activa(a.estado) then (a.(estado := Descartada), true) else (a, false)
  }

  /** The three transitions a user can ask for. */
  datatype Accion = Leer(usuario: Option<string>) | Resolver(usuario: Option<string>) | Descartarla

  function Aplicar(a: Alerta, op: Accion, now: int): (Alerta, bool) {
    match op
    case Leer(u) => MarcarComoLeida(a, u, now)
    case Resolver(u) => MarcarComoResuelta(a, u, now)
    case Descartarla => Descartar(a)
  }

  /** A successful transition moves strictly forward; a refused one changes nothing. */
  lemma AplicarAdvances(a: Alerta, op: Accion, now: int)
    ensures var (b, ok) := Aplicar(a, op, now);
            (ok ==> b.estado.Rank() > a.estado.Rank()) && (!ok ==> b == a)
  {
  }

  /** A sequence of transitions, each with the instant it happens at. */
  function Replay(a: Alerta, ops: seq<(Accion, int)>): Alerta
    decreases |ops|
  {
    if |ops| == 0 then a else Replay(Aplicar(a, ops[0].0, ops[0].1).0, ops[1..])
  }

  /** RESUELTA and DESCARTADA are terminal: no sequence of actions changes
      such an alert at all. */
  lemma {:induction false} TerminalAbsorbs(a: Alerta, ops: seq<(Accion, int)>)
    requires !Activa(a.estado)
    ensures Replay(a, ops) == a
    decreases |ops|
  {
    if |ops| > 0 {
      assert Aplicar(a, ops[0].0, ops[0].1).0 == a;
      TerminalAbsorbs(a, ops[1..]);
    }
  }

  /** The lifecycle never goes back: a read alert never becomes pending again,
      a closed one never becomes active. */
  lemma {:induction false} ReplayNeverGoesBack(a: Alerta, ops: seq<(Accion, int)>)
    ensures Replay(a, ops).estado.Rank() >= a.estado.Rank()
    decreases |ops|
  {
    if |ops| > 0 {
      AplicarAdvances(a, ops[0].0, ops[0].1);
      ReplayNeverGoesBack(Aplicar(a, ops[0].0, ops[0].1).0, ops[1..]);
    }
  }

  /** esta_vencida: past a set deadline while still pending. */
  predicate EstaVencida(a: Alerta, now: int) {
    a.fechaLimite.Some? && now > a.fechaLimite.value && a.estado == Pendiente
  }

  /** A read alert is never overdue, and reading an overdue alert clears it. */
  lemma OverdueOnlyWhilePending(a: Alerta, u: Option<string>, now: int, later: int)
    requires EstaVencida(a, now)
    ensures a.estado == Pendiente
    ensures !EstaVencida(MarcarComoLeida(a, u, now).0, later)
  {
  }

  /** Whole days elapsed between two instants, as timedelta.days counts them. */
  function WholeDays(from: int, to: int): (d: int)
    ensures d * DaySeconds <= to - from < (d + 1) * DaySeconds
  {
    (to - from) / DaySeconds
  }

  /** dias_pendiente: whole days since creation while pending, else 0. */
  function DiasPendiente(a: Alerta, now: int): (d: int)
    ensures a.estado != Pendiente ==> d == 0
    ensures a.estado == Pendiente ==> d * DaySeconds <= now - a.fechaCreacion < (d + 1) * DaySeconds
  {
    if a.estado == Pendiente then WholeDays(a.fechaCreacion, now) else 0
  }

  // ---------------------------------------------------------------------
  // History rows
  // ---------------------------------------------------------------------

  datatype EstadoFinal = Nueva | HistResuelta | HistDescartada | Expirada {
    function Code(): string {
      match this
      case Nueva => "nueva"
      case HistResuelta => "resuelta"
      case HistDescartada => "descartada"
      case Expirada => "expirada"
    }
  }

  /** One AlertaHistorial row; `alerta` is the id of the alert it records. */
  datatype Historial = Historial(
    alerta: Option<nat>,
    tipo: string,
    severidad: string,
    titulo: string,
    mensaje: string,
    cliente: Option<string>,
    poliza: Option<string>,
    creadaEn: int,
    resueltaEn: Option<int>,
    resueltaPor: Option<string>,
    estadoFinal: EstadoFinal)

  /** tiempo_resolucion: hours from creation to resolution, once resolved. */
  function TiempoResolucion(h: Historial): (r: Option<real>)
    ensures r.None? <==> h.resueltaEn.None?
    ensures r.Some? ==> r.value * 3600.0 == (h.resueltaEn.value - h.creadaEn) as real
  {
    if h.resueltaEn.Some? then Some((h.resueltaEn.value - h.creadaEn) as real / 3600.0) else None
  }

  /** dias_pendiente of a history row: counts only while it is 'nueva'. */
  function HistDiasPendiente(h: Historial, now: int): (d: int)
    ensures h.estadoFinal != Nueva ==> d == 0
    ensures h.estadoFinal == Nueva ==> d * DaySeconds <= now - h.creadaEn < (d + 1) * DaySeconds
  {
    if h.estadoFinal == Nueva then WholeDays(h.creadaEn, now) else 0
  }

  // ---------------------------------------------------------------------
  // Notification preferences
  // ---------------------------------------------------------------------

  datatype Preferencia = Preferencia(
    recibirEmails: bool,
    notificarCriticas: bool,
    notificarAdvertencias: bool,
    notificarInfo: bool,
    tiposInteres: seq<string>)

  /** debe_notificar, written as the sequence of early returns of the source. */
  function DebeNotificar(p: Preferencia, severidad: string, tipo: string): (r: bool)
  {
    if !p.recibirEmails then false
    else if severidad == "critical" && !p.notificarCriticas then false
    else if severidad == "warning" && !p.notificarAdvertencias then false
    else if severidad == "info" && !p.notificarInfo then false
    else if |p.tiposInteres| > 0 && tipo !in p.tiposInteres then false
    else true
  }

  /** The early returns amount to a conjunction of independent filters: emails
      on, the flag of a known severity on, and the tipo listed when a list is
      given. An unknown severity passes the severity filter. */
  lemma DebeNotificarFilters(p: Preferencia, severidad: string, tipo: string)
    ensures DebeNotificar(p, severidad, tipo) <==>
              p.recibirEmails
              && (severidad == "critical" ==> p.notificarCriticas)
              && (severidad == "warning" ==> p.notificarAdvertencias)
              && (severidad == "info" ==> p.notificarInfo)
              && (|p.tiposInteres| == 0 || tipo in p.tiposInteres)
  {
  }

  /** Turning a flag on or widening the list of tipos never silences an alert
      that was notified before. */
  lemma DebeNotificarMonotone(p: Preferencia, q: Preferencia, severidad: string, tipo: string)
    requires p.recibirEmails ==> q.recibirEmails
    requires p.notificarCriticas ==> q.notificarCriticas
    requires p.notificarAdvertencias ==> q.notificarAdvertencias
    requires p.notificarInfo ==> q.notificarInfo
    requires |q.tiposInteres| == 0 || (|p.tiposInteres| > 0 && forall t :: t in p.tiposInteres ==> t in q.tiposInteres)
    ensures DebeNotificar(p, severidad, tipo) ==> DebeNotificar(q, severidad, tipo)
  {
    DebeNotificarFilters(p, severidad, tipo);
    DebeNotificarFilters(q, severidad, tipo);
  }

  // ---------------------------------------------------------------------
  // The factory
  // ---------------------------------------------------------------------

  /** The days allowed to resolve an alert of a severity. */
  function PlazoDias(severidad: string): (d: int)
    ensures d == 1 <==> severidad == "critical"
    ensures d == 3 <==> severidad == "warning"
    ensures d == 7 <==> severidad != "critical" && severidad != "warning"
  {
    if severidad == "critical" then 1 else if severidad == "warning" then 3 else 7
  }

  /** calcular_fecha_limite */
  function CalcularFechaLimite(severidad: string, now: int): int {
    now + PlazoDias(severidad) * DaySeconds
  }

  /** The more severe the alert, the earlier its deadline; a severity the
      table does not know gets the informative deadline, a week. */
  lemma DeadlineBySeverity(now: int, other: string)
    requires other != "critical" && other != "warning"
    ensures CalcularFechaLimite("critical", now) == now + DaySeconds
    ensures CalcularFechaLimite("critical", now) < CalcularFechaLimite("warning", now)
    ensures CalcularFechaLimite("warning", now) < CalcularFechaLimite("info", now)
    ensures CalcularFechaLimite(other, now) == CalcularFechaLimite("info", now) == now + 7 * DaySeconds
  {
  }

  /** The tipo codes and their display labels. */
  const TipoChoices: seq<(string, string)> := [
    ("ML_RIESGO_PRODUCCION", "ML: Riesgo de Producción Baja"),
    ("ML_VARIACION_NEGATIVA", "ML: Variación Negativa Detectada"),
    ("ML_ANOMALIA", "ML: Anomalía en Datos"),
    ("produccion_baja", "Producción Baja"),
    ("crecimiento_negativo", "Crecimiento Negativo"),
    ("cliente_riesgo", "Cliente en Cluster de Bajo Rendimiento"),
    ("error_carga", "Error en Carga de Datos"),
    ("manual", "Alerta Manual"),
    ("vencimientos", "Vencimientos"),
    ("cobranzas", "Cobranzas"),
    ("importaciones", "Importaciones"),
    ("sistema", "Sistema")
  ]

  /** The label of a code in a choices list, when listed. */
  function Label(choices: seq<(string, string)>, code: string): Option<string> {
    if |choices| == 0 then None
    else if choices[0].0 == code then Some(choices[0].1)
    else Label(choices[1..], code)
  }

  /** The label is found exactly for listed codes, and it is the one listed
      with the code. */
  lemma {:induction false} LabelListed(choices: seq<(string, string)>, code: string)
    ensures Label(choices, code).None? <==> forall i :: 0 <= i < |choices| ==> choices[i].0 != code
    ensures Label(choices, code).Some? ==> exists i :: 0 <= i < |choices| && choices[i] == (code, Label(choices, code).value)
  {
    if |choices| > 0 && choices[0].0 != code {
      var rest := choices[1..];
      LabelListed(rest, code);
      assert forall i :: 0 < i < |choices| ==> choices[i] == rest[i - 1];
      if Label(rest, code).Some? {
        var i :| 0 <= i < |rest| && rest[i] == (code, Label(rest, code).value);
        assert choices[i + 1] == rest[i];
      }
    }
  }

  /** The title of a new alert: the one given, else the tipo's label, else the tipo. */
  function Titulo(tipo: string, titulo: Option<string>): string {
    if titulo.Some? then titulo.value else Label(TipoChoices, tipo).GetOr(tipo)
  }

  /** A known tipo without a title is titled with its label; an unknown one with itself. */
  lemma TituloDefaults(tipo: string)
    ensures (forall i :: 0 <= i < |TipoChoices| ==> TipoChoices[i].0 != tipo) ==> Titulo(tipo, None) == tipo
    ensures (exists i :: 0 <= i < |TipoChoices| && TipoChoices[i].0 == tipo) ==>
              exists i :: 0 <= i < |TipoChoices| && TipoChoices[i] == (tipo, Titulo(tipo, None))
  {
    LabelListed(TipoChoices, tipo);
  }

  /** An alert that blocks the creation of another for the same policy. */
  predicate IsDuplicate(a: Alerta, tipo: string, poliza: string) {
    a.tipo == tipo && a.poliza == Some(poliza) && Activa(a.estado)
  }

  /** The newest active alert of this tipo for this policy (`.first()` under
      the newest-first ordering of the table). */
  function FindDuplicate(s: seq<Alerta>, tipo: string, poliza: string): (r: Option<nat>)
    ensures r.None? <==> forall i :: 0 <= i < |s| ==> !IsDuplicate(s[i], tipo, poliza)
    ensures r.Some? ==> r.value < |s| && IsDuplicate(s[r.value], tipo, poliza)
    ensures r.Some? ==> forall i :: r.value < i < |s| ==> !IsDuplicate(s[i], tipo, poliza)
    decreases |s|
  {
    if |s| == 0 then None
    else if IsDuplicate(s[|s| - 1], tipo, poliza) then Some(|s| - 1)
    else FindDuplicate(s[..|s| - 1], tipo, poliza)
  }

  /** The RUT whose freshness is checked: the alert's client, else the client
      of its policy. */
  function RutParaFrescura(cliente: Option<string>, poliza: Option<string>, policies: PolicyStore): Option<string> {
    if cliente.Some? then cliente
    else if poliza.Some? && poliza.value in policies then Some(policies[poliza.value].cliente)
    else None
  }

  /** The checked client has a freshness row that fails es_fresca(30). */
  predicate Stale(rut: Option<string>, fs: FreshStore, today: int) {
    rut.Some? && |rut.value| > 0 && rut.value in fs
    && today - fs[rut.value].ultimaActualizacion >= AlertDays
  }

  datatype Confianza = Confianza(confiable: bool, razon: string)

  /** The confidence of a new alert, and the freshness table after es_fresca
      has recomputed (and saved) the checked row. */
  function Confiabilidad(rut: Option<string>, fs: FreshStore, today: int): (r: (Confianza, FreshStore))
    ensures r.0.confiable <==> !Stale(rut, fs, today)
    ensures r.0.confiable ==> r.0.razon == ""
    ensures !r.0.confiable ==>
              r.0.razon == "Datos desactualizados hace " + IntToString(today - fs[rut.value].ultimaActualizacion) + " días"
    ensures r.1.Keys == fs.Keys
    ensures forall k :: k in fs ==>
              r.1[k] == if rut == Some(k) && |k| > 0 then ActualizarDias(fs[k], today) else fs[k]
  {
    if rut.Some? && |rut.value| > 0 && rut.value in fs then
      var k := rut.value;
      var (g, fresca) := EsFresca(fs[k], today, AlertDays);
      var (_, estado) := ObtenerEstadoFrescura(k, g, today);
      ActualizarDiasFixesCurrent(g, today);
      if !fresca then
        (Confianza(false, "Datos desactualizados hace " + IntToString(estado.dias) + " días"), fs[k := g])
      else (Confianza(true, ""), fs[k := g])
    else (Confianza(true, ""), fs)
  }

  /** The alert table and the history table. */
  datatype Db = Db(alertas: seq<Alerta>, historial: seq<Historial>)

  /** What crear_alerta returns: the tables after the call, the id of the
      alert returned, and whether it is new. */
  datatype Creada = Creada(db: Db, fs: FreshStore, id: nat, nueva: bool)

  /** The call returns an existing alert instead of creating one. */
  predicate Deduplicated(db: Db, tipo: string, poliza: Option<string>) {
    poliza.Some? && FindDuplicate(db.alertas, tipo, poliza.value).Some?
  }

  /** A history row mirrors an alert's fields. */
  predicate Mirrors(h: Historial, a: Alerta) {
    h.tipo == a.tipo && h.severidad == a.severidad && h.titulo == a.titulo && h.mensaje == a.mensaje
    && h.cliente == a.cliente && h.poliza == a.poliza
  }

  /** A new alert as the factory writes it. */
  predicate IsNewAlert(a: Alerta, tipo: string, mensaje: string, severidad: string, usuario: Option<string>,
                       poliza: Option<string>, cliente: Option<string>, now: int) {
    a.estado == Pendiente && a.tipo == tipo && a.severidad == severidad && a.mensaje == mensaje
    && a.poliza == poliza && a.cliente == cliente && a.creadaPor == usuario && a.asignadaA.None?
    && a.fechaCreacion == now && a.fechaLectura.None? && a.fechaResolucion.None?
    && a.fechaLimite == Some(now + PlazoDias(severidad) * DaySeconds)
  }

  /** crear_alerta. Notification e-mail is out of this model; its failure
      does not stop the history row. */
  function CrearAlerta(db: Db, fs: FreshStore, policies: PolicyStore, tipo: string, mensaje: string,
                       severidad: string, usuario: Option<string>, poliza: Option<string>,
                       cliente: Option<string>, titulo: Option<string>, now: int, today: int): (r: Creada)
    requires poliza.Some? ==> poliza.value in policies
    ensures Deduplicated(db, tipo, poliza) ==>
              r.db == db && r.fs == fs && !r.nueva
              && r.id == FindDuplicate(db.alertas, tipo, poliza.value).value
    ensures !Deduplicated(db, tipo, poliza) ==>
              r.nueva && r.id == |db.alertas| && Grows(r.db.alertas, db.alertas, 1) && Grows(r.db.historial, db.historial, 1)
    ensures r.nueva ==>
              var a := r.db.alertas[r.id];
              IsNewAlert(a, tipo, mensaje, severidad, usuario, poliza, cliente, now)
              && a.titulo == Titulo(tipo, titulo)
              && (a.confiable <==> !Stale(RutParaFrescura(cliente, poliza, policies), fs, today))
    ensures r.nueva ==>
              var h := r.db.historial[|db.historial|];
              h.alerta == Some(r.id) && h.estadoFinal == Nueva && h.creadaEn == now
              && h.resueltaEn.None? && Mirrors(h, r.db.alertas[r.id])
  {
    if Deduplicated(db, tipo, poliza) then
      Creada(db, fs, FindDuplicate(db.alertas, tipo, poliza.value).value, false)
    else
      Insertar(db, fs, policies, tipo, mensaje, severidad, usuario, poliza, cliente, Titulo(tipo, titulo), now, today)
  }

  /** The creating half of crear_alerta: the alert and its history row. */
  function Insertar(db: Db, fs: FreshStore, policies: PolicyStore, tipo: string, mensaje: string,
                    severidad: string, usuario: Option<string>, poliza: Option<string>,
                    cliente: Option<string>, t: string, now: int, today: int): (r: Creada)
    requires poliza.Some? ==> poliza.value in policies
    ensures r.nueva && r.id == |db.alertas| && Grows(r.db.alertas, db.alertas, 1) && Grows(r.db.historial, db.historial, 1)
    ensures var a := r.db.alertas[r.id];
            IsNewAlert(a, tipo, mensaje, severidad, usuario, poliza, cliente, now)
            && a.titulo == t
            && (a.confiable <==> !Stale(RutParaFrescura(cliente, poliza, policies), fs, today))
    ensures var h := r.db.historial[|db.historial|];
            h.alerta == Some(r.id) && h.estadoFinal == Nueva && h.creadaEn == now
            && h.resueltaEn.None? && Mirrors(h, r.db.alertas[r.id])
  {
    var (conf, fs2) := Confiabilidad(RutParaFrescura(cliente, poliza, policies), fs, today);
    var a := Alerta(tipo, severidad, t, mensaje, Pendiente, conf.confiable, conf.razon, poliza, cliente,
                    usuario, None, now, None, None, Some(CalcularFechaLimite(severidad, now)));
    var id := |db.alertas|;
    var h := Historial(Some(id), tipo, severidad, t, mensaje, cliente, poliza, now, None, None, Nueva);
    Creada(Db(db.alertas + [a], db.historial + [h]), fs2, id, true)
  }

  /** With a policy, a repeated call creates nothing: it returns the alert the
      first call created (or found), and leaves both tables as they were. */
  lemma {:induction false} CrearAlertaIdempotent(db: Db, fs: FreshStore, policies: PolicyStore, tipo: string,
                                                 mensaje: string, severidad: string, usuario: Option<string>,
                                                 poliza: string, cliente: Option<string>, titulo: Option<string>,
                                                 now: int, today: int, later: int)
    requires poliza in policies
    ensures var first := CrearAlerta(db, fs, policies, tipo, mensaje, severidad, usuario, Some(poliza), cliente, titulo, now, today);
            var again := CrearAlerta(first.db, first.fs, policies, tipo, mensaje, severidad, usuario, Some(poliza), cliente, titulo, later, today);
            again.db == first.db && again.fs == first.fs && !again.nueva && again.id == first.id
  {
    var first := CrearAlerta(db, fs, policies, tipo, mensaje, severidad, usuario, Some(poliza), cliente, titulo, now, today);
    var s := first.db.alertas;
    assert FindDuplicate(s, tipo, poliza) == Some(first.id) by {
      if first.nueva {
        assert IsDuplicate(s[|s| - 1], tipo, poliza);
      }
    }
  }

  /** Without a policy there is no deduplication: every call creates an
      alert and exactly one history row. */
  lemma NoDedupWithoutPoliza(db: Db, fs: FreshStore, policies: PolicyStore, tipo: string, mensaje: string,
                             severidad: string, usuario: Option<string>, cliente: Option<string>,
                             titulo: Option<string>, now: int, today: int)
    ensures var r := CrearAlerta(db, fs, policies, tipo, mensaje, severidad, usuario, None, cliente, titulo, now, today);
            r.nueva && |r.db.alertas| == |db.alertas| + 1 && |r.db.historial| == |db.historial| + 1
  {
  }

  // ---------------------------------------------------------------------
  // Automatic rules run after an import
  // ---------------------------------------------------------------------

  lemma SubsetCard<T>(a: set<T>, b: set<T>)
    requires a <= b
    ensures |a| <= |b|
  {
    assert b == a + (b - a);
    assert a * (b - a) == {};
  }

  /** Policies starting on day d. */
  function ProduccionDia(m: PolicyStore, d: int): (n: nat)
    ensures n <= |m|
  {
    var s := set k | k in m && m[k].fechaInicio == d;
    SubsetCard(s, m.Keys);
    |s|
  }

  /** Policies starting between lo and hi, both included. */
  function ProduccionEntre(m: PolicyStore, lo: int, hi: int): (n: nat)
    ensures n <= |m|
  {
    var s := set k | k in m && lo <= m[k].fechaInicio <= hi;
    SubsetCard(s, m.Keys);
    |s|
  }

  /** An alert a rule asks the factory for. */
  datatype Peticion = Peticion(tipo: string, severidad: string, titulo: string, mensaje: string)

  /** The three automatic rules; a rule that fires asks for one alert. */
  datatype Regla = ProduccionCero | BaseVacia | Decrecimiento(ultimos: nat, previos: nat) {
    function Tipo(): string {
      match this
      case ProduccionCero => "produccion_baja"
      case BaseVacia => "sistema"
      case Decrecimiento(_, _) => "crecimiento_negativo"
    }

    /** The request the rule sends: the empty table is critical, the rest warnings. */
    function Pedido(): (p: Peticion)
      ensures p.tipo == Tipo()
      ensures p.severidad == (if p.tipo == "sistema" then "critical" else "warning")
    {
      match this
      case ProduccionCero =>
        Peticion("produccion_baja", "warning", "Producción del día en cero",
                 "La producción de pólizas del día es 0. Esto es inusual.")
      case BaseVacia =>
        Peticion("sistema", "critical", "Base de datos de pólizas vacía",
                 "No hay pólizas registradas en el sistema.")
      case Decrecimiento(ultimos, previos) =>
        Peticion("crecimiento_negativo", "warning", "Decrecimiento de producción detectado",
                 "Producción últimos 7 días: " + IntToString(ultimos) + " vs 14 días anteriores: "
                 + IntToString(previos) + ". Decrecimiento > 30%.")
    }
  }

  predicate Pide(rs: seq<Regla>, tipo: string) {
    exists i :: 0 <= i < |rs| && rs[i].Tipo() == tipo
  }

  lemma PideOne(g: Regla, tipo: string)
    ensures Pide([g], tipo) <==> g.Tipo() == tipo
  {
    if g.Tipo() == tipo {
      assert [g][0].Tipo() == tipo;
    }
  }

  lemma PideConcat(a: seq<Regla>, b: seq<Regla>, tipo: string)
    ensures Pide(a + b, tipo) <==> Pide(a, tipo) || Pide(b, tipo)
  {
    if Pide(a + b, tipo) {
      var i :| 0 <= i < |a + b| && (a + b)[i].Tipo() == tipo;
      if i >= |a| {
        assert b[i - |a|].Tipo() == tipo;
      }
    }
    if Pide(b, tipo) {
      var i :| 0 <= i < |b| && b[i].Tipo() == tipo;
      assert (a + b)[|a| + i].Tipo() == tipo;
    }
    if Pide(a, tipo) {
      var i :| 0 <= i < |a| && a[i].Tipo() == tipo;
      assert (a + b)[i].Tipo() == tipo;
    }
  }

  /** The three checks of reglas_alertas_automaticas on the counts: no policy
      starting today, no policy at all, and the last seven days below 70% of
      the seven before (`ultimos < previos * 0.7`, which on counts is
      10 * ultimos < 7 * previos). */
  function ReglasAutomaticas(hoy: nat, total: nat, ultimos: nat, previos: nat): (r: seq<Regla>)
    ensures |r| <= 3
    ensures Pide(r, "produccion_baja") <==> hoy == 0
    ensures Pide(r, "sistema") <==> total == 0
    ensures Pide(r, "crecimiento_negativo") <==> previos > 0 && 10 * ultimos < 7 * previos
  {
    var a := if hoy == 0 then [ProduccionCero] else [];
    var b := if total == 0 then [BaseVacia] else [];
    var c := if previos > 0 && 10 * ultimos < 7 * previos then [Decrecimiento(ultimos, previos)] else [];
    PideOne(ProduccionCero, "produccion_baja");
    PideOne(ProduccionCero, "sistema");
    PideOne(ProduccionCero, "crecimiento_negativo");
    PideOne(BaseVacia, "produccion_baja");
    PideOne(BaseVacia, "sistema");
    PideOne(BaseVacia, "crecimiento_negativo");
    PideOne(Decrecimiento(ultimos, previos), "produccion_baja");
    PideOne(Decrecimiento(ultimos, previos), "sistema");
    PideOne(Decrecimiento(ultimos, previos), "crecimiento_negativo");
    PideConcat(a, b, "produccion_baja");
    PideConcat(a + b, c, "produccion_baja");
    PideConcat(a, b, "sistema");
    PideConcat(a + b, c, "sistema");
    PideConcat(a, b, "crecimiento_negativo");
    PideConcat(a + b, c, "crecimiento_negativo");
    a + b + c
  }

  /** The requests of the rules that fired, in order. */
  function Pedidos(rs: seq<Regla>): (ps: seq<Peticion>)
    ensures |ps| == |rs|
    ensures forall i :: 0 <= i < |rs| ==> ps[i].tipo == rs[i].Tipo()
  {
    seq(|rs|, i requires 0 <= i < |rs| => rs[i].Pedido())
  }

  /** One request through the factory, without policy or client: never
      deduplicated, always trusted, freshness untouched. */
  function CrearPeticion(db: Db, fs: FreshStore, policies: PolicyStore, p: Peticion, now: int, today: int): (c: Creada)
    ensures c.fs == fs
    ensures Grows(c.db.alertas, db.alertas, 1) && Grows(c.db.historial, db.historial, 1)
    ensures AtiendePeticion(c.db.alertas[|db.alertas|], p)
  {
    CrearAlerta(db, fs, policies, p.tipo, p.mensaje, p.severidad, None, None, None, Some(p.titulo), now, today)
  }

  /** The alert created for request p: its type, PENDIENTE, trusted. */
  predicate AtiendePeticion(a: Alerta, p: Peticion) {
    a.tipo == p.tipo && a.estado == Pendiente && a.confiable
  }

  /** From position `from` on, one alert per request of `ps`, in order. */
  predicate Atienden(alertas: seq<Alerta>, from: nat, ps: seq<Peticion>) {
    from + |ps| <= |alertas|
    && forall i :: 0 <= i < |ps| ==> AtiendePeticion(alertas[from + i], ps[i])
  }

  /** Sends each request through the factory, without policy or client. */
  function CrearTodas(db: Db, fs: FreshStore, policies: PolicyStore, ps: seq<Peticion>, now: int, today: int): (r: Db)
    ensures Grows(r.alertas, db.alertas, |ps|) && Grows(r.historial, db.historial, |ps|)
    ensures Atienden(r.alertas, |db.alertas|, ps)
    decreases |ps|
  {
    if |ps| == 0 then
      assert db.alertas[..|db.alertas|] == db.alertas;
      assert db.historial[..|db.historial|] == db.historial;
      db
    else
      var init := CrearTodas(db, fs, policies, ps[..|ps| - 1], now, today);
      var c := CrearPeticion(init, fs, policies, ps[|ps| - 1], now, today);
      AtiendenSnoc(db.alertas, init.alertas, c.db.alertas, ps);
      GrowsTrans(db.historial, init.historial, c.db.historial, |ps| - 1, 1);
      c.db
  }

  /** One more request's alert appended after the earlier ones keeps them in place. */
  lemma AtiendenSnoc(a0: seq<Alerta>, a1: seq<Alerta>, a2: seq<Alerta>, ps: seq<Peticion>)
    requires |ps| > 0
    requires Grows(a1, a0, |ps| - 1) && Atienden(a1, |a0|, ps[..|ps| - 1])
    requires Grows(a2, a1, 1) && AtiendePeticion(a2[|a1|], ps[|ps| - 1])
    ensures Grows(a2, a0, |ps|) && Atienden(a2, |a0|, ps)
  {
    GrowsTrans(a0, a1, a2, |ps| - 1, 1);
    forall i | 0 <= i < |ps|
      ensures AtiendePeticion(a2[|a0| + i], ps[i])
    {
      if i < |ps| - 1 {
        assert ps[..|ps| - 1][i] == ps[i];
      }
    }
  }

  /** reglas_alertas_automaticas: one new alert per rule that fires. */
  function AlertasAutomaticas(db: Db, fs: FreshStore, policies: PolicyStore, now: int, today: int): (r: Db)
    ensures var fired := ReglasAutomaticas(ProduccionDia(policies, today), |policies|,
                                           ProduccionEntre(policies, today - 7, today),
                                           ProduccionEntre(policies, today - 14, today - 8));
            Grows(r.alertas, db.alertas, |fired|) && Grows(r.historial, db.historial, |fired|)
            && forall i :: 0 <= i < |fired| ==> r.alertas[|db.alertas| + i].tipo == fired[i].Tipo()
  {
    var fired := ReglasAutomaticas(ProduccionDia(policies, today), |policies|,
                                   ProduccionEntre(policies, today - 7, today),
                                   ProduccionEntre(policies, today - 14, today - 8));
    CrearReglas(db, fs, policies, fired, now, today);
    CrearTodas(db, fs, policies, Pedidos(fired), now, today)
  }

  /** The alerts created for a list of rules carry the rules' types, in order. */
  lemma CrearReglas(db: Db, fs: FreshStore, policies: PolicyStore, rs: seq<Regla>, now: int, today: int)
    ensures var r := CrearTodas(db, fs, policies, Pedidos(rs), now, today);
            Grows(r.alertas, db.alertas, |rs|) && Grows(r.historial, db.historial, |rs|)
            && forall i :: 0 <= i < |rs| ==> r.alertas[|db.alertas| + i].tipo == rs[i].Tipo()
  {
    var ps := Pedidos(rs);
    var r := CrearTodas(db, fs, policies, ps, now, today);
    forall i | 0 <= i < |rs| ensures r.alertas[|db.alertas| + i].tipo == rs[i].Tipo() {
      assert AtiendePeticion(r.alertas[|db.alertas| + i], ps[i]);
    }
  }

  /** An empty policy table raises the critical 'sistema' alert and the
      zero-production warning, and no growth warning. */
  lemma EmptyTableAlerts(db: Db, fs: FreshStore, now: int, today: int)
    ensures var r := AlertasAutomaticas(db, fs, map[], now, today);
            |r.alertas| == |db.alertas| + 2
            && r.alertas[|db.alertas|].tipo == "produccion_baja"
            && r.alertas[|db.alertas| + 1].tipo == "sistema"
  {
    var m: PolicyStore := map[];
    assert ProduccionDia(m, today) == 0 && ProduccionEntre(m, today - 7, today) == 0;
    var fired := ReglasAutomaticas(0, 0, 0, ProduccionEntre(m, today - 14, today - 8));
    assert fired == [ProduccionCero, BaseVacia];
    assert fired[0].Tipo() == "produccion_baja" && fired[1].Tipo() == "sistema";
  }

  // ---------------------------------------------------------------------
  // Statistics
  // ---------------------------------------------------------------------

  /** The number of alerts that satisfy p. */
  function CountAlerts(s: seq<Alerta>, p: Alerta -> bool): (n: nat)
    ensures n <= |s|
  {
    if |s| == 0 then 0 else (if p(s[0]) then 1 else 0) + CountAlerts(s[1..], p)
  }

  datatype Estadisticas = Estadisticas(total: nat, pendientes: nat, leidas: nat, resueltas: nat,
                                       criticas: nat, vencidas: nat)

  /** estadisticas_alertas */
  function EstadisticasAlertas(s: seq<Alerta>, now: int): Estadisticas {
    var pendientes := CountAlerts(s, (a: Alerta) => a.estado == Pendiente);
    var leidas := CountAlerts(s, (a: Alerta) => a.estado == Leida);
    var resueltas := CountAlerts(s, (a: Alerta) => a.estado == Resuelta);
    Estadisticas(pendientes + leidas + resueltas, pendientes, leidas, resueltas,
                 CountAlerts(s, (a: Alerta) => a.severidad == "critical" && Activa(a.estado)),
                 CountAlerts(s, (a: Alerta) => a.fechaLimite.Some? && a.fechaLimite.value < now && Activa(a.estado)))
  }

  /** The total leaves out exactly the dismissed alerts; critical and overdue
      alerts are counted among the active ones; and every alert esta_vencida
      reports is counted as overdue (the statistic also counts read ones). */
  lemma {:induction false} StatsPartition(s: seq<Alerta>, now: int)
    ensures var st := EstadisticasAlertas(s, now);
            st.total + CountAlerts(s, (a: Alerta) => a.estado == Descartada) == |s|
            && st.criticas <= st.pendientes + st.leidas
            && st.vencidas <= st.pendientes + st.leidas
            && CountAlerts(s, (a: Alerta) => EstaVencida(a, now)) <= st.vencidas
  {
    if |s| > 0 {
      StatsPartition(s[1..], now);
    }
  }

  // ---------------------------------------------------------------------
  // Expiry alerts created by the view, bypassing the factory
  // ---------------------------------------------------------------------

  /** A VIGENTE policy expiring between today and today + dias. */
  predicate PorVencer(p: Poliza, today: int, dias: int) {
    p.estado == Vigente && today <= p.fechaVencimiento <= today + dias
  }

  /** The policies the view looks at, in the queryset's order. */
  function PorVencerEn(ps: seq<Poliza>, today: int, dias: int): (r: seq<Poliza>)
    ensures |r| <= |ps|
    ensures forall p :: p in r <==> p in ps && PorVencer(p, today, dias)
  {
    if |ps| == 0 then []
    else
      var rest := PorVencerEn(ps[1..], today, dias);
      assert forall p :: p in ps <==> p == ps[0] || p in ps[1..];
      if PorVencer(ps[0], today, dias) then [ps[0]] + rest else rest
  }

  /** Severity by days left: up to 7 critical, up to 15 warning, else info. */
  function SeveridadVencimiento(dias: int): string {
    if dias <= 7 then "critical" else if dias <= 15 then "warning" else "info"
  }

  function SeverityRank(s: string): nat {
    if s == "critical" then 2 else if s == "warning" then 1 else 0
  }

  /** Fewer days left never means a milder alert. */
  lemma SeveridadVencimientoMonotone(a: int, b: int)
    requires a <= b
    ensures SeverityRank(SeveridadVencimiento(a)) >= SeverityRank(SeveridadVencimiento(b))
    ensures a <= 7 <==> SeveridadVencimiento(a) == "critical"
  {
  }

  /** The alert written for one policy; `mensaje` is the formatted text. */
  function AlertaVencimiento(p: Poliza, today: int, now: int, usuario: Option<string>, mensaje: string): (a: Alerta)
    ensures a.tipo == "vencimientos" && a.estado == Pendiente && a.poliza == Some(p.numero)
    ensures a.cliente == Some(p.cliente) && a.creadaPor == usuario
    ensures a.severidad == SeveridadVencimiento(p.fechaVencimiento - today)
    ensures a.fechaLimite == Some(p.fechaVencimiento * DaySeconds)
  {
    Alerta("vencimientos", SeveridadVencimiento(p.fechaVencimiento - today),
           "Póliza " + p.numero + " próxima a vencer", mensaje, Pendiente, true, "",
           Some(p.numero), Some(p.cliente), usuario, None, now, None, None,
           Some(p.fechaVencimiento * DaySeconds))
  }

  /** An active 'vencimientos' alert exists for the policy. */
  predicate Covered(s: seq<Alerta>, numero: string) {
    FindDuplicate(s, "vencimientos", numero).Some?
  }

  /** Appending alerts keeps a policy covered. */
  lemma CoveredPersists(s: seq<Alerta>, t: seq<Alerta>, numero: string)
    requires |s| <= |t| && t[..|s|] == s
    requires Covered(s, numero)
    ensures Covered(t, numero)
  {
    var j := FindDuplicate(s, "vencimientos", numero).value;
    assert t[j] == s[j];
  }

  /** An alert the expiry loop writes: a pending 'vencimientos' alert. */
  predicate DeVencimiento(a: Alerta) {
    a.tipo == "vencimientos" && a.estado == Pendiente
  }

  /** The loop of crear_alerta_vencimiento over the selected policies. */
  function Vencimientos(s: seq<Alerta>, ps: seq<Poliza>, today: int, now: int, usuario: Option<string>,
                        texto: Poliza -> string): (r: (seq<Alerta>, nat))
    ensures Grows(r.0, s, r.1) && r.1 <= |ps|
    ensures forall i :: |s| <= i < |r.0| ==> DeVencimiento(r.0[i])
    ensures forall p :: p in ps ==> Covered(r.0, p.numero)
    decreases |ps|
  {
    if |ps| == 0 then
      assert s[..|s|] == s;
      (s, 0)
    else
      var p := ps[0];
      var s1 := VencimientoUno(s, p, today, now, usuario, texto);
      var r := Vencimientos(s1, ps[1..], today, now, usuario, texto);
      CoveredPersists(s1, r.0, p.numero);
      assert Grows(s1, s, |s1| - |s|) by {
        if Covered(s, p.numero) { assert s[..|s|] == s; }
      }
      GrowsTrans(s, s1, r.0, |s1| - |s|, r.1);
      forall i | |s| <= i < |r.0| ensures DeVencimiento(r.0[i]) {
        if i < |s1| {
          assert r.0[i] == s1[i];
        }
      }
      assert forall q :: q in ps ==> q == p || q in ps[1..];
      (r.0, |s1| - |s| + r.1)
  }

  /** One step of the loop: an alert for the policy unless one is active. */
  function VencimientoUno(s: seq<Alerta>, p: Poliza, today: int, now: int, usuario: Option<string>,
                          texto: Poliza -> string): (s1: seq<Alerta>)
    ensures Covered(s, p.numero) ==> s1 == s
    ensures !Covered(s, p.numero) ==> Grows(s1, s, 1) && DeVencimiento(s1[|s|])
    ensures Covered(s1, p.numero)
  {
    if Covered(s, p.numero) then s
    else
      var s1 := s + [AlertaVencimiento(p, today, now, usuario, texto(p))];
      assert IsDuplicate(s1[|s1| - 1], "vencimientos", p.numero);
      assert s1[..|s|] == s;
      s1
  }

  /** When every policy is already covered the loop creates nothing. */
  lemma {:induction false} VencimientosNothingNew(s: seq<Alerta>, ps: seq<Poliza>, today: int, now: int,
                                                  usuario: Option<string>, texto: Poliza -> string)
    requires forall p :: p in ps ==> Covered(s, p.numero)
    ensures Vencimientos(s, ps, today, now, usuario, texto) == (s, 0)
    decreases |ps|
  {
    if |ps| > 0 {
      assert ps[0] in ps;
      assert forall p :: p in ps[1..] ==> p in ps;
      VencimientosNothingNew(s, ps[1..], today, now, usuario, texto);
    }
  }

  /** crear_alerta_vencimiento: returns the table and the two counts of the
      answer (alerts created, policies reviewed). No history row is written. */
  function CrearAlertaVencimiento(db: Db, ps: seq<Poliza>, dias: int, today: int, now: int,
                                  usuario: Option<string>, texto: Poliza -> string): (r: (Db, nat, nat))
    ensures r.0.historial == db.historial
    ensures r.2 == |PorVencerEn(ps, today, dias)| && r.1 <= r.2
    ensures |r.0.alertas| == |db.alertas| + r.1 && r.0.alertas[..|db.alertas|] == db.alertas
    ensures forall p :: p in ps && PorVencer(p, today, dias) ==> Covered(r.0.alertas, p.numero)
  {
    var sel := PorVencerEn(ps, today, dias);
    var (s, n) := Vencimientos(db.alertas, sel, today, now, usuario, texto);
    (Db(s, db.historial), n, |sel|)
  }

  /** The `dias` field of the request as `int()` sees it: absent, a value
      `int()` turns into an integer, or text it rejects. */
  datatype DiasPedido = SinDias | Dias(n: int) | DiasInvalido(texto: string)

  /** The number of days asked for when none is given. */
  const DiasPorDefecto := 30

  /** The ValueError `int()` raises on text that is not an integer. */
  function IntInvalido(texto: string): string {
    "invalid literal for int() with base 10: '" + texto + "'"
  }

  /** The action as the request reaches it: a missing `dias` means 30 days,
      and text `int()` rejects raises a ValueError (a server error) before any
      policy is read, leaving the table as it was. */
  function CrearAlertaVencimientoPedido(db: Db, ps: seq<Poliza>, d: DiasPedido, today: int, now: int,
                                        usuario: Option<string>, texto: Poliza -> string): (r: Result<(Db, nat, nat)>)
    ensures r.Err? <==> d.DiasInvalido?
    ensures d.DiasInvalido? ==> r.msg == IntInvalido(d.texto)
    ensures d.SinDias? ==> r.Ok? && r.value.2 == |PorVencerEn(ps, today, DiasPorDefecto)|
    ensures d.Dias? ==> r.Ok? && r.value.2 == |PorVencerEn(ps, today, d.n)|
    ensures r.Ok? ==> r.value.0.historial == db.historial && r.value.1 <= r.value.2
    ensures r.Ok? ==> |r.value.0.alertas| == |db.alertas| + r.value.1
    ensures r.Ok? ==> r.value.0.alertas[..|db.alertas|] == db.alertas
  {
    match d
    case SinDias => Ok(CrearAlertaVencimiento(db, ps, DiasPorDefecto, today, now, usuario, texto))
    case Dias(n) => Ok(CrearAlertaVencimiento(db, ps, n, today, now, usuario, texto))
    case DiasInvalido(t) => Err(IntInvalido(t))
  }

  /** A request without `dias` behaves as one asking for 30 days. */
  lemma SinDiasEsTreinta(db: Db, ps: seq<Poliza>, today: int, now: int,
                         usuario: Option<string>, texto: Poliza -> string)
    ensures CrearAlertaVencimientoPedido(db, ps, SinDias, today, now, usuario, texto)
            == CrearAlertaVencimientoPedido(db, ps, Dias(30), today, now, usuario, texto)
  {
  }

  /** Running the view twice on the same day creates nothing the second time. */
  lemma CrearAlertaVencimientoTwice(db: Db, ps: seq<Poliza>, dias: int, today: int, now: int, later: int,
                                    usuario: Option<string>, texto: Poliza -> string)
    ensures var first := CrearAlertaVencimiento(db, ps, dias, today, now, usuario, texto);
            var again := CrearAlertaVencimiento(first.0, ps, dias, today, later, usuario, texto);
            again.0 == first.0 && again.1 == 0
  {
    var first := CrearAlertaVencimiento(db, ps, dias, today, now, usuario, texto);
    VencimientosNothingNew(first.0.alertas, PorVencerEn(ps, today, dias), today, later, usuario, texto);
  }

  /** One crear_alerta call for a policy, as the expiry rule and the expiry
      reports make it: tipo 'vencimientos', for the policy and its client.
      Afterwards the policy is covered and earlier alerts are untouched. */
  function AlertarPoliza(db: Db, fs: FreshStore, policies: PolicyStore, p: Poliza, titulo: string,
                         severidad: string, mensaje: string, now: int, today: int): (c: Creada)
    requires p.numero in policies
    ensures Extends(c.db.alertas, db.alertas)
    ensures Covered(c.db.alertas, p.numero)
    ensures Covered(db.alertas, p.numero) ==> c.db == db
    ensures !Covered(db.alertas, p.numero) ==>
              c.nueva && c.id < |c.db.alertas| && c.db.alertas[c.id].severidad == severidad && c.db.alertas[c.id].titulo == titulo
  {
    var c := CrearAlerta(db, fs, policies, "vencimientos", mensaje, severidad, None, Some(p.numero),
                         Some(p.cliente), Some(titulo), now, today);
    assert Covered(c.db.alertas, p.numero) by {
      if c.nueva {
        assert IsDuplicate(c.db.alertas[|db.alertas|], "vencimientos", p.numero);
      }
    }
    c
  }

  /** One such call per policy, in order; the count is the number of calls,
      whether or not an alert was created. */
  function AlertarPolizas(db: Db, fs: FreshStore, policies: PolicyStore, ps: seq<Poliza>, titulo: string,
                          severidad: Poliza -> string, mensaje: Poliza -> string, now: int, today: int): (r: (Db, FreshStore, nat))
    requires forall p :: p in ps ==> p.numero in policies
    ensures r.2 == |ps|
    ensures Extends(r.0.alertas, db.alertas)
    decreases |ps|
  {
    if |ps| == 0 then
      assert db.alertas[..|db.alertas|] == db.alertas;
      (db, fs, 0)
    else
      var p := ps[0];
      assert p in ps;
      var c := AlertarPoliza(db, fs, policies, p, titulo, severidad(p), mensaje(p), now, today);
      assert forall q :: q in ps[1..] ==> q in ps;
      var r := AlertarPolizas(c.db, c.fs, policies, ps[1..], titulo, severidad, mensaje, now, today);
      ExtendsTrans(db.alertas, c.db.alertas, r.0.alertas);
      (r.0, r.1, r.2 + 1)
  }

  /** After the loop every policy has an active 'vencimientos' alert. */
  lemma {:induction false} AlertarPolizasCovers(db: Db, fs: FreshStore, policies: PolicyStore, ps: seq<Poliza>,
                                                titulo: string, severidad: Poliza -> string,
                                                mensaje: Poliza -> string, now: int, today: int)
    requires forall p :: p in ps ==> p.numero in policies
    ensures forall p :: p in ps ==>
              Covered(AlertarPolizas(db, fs, policies, ps, titulo, severidad, mensaje, now, today).0.alertas, p.numero)
    decreases |ps|
  {
    if |ps| > 0 {
      var p := ps[0];
      assert p in ps;
      var c := AlertarPoliza(db, fs, policies, p, titulo, severidad(p), mensaje(p), now, today);
      assert forall q :: q in ps[1..] ==> q in ps;
      var r := AlertarPolizas(c.db, c.fs, policies, ps[1..], titulo, severidad, mensaje, now, today);
      assert r.0 == AlertarPolizas(db, fs, policies, ps, titulo, severidad, mensaje, now, today).0;
      AlertarPolizasCovers(c.db, c.fs, policies, ps[1..], titulo, severidad, mensaje, now, today);
      CoveredPersists(c.db.alertas, r.0.alertas, p.numero);
      assert forall q :: q in ps ==> q == p || q in ps[1..];
    }
  }

  /** Over policies that are all covered already, the loop creates nothing
      (whatever title and severity it asks for) yet counts every call. */
  lemma {:induction false} AlertarPolizasCovered(db: Db, fs: FreshStore, policies: PolicyStore, ps: seq<Poliza>,
                                                 titulo: string, severidad: Poliza -> string,
                                                 mensaje: Poliza -> string, now: int, today: int)
    requires forall p :: p in ps ==> p.numero in policies
    requires forall p :: p in ps ==> Covered(db.alertas, p.numero)
    ensures AlertarPolizas(db, fs, policies, ps, titulo, severidad, mensaje, now, today).0 == db
    ensures AlertarPolizas(db, fs, policies, ps, titulo, severidad, mensaje, now, today).2 == |ps|
    decreases |ps|
  {
    if |ps| > 0 {
      assert ps[0] in ps;
      assert forall q :: q in ps[1..] ==> q in ps;
      AlertarPolizasCovered(db, fs, policies, ps[1..], titulo, severidad, mensaje, now, today);
    }
  }

  // ---------------------------------------------------------------------
  // The resolve view and the per-alert actions
  // ---------------------------------------------------------------------

  /** The row `.last()` returns under the newest-first ordering of the
      history table: the oldest row of the alert. */
  function HistorialDe(h: seq<Historial>, id: nat): (r: Option<nat>)
    ensures r.None? <==> forall i :: 0 <= i < |h| ==> h[i].alerta != Some(id)
    ensures r.Some? ==> r.value < |h| && h[r.value].alerta == Some(id)
    ensures r.Some? ==> forall i :: 0 <= i < r.value ==> h[i].alerta != Some(id)
  {
    if |h| == 0 then None
    else if h[0].alerta == Some(id) then Some(0)
    else
      var r := HistorialDe(h[1..], id);
      if r.Some? then Some(r.value + 1) else None
  }

  /** ResolverAlertaView.post: resolves the alert, ignoring whether that was
      refused, and then marks its history row resolved in any case. */
  function ResolverAlerta(db: Db, id: int, usuario: string, now: int): (r: Result<Db>)
    ensures r.Err? <==> !(0 <= id < |db.alertas|)
    ensures r.Err? ==> r.msg == "Alerta no encontrada"
    ensures r.Ok? ==>
              |r.value.alertas| == |db.alertas| && |r.value.historial| == |db.historial|
              && (forall i :: 0 <= i < |db.alertas| && i != id ==> r.value.alertas[i] == db.alertas[i])
              && r.value.alertas[id].estado == (if Activa(db.alertas[id].estado) then Resuelta else db.alertas[id].estado)
    ensures r.Ok? ==>
              var j := HistorialDe(db.historial, id);
              (j.None? ==> r.value.historial == db.historial)
              && (j.Some? ==>
                    r.value.historial[j.value].estadoFinal == HistResuelta
                    && r.value.historial[j.value].resueltaEn == Some(now)
                    && r.value.historial[j.value].resueltaPor == Some(usuario)
                    && forall i :: 0 <= i < |db.historial| && i != j.value ==> r.value.historial[i] == db.historial[i])
  {
    if !(0 <= id < |db.alertas|) then Err("Alerta no encontrada")
    else
      var a := MarcarComoResuelta(db.alertas[id], Some(usuario), now).0;
      var h := match HistorialDe(db.historial, id)
        case None => db.historial
        case Some(j) =>
          db.historial[j := db.historial[j].(resueltaEn := Some(now), resueltaPor := Some(usuario),
                                               estadoFinal := HistResuelta)];
      Ok(Db(db.alertas[id := a], h))
  }

  /** A dismissed alert stays dismissed, while its history row says resolved. */
  lemma DismissedButHistoryResolved(db: Db, id: nat, usuario: string, now: int)
    requires id < |db.alertas| && db.alertas[id].estado == Descartada
    requires HistorialDe(db.historial, id).Some?
    ensures var r := ResolverAlerta(db, id, usuario, now);
            r.Ok? && r.value.alertas[id].estado == Descartada
            && r.value.historial[HistorialDe(db.historial, id).value].estadoFinal == HistResuelta
  {
  }

  /** The marcar_leida / marcar_resuelta / descartar actions: 200 with the
      changed alert, or 400 with the alert untouched when the model refuses. */
  function Accionar(a: Alerta, op: Accion, now: int): (r: (Alerta, int))
    ensures r.1 == 200 || r.1 == 400
    ensures op.Leer? ==> (r.1 == 400 <==> a.estado != Pendiente)
    ensures !op.Leer? ==> (r.1 == 400 <==> !Activa(a.estado))
    ensures r.1 == 400 ==> r.0 == a
    ensures r.1 == 200 ==> r.0.estado.Rank() > a.estado.Rank()
  {
    AplicarAdvances(a, op, now);
    var (b, ok) := Aplicar(a, op, now);
    if ok then (b, 200) else (a, 400)
  }

  // ---------------------------------------------------------------------
  // Alerts from an ML results file, bypassing the factory
  // ---------------------------------------------------------------------

  /** One CSV row as the loop reads it: the RUT cell's text, the three
      conversions (int(), float(), float()) that may raise, and the text of
      the anomaly cell. A missing variacion_mensual column reads as Ok(0.0). */
  datatype MlRow = MlRow(rut: string, cluster: Result<int>, prima: Result<real>, variacion: Result<real>,
                         anomalia: string)

  const MlRequired: seq<string> := ["cliente_rut", "cluster", "prima_total"]

  /** The required columns the file lacks, in order. */
  function Faltantes(cols: seq<string>, req: seq<string>): (r: seq<string>)
    ensures forall c :: c in r <==> c in req && c !in cols
  {
    if |req| == 0 then []
    else
      assert forall c :: c in req <==> c == req[0] || c in req[1..];
      (if req[0] in cols then [] else [req[0]]) + Faltantes(cols, req[1..])
  }

  /** Python's repr of a list of strings. */
  function PyList(xs: seq<string>): string {
    var quoted := seq(|xs|, i requires 0 <= i < |xs| => "'" + xs[i] + "'");
    "[" + Join(", ", quoted) + "]"
  }

  /** The anomaly flag: the lower-cased text is exactly "true". */
  predicate Anomalia(r: MlRow) {
    Lower(r.anomalia) == "true"
  }

  function B(b: bool): nat {
    if b then 1 else 0
  }

  /** The ML alert tipos a row raises, in the order of the source. */
  function MlTipos(cluster: int, variacion: real, anomalia: bool): (r: seq<string>)
    ensures |r| == B(cluster == 0) + B(variacion < -20.0) + B(anomalia)
    ensures "ML_RIESGO_PRODUCCION" in r <==> cluster == 0
    ensures "ML_VARIACION_NEGATIVA" in r <==> variacion < -20.0
    ensures "ML_ANOMALIA" in r <==> anomalia
  {
    (if cluster == 0 then ["ML_RIESGO_PRODUCCION"] else [])
    + (if variacion < -20.0 then ["ML_VARIACION_NEGATIVA"] else [])
    + (if anomalia then ["ML_ANOMALIA"] else [])
  }

  /** Risk and anomaly alerts are critical; the variation alert a warning. */
  function MlSeveridad(tipo: string): string {
    if tipo == "ML_VARIACION_NEGATIVA" then "ADVERTENCIA" else "CRITICO"
  }

  function MlTitulo(tipo: string, nombre: string): string {
    if tipo == "ML_RIESGO_PRODUCCION" then "ML: Riesgo de Producción - " + nombre
    else if tipo == "ML_VARIACION_NEGATIVA" then "ML: Variación Negativa - " + nombre
    else "ML: Anomalía Detectada - " + nombre
  }

  /** The alerts created for a found client; `texto` formats the message. */
  function MlAlertas(tipos: seq<string>, rut: string, nombre: string, r: MlRow, usuario: Option<string>, now: int,
                     texto: (string, MlRow) -> string): (s: seq<Alerta>)
    ensures |s| == |tipos|
    ensures forall i :: 0 <= i < |s| ==>
              s[i].tipo == tipos[i] && s[i].severidad == MlSeveridad(tipos[i]) && s[i].estado == Pendiente
              && s[i].cliente == Some(rut) && s[i].poliza.None? && s[i].fechaLimite.None?
  {
    seq(|tipos|, i requires 0 <= i < |tipos| =>
      Alerta(tipos[i], MlSeveridad(tipos[i]), MlTitulo(tipos[i], nombre), texto(tipos[i], r), Pendiente,
             true, "", None, Some(rut), usuario, None, now, None, None, None))
  }

  datatype MlState = MlState(alertas: seq<Alerta>, creadas: nat, procesados: nat, noEncontrados: nat,
                             errores: seq<string>)

  /** One iteration: a failed conversion is recorded as "Fila <idx>: <error>";
      an unknown RUT is counted and skipped; otherwise 0 to 3 alerts. */
  function MlStep(st: MlState, idx: nat, r: MlRow, clients: ClientStore, usuario: Option<string>, now: int,
                  texto: (string, MlRow) -> string): (o: MlState)
    ensures o.procesados + o.noEncontrados + |o.errores| == st.procesados + st.noEncontrados + |st.errores| + 1
    ensures o.creadas >= st.creadas && |o.alertas| - o.creadas == |st.alertas| - st.creadas
    ensures Extends(o.alertas, st.alertas)
    ensures o.creadas <= st.creadas + 3 * (o.procesados - st.procesados)
    ensures o.noEncontrados == st.noEncontrados + B(r.cluster.Ok? && r.prima.Ok? && r.variacion.Ok? && Strip(r.rut) !in clients)
  {
    if r.cluster.Err? then MlFallo(st, idx, r.cluster.msg)
    else if r.prima.Err? then MlFallo(st, idx, r.prima.msg)
    else if r.variacion.Err? then MlFallo(st, idx, r.variacion.msg)
    else
      var rut := Strip(r.rut);
      if rut !in clients then st.(noEncontrados := st.noEncontrados + 1)
      else MlEncontrado(st, rut, clients[rut], r, usuario, now, texto)
  }

  /** A row whose conversion failed: one error line, nothing else changes. */
  function MlFallo(st: MlState, idx: nat, msg: string): (o: MlState)
    ensures o.alertas == st.alertas && o.creadas == st.creadas
    ensures o.procesados == st.procesados && o.noEncontrados == st.noEncontrados
    ensures |o.errores| == |st.errores| + 1
  {
    st.(errores := st.errores + ["Fila " + IntToString(idx) + ": " + msg])
  }

  /** A readable row of a known client: its alerts appended and counted. */
  function MlEncontrado(st: MlState, rut: string, nombre: string, r: MlRow, usuario: Option<string>, now: int,
                        texto: (string, MlRow) -> string): (o: MlState)
    requires r.cluster.Ok? && r.variacion.Ok?
    ensures Extends(o.alertas, st.alertas) && |o.alertas| - o.creadas == |st.alertas| - st.creadas
    ensures st.creadas <= o.creadas <= st.creadas + 3
    ensures o.creadas == st.creadas + B(r.cluster.value == 0) + B(r.variacion.value < -20.0) + B(Anomalia(r))
    ensures o.procesados == st.procesados + 1 && o.noEncontrados == st.noEncontrados && o.errores == st.errores
  {
    var tipos := MlTipos(r.cluster.value, r.variacion.value, Anomalia(r));
    var nuevas := MlAlertas(tipos, rut, nombre, r, usuario, now, texto);
    MlState(st.alertas + nuevas, st.creadas + |nuevas|, st.procesados + 1, st.noEncontrados, st.errores)
  }

  /** The loop over the first n rows. */
  function MlLoop(s: seq<Alerta>, rows: seq<MlRow>, n: nat, clients: ClientStore, usuario: Option<string>,
                  now: int, texto: (string, MlRow) -> string): (o: MlState)
    requires n <= |rows|
    ensures o.procesados + o.noEncontrados + |o.errores| == n
    ensures |o.alertas| == |s| + o.creadas && o.alertas[..|s|] == s
    ensures o.creadas <= 3 * o.procesados
  {
    if n == 0 then MlState(s, 0, 0, 0, [])
    else MlStep(MlLoop(s, rows, n - 1, clients, usuario, now, texto), n - 1, rows[n - 1], clients, usuario, now, texto)
  }

  datatype MlResultado =
    | ColumnasFaltantes(error: string)
    | MlImportado(db: Db, creadas: nat, procesados: nat, noEncontrados: nat, errores: seq<string>)

  /** MLImportResultsView.post after the CSV was read: a file without a
      required column is refused; otherwise every row is processed, and no
      history row is written. */
  function MlImport(cols: seq<string>, rows: seq<MlRow>, clients: ClientStore, db: Db, usuario: Option<string>,
                    now: int, texto: (string, MlRow) -> string): (r: MlResultado)
    ensures r.ColumnasFaltantes? <==> exists c :: c in MlRequired && c !in cols
    ensures r.ColumnasFaltantes? ==> r.error == "Columnas faltantes: " + PyList(Faltantes(cols, MlRequired))
    ensures r.MlImportado? ==>
              r.db.historial == db.historial
              && |r.db.alertas| == |db.alertas| + r.creadas && r.db.alertas[..|db.alertas|] == db.alertas
              && r.procesados + r.noEncontrados + |r.errores| == |rows|
              && r.creadas <= 3 * r.procesados
  {
    var missing := Faltantes(cols, MlRequired);
    if |missing| > 0 then
      assert missing[0] in missing;
      ColumnasFaltantes("Columnas faltantes: " + PyList(missing))
    else
      assert forall c :: c in MlRequired ==> c in cols;
      var o := MlLoop(db.alertas, rows, |rows|, clients, usuario, now, texto);
      MlImportado(Db(o.alertas, db.historial), o.creadas, o.procesados, o.noEncontrados, o.errores)
  }

  /** A found client's row raises exactly the alerts its three independent
      conditions call for; "True" counts as an anomaly. */
  lemma MlRowAlerts(st: MlState, idx: nat, clients: ClientStore, usuario: Option<string>, now: int,
                    texto: (string, MlRow) -> string, rut: string, variacion: real)
    requires Strip(rut) in clients
    ensures var r := MlRow(rut, Ok(0), Ok(1.0), Ok(variacion), "True");
            var o := MlStep(st, idx, r, clients, usuario, now, texto);
            o.creadas == st.creadas + 2 + B(variacion < -20.0) && o.procesados == st.procesados + 1
  {
    assert Lower("True") == "true";
  }
}

=== FILE: amounts.dfy ===
/** Chilean-format amounts as the batch importer reads them: every '.' is a
    thousands separator and is deleted, ',' is the decimal mark, and the
    result goes to Python's float(). */
module Amounts {
  import opened Base
  import opened Text

  /** float() on text that is not a plain decimal numeral (exponents, "inf",
      "nan", underscores, non-ASCII digits, garbage): left to the caller.
      An Err carries the text of Python's ValueError. */
  type FloatOracle = string -> Result<real>

  function Pow10(n: nat): (p: nat)
    ensures p >= 1
  {
    if n == 0 then 1 else 10 * Pow10(n - 1)
  }

  function Unsigned(s: string): string {
    if |s| > 0 && (s[0] == '+' || s[0] == '-') then s[1..] else s
  }

  /** An optional sign, then digits with at most one '.', and at least one digit. */
  predicate PlainDecimal(s: string) {
    var u := Unsigned(s);
    match Find(u, ".")
    case None => |u| > 0 && AllDigits(u)
    case Some(i) => |u| > 1 && AllDigits(u[..i]) && AllDigits(u[i + 1..])
  }

  /** The exact value of a plain decimal numeral. */
  function DecimalValue(s: string): real
    requires PlainDecimal(s)
  {
    var u := Unsigned(s);
    var magnitude :=
      match Find(u, ".")
      case None => DigitsValue(u) as real
      case Some(i) => DigitsValue(u[..i]) as real + DigitsValue(u[i + 1..]) as real / Pow10(|u| - i - 1) as real;
    if |s| > 0 && s[0] == '-' then -magnitude else magnitude
  }

  /** Python's float(): plain decimals are read exactly, everything else is
      answered by the oracle. */
  function PyFloat(s: string, other: FloatOracle): (r: Result<real>)
    ensures PlainDecimal(s) ==> r == Ok(DecimalValue(s))
    ensures !PlainDecimal(s) ==> r == other(s)
  {
    if PlainDecimal(s) then Ok(DecimalValue(s)) else other(s)
  }

  /** The text float_from_str hands to float(): dots deleted, commas made dots. */
  function Rewrite(t: string): (u: string)
    ensures |u| <= |t|
    ensures ',' !in u
  {
    ReplaceChar(Delete(t, '.'), ',', '.')
  }

  /** float_from_str: None or NaN and blank text are rejected; otherwise the
      rewritten text is parsed, and a parse failure is reported with it. */
  function FloatFromStr(c: Cell, other: FloatOracle): (r: Result<real>)
    ensures c.IsNull() ==> r.Err?
    ensures !c.IsNull() && Strip(c.Str()) == [] ==> r.Err?
    ensures !c.IsNull() && Strip(c.Str()) != [] && PlainDecimal(Rewrite(Strip(c.Str())))
            ==> r == Ok(DecimalValue(Rewrite(Strip(c.Str()))))
    ensures !c.IsNull() && Strip(c.Str()) != [] && !PlainDecimal(Rewrite(Strip(c.Str())))
            ==> (r.Ok? <==> other(Rewrite(Strip(c.Str()))).Ok?)
    ensures !c.IsNull() && Strip(c.Str()) != [] && !PlainDecimal(Rewrite(Strip(c.Str())))
            && other(Rewrite(Strip(c.Str()))).Ok?
            ==> r == other(Rewrite(Strip(c.Str())))
    ensures !c.IsNull() && Strip(c.Str()) != [] && !PlainDecimal(Rewrite(Strip(c.Str())))
            && other(Rewrite(Strip(c.Str()))).Err?
            ==> r == Err("No se puede convertir '" + Rewrite(Strip(c.Str())) + "' a float: "
                         + other(Rewrite(Strip(c.Str()))).msg)
  {
    if c.IsNull() then Err("Monto inválido: " + c.Str())
    else
      var t := Strip(c.Str());
      if t == [] then Err("No se puede convertir '' a float: Monto vacío")
      else
        var u := Rewrite(t);
        match PyFloat(u, other)
        case Ok(v) => Ok(v)
        case Err(m) => Err("No se puede convertir '" + u + "' a float: " + m)
  }

  // ---------------------------------------------------------------------------
  // What the rewriting means for the usual spellings

  predicate NoDigits(s: string) {
    forall k :: 0 <= k < |s| ==> !IsDigit(s[k])
  }

  /** A plain decimal numeral has at least one digit. */
  lemma {:induction false} PlainHasDigit(s: string)
    requires PlainDecimal(s)
    ensures !NoDigits(s)
  {
    var u := Unsigned(s);
    var off := |s| - |u|;
    assert u == s[off..];
    match Find(u, ".")
    case None =>
      assert IsDigit(u[0]);
      assert s[off] == u[0];
    case Some(i) =>
      if i > 0 {
        assert IsDigit(u[..i][0]);
        assert s[off] == u[0];
      } else {
        assert u[1..][0] == u[1];
        assert IsDigit(u[1]);
        assert s[off + 1] == u[1];
      }
  }

  /** Deleting dots and turning commas into dots brings in no digit. */
  lemma RewriteNoDigits(t: string)
    requires NoDigits(t)
    ensures NoDigits(Rewrite(t))
  {
    var d := Delete(t, '.');
    forall k | 0 <= k < |d| ensures !IsDigit(d[k]) {
      assert d[k] in d;
      if d[k] != '.' {
        DeleteKeeps(t, '.', d[k]);
      }
    }
    var r := Rewrite(t);
    forall k | 0 <= k < |r| ensures !IsDigit(r[k]) {
      assert d[k] != ',' ==> r[k] == d[k];
    }
  }

  /** Text with no digit at all ("abc") is not a plain decimal, so its fate
      is float()'s: when float() rejects every digit-free text, the amount
      is an error carrying the rewritten text. */
  lemma FloatFromStrNoDigits(t: string, other: FloatOracle)
    requires Strip(t) != [] && NoDigits(Strip(t))
    requires forall s :: NoDigits(s) ==> other(s).Err?
    ensures FloatFromStr(Text(t), other).Err?
    ensures FloatFromStr(Text(t), other).msg
            == "No se puede convertir '" + Rewrite(Strip(t)) + "' a float: " + other(Rewrite(Strip(t))).msg
  {
    RewriteNoDigits(Strip(t));
    if PlainDecimal(Rewrite(Strip(t))) {
      PlainHasDigit(Rewrite(Strip(t)));
    }
  }

  /** float_from_str("abc") raises. */
  lemma FloatFromStrAbc(t: string, other: FloatOracle)
    requires t == "abc"
    requires forall s :: NoDigits(s) ==> other(s).Err?
    ensures FloatFromStr(Text(t), other).Err?
  {
    assert !IsSpace(t[0]) && !IsSpace(t[2]);
    StripTrimmed(t);
    assert NoDigits(t);
    FloatFromStrNoDigits(t, other);
  }

  lemma AllDigitsNoDot(s: string)
    requires AllDigits(s)
    ensures '.' !in s && ',' !in s
  {
  }

  /** Digits and dots only: every dot is dropped, so the amount is the integer
      the digits spell. "1.5" is read as fifteen. */
  lemma DotsAreThousands(t: string)
    requires |t| > 0 && t[0] != '.'
    requires forall k :: 0 <= k < |t| ==> IsDigit(t[k]) || t[k] == '.'
    ensures AllDigits(Delete(t, '.'))
    ensures Rewrite(t) == Delete(t, '.')
    ensures PlainDecimal(Rewrite(t))
    ensures DecimalValue(Rewrite(t)) == DigitsValue(Delete(t, '.')) as real
  {
    var d := Delete(t, '.');
    DigitsAndDots(t);
    AllDigitsNoDot(d);
    ReplaceAbsent(d, ',', '.');
    DeleteHead(t);
    FindAbsentChar(d, '.');
    assert Unsigned(d) == d;
  }

  lemma DeleteHead(t: string)
    requires |t| > 0 && t[0] != '.'
    ensures |Delete(t, '.')| > 0 && Delete(t, '.')[0] == t[0]
  {
  }

  /** Dots before a single comma and digits after it: the dots are thousands
      separators and the comma is the decimal mark. */
  lemma CommaIsDecimalMark(a: string, f: string)
    requires |a| > 0 && a[0] != '.'
    requires forall k :: 0 <= k < |a| ==> IsDigit(a[k]) || a[k] == '.'
    requires AllDigits(f)
    ensures AllDigits(Delete(a, '.'))
    ensures Rewrite(a + "," + f) == Delete(a, '.') + "." + f
    ensures PlainDecimal(Rewrite(a + "," + f))
    ensures DecimalValue(Rewrite(a + "," + f))
            == DigitsValue(Delete(a, '.')) as real + DigitsValue(f) as real / Pow10(|f|) as real
  {
    DigitsAndDots(a);
    DeleteHead(a);
    RewriteComma(a, f);
    DecimalOfParts(Rewrite(a + "," + f), Delete(a, '.'), f);
  }

  lemma RewriteComma(a: string, f: string)
    requires AllDigits(Delete(a, '.')) && AllDigits(f)
    ensures Rewrite(a + "," + f) == Delete(a, '.') + "." + f
  {
    DeleteComma(a, f);
    ReplaceComma(Delete(a, '.'), f);
  }

  lemma DeleteComma(a: string, f: string)
    requires AllDigits(f)
    ensures Delete(a + "," + f, '.') == Delete(a, '.') + "," + f
  {
    var d := Delete(a, '.');
    assert Delete(a + ",", '.') == d + "," by {
      DeleteAppend(a, ",", '.');
      DeleteAbsent(",", '.');
    }
    assert Delete(f, '.') == f by {
      AllDigitsNoDot(f);
      DeleteAbsent(f, '.');
    }
    DeleteAppend(a + ",", f, '.');
  }

  lemma ReplaceComma(d: string, f: string)
    requires AllDigits(d) && AllDigits(f)
    ensures ReplaceChar(d + "," + f, ',', '.') == d + "." + f
  {
    AllDigitsNoDot(d);
    AllDigitsNoDot(f);
    ReplaceAppend(d + ",", f, ',', '.');
    ReplaceAppend(d, ",", ',', '.');
    ReplaceAbsent(d, ',', '.');
    ReplaceAbsent(f, ',', '.');
    assert ReplaceChar(",", ',', '.') == ".";
  }

  lemma DecimalOfParts(u: string, d: string, f: string)
    requires u == d + "." + f
    requires |d| > 0 && d[0] != '+' && d[0] != '-'
    requires AllDigits(d) && AllDigits(f)
    ensures PlainDecimal(u)
    ensures DecimalValue(u) == DigitsValue(d) as real + DigitsValue(f) as real / Pow10(|f|) as real
  {
    PlainOfParts(d, f);
    assert u[..|d|] == d;
    assert u[|d| + 1..] == f;
    ValueOfParts(u, d, f);
  }

  lemma PlainOfParts(d: string, f: string)
    requires |d| > 0 && d[0] != '+' && d[0] != '-'
    requires AllDigits(d) && AllDigits(f)
    ensures Unsigned(d + "." + f) == d + "." + f
    ensures Find(d + "." + f, ".") == Some(|d|)
    ensures PlainDecimal(d + "." + f)
  {
    var u := d + "." + f;
    assert Unsigned(u) == u;
    FindAfterDigits(d, f);
    assert u[..|d|] == d;
    assert u[|d| + 1..] == f;
  }

  lemma ValueOfParts(u: string, d: string, f: string)
    requires PlainDecimal(u) && Unsigned(u) == u && |u| > 0 && u[0] != '-'
    requires Find(u, ".") == Some(|d|) && u[..|d|] == d && u[|d| + 1..] == f
    requires AllDigits(d) && AllDigits(f)
    ensures DecimalValue(u) == DigitsValue(d) as real + DigitsValue(f) as real / Pow10(|f|) as real
  {
  }

  lemma FindAfterDigits(d: string, f: string)
    requires AllDigits(d)
    ensures Find(d + "." + f, ".") == Some(|d|)
  {
    var u := d + "." + f;
    assert OccursAt(u, ".", |d|);
    forall j | 0 <= j < |d| ensures !OccursAt(u, ".", j) {
      assert u[j] == d[j];
    }
  }

  /** Deleting the dots of a digits-and-dots string leaves digits only. */
  lemma {:induction false} DigitsAndDots(a: string)
    requires forall k :: 0 <= k < |a| ==> IsDigit(a[k]) || a[k] == '.'
    ensures AllDigits(Delete(a, '.'))
    decreases |a|
  {
    if |a| > 0 {
      DigitsAndDots(a[1..]);
    }
  }

  /** float_from_str on trimmed text made of digits and dots: the integer the digits spell. */
  lemma FloatOfDottedDigits(t: string, other: FloatOracle)
    requires Strip(t) == t && |t| > 0 && t[0] != '.'
    requires forall k :: 0 <= k < |t| ==> IsDigit(t[k]) || t[k] == '.'
    ensures AllDigits(Delete(t, '.'))
    ensures FloatFromStr(Text(t), other) == Ok(DigitsValue(Delete(t, '.')) as real)
  {
    DotsAreThousands(t);
    FloatOfPlain(t, Rewrite(t), other);
  }

  /** Trimmed text whose rewriting is a plain decimal is read as that decimal. */
  lemma FloatOfPlain(t: string, u: string, other: FloatOracle)
    requires Strip(t) == t && |t| > 0 && Rewrite(t) == u && PlainDecimal(u)
    ensures FloatFromStr(Text(t), other) == Ok(DecimalValue(u))
  {
  }

  lemma DeleteOneFive(x: string)
    requires x == "1.5"
    ensures Delete(x, '.') == "15"
  {
    assert x == "1" + "." + "5";
    DeleteAppend("1" + ".", "5", '.');
    DeleteAppend("1", ".", '.');
  }

  /** Worked example: "1.5" is fifteen, not one and a half. */
  lemma ExampleDotIsNotDecimal(x: string, other: FloatOracle)
    requires x == "1.5"
    ensures FloatFromStr(Text(x), other) == Ok(15.0)
  {
    StripTrimmed(x);
    FloatOfDottedDigits(x, other);
    DeleteOneFive(x);
    assert DigitsValue("15") == 15;
  }
}

=== FILE: base.dfy ===
/** Shared wrappers and the shape of a spreadsheet cell as the import code
    receives it from its table reader. */
module Base {

  /** The conventional Some/None datatype, used where the source returns None. */
  datatype Option<+T> = None | Some(value: T) {
    function GetOr(default: T): T {
      match this
      case Some(v) => v
      case None => default
    }
  }

  /** A value or the text of the exception the source would raise. */
  datatype Result<+T> = Ok(value: T) | Err(msg: string) {
    predicate IsFailure() {
      Err?
    }
  }

  /** One cell of a table read from a spreadsheet.
      - Missing: the reader produced None.
      - NaN: an empty numeric cell (float NaN).
      - Text(s): a string cell.
      - Number(repr): a numeric cell, carried with the text Python's str() gives it
        (an integer cell "1500", a float cell "1500.0").
      - Stamp(day, repr): a date/datetime cell, as a day number and its str() text. */
  datatype Cell = Missing | NaN | Text(s: string) | Number(repr: string) | Stamp(day: int, repr: string) {

    /** pandas' isna: None and NaN are null, everything else is not. */
    predicate IsNull() {
      Missing? || NaN?
    }

    /** Python's str() of the cell value. */
    function Str(): string {
      match this
      case Missing => "None"
      case NaN => "nan"
      case Text(s) => s
      case Number(r) => r
      case Stamp(_, r) => r
    }

    /** Python truthiness of the value: None, the empty string and a numeric
        zero are falsy; NaN and every date are truthy. */
    predicate Truthy() {
      match this
      case Missing => false
      case NaN => true
      case Text(s) => |s| > 0
      case Number(r) => r != "0" && r != "0.0" && r != "-0.0"
      case Stamp(_, _) => true
    }

    /** pandas' fillna(''): null cells become the empty string. */
    function FillEmpty(): (c: Cell)
      ensures c.IsNull() == false
      ensures !IsNull() ==> c == this
    {
      if IsNull() then Text("") else this
    }
  }

  /** `after` is `before` with k more entries appended. */
  predicate Grows<T(==)>(after: seq<T>, before: seq<T>, k: nat) {
    |after| == |before| + k && after[..|before|] == before
  }

  lemma GrowsTrans<T>(a: seq<T>, b: seq<T>, c: seq<T>, k: nat, l: nat)
    requires Grows(b, a, k) && Grows(c, b, l)
    ensures Grows(c, a, k + l)
    ensures forall i :: 0 <= i < |b| ==> c[i] == b[i]
  {
    assert forall i :: 0 <= i < |b| ==> c[i] == c[..|b|][i];
    assert c[..|a|] == b[..|a|];
  }

  /** `after` starts with `before`. */
  predicate Extends<T(==)>(after: seq<T>, before: seq<T>) {
    |after| >= |before| && after[..|before|] == before
  }

  lemma ExtendsTrans<T>(a: seq<T>, b: seq<T>, c: seq<T>)
    requires Extends(b, a) && Extends(c, b)
    ensures Extends(c, a)
    ensures forall i :: 0 <= i < |b| ==> c[i] == b[i]
  {
    assert forall i :: 0 <= i < |b| ==> c[i] == c[..|b|][i];
    assert c[..|a|] == b[..|a|];
  }
}

=== FILE: calendar.dfy ===
/** The proleptic Gregorian calendar of Python's `date`, with dates counted as
    day numbers: day 0 is 1 January of year 1. */
module Calendar {

  predicate IsLeap(y: int) {
    (y % 4 == 0 && y % 100 != 0) || y % 400 == 0
  }

  function DaysInMonth(y: int, m: int): (d: int)
    requires 1 <= m <= 12
    ensures 28 <= d <= 31
    ensures d == 31 <==> m in {1, 3, 5, 7, 8, 10, 12}
  {
    if m == 2 then (if IsLeap(y) then 29 else 28)
    else if m == 4 || m == 6 || m == 9 || m == 11 then 30
    else 31
  }

  function YearLength(y: int): int {
    if IsLeap(y) then 366 else 365
  }

  /** A civil date. */
  datatype Date = Date(year: int, month: int, day: int)

  /** What Python's `date` accepts. */
  predicate Valid(d: Date) {
    1 <= d.year && 1 <= d.month <= 12 && 1 <= d.day <= DaysInMonth(d.year, d.month)
  }

  /** Days in the years before y. */
  function DaysBeforeYear(y: int): int
    decreases if y > 1 then y else 0
  {
    if y <= 1 then 0 else DaysBeforeYear(y - 1) + YearLength(y - 1)
  }

  /** Days in the months of year y before month m. */
  function DaysBeforeMonth(y: int, m: int): int
    requires 1 <= m <= 13
  {
    if m == 1 then 0 else DaysBeforeMonth(y, m - 1) + DaysInMonth(y, m - 1)
  }

  /** date.toordinal() - 1 */
  function ToDays(d: Date): int
    requires 1 <= d.month <= 12
  {
    DaysBeforeYear(d.year) + DaysBeforeMonth(d.year, d.month) + d.day - 1
  }

  /** The first of the month after (y, m). */
  function NextMonth(y: int, m: int): (r: Date)
    requires 1 <= m <= 12
    ensures 1 <= r.month <= 12 && r.day == 1
  {
    if m == 12 then Date(y + 1, 1, 1) else Date(y, m + 1, 1)
  }

  /** The first of the month before (y, m). */
  function PrevMonth(y: int, m: int): (r: Date)
    requires 1 <= m <= 12
    ensures 1 <= r.month <= 12 && r.day == 1
  {
    if m == 1 then Date(y - 1, 12, 1) else Date(y, m - 1, 1)
  }

  /** Going back a month and then forward again returns to the same month. */
  lemma PrevThenNext(y: int, m: int)
    requires 1 <= m <= 12
    ensures NextMonth(PrevMonth(y, m).year, PrevMonth(y, m).month) == Date(y, m, 1)
  {
  }

  /** The twelve months fill the year. */
  lemma MonthsFillYear(y: int)
    ensures DaysBeforeMonth(y, 13) == YearLength(y)
  {
    var f := DaysInMonth(y, 2);
    assert DaysBeforeMonth(y, 2) == 31;
    assert DaysBeforeMonth(y, 3) == 31 + f;
    assert DaysBeforeMonth(y, 4) == 62 + f;
    assert DaysBeforeMonth(y, 5) == 92 + f;
    assert DaysBeforeMonth(y, 6) == 123 + f;
    assert DaysBeforeMonth(y, 7) == 153 + f;
    assert DaysBeforeMonth(y, 8) == 184 + f;
    assert DaysBeforeMonth(y, 9) == 215 + f;
    assert DaysBeforeMonth(y, 10) == 245 + f;
    assert DaysBeforeMonth(y, 11) == 276 + f;
    assert DaysBeforeMonth(y, 12) == 306 + f;
  }

  /** Consecutive days of one month are consecutive day numbers, and the day
      after the last of a month is the first of the next. */
  lemma NextMonthStart(y: int, m: int)
    requires 1 <= y && 1 <= m <= 12
    ensures ToDays(NextMonth(y, m)) == ToDays(Date(y, m, 1)) + DaysInMonth(y, m)
  {
    if m == 12 {
      MonthsFillYear(y);
      assert DaysBeforeYear(y + 1) == DaysBeforeYear(y) + YearLength(y);
    } else {
      assert DaysBeforeMonth(y, m + 1) == DaysBeforeMonth(y, m) + DaysInMonth(y, m);
    }
  }
}

=== FILE: cobranzas.dfy ===
/** Collections (cobranzas): the per-collection properties, the automatic
    creation of collections from policies, payment, cancellation and the
    statistics. Dates are day numbers and `today` is a parameter; the table
    of collections is a sequence whose indices are the ids. */
module Cobranzas {
  import opened Base
  import Polizas

  datatype Estado = Pendiente | EnProceso | Pagada | Vencida | Cancelada {
    function Code(): string {
      match this
      case Pendiente => "PENDIENTE"
      case EnProceso => "EN_PROCESO"
      case Pagada => "PAGADA"
      case Vencida => "VENCIDA"
      case Cancelada => "CANCELADA"
    }

    /** PAGADA and CANCELADA take a collection out of the overdue lists. */
    predicate Cerrada() {
      this == Pagada || this == Cancelada
    }

    /** PENDIENTE and EN_PROCESO are the states the statistics call open. */
    predicate Abierta() {
      this == Pendiente || this == EnProceso
    }
  }

  datatype Tipo = PagoVigente | PagoVencido | RiesgoFinanciero {
    function Code(): string {
      match this
      case PagoVigente => "PAGO_VIGENTE"
      case PagoVencido => "PAGO_VENCIDO"
      case RiesgoFinanciero => "RIESGO_FINANCIERO"
    }
  }

  /** A collection; `poliza` is the number of the policy it belongs to. */
  datatype Cobranza = Cobranza(
    poliza: string,
    montoUf: real,
    montoPesos: Option<real>,
    valorUf: Option<real>,
    fechaEmision: int,
    fechaVencimiento: int,
    fechaPago: Option<int>,
    diasAtraso: int,
    estado: Estado,
    tipo: Tipo,
    metodoPago: Option<string>,
    numeroDocumento: string,
    fuenteEtl: bool,
    campoPagoPendiente: string,
    tieneAlertaFinanciera: bool,
    razonAlerta: string,
    observaciones: string)

  type Tabla = seq<Cobranza>

  // ---------------------------------------------------------------------
  // Per-collection properties
  // ---------------------------------------------------------------------

  /** dias_vencimiento: the days left until the due date, negative once it
      has passed. */
  function DiasVencimiento(c: Cobranza, today: int): (d: int)
    ensures today + d == c.fechaVencimiento
    ensures d < 0 <==> c.fechaVencimiento < today
  {
    c.fechaVencimiento - today
  }

  /** esta_vencida: past its due date and neither paid nor cancelled. */
  predicate EstaVencida(c: Cobranza, today: int) {
    c.fechaVencimiento < today && !c.estado.Cerrada()
  }

  /** es_de_riesgo: overdue, or flagged with a financial alert. */
  predicate EsDeRiesgo(c: Cobranza, today: int) {
    EstaVencida(c, today) || c.tieneAlertaFinanciera
  }

  /** Python's truthiness of an optional decimal: absent and zero are false. */
  predicate Truthy(v: Option<real>) {
    v.Some? && v.value != 0.0
  }

  /** calcular_monto_pesos: with a truthy UF value it records that value and
      the peso amount and returns the amount; otherwise it returns None and
      leaves the collection as it was. */
  function CalcularMontoPesos(c: Cobranza, valorUf: Option<real>): (r: (Cobranza, Option<real>))
    ensures Truthy(valorUf) ==> r.1.Some? && r.1 == r.0.montoPesos && r.1.value / valorUf.value == c.montoUf
    ensures Truthy(valorUf) ==> r.0.valorUf == valorUf
    ensures r.0.(valorUf := c.valorUf, montoPesos := c.montoPesos) == c
    ensures !Truthy(valorUf) ==> r.0 == c && r.1.None?
  {
    if Truthy(valorUf) then
      var n := c.(valorUf := valorUf, montoPesos := Some(c.montoUf * valorUf.value));
      (n, n.montoPesos)
    else
      (c, None)
  }

  /** actualizar_dias_atraso: an open collection gets the days it is past its
      due date (0 when not past); a paid or cancelled one keeps its value.
      Either way the stored value is returned. */
  function ActualizarDiasAtraso(c: Cobranza, today: int): (r: (Cobranza, int))
    ensures r.1 == r.0.diasAtraso
    ensures r.0 == c.(diasAtraso := r.1)
    ensures c.estado.Cerrada() ==> r.0 == c
    ensures !c.estado.Cerrada() ==> r.1 >= 0 && (r.1 > 0 <==> EstaVencida(c, today))
    ensures EstaVencida(c, today) ==> r.1 == -DiasVencimiento(c, today)
  {
    if c.estado.Cerrada() then (c, c.diasAtraso)
    else
      var d := if c.fechaVencimiento < today then today - c.fechaVencimiento else 0;
      (c.(diasAtraso := d), d)
  }

  /** Recomputing the days late a second time on the same day changes nothing. */
  lemma ActualizarDiasAtrasoIdempotent(c: Cobranza, today: int)
    ensures ActualizarDiasAtraso(ActualizarDiasAtraso(c, today).0, today) == ActualizarDiasAtraso(c, today)
  {
    var once := ActualizarDiasAtraso(c, today);
    assert once.0.estado == c.estado && once.0.fechaVencimiento == c.fechaVencimiento;
  }

  // ---------------------------------------------------------------------
  // Counting over the table
  // ---------------------------------------------------------------------

  /** The number of collections satisfying `keep`. */
  function Count(cobs: Tabla, keep: Cobranza -> bool): (n: nat)
    ensures n <= |cobs|
  {
    if |cobs| == 0 then 0
    else Count(cobs[..|cobs| - 1], keep) + (if keep(cobs[|cobs| - 1]) then 1 else 0)
  }

  /** The UF total of the collections satisfying `keep`. */
  function SumaMonto(cobs: Tabla, keep: Cobranza -> bool): real {
    if |cobs| == 0 then 0.0
    else SumaMonto(cobs[..|cobs| - 1], keep) + (if keep(cobs[|cobs| - 1]) then cobs[|cobs| - 1].montoUf else 0.0)
  }

  /** The days-late total of the collections satisfying `keep`. */
  function SumaDias(cobs: Tabla, keep: Cobranza -> bool): int {
    if |cobs| == 0 then 0
    else SumaDias(cobs[..|cobs| - 1], keep) + (if keep(cobs[|cobs| - 1]) then cobs[|cobs| - 1].diasAtraso else 0)
  }

  lemma {:induction false} CountMono(cobs: Tabla, a: Cobranza -> bool, b: Cobranza -> bool)
    requires forall c :: a(c) ==> b(c)
    ensures Count(cobs, a) <= Count(cobs, b)
  {
    if |cobs| > 0 {
      CountMono(cobs[..|cobs| - 1], a, b);
    }
  }

  /** A row that `b` keeps and `a` does not makes the count strictly larger. */
  lemma {:induction false} CountStrict(cobs: Tabla, a: Cobranza -> bool, b: Cobranza -> bool, i: nat)
    requires forall c :: a(c) ==> b(c)
    requires i < |cobs| && b(cobs[i]) && !a(cobs[i])
    ensures Count(cobs, a) < Count(cobs, b)
  {
    var last := |cobs| - 1;
    if i == last {
      CountMono(cobs[..last], a, b);
    } else {
      assert cobs[..last][i] == cobs[i];
      CountStrict(cobs[..last], a, b, i);
    }
  }

  /** When `u` keeps exactly what one of two exclusive filters keeps, its
      count is the sum of theirs. */
  lemma {:induction false} CountSplit(cobs: Tabla, u: Cobranza -> bool, a: Cobranza -> bool, b: Cobranza -> bool)
    requires forall c :: u(c) <==> a(c) || b(c)
    requires forall c :: !(a(c) && b(c))
    ensures Count(cobs, u) == Count(cobs, a) + Count(cobs, b)
  {
    if |cobs| > 0 {
      CountSplit(cobs[..|cobs| - 1], u, a, b);
    }
  }

  /** Summing days over rows all late by at least one day is positive as soon
      as one row is kept. */
  lemma {:induction false} SumaDiasPositiva(cobs: Tabla, keep: Cobranza -> bool)
    requires forall c :: keep(c) ==> c.diasAtraso > 0
    ensures SumaDias(cobs, keep) >= Count(cobs, keep)
  {
    if |cobs| > 0 {
      SumaDiasPositiva(cobs[..|cobs| - 1], keep);
    }
  }

  /** The positions of the table whose row satisfies `keep`. */
  function Donde(cobs: Tabla, keep: Cobranza -> bool): set<nat> {
    set i: nat | i < |cobs| && keep(cobs[i])
  }

  /** The positions whose row is in state `e`. */
  function EnEstado(cobs: Tabla, e: Estado): set<nat> {
    set i: nat | i < |cobs| && cobs[i].estado == e
  }

  /** The positions of the open rows (PENDIENTE or EN_PROCESO). */
  function Abiertas(cobs: Tabla): set<nat> {
    set i: nat | i < |cobs| && cobs[i].estado.Abierta()
  }

  /** The UF amounts at the positions in `ids` below `n`, added up. */
  function MontoHasta(cobs: Tabla, ids: set<nat>, n: nat): real
    requires n <= |cobs|
  {
    if n == 0 then 0.0
    else MontoHasta(cobs, ids, n - 1) + (if n - 1 in ids then cobs[n - 1].montoUf else 0.0)
  }

  /** The UF amounts at the positions in `ids`, added up. */
  function MontoEn(cobs: Tabla, ids: set<nat>): real {
    MontoHasta(cobs, ids, |cobs|)
  }

  /** The days late at the positions in `ids` below `n`, added up. */
  function DiasHasta(cobs: Tabla, ids: set<nat>, n: nat): int
    requires n <= |cobs|
  {
    if n == 0 then 0
    else DiasHasta(cobs, ids, n - 1) + (if n - 1 in ids then cobs[n - 1].diasAtraso else 0)
  }

  /** The days late at the positions in `ids`, added up. */
  function DiasEn(cobs: Tabla, ids: set<nat>): int {
    DiasHasta(cobs, ids, |cobs|)
  }

  /** Counting rows is taking the size of the set of their positions. */
  lemma {:induction false} CountDonde(cobs: Tabla, keep: Cobranza -> bool)
    ensures Count(cobs, keep) == |Donde(cobs, keep)|
  {
    if |cobs| == 0 {
      assert Donde(cobs, keep) == {};
    } else {
      var n := |cobs| - 1;
      var prev := cobs[..n];
      CountDonde(prev, keep);
      if keep(cobs[n]) {
        assert Donde(cobs, keep) == Donde(prev, keep) + {n};
      } else {
        assert Donde(cobs, keep) == Donde(prev, keep);
      }
    }
  }

  lemma {:induction false} MontoPrefijo(cobs: Tabla, keep: Cobranza -> bool, n: nat)
    requires n <= |cobs|
    ensures SumaMonto(cobs[..n], keep) == MontoHasta(cobs, Donde(cobs, keep), n)
  {
    if n > 0 {
      MontoPrefijo(cobs, keep, n - 1);
      assert cobs[..n][..n - 1] == cobs[..n - 1];
      assert n - 1 in Donde(cobs, keep) <==> keep(cobs[n - 1]);
    }
  }

  /** Summing the amounts of the kept rows is summing over their positions. */
  lemma SumaMontoDonde(cobs: Tabla, keep: Cobranza -> bool)
    ensures SumaMonto(cobs, keep) == MontoEn(cobs, Donde(cobs, keep))
  {
    MontoPrefijo(cobs, keep, |cobs|);
    assert cobs[..|cobs|] == cobs;
  }

  lemma {:induction false} DiasPrefijo(cobs: Tabla, keep: Cobranza -> bool, n: nat)
    requires n <= |cobs|
    ensures SumaDias(cobs[..n], keep) == DiasHasta(cobs, Donde(cobs, keep), n)
  {
    if n > 0 {
      DiasPrefijo(cobs, keep, n - 1);
      assert cobs[..n][..n - 1] == cobs[..n - 1];
      assert n - 1 in Donde(cobs, keep) <==> keep(cobs[n - 1]);
    }
  }

  /** Summing the days late of the kept rows is summing over their positions. */
  lemma SumaDiasDonde(cobs: Tabla, keep: Cobranza -> bool)
    ensures SumaDias(cobs, keep) == DiasEn(cobs, Donde(cobs, keep))
  {
    DiasPrefijo(cobs, keep, |cobs|);
    assert cobs[..|cobs|] == cobs;
  }

  // ---------------------------------------------------------------------
  // Detection of policies that owe a payment
  // ---------------------------------------------------------------------

  /** Some collection of the policy is PAGADA. */
  predicate TienePagada(cobs: Tabla, numero: string) {
    exists i :: 0 <= i < |cobs| && cobs[i].poliza == numero && cobs[i].estado == Pagada
  }

  /** A policy in force today, with a positive amount, without a paid
      collection, and issued at least `dias` days ago. */
  predicate PagoPendiente(p: Polizas.Poliza, cobs: Tabla, today: int, dias: int) {
    && p.fechaInicio <= today <= p.fechaVencimiento
    && p.montoUf > 0.0
    && !TienePagada(cobs, p.numero)
    && p.fechaInicio <= today - dias
  }

  /** A policy already expired, with a positive amount, without a paid
      collection. */
  predicate VencidaSinPago(p: Polizas.Poliza, cobs: Tabla, today: int) {
    p.fechaVencimiento < today && p.montoUf > 0.0 && !TienePagada(cobs, p.numero)
  }

  /** detectar_pagos_pendientes, optionally restricted to one policy. */
  function DetectarPagosPendientes(store: Polizas.PolicyStore, cobs: Tabla, today: int, dias: int, poliza: Option<string>): (s: set<string>)
    ensures s <= store.Keys
    ensures poliza.Some? ==> s <= {poliza.value}
    ensures forall k :: k in s ==> store[k].fechaVencimiento >= today && store[k].fechaInicio <= today - dias
  {
    set k | k in store && PagoPendiente(store[k], cobs, today, dias) && (poliza.None? || k == poliza.value)
  }

  /** detectar_pagos_vencidos. */
  function DetectarPagosVencidos(store: Polizas.PolicyStore, cobs: Tabla, today: int): (s: set<string>)
    ensures s <= store.Keys
    ensures forall k :: k in s ==> store[k].fechaVencimiento < today && store[k].montoUf > 0.0
  {
    set k | k in store && VencidaSinPago(store[k], cobs, today)
  }

  /** No policy is both pending and overdue on the same day, and a policy is
      in one of the two sets exactly when its own conditions say so. */
  lemma DeteccionesDisjuntas(store: Polizas.PolicyStore, cobs: Tabla, today: int, dias: int, poliza: Option<string>)
    ensures DetectarPagosPendientes(store, cobs, today, dias, poliza) * DetectarPagosVencidos(store, cobs, today) == {}
    ensures forall k :: k in DetectarPagosVencidos(store, cobs, today) <==> k in store && VencidaSinPago(store[k], cobs, today)
    ensures forall k :: k in DetectarPagosPendientes(store, cobs, today, dias, None) <==> k in store && PagoPendiente(store[k], cobs, today, dias)
  {
    var pend := DetectarPagosPendientes(store, cobs, today, dias, poliza);
    var venc := DetectarPagosVencidos(store, cobs, today);
    forall k | k in pend
      ensures k !in venc
    {
    }
  }

  // ---------------------------------------------------------------------
  // Collections at risk, and the collections of one client
  // ---------------------------------------------------------------------

  /** The grace period after the due date before an open collection counts
      as at risk. */
  const DiasRiesgo := 15

  /** The clients with some collection, in any state, whose days late is
      positive. */
  function ClientesConAtraso(store: Polizas.PolicyStore, cobs: Tabla): set<string> {
    set i | 0 <= i < |cobs| && cobs[i].diasAtraso > 0 && cobs[i].poliza in store :: store[cobs[i].poliza].cliente
  }

  /** The filter of detectar_cobranzas_en_riesgo: due more than fifteen days
      ago, PENDIENTE or EN_PROCESO, and of a client with a late collection. */
  predicate EnRiesgo(store: Polizas.PolicyStore, cobs: Tabla, today: int, c: Cobranza) {
    && c.fechaVencimiento < today - DiasRiesgo
    && c.estado.Abierta()
    && c.poliza in store
    && store[c.poliza].cliente in ClientesConAtraso(store, cobs)
  }

  /** The positions of the collections satisfying `keep`, ascending. */
  function Indices(cobs: Tabla, keep: Cobranza -> bool): (ids: seq<nat>)
    ensures forall i: nat :: i in ids <==> i < |cobs| && keep(cobs[i])
    ensures forall a, b :: 0 <= a < b < |ids| ==> ids[a] < ids[b]
  {
    if |cobs| == 0 then []
    else
      var prev := cobs[..|cobs| - 1];
      var rest := Indices(prev, keep);
      assert forall i: nat :: i < |prev| ==> prev[i] == cobs[i];
      assert forall a :: 0 <= a < |rest| ==> rest[a] in rest;
      if keep(cobs[|cobs| - 1]) then rest + [|cobs| - 1] else rest
  }

  /** detectar_cobranzas_en_riesgo, as the positions of the rows it returns,
      latest issued first: each one open, overdue by more than the grace
      period and of a client with a late collection; none at all when no
      collection is late. */
  function DetectarCobranzasEnRiesgo(store: Polizas.PolicyStore, cobs: Tabla, today: int): (ids: seq<nat>)
    ensures forall i :: i in ids ==> i < |cobs| && EstaVencida(cobs[i], today)
    ensures forall i :: i in ids ==> DiasVencimiento(cobs[i], today) < -DiasRiesgo
    ensures forall i :: i in ids ==>
              && cobs[i].estado.Abierta()
              && cobs[i].poliza in store
              && store[cobs[i].poliza].cliente in ClientesConAtraso(store, cobs)
    ensures forall a, b :: 0 <= a < b < |ids| ==> ids[a] != ids[b]
    ensures IdsDescendingEmision(cobs, ids)
    ensures (forall i :: 0 <= i < |cobs| ==> cobs[i].diasAtraso <= 0) ==> ids == []
  {
    var ids := Listar(cobs, (c: Cobranza) => EnRiesgo(store, cobs, today, c));
    EnRiesgoListados(store, cobs, today, ids);
    ids
  }

  lemma EnRiesgoListados(store: Polizas.PolicyStore, cobs: Tabla, today: int, ids: seq<nat>)
    requires forall i: nat :: i in ids <==> i < |cobs| && EnRiesgo(store, cobs, today, cobs[i])
    ensures forall i :: i in ids ==> i < |cobs| && EstaVencida(cobs[i], today)
    ensures forall i :: i in ids ==> DiasVencimiento(cobs[i], today) < -DiasRiesgo
    ensures forall i :: i in ids ==>
              && cobs[i].estado.Abierta()
              && cobs[i].poliza in store
              && store[cobs[i].poliza].cliente in ClientesConAtraso(store, cobs)
    ensures (forall i :: 0 <= i < |cobs| ==> cobs[i].diasAtraso <= 0) ==> ids == []
  {
    SinAtrasoSinClientes(store, cobs);
    assert forall a :: 0 <= a < |ids| ==> ids[a] in ids;
    assert |ids| > 0 ==> EnRiesgo(store, cobs, today, cobs[ids[0]]);
  }

  /** Every open collection of a stored policy, more than fifteen days
      overdue and of a client with a late collection, is reported. */
  lemma EnRiesgoCompleto(store: Polizas.PolicyStore, cobs: Tabla, today: int, i: nat)
    requires i < |cobs| && cobs[i].estado.Abierta()
    requires cobs[i].fechaVencimiento < today - DiasRiesgo
    requires cobs[i].poliza in store && store[cobs[i].poliza].cliente in ClientesConAtraso(store, cobs)
    ensures i in DetectarCobranzasEnRiesgo(store, cobs, today)
  {
    assert EnRiesgo(store, cobs, today, cobs[i]);
  }

  lemma SinAtrasoSinClientes(store: Polizas.PolicyStore, cobs: Tabla)
    ensures (forall i :: 0 <= i < |cobs| ==> cobs[i].diasAtraso <= 0) ==> ClientesConAtraso(store, cobs) == {}
  {
  }

  /** An open collection of a stored policy, more than fifteen days overdue
      and itself late, is always reported: its client has a late collection. */
  lemma EnRiesgoPorAtrasoPropio(store: Polizas.PolicyStore, cobs: Tabla, today: int, i: nat)
    requires i < |cobs| && cobs[i].poliza in store
    requires cobs[i].estado.Abierta() && cobs[i].diasAtraso > 0
    requires cobs[i].fechaVencimiento < today - DiasRiesgo
    ensures i in DetectarCobranzasEnRiesgo(store, cobs, today)
  {
    assert store[cobs[i].poliza].cliente in ClientesConAtraso(store, cobs);
  }

  /** The collections of the client, in table order. */
  function DelCliente(store: Polizas.PolicyStore, cobs: Tabla, cliente: string): (r: Tabla)
    ensures forall c :: c in r <==> c in cobs && c.poliza in store && store[c.poliza].cliente == cliente
    ensures forall c :: c in r ==> multiset(r)[c] == multiset(cobs)[c]
  {
    if |cobs| == 0 then []
    else
      var init := cobs[..|cobs| - 1];
      var last := cobs[|cobs| - 1];
      assert cobs == init + [last];
      var r := DelCliente(store, init, cliente);
      assert forall c :: c in cobs <==> c in init || c == last;
      if last.poliza in store && store[last.poliza].cliente == cliente then r + [last] else r
  }

  predicate DescendingEmision(cobs: Tabla) {
    forall i, j :: 0 <= i < j < |cobs| ==> cobs[i].fechaEmision >= cobs[j].fechaEmision
  }

  /** Insert a collection after every collection issued no earlier. */
  function InsertEmision(x: Cobranza, s: Tabla): (r: Tabla)
    ensures multiset(r) == multiset(s) + multiset{x}
    ensures forall y :: y in r <==> y == x || y in s
  {
    if |s| == 0 then [x]
    else if x.fechaEmision > s[0].fechaEmision then [x] + s
    else
      assert s == [s[0]] + s[1..];
      [s[0]] + InsertEmision(x, s[1..])
  }

  lemma {:induction false} InsertEmisionDescending(x: Cobranza, s: Tabla)
    requires DescendingEmision(s)
    ensures DescendingEmision(InsertEmision(x, s))
  {
    if |s| > 0 && x.fechaEmision <= s[0].fechaEmision {
      var t := InsertEmision(x, s[1..]);
      InsertEmisionDescending(x, s[1..]);
      forall k | 0 <= k < |t|
        ensures s[0].fechaEmision >= t[k].fechaEmision
      {
        assert t[k] in t;
        if t[k] != x {
          var i :| 0 <= i < |s[1..]| && s[1..][i] == t[k];
          assert s[i + 1] == t[k];
        }
      }
    }
  }

  /** order_by('-fecha_emision'), as a stable insertion sort. */
  function SortByEmision(s: Tabla): (r: Tabla)
    ensures multiset(r) == multiset(s)
    ensures forall y :: y in r <==> y in s
    ensures DescendingEmision(r)
  {
    if |s| == 0 then []
    else
      assert s == s[..|s| - 1] + [s[|s| - 1]];
      assert forall y :: y in s <==> y == s[|s| - 1] || y in s[..|s| - 1];
      var r := SortByEmision(s[..|s| - 1]);
      InsertEmisionDescending(s[|s| - 1], r);
      InsertEmision(s[|s| - 1], r)
  }

  /** obtener_cobranzas_por_cliente: every collection of the client's
      policies, each as often as in the table, latest issued first. */
  function ObtenerCobranzasPorCliente(store: Polizas.PolicyStore, cobs: Tabla, cliente: string): (r: Tabla)
    ensures forall c :: c in r <==> c in cobs && c.poliza in store && store[c.poliza].cliente == cliente
    ensures forall c :: c in r ==> multiset(r)[c] == multiset(cobs)[c]
    ensures DescendingEmision(r)
  {
    SortByEmision(DelCliente(store, cobs, cliente))
  }

  // ---------------------------------------------------------------------
  // Creation from a policy
  // ---------------------------------------------------------------------

  /** The lookup of get_or_create: same policy, same kind, PENDIENTE. */
  predicate Coincide(c: Cobranza, numero: string, tipo: Tipo) {
    c.poliza == numero && c.tipo == tipo && c.estado == Pendiente
  }

  predicate Existe(cobs: Tabla, numero: string, tipo: Tipo) {
    exists i :: 0 <= i < |cobs| && Coincide(cobs[i], numero, tipo)
  }

  /** The number of rows the lookup finds. */
  function Coincidencias(cobs: Tabla, numero: string, tipo: Tipo): (n: nat)
    ensures n > 0 <==> Existe(cobs, numero, tipo)
  {
    if |cobs| == 0 then 0
    else
      var prev := cobs[..|cobs| - 1];
      var n := Coincidencias(prev, numero, tipo) + (if Coincide(cobs[|cobs| - 1], numero, tipo) then 1 else 0);
      assert Existe(prev, numero, tipo) ==> Existe(cobs, numero, tipo) by {
        if Existe(prev, numero, tipo) {
          var i :| 0 <= i < |prev| && Coincide(prev[i], numero, tipo);
          assert cobs[i] == prev[i];
        }
      }
      assert Existe(cobs, numero, tipo) ==> n > 0 by {
        if Existe(cobs, numero, tipo) && !Coincide(cobs[|cobs| - 1], numero, tipo) {
          var i :| 0 <= i < |cobs| && Coincide(cobs[i], numero, tipo);
          assert prev[i] == cobs[i];
        }
      }
      n
  }

  /** The first row the lookup finds. */
  function Primera(cobs: Tabla, numero: string, tipo: Tipo): (r: Option<nat>)
    ensures r.Some? <==> Existe(cobs, numero, tipo)
    ensures r.Some? ==> r.value < |cobs| && Coincide(cobs[r.value], numero, tipo)
  {
    if |cobs| == 0 then None
    else
      var prev := cobs[..|cobs| - 1];
      var p := Primera(prev, numero, tipo);
      assert Coincidencias(cobs, numero, tipo) > 0 <==> Coincidencias(prev, numero, tipo) > 0 || Coincide(cobs[|cobs| - 1], numero, tipo);
      if p.Some? then
        assert cobs[p.value] == prev[p.value];
        p
      else if Coincide(cobs[|cobs| - 1], numero, tipo) then Some(|cobs| - 1)
      else None
  }

  /** The defaults a created collection gets from its policy. */
  predicate Emitida(c: Cobranza, p: Polizas.Poliza, tipo: Tipo, campo: string, today: int) {
    && Coincide(c, p.numero, tipo)
    && c.montoUf == p.montoUf
    && c.montoPesos.None?
    && c.fechaEmision == today
    && c.fechaVencimiento == p.fechaInicio + PlazoDias
    && c.fuenteEtl
    && c.campoPagoPendiente == campo
  }

  /** The payment term, counted from the policy's start. */
  const PlazoDias := 30

  /** The outcome of get_or_create: the row found or created, or the
      exception raised when the lookup finds more than one row. */
  datatype Creacion = Hecha(tabla: Tabla, id: nat, creada: bool) | MultiplesObjetos

  /** crear_cobranza_desde_poliza. */
  function CrearCobranzaDesdePoliza(cobs: Tabla, p: Polizas.Poliza, tipo: Tipo, campo: string, today: int): (r: Creacion)
    ensures !Existe(cobs, p.numero, tipo) ==>
              && r.Hecha? && r.creada && r.id == |cobs| && |r.tabla| == |cobs| + 1
              && r.tabla[..|cobs|] == cobs && Emitida(r.tabla[|cobs|], p, tipo, campo, today)
    ensures Coincidencias(cobs, p.numero, tipo) == 1 ==> r.Hecha? && !r.creada && r.tabla == cobs
    ensures Coincidencias(cobs, p.numero, tipo) > 1 <==> r.MultiplesObjetos?
    ensures r.Hecha? ==> r.id < |r.tabla| && Coincide(r.tabla[r.id], p.numero, tipo)
  {
    var first := Primera(cobs, p.numero, tipo);
    if first.None? then
      var c := Cobranza(p.numero, p.montoUf, None, None, today, p.fechaInicio + PlazoDias, None, 0,
                        Pendiente, tipo, None, "", true, campo, false, "", "");
      assert (cobs + [c])[..|cobs|] == cobs;
      Hecha(cobs + [c], |cobs|, true)
    else if Coincidencias(cobs, p.numero, tipo) == 1 then Hecha(cobs, first.value, false)
    else MultiplesObjetos
  }

  /** Appending one row counts it once more when it matches. */
  lemma CoincidenciasAppend(cobs: Tabla, c: Cobranza, numero: string, tipo: Tipo)
    ensures Coincidencias(cobs + [c], numero, tipo) == Coincidencias(cobs, numero, tipo) + (if Coincide(c, numero, tipo) then 1 else 0)
  {
    assert (cobs + [c])[..|cobs|] == cobs;
  }

  /** Asking twice for the same policy and kind returns, the second time,
      the row of the first call, with the table unchanged and `created`
      false, whatever origin field and date the second call passes. */
  lemma CrearCobranzaIdempotente(cobs: Tabla, p: Polizas.Poliza, tipo: Tipo, campo: string, today: int, campo2: string, today2: int)
    requires CrearCobranzaDesdePoliza(cobs, p, tipo, campo, today).Hecha?
    ensures var r := CrearCobranzaDesdePoliza(cobs, p, tipo, campo, today);
            CrearCobranzaDesdePoliza(r.tabla, p, tipo, campo2, today2) == Hecha(r.tabla, r.id, false)
  {
    var r := CrearCobranzaDesdePoliza(cobs, p, tipo, campo, today);
    if r.creada {
      var c := r.tabla[|cobs|];
      assert r.tabla == cobs + [c];
      assert !Existe(cobs, p.numero, tipo);
      Appended(cobs, c, p.numero, tipo);
    } else {
      assert Coincidencias(cobs, p.numero, tipo) == 1 && r.tabla == cobs;
      UnicaEsPrimera(cobs, p.numero, tipo, r.id);
    }
  }

  /** Appending a matching row to a table without one makes it the only,
      and so the first, match. */
  lemma Appended(cobs: Tabla, c: Cobranza, numero: string, tipo: Tipo)
    requires !Existe(cobs, numero, tipo) && Coincide(c, numero, tipo)
    ensures Coincidencias(cobs + [c], numero, tipo) == 1
    ensures Primera(cobs + [c], numero, tipo) == Some(|cobs|)
  {
    CoincidenciasAppend(cobs, c, numero, tipo);
    assert (cobs + [c])[..|cobs|] == cobs;
  }

  /** With a single match, any matching row is the first one. */
  lemma UnicaEsPrimera(cobs: Tabla, numero: string, tipo: Tipo, id: nat)
    requires Coincidencias(cobs, numero, tipo) == 1
    requires id < |cobs| && Coincide(cobs[id], numero, tipo)
    ensures Primera(cobs, numero, tipo) == Some(id)
  {
    var f := Primera(cobs, numero, tipo).value;
    if f != id {
      TwoMatches(cobs, numero, tipo, f, id);
    }
  }

  /** Two distinct matching rows make at least two matches. */
  lemma {:induction false} TwoMatches(cobs: Tabla, numero: string, tipo: Tipo, i: nat, j: nat)
    requires i < |cobs| && j < |cobs| && i != j
    requires Coincide(cobs[i], numero, tipo) && Coincide(cobs[j], numero, tipo)
    ensures Coincidencias(cobs, numero, tipo) >= 2
  {
    var last := |cobs| - 1;
    var prev := cobs[..last];
    if i == last {
      assert prev[j] == cobs[j];
      assert Existe(prev, numero, tipo);
    } else if j == last {
      assert prev[i] == cobs[i];
      assert Existe(prev, numero, tipo);
    } else {
      assert prev[i] == cobs[i] && prev[j] == cobs[j];
      TwoMatches(prev, numero, tipo, i, j);
    }
  }

  /** A match survives any extension of the table. */
  lemma ExistePrefix(a: Tabla, b: Tabla, numero: string, tipo: Tipo)
    requires a <= b && Existe(a, numero, tipo)
    ensures Existe(b, numero, tipo)
  {
    var i :| 0 <= i < |a| && Coincide(a[i], numero, tipo);
    assert b[i] == a[i];
  }

  // ---------------------------------------------------------------------
  // Creation from an import run
  // ---------------------------------------------------------------------

  /** The kind of collection a policy gets: overdue once its own due date has
      passed, current otherwise. */
  function TipoPara(p: Polizas.Poliza, today: int): (t: Tipo)
    ensures t == PagoVencido <==> p.fechaVencimiento < today
    ensures t != RiesgoFinanciero
  {
    if p.fechaVencimiento < today then PagoVencido else PagoVigente
  }

  /** The origin field the import run records. */
  const CampoEtl := "DETECCION_ETL"

  datatype Conteo = Conteo(creadas: nat, duplicadas: nat, errores: nat)

  /** crear_cobranzas_desde_etl over the given policies, in order. A lookup
      that finds several rows is the exception the loop counts as an error. */
  function CrearCobranzasDesdeEtl(cobs: Tabla, ps: seq<Polizas.Poliza>, today: int): (r: (Tabla, Conteo))
    ensures r.1.creadas + r.1.duplicadas + r.1.errores == |ps|
    ensures cobs <= r.0 && |r.0| == |cobs| + r.1.creadas
    decreases |ps|
  {
    if |ps| == 0 then (cobs, Conteo(0, 0, 0))
    else
      var paso := CrearCobranzaDesdePoliza(cobs, ps[0], TipoPara(ps[0], today), CampoEtl, today);
      var tabla := if paso.Hecha? then paso.tabla else cobs;
      assert cobs <= tabla && |tabla| == |cobs| + (if paso.Hecha? && paso.creada then 1 else 0);
      var resto := CrearCobranzasDesdeEtl(tabla, ps[1..], today);
      var c := resto.1;
      var cuenta :=
        if paso.MultiplesObjetos? then c.(errores := c.errores + 1)
        else if paso.creada then c.(creadas := c.creadas + 1)
        else c.(duplicadas := c.duplicadas + 1);
      (resto.0, cuenta)
  }

  /** After a run every listed policy has a pending collection of its kind. */
  lemma {:induction false} CrearCobranzasDesdeEtlCovers(cobs: Tabla, ps: seq<Polizas.Poliza>, today: int)
    ensures var r := CrearCobranzasDesdeEtl(cobs, ps, today);
            forall i :: 0 <= i < |ps| ==> Existe(r.0, ps[i].numero, TipoPara(ps[i], today))
    decreases |ps|
  {
    if |ps| > 0 {
      var r := CrearCobranzasDesdeEtl(cobs, ps, today);
      var p := ps[0];
      var tipo := TipoPara(p, today);
      var paso := CrearCobranzaDesdePoliza(cobs, p, tipo, CampoEtl, today);
      var tabla := if paso.Hecha? then paso.tabla else cobs;
      CrearCobranzasDesdeEtlCovers(tabla, ps[1..], today);
      assert Existe(tabla, p.numero, tipo) by {
        if paso.Hecha? {
          assert Coincide(tabla[paso.id], p.numero, tipo);
        } else {
          assert Coincidencias(cobs, p.numero, tipo) > 1;
        }
      }
      ExistePrefix(tabla, r.0, p.numero, tipo);
      forall i | 0 <= i < |ps|
        ensures Existe(r.0, ps[i].numero, TipoPara(ps[i], today))
      {
        if i > 0 {
          assert ps[i] == ps[1..][i - 1];
        }
      }
    }
  }

  /** When every listed policy already has a matching collection, a run
      creates nothing and leaves the table as it was. */
  lemma {:induction false} CrearCobranzasDesdeEtlCovered(cobs: Tabla, ps: seq<Polizas.Poliza>, today: int)
    requires forall i :: 0 <= i < |ps| ==> Existe(cobs, ps[i].numero, TipoPara(ps[i], today))
    ensures CrearCobranzasDesdeEtl(cobs, ps, today).0 == cobs
    ensures CrearCobranzasDesdeEtl(cobs, ps, today).1.creadas == 0
    decreases |ps|
  {
    if |ps| > 0 {
      var p := ps[0];
      assert Existe(cobs, p.numero, TipoPara(p, today));
      var paso := CrearCobranzaDesdePoliza(cobs, p, TipoPara(p, today), CampoEtl, today);
      assert paso.Hecha? ==> paso.tabla == cobs && !paso.creada;
      forall i | 0 <= i < |ps[1..]|
        ensures Existe(cobs, ps[1..][i].numero, TipoPara(ps[1..][i], today))
      {
        assert ps[1..][i] == ps[i + 1];
      }
      CrearCobranzasDesdeEtlCovered(cobs, ps[1..], today);
    }
  }

  /** Running the import creation twice on the same day: the second run
      creates nothing and leaves the table of the first. */
  lemma CrearCobranzasDesdeEtlTwice(cobs: Tabla, ps: seq<Polizas.Poliza>, today: int)
    ensures var once := CrearCobranzasDesdeEtl(cobs, ps, today).0;
            CrearCobranzasDesdeEtl(once, ps, today).0 == once && CrearCobranzasDesdeEtl(once, ps, today).1.creadas == 0
  {
    CrearCobranzasDesdeEtlCovers(cobs, ps, today);
    CrearCobranzasDesdeEtlCovered(CrearCobranzasDesdeEtl(cobs, ps, today).0, ps, today);
  }

  /** With the default list (the pending detection) every collection an
      import creates is of kind PAGO_VIGENTE. */
  lemma PendientesSonVigentes(store: Polizas.PolicyStore, cobs: Tabla, today: int, dias: int, k: string)
    requires k in DetectarPagosPendientes(store, cobs, today, dias, None)
    ensures TipoPara(store[k], today) == PagoVigente
  {
  }

  // ---------------------------------------------------------------------
  // Payment and financial alerts
  // ---------------------------------------------------------------------

  const NoExiste := "Cobranza matching query does not exist."

  /** marcar_como_pagada. */
  function MarcarComoPagada(cobs: Tabla, id: nat, metodo: string, documento: string, today: int): (r: Result<Tabla>)
    ensures r.Ok? <==> id < |cobs|
    ensures r.Err? ==> r.msg == NoExiste
    ensures r.Ok? ==> |r.value| == |cobs| && forall j :: 0 <= j < |cobs| && j != id ==> r.value[j] == cobs[j]
    ensures r.Ok? ==> var c := r.value[id];
              && c.estado == Pagada && c.fechaPago == Some(today) && c.diasAtraso == 0
              && c.metodoPago == Some(metodo) && c.numeroDocumento == documento
              && c.poliza == cobs[id].poliza && c.montoUf == cobs[id].montoUf && c.tipo == cobs[id].tipo
  {
    if id < |cobs| then
      var c := cobs[id].(estado := Pagada, fechaPago := Some(today), metodoPago := Some(metodo),
                         numeroDocumento := documento, diasAtraso := 0);
      Ok(cobs[id := c])
    else Err(NoExiste)
  }

  /** Once a collection is paid it is never overdue, its days late stay 0,
      and its policy leaves both detections. */
  lemma PagadaSaleDeDetecciones(store: Polizas.PolicyStore, cobs: Tabla, id: nat, metodo: string, documento: string,
                                today: int, later: int, dias: int)
    requires Polizas.Keyed(store) && id < |cobs|
    ensures var t := MarcarComoPagada(cobs, id, metodo, documento, today).value;
            && !EstaVencida(t[id], later)
            && ActualizarDiasAtraso(t[id], later).1 == 0
            && cobs[id].poliza !in DetectarPagosPendientes(store, t, later, dias, None)
            && cobs[id].poliza !in DetectarPagosVencidos(store, t, later)
  {
    var t := MarcarComoPagada(cobs, id, metodo, documento, today).value;
    var k := cobs[id].poliza;
    assert t[id].poliza == k && t[id].estado == Pagada;
    assert TienePagada(t, k);
    if k in store {
      assert !PagoPendiente(store[k], t, later, dias);
      assert !VencidaSinPago(store[k], t, later);
    }
  }

  /** generar_alerta_financiera: sets the flag, the reason and the kind
      RIESGO_FINANCIERO; the state is untouched. */
  function GenerarAlertaFinanciera(cobs: Tabla, id: nat, razon: string): (r: Result<Tabla>)
    ensures r.Ok? <==> id < |cobs|
    ensures r.Ok? ==> |r.value| == |cobs| && forall j :: 0 <= j < |cobs| && j != id ==> r.value[j] == cobs[j]
    ensures r.Ok? ==> var c := r.value[id];
              && c.tieneAlertaFinanciera && c.razonAlerta == razon && c.tipo == RiesgoFinanciero
              && c.estado == cobs[id].estado && c.fechaVencimiento == cobs[id].fechaVencimiento
              && forall today :: EsDeRiesgo(c, today)
  {
    if id < |cobs| then
      Ok(cobs[id := cobs[id].(tieneAlertaFinanciera := true, razonAlerta := razon, tipo := RiesgoFinanciero)])
    else Err(NoExiste)
  }

  // ---------------------------------------------------------------------
  // Statistics
  // ---------------------------------------------------------------------

  /** The open collections past their due date. */
  predicate VencidaAbierta(c: Cobranza, today: int) {
    c.estado.Abierta() && c.fechaVencimiento < today
  }

  datatype Estadisticas = Estadisticas(
    total: nat, pendientes: nat, enProceso: nat, pagadas: nat, vencidas: nat, enRiesgo: nat,
    montoTotalPendiente: real, promedioDiasAtraso: real)

  /** The mean of `n` values adding up to `total`; 0 for no values. */
  function Media(total: int, n: nat): (m: real)
    ensures n == 0 ==> m == 0.0
    ensures n > 0 ==> m * n as real == total as real
    ensures n > 0 && total > 0 ==> m > 0.0
  {
    if n == 0 then 0.0
    else
      var q := total as real / n as real;
      assert q * n as real == total as real;
      q
  }

  /** The positions of the open rows past their due date. */
  function VencidasAbiertas(cobs: Tabla, today: int): set<nat> {
    set i: nat | i < |cobs| && VencidaAbierta(cobs[i], today)
  }

  /** The positions of the open rows carrying a financial alert. */
  function ConAlerta(cobs: Tabla): set<nat> {
    set i: nat | i < |cobs| && cobs[i].tieneAlertaFinanciera && cobs[i].estado.Abierta()
  }

  /** The positions of the open rows at least one day late. */
  function Atrasadas(cobs: Tabla): set<nat> {
    set i: nat | i < |cobs| && cobs[i].estado.Abierta() && cobs[i].diasAtraso > 0
  }

  /** obtener_estadisticas_cobranzas. Each count is the size of the set of
      rows it filters; the open amount is the sum over the open rows; the
      average is the mean days late of the late open rows, 0 when none. */
  function ObtenerEstadisticas(cobs: Tabla, today: int): (s: Estadisticas)
    ensures s.total == |cobs|
    ensures s.pendientes == |EnEstado(cobs, Pendiente)|
    ensures s.enProceso == |EnEstado(cobs, EnProceso)|
    ensures s.pagadas == |EnEstado(cobs, Pagada)|
    ensures s.vencidas == Count(cobs, (c: Cobranza) => VencidaAbierta(c, today))
    ensures s.vencidas == |VencidasAbiertas(cobs, today)|
    ensures s.enRiesgo == |ConAlerta(cobs)|
    ensures s.montoTotalPendiente == MontoEn(cobs, Abiertas(cobs))
    ensures s.promedioDiasAtraso == Media(DiasEn(cobs, Atrasadas(cobs)), |Atrasadas(cobs)|)
    ensures s.promedioDiasAtraso == 0.0 <==> |Atrasadas(cobs)| == 0
    ensures s.promedioDiasAtraso == 0.0 <==> Count(cobs, (c: Cobranza) => c.estado.Abierta() && c.diasAtraso > 0) == 0
  {
    var atrasada := (c: Cobranza) => c.estado.Abierta() && c.diasAtraso > 0;
    var atrasadas := Count(cobs, atrasada);
    SumaDiasPositiva(cobs, atrasada);
    EstadisticasPorPosiciones(cobs, today);
    var promedio := Media(SumaDias(cobs, atrasada), atrasadas);
    Estadisticas(
      |cobs|,
      Count(cobs, (c: Cobranza) => c.estado == Pendiente),
      Count(cobs, (c: Cobranza) => c.estado == EnProceso),
      Count(cobs, (c: Cobranza) => c.estado == Pagada),
      Count(cobs, (c: Cobranza) => VencidaAbierta(c, today)),
      Count(cobs, (c: Cobranza) => c.tieneAlertaFinanciera && c.estado.Abierta()),
      SumaMonto(cobs, (c: Cobranza) => c.estado.Abierta()),
      promedio)
  }

  /** The filters of the statistics, read as sets of positions. */
  lemma EstadisticasPorPosiciones(cobs: Tabla, today: int)
    ensures Count(cobs, (c: Cobranza) => c.estado == Pendiente) == |EnEstado(cobs, Pendiente)|
    ensures Count(cobs, (c: Cobranza) => c.estado == EnProceso) == |EnEstado(cobs, EnProceso)|
    ensures Count(cobs, (c: Cobranza) => c.estado == Pagada) == |EnEstado(cobs, Pagada)|
    ensures Count(cobs, (c: Cobranza) => VencidaAbierta(c, today)) == |VencidasAbiertas(cobs, today)|
    ensures Count(cobs, (c: Cobranza) => c.tieneAlertaFinanciera && c.estado.Abierta()) == |ConAlerta(cobs)|
    ensures SumaMonto(cobs, (c: Cobranza) => c.estado.Abierta()) == MontoEn(cobs, Abiertas(cobs))
    ensures Count(cobs, (c: Cobranza) => c.estado.Abierta() && c.diasAtraso > 0) == |Atrasadas(cobs)|
    ensures SumaDias(cobs, (c: Cobranza) => c.estado.Abierta() && c.diasAtraso > 0) == DiasEn(cobs, Atrasadas(cobs))
  {
    EstadoPorPosiciones(cobs, Pendiente);
    EstadoPorPosiciones(cobs, EnProceso);
    EstadoPorPosiciones(cobs, Pagada);
    var v := (c: Cobranza) => VencidaAbierta(c, today);
    CountDonde(cobs, v);
    assert Donde(cobs, v) == VencidasAbiertas(cobs, today);
    var r := (c: Cobranza) => c.tieneAlertaFinanciera && c.estado.Abierta();
    CountDonde(cobs, r);
    assert Donde(cobs, r) == ConAlerta(cobs);
    var ab := (c: Cobranza) => c.estado.Abierta();
    SumaMontoDonde(cobs, ab);
    assert Donde(cobs, ab) == Abiertas(cobs);
    var at := (c: Cobranza) => c.estado.Abierta() && c.diasAtraso > 0;
    CountDonde(cobs, at);
    SumaDiasDonde(cobs, at);
    assert Donde(cobs, at) == Atrasadas(cobs);
  }

  /** Counting and summing the rows in one state, read over their positions. */
  lemma EstadoPorPosiciones(cobs: Tabla, e: Estado)
    ensures Count(cobs, (c: Cobranza) => c.estado == e) == |EnEstado(cobs, e)|
    ensures SumaMonto(cobs, (c: Cobranza) => c.estado == e) == MontoEn(cobs, EnEstado(cobs, e))
  {
    var k := (c: Cobranza) => c.estado == e;
    CountDonde(cobs, k);
    SumaMontoDonde(cobs, k);
    assert Donde(cobs, k) == EnEstado(cobs, e);
  }

  /** The overdue and at-risk counts are among the open ones, and the open
      and paid counts together do not exceed the total. */
  lemma EstadisticasCoherentes(cobs: Tabla, today: int)
    ensures var s := ObtenerEstadisticas(cobs, today);
            && s.vencidas <= s.pendientes + s.enProceso
            && s.enRiesgo <= s.pendientes + s.enProceso
            && s.pendientes + s.enProceso + s.pagadas <= s.total
  {
    var abierta := (c: Cobranza) => c.estado.Abierta();
    var pend := (c: Cobranza) => c.estado == Pendiente;
    var proc := (c: Cobranza) => c.estado == EnProceso;
    var pag := (c: Cobranza) => c.estado == Pagada;
    var abiertaOPagada := (c: Cobranza) => c.estado.Abierta() || c.estado == Pagada;
    CountSplit(cobs, abierta, pend, proc);
    CountMono(cobs, (c: Cobranza) => VencidaAbierta(c, today), abierta);
    CountMono(cobs, (c: Cobranza) => c.tieneAlertaFinanciera && c.estado.Abierta(), abierta);
    CountSplit(cobs, abiertaOPagada, abierta, pag);
  }

  /** Positions of the table, latest issued first. */
  predicate IdsDescendingEmision(cobs: Tabla, ids: seq<nat>) {
    forall a, b :: 0 <= a < b < |ids| && ids[b] < |cobs| ==>
      ids[a] < |cobs| && cobs[ids[a]].fechaEmision >= cobs[ids[b]].fechaEmision
  }

  /** Insert a position after every position issued no earlier. */
  function InsertId(cobs: Tabla, x: nat, s: seq<nat>): (r: seq<nat>)
    requires x < |cobs| && forall k :: 0 <= k < |s| ==> s[k] < |cobs|
    ensures multiset(r) == multiset(s) + multiset{x}
    ensures forall y :: y in r <==> y == x || y in s
    ensures forall k :: 0 <= k < |r| ==> r[k] < |cobs|
  {
    if |s| == 0 then [x]
    else if cobs[x].fechaEmision > cobs[s[0]].fechaEmision then [x] + s
    else
      assert s == [s[0]] + s[1..];
      [s[0]] + InsertId(cobs, x, s[1..])
  }

  lemma {:induction false} InsertIdDescending(cobs: Tabla, x: nat, s: seq<nat>)
    requires x < |cobs| && forall k :: 0 <= k < |s| ==> s[k] < |cobs|
    requires IdsDescendingEmision(cobs, s)
    ensures IdsDescendingEmision(cobs, InsertId(cobs, x, s))
  {
    if |s| > 0 && cobs[x].fechaEmision <= cobs[s[0]].fechaEmision {
      var t := InsertId(cobs, x, s[1..]);
      InsertIdDescending(cobs, x, s[1..]);
      forall k | 0 <= k < |t|
        ensures cobs[s[0]].fechaEmision >= cobs[t[k]].fechaEmision
      {
        assert t[k] in t;
        if t[k] != x {
          var i :| 0 <= i < |s[1..]| && s[1..][i] == t[k];
          assert s[i + 1] == t[k];
        }
      }
    }
  }

  /** order_by('-fecha_emision') on positions, as a stable insertion sort. */
  function SortIdsByEmision(cobs: Tabla, ids: seq<nat>): (r: seq<nat>)
    requires forall k :: 0 <= k < |ids| ==> ids[k] < |cobs|
    ensures multiset(r) == multiset(ids)
    ensures forall k :: 0 <= k < |r| ==> r[k] < |cobs|
    ensures IdsDescendingEmision(cobs, r)
  {
    if |ids| == 0 then []
    else
      var init := ids[..|ids| - 1];
      assert ids == init + [ids[|ids| - 1]];
      var r := SortIdsByEmision(cobs, init);
      InsertIdDescending(cobs, ids[|ids| - 1], r);
      InsertId(cobs, ids[|ids| - 1], r)
  }

  /** The positions of the collections satisfying `keep`, latest issued first;
      as many as the collections counted. */
  function Listar(cobs: Tabla, keep: Cobranza -> bool): (ids: seq<nat>)
    ensures forall i: nat :: i in ids <==> i < |cobs| && keep(cobs[i])
    ensures |ids| == Count(cobs, keep)
    ensures forall a, b :: 0 <= a < b < |ids| ==> ids[a] != ids[b]
    ensures IdsDescendingEmision(cobs, ids)
  {
    var ks := Indices(cobs, keep);
    IndicesCount(cobs, keep);
    assert forall k :: 0 <= k < |ks| ==> ks[k] in ks;
    var r := SortIdsByEmision(cobs, ks);
    assert forall i: nat :: i in r <==> i in multiset(r);
    assert forall i: nat :: i in ks <==> i in multiset(ks);
    assert |r| == |multiset(r)| == |multiset(ks)| == |ks|;
    AscendingOnce(ks);
    OnceDistinct(r);
    r
  }

  /** A strictly ascending sequence holds each value at most once. */
  lemma {:induction false} AscendingOnce(s: seq<nat>)
    requires forall a, b :: 0 <= a < b < |s| ==> s[a] < s[b]
    ensures forall x :: multiset(s)[x] <= 1
  {
    if |s| > 0 {
      var init := s[..|s| - 1];
      AscendingOnce(init);
      assert s == init + [s[|s| - 1]];
      assert forall k :: 0 <= k < |init| ==> init[k] < s[|s| - 1];
      assert s[|s| - 1] !in init;
    }
  }

  /** A sequence holding each value at most once repeats no value. */
  lemma OnceDistinct(s: seq<nat>)
    requires forall x :: multiset(s)[x] <= 1
    ensures forall a, b :: 0 <= a < b < |s| ==> s[a] != s[b]
  {
    forall a, b | 0 <= a < b < |s| ensures s[a] != s[b] {
      assert s == s[..a] + [s[a]] + s[a + 1..b] + [s[b]] + s[b + 1..];
      assert multiset(s)[s[a]] >= 1 + multiset{s[b]}[s[a]];
    }
  }

  /** The list action `vencidas`: the ids of the overdue collections, latest
      issued first. */
  function ListarVencidas(cobs: Tabla, today: int): (ids: seq<nat>)
    ensures forall i: nat :: i in ids <==> i < |cobs| && EstaVencida(cobs[i], today)
    ensures |ids| == Count(cobs, (c: Cobranza) => EstaVencida(c, today))
    ensures IdsDescendingEmision(cobs, ids)
  {
    Listar(cobs, (c: Cobranza) => EstaVencida(c, today))
  }

  /** Every listed overdue collection gets a positive days-late value when
      recomputed the same day. */
  lemma VencidasTienenAtraso(cobs: Tabla, today: int, i: nat)
    requires i in ListarVencidas(cobs, today)
    ensures ActualizarDiasAtraso(cobs[i], today).1 > 0
    ensures ActualizarDiasAtraso(cobs[i], today).1 == today - cobs[i].fechaVencimiento
  {
  }

  /** The list action `pendientes`: the PENDIENTE collections, latest issued
      first; as many as the statistics count. */
  function ListarPendientes(cobs: Tabla, today: int): (ids: seq<nat>)
    ensures forall i: nat :: i in ids <==> i < |cobs| && cobs[i].estado == Pendiente
    ensures |ids| == ObtenerEstadisticas(cobs, today).pendientes
    ensures IdsDescendingEmision(cobs, ids)
  {
    Listar(cobs, (c: Cobranza) => c.estado == Pendiente)
  }

  lemma {:induction false} IndicesCount(cobs: Tabla, keep: Cobranza -> bool)
    ensures |Indices(cobs, keep)| == Count(cobs, keep)
  {
    if |cobs| > 0 {
      IndicesCount(cobs[..|cobs| - 1], keep);
    }
  }

  /** The answer of a list action: the HTTP status and the positions listed. */
  datatype Lista = Lista(status: nat, ids: seq<nat>)

  /** The PENDIENTE collections due between today and `dias` days on. */
  predicate PorVencerEn(c: Cobranza, today: int, dias: int) {
    today <= c.fechaVencimiento <= today + dias && c.estado == Pendiente
  }

  /** The list action `por_vencer` as intended: the pending collections due
      within the next `dias` days, none of them overdue. `dias` is the query
      parameter after `int()`, 7 when the request gives none; None when it
      is not an integer, which is a server error. */
  function PorVencer(cobs: Tabla, today: int, dias: Option<int>): (r: Lista)
    ensures r.status == 200 <==> dias.Some?
    ensures dias.None? ==> r.status == 500 && r.ids == []
    ensures forall i :: i in r.ids ==>
              i < |cobs| && cobs[i].estado == Pendiente && 0 <= DiasVencimiento(cobs[i], today) <= dias.value
    ensures forall i :: i in r.ids ==> i !in ListarVencidas(cobs, today)
    ensures IdsDescendingEmision(cobs, r.ids)
    ensures forall i: nat ::
              (dias.Some? && i < |cobs| && cobs[i].estado == Pendiente && 0 <= DiasVencimiento(cobs[i], today) <= dias.value)
              ==> i in r.ids
  {
    match dias
    case None => Lista(500, [])
    case Some(d) => Lista(200, Listar(cobs, (c: Cobranza) => PorVencerEn(c, today, d)))
  }

  /** The error `por_vencer` raises: `datetime` is the class imported from
      the datetime module, which has no `timedelta` attribute. */
  const SinTimedelta := "type object 'datetime.datetime' has no attribute 'timedelta'"

  /** `por_vencer` as written: the limit date is computed through
      `datetime.timedelta`, so every request ends in a server error. */
  function PorVencerEscrito(cobs: Tabla, today: int, dias: Option<int>): (r: (Lista, string))
    ensures r.0.status == 500 && r.0.ids == []
    ensures dias.Some? ==> r.1 == SinTimedelta
  {
    match dias
    case None => (Lista(500, []), "invalid literal for int()")
    case Some(_) => (Lista(500, []), SinTimedelta)
  }

  /** Wherever the intended action answers, the written one fails, even
      when there is nothing to list. */
  lemma PorVencerEscritoFalla(cobs: Tabla, today: int, dias: int)
    ensures PorVencer(cobs, today, Some(dias)).status == 200
    ensures PorVencerEscrito(cobs, today, Some(dias)).0.status == 500
  {
  }

  /** The pay rate in percent; 0 when there are no collections. Rounding to
      two decimals is not modelled. */
  function TasaCobro(pagadas: nat, total: nat): (t: real)
    ensures total == 0 ==> t == 0.0
    ensures total > 0 ==> t * total as real == pagadas as real * 100.0
    ensures pagadas <= total ==> 0.0 <= t <= 100.0
  {
    if total > 0 then pagadas as real / total as real * 100.0 else 0.0
  }

  datatype Resumen = Resumen(
    total: nat, pendientes: nat, pagadas: nat, vencidas: nat, canceladas: nat,
    montoPendienteUf: real, montoPagadoUf: real, tasaCobro: real)

  /** The view action `estadisticas`. Each count is the size of the set of
      rows in its state, each amount the sum over that set, and the pay rate
      is the paid share of all rows. */
  function EstadisticasVista(cobs: Tabla, today: int): (e: Resumen)
    ensures e.total == |cobs|
    ensures e.pendientes == |EnEstado(cobs, Pendiente)|
    ensures e.pagadas == |EnEstado(cobs, Pagada)|
    ensures e.canceladas == |EnEstado(cobs, Cancelada)|
    ensures e.vencidas == |ListarVencidas(cobs, today)|
    ensures e.montoPendienteUf == MontoEn(cobs, EnEstado(cobs, Pendiente))
    ensures e.montoPagadoUf == MontoEn(cobs, EnEstado(cobs, Pagada))
    ensures e.tasaCobro == TasaCobro(e.pagadas, e.total)
    ensures e.total == 0 ==> e.tasaCobro == 0.0
  {
    EstadoPorPosiciones(cobs, Pendiente);
    EstadoPorPosiciones(cobs, Pagada);
    EstadoPorPosiciones(cobs, Cancelada);
    var pagadas := Count(cobs, (c: Cobranza) => c.estado == Pagada);
    Resumen(
      |cobs|,
      Count(cobs, (c: Cobranza) => c.estado == Pendiente),
      pagadas,
      Count(cobs, (c: Cobranza) => EstaVencida(c, today)),
      Count(cobs, (c: Cobranza) => c.estado == Cancelada),
      SumaMonto(cobs, (c: Cobranza) => c.estado == Pendiente),
      SumaMonto(cobs, (c: Cobranza) => c.estado == Pagada),
      TasaCobro(pagadas, |cobs|))
  }

  /** The statistics helper counts as overdue only open rows, the view also
      rows whose state is VENCIDA: the helper never counts more, and the two
      agree exactly when no VENCIDA row is past its date. The view's pay
      rate lies in [0, 100]. */
  lemma VencidasUtilsVsVista(cobs: Tabla, today: int)
    ensures ObtenerEstadisticas(cobs, today).vencidas <= EstadisticasVista(cobs, today).vencidas
    ensures ObtenerEstadisticas(cobs, today).vencidas == EstadisticasVista(cobs, today).vencidas
            <==> forall i :: 0 <= i < |cobs| ==> !(cobs[i].estado == Vencida && cobs[i].fechaVencimiento < today)
    ensures 0.0 <= EstadisticasVista(cobs, today).tasaCobro <= 100.0
  {
    var a := (c: Cobranza) => VencidaAbierta(c, today);
    var b := (c: Cobranza) => EstaVencida(c, today);
    var v := (c: Cobranza) => c.estado == Vencida && c.fechaVencimiento < today;
    CountMono(cobs, a, b);
    CountSplit(cobs, b, a, v);
    if exists i :: 0 <= i < |cobs| && v(cobs[i]) {
      var i :| 0 <= i < |cobs| && v(cobs[i]);
      CountStrict(cobs, a, b, i);
    } else {
      CountZero(cobs, v);
    }
  }

  lemma {:induction false} CountZero(cobs: Tabla, keep: Cobranza -> bool)
    requires forall i :: 0 <= i < |cobs| ==> !keep(cobs[i])
    ensures Count(cobs, keep) == 0
  {
    if |cobs| > 0 {
      var prev := cobs[..|cobs| - 1];
      assert forall i :: 0 <= i < |prev| ==> prev[i] == cobs[i];
      CountZero(prev, keep);
    }
  }

  // ---------------------------------------------------------------------
  // Serializers
  // ---------------------------------------------------------------------

  /** The fields of a creation request; `poliza` is the policy number the
      request names, `polizaNumero` the optional alternative by number. */
  datatype Alta = Alta(
    poliza: Option<string>,
    polizaNumero: Option<string>,
    montoUf: real,
    valorUf: Option<real>,
    fechaEmision: int,
    fechaVencimiento: int,
    observaciones: string)

  predicate NumeroDado(d: Alta) {
    d.polizaNumero.Some? && d.polizaNumero.value != ""
  }

  const VencimientoAnterior := "La fecha de vencimiento debe ser posterior a la fecha de emisión"

  /** CobranzaCreateSerializer.validate: a non-empty policy number must name
      a stored policy and replaces `poliza`; the due date may equal but not
      precede the issue date. The number is checked first. `poliza` is a
      required field, so a request without one is refused by the field
      checks before this runs. */
  function Validar(store: Polizas.PolicyStore, d: Alta): (r: Result<Alta>)
    requires d.poliza.Some?
    ensures r.Ok? <==> (!NumeroDado(d) || d.polizaNumero.value in store) && d.fechaVencimiento >= d.fechaEmision
    ensures r.Ok? && NumeroDado(d) ==> r.value == d.(poliza := Some(d.polizaNumero.value))
    ensures r.Ok? && !NumeroDado(d) ==> r.value == d
    ensures NumeroDado(d) && d.polizaNumero.value !in store ==> r == Err("No existe póliza con número " + d.polizaNumero.value)
    ensures r.Err? && (!NumeroDado(d) || d.polizaNumero.value in store) ==> r.msg == VencimientoAnterior
  {
    if NumeroDado(d) && d.polizaNumero.value !in store then
      Err("No existe póliza con número " + d.polizaNumero.value)
    else if d.fechaVencimiento < d.fechaEmision then
      Err(VencimientoAnterior)
    else if NumeroDado(d) then
      Ok(d.(poliza := Some(d.polizaNumero.value)))
    else Ok(d)
  }

  /** CobranzaCreateSerializer.create: a new PENDIENTE row of kind
      PAGO_VIGENTE, with the peso amount derived when a UF value is given.
      The policy is a required field of the serializer. */
  function Crear(cobs: Tabla, d: Alta): (r: Tabla)
    requires d.poliza.Some?
    ensures |r| == |cobs| + 1 && r[..|cobs|] == cobs
    ensures var c := r[|cobs|];
            && c.poliza == d.poliza.value && c.montoUf == d.montoUf && c.valorUf == d.valorUf
            && c.fechaEmision == d.fechaEmision && c.fechaVencimiento == d.fechaVencimiento
            && c.estado == Pendiente && c.tipo == PagoVigente
            && (c.montoPesos.Some? <==> Truthy(d.valorUf))
            && (Truthy(d.valorUf) ==> c.montoPesos.value / d.valorUf.value == d.montoUf)
  {
    var c := Cobranza(d.poliza.value, d.montoUf, None, d.valorUf, d.fechaEmision, d.fechaVencimiento, None, 0,
                      Pendiente, PagoVigente, None, "", true, "", false, "", d.observaciones);
    var c' := if Truthy(c.valorUf) then CalcularMontoPesos(c, c.valorUf).0 else c;
    assert (cobs + [c'])[..|cobs|] == cobs;
    cobs + [c']
  }

  /** The fields of a payment request. An outer None is a field the request
      omits; fields that accept null carry an inner Option. */
  datatype Pago = Pago(
    fechaPago: Option<Option<int>>,
    metodoPago: Option<Option<string>>,
    numeroDocumento: Option<string>,
    observaciones: Option<string>,
    valorUf: Option<Option<real>>)

  /** The value of a field after an update: the request's when given. */
  function Tomar<T>(given: Option<T>, current: T): (v: T)
    ensures given.None? ==> v == current
  {
    if given.Some? then given.value else current
  }

  /** CobranzaPagoSerializer.update: omitted fields keep their value, the
      peso amount is recomputed only for a truthy UF value, and the state
      becomes PAGADA. Unlike marcar_como_pagada it neither stamps the
      payment date nor resets the days late. */
  function ActualizarPago(c: Cobranza, d: Pago): (n: Cobranza)
    ensures n.estado == Pagada
    ensures n.fechaPago == Tomar(d.fechaPago, c.fechaPago)
    ensures n.metodoPago == Tomar(d.metodoPago, c.metodoPago)
    ensures n.numeroDocumento == Tomar(d.numeroDocumento, c.numeroDocumento)
    ensures n.observaciones == Tomar(d.observaciones, c.observaciones)
    ensures n.montoPesos != c.montoPesos ==> d.valorUf.Some? && Truthy(d.valorUf.value)
    ensures d.valorUf.Some? && Truthy(d.valorUf.value) ==> n.montoPesos.Some? && n.montoPesos.value / d.valorUf.value.value == c.montoUf
    ensures n.diasAtraso == c.diasAtraso && n.poliza == c.poliza && n.montoUf == c.montoUf && n.tipo == c.tipo
  {
    var datos := c.(fechaPago := Tomar(d.fechaPago, c.fechaPago),
                   metodoPago := Tomar(d.metodoPago, c.metodoPago),
                   numeroDocumento := Tomar(d.numeroDocumento, c.numeroDocumento),
                   observaciones := Tomar(d.observaciones, c.observaciones));
    var conPesos := if d.valorUf.Some? then CalcularMontoPesos(datos, d.valorUf.value).0 else datos;
    conPesos.(estado := Pagada)
  }

  // ---------------------------------------------------------------------
  // The pay and cancel actions
  // ---------------------------------------------------------------------

  /** An HTTP status and the collection as stored afterwards. */
  datatype Respuesta = Respuesta(status: nat, cobranza: Cobranza)

  /** registrar_pago as intended: a paid collection is refused with 400 and
      left as it was; any other, CANCELADA included, is paid (200). */
  function RegistrarPago(c: Cobranza, d: Pago): (r: Respuesta)
    ensures c.estado == Pagada <==> r.status == 400
    ensures c.estado == Pagada ==> r.cobranza == c
    ensures c.estado != Pagada ==> r.status == 200 && r.cobranza.estado == Pagada
  {
    if c.estado == Pagada then Respuesta(400, c) else Respuesta(200, ActualizarPago(c, d))
  }

  /** registrar_pago as written: both audit descriptions interpolate
      `cobranza.numero`, a field collections do not have, so every request
      ends in a server error; on the payment path the update has already
      been saved. */
  function RegistrarPagoEscrito(c: Cobranza, d: Pago): (r: Respuesta)
    ensures r.status == 500
    ensures r.cobranza == RegistrarPago(c, d).cobranza
  {
    if c.estado == Pagada then Respuesta(500, c) else Respuesta(500, ActualizarPago(c, d))
  }

  /** The written action never answers what the intended one answers. */
  lemma RegistrarPagoEscritoFalla(c: Cobranza, d: Pago)
    ensures RegistrarPagoEscrito(c, d).status != RegistrarPago(c, d).status
  {
  }

  const SinMotivo := "Sin motivo"

  /** The note appended on cancellation; `hoy` is today's date as text. */
  function NotaCancelacion(hoy: string, motivo: Option<string>): string {
    "\nCancelada el " + hoy + ": " + (if motivo.Some? then motivo.value else SinMotivo)
  }

  /** cancelar as intended: a paid collection is refused with 400 and left
      as it was; any other becomes CANCELADA with the note appended. */
  function Cancelar(c: Cobranza, hoy: string, motivo: Option<string>): (r: Respuesta)
    ensures c.estado == Pagada <==> r.status == 400
    ensures c.estado == Pagada ==> r.cobranza == c
    ensures c.estado != Pagada ==> && r.status == 200 && r.cobranza.estado == Cancelada
                                   && r.cobranza.observaciones == c.observaciones + NotaCancelacion(hoy, motivo)
                                   && r.cobranza.(estado := c.estado, observaciones := c.observaciones) == c
  {
    if c.estado == Pagada then Respuesta(400, c)
    else Respuesta(200, c.(estado := Cancelada, observaciones := c.observaciones + NotaCancelacion(hoy, motivo)))
  }

  /** cancelar as written: the audit description reads `cobranza.numero`,
      so every request ends in a server error, after the cancellation has
      been saved when the collection was not paid. */
  function CancelarEscrito(c: Cobranza, hoy: string, motivo: Option<string>): (r: Respuesta)
    ensures r.status == 500
    ensures r.cobranza == Cancelar(c, hoy, motivo).cobranza
  {
    if c.estado == Pagada then Respuesta(500, c)
    else Respuesta(500, c.(estado := Cancelada, observaciones := c.observaciones + NotaCancelacion(hoy, motivo)))
  }

  lemma CancelarEscritoFalla(c: Cobranza, hoy: string, motivo: Option<string>)
    ensures CancelarEscrito(c, hoy, motivo).status != Cancelar(c, hoy, motivo).status
  {
  }

  /** Only PAGADA is guarded: a cancelled collection can still be paid, and
      a paid one can be neither paid again nor cancelled. */
  lemma CanceladaPuedePagarse(c: Cobranza, hoy: string, motivo: Option<string>, d: Pago)
    ensures c.estado != Pagada ==> RegistrarPago(Cancelar(c, hoy, motivo).cobranza, d).status == 200
    ensures RegistrarPago(RegistrarPago(c, d).cobranza, d).status == 400
    ensures c.estado == Pagada ==> Cancelar(c, hoy, motivo).status == 400
  {
  }
}

=== FILE: etl.dfy ===
/** The batch importer: header clean-up and aliasing, the column-wide parses
    that abort the whole load, the batched row loop with per-row error
    isolation, and the final status of the upload. */
module Etl {
  import opened Base
  import opened Text
  import opened Rut
  import opened Amounts
  import opened Vigencia
  import opened Uploads
  import opened Polizas
  import opened Freshness

  const BatchSize := 500

  // ---------------------------------------------------------------------------
  // Headers

  /** c.strip().upper() */
  function CleanHeader(h: string): string {
    Upper(Strip(h))
  }

  /** The alias table, in its declaration order. */
  const ColumnMap: seq<(string, string)> := [
    ("COMPAÑÍA", "COMPANIA"),
    ("COMPANIA", "COMPANIA"),
    ("RUT CONTRATANTE", "RUT"),
    ("RUT", "RUT"),
    ("NOMBRE CONTRATANTE", "NOMBRE_CLIENTE"),
    ("NOMBRE", "NOMBRE_CLIENTE"),
    ("PÓLIZA", "NUMERO_POLIZA"),
    ("POLIZA", "NUMERO_POLIZA"),
    ("VIGENCIA", "VIGENCIA"),
    ("PRIMA NETA", "PRIMA_NETA"),
    ("MONTO", "PRIMA_NETA")
  ]

  /** One rename: every column called `alias` becomes `std`, but only when
      `alias` is present and `std` is not. */
  function Rename(cols: seq<string>, alias: string, std: string): (r: seq<string>)
    ensures |r| == |cols|
    ensures alias in cols && std !in cols ==> forall i :: 0 <= i < |r| ==> r[i] == (if cols[i] == alias then std else cols[i])
    ensures !(alias in cols && std !in cols) ==> r == cols
  {
    if alias in cols && std !in cols then seq(|cols|, i requires 0 <= i < |cols| => if cols[i] == alias then std else cols[i])
    else cols
  }

  /** A name other than the two involved is present after a rename iff before. */
  lemma RenameOther(cols: seq<string>, alias: string, std: string, x: string)
    requires x != alias && x != std
    ensures x in Rename(cols, alias, std) <==> x in cols
  {
    var r := Rename(cols, alias, std);
    if x in cols {
      var i :| 0 <= i < |cols| && cols[i] == x;
      assert r[i] == x;
    }
  }

  /** After a rename the target is present iff it or its alias was. */
  lemma RenameTarget(cols: seq<string>, alias: string, std: string)
    ensures std in Rename(cols, alias, std) <==> std in cols || alias in cols
  {
    var r := Rename(cols, alias, std);
    if alias in cols && std !in cols {
      var i :| 0 <= i < |cols| && cols[i] == alias;
      assert r[i] == std;
    }
  }

  function RenameAll(cols: seq<string>, pairs: seq<(string, string)>): (r: seq<string>)
    ensures |r| == |cols|
    decreases |pairs|
  {
    if |pairs| == 0 then cols else RenameAll(Rename(cols, pairs[0].0, pairs[0].1), pairs[1..])
  }

  /** The headers the loader works with. */
  function MapColumns(headers: seq<string>): (r: seq<string>)
    ensures |r| == |headers|
  {
    RenameAll(seq(|headers|, i requires 0 <= i < |headers| => CleanHeader(headers[i])), ColumnMap)
  }

  /** The first nine renames of the alias table. */
  function FirstNine(cols: seq<string>): seq<string> {
    Rename(Rename(Rename(Rename(Rename(Rename(Rename(Rename(Rename(cols,
      "COMPAÑÍA", "COMPANIA"), "COMPANIA", "COMPANIA"), "RUT CONTRATANTE", "RUT"),
      "RUT", "RUT"), "NOMBRE CONTRATANTE", "NOMBRE_CLIENTE"), "NOMBRE", "NOMBRE_CLIENTE"),
      "PÓLIZA", "NUMERO_POLIZA"), "POLIZA", "NUMERO_POLIZA"), "VIGENCIA", "VIGENCIA")
  }

  /** The whole table is the first nine renames and then the two amount aliases. */
  lemma ColumnMapUnfold(cols: seq<string>)
    ensures RenameAll(cols, ColumnMap) == Rename(Rename(FirstNine(cols), "PRIMA NETA", "PRIMA_NETA"), "MONTO", "PRIMA_NETA")
  {
    assert |ColumnMap| == 11;
  }

  /** The identifier column is found under its own name or its long alias;
      the amount column under either alias. */
  lemma MappedTargets(cols: seq<string>)
    ensures "RUT" in RenameAll(cols, ColumnMap) <==> "RUT" in cols || "RUT CONTRATANTE" in cols
    ensures "PRIMA_NETA" in RenameAll(cols, ColumnMap)
            <==> "PRIMA_NETA" in cols || "PRIMA NETA" in cols || "MONTO" in cols
    ensures "VIGENCIA" in RenameAll(cols, ColumnMap) <==> "VIGENCIA" in cols
  {
    ColumnMapUnfold(cols);
    var c9 := FirstNine(cols);
    var c10 := Rename(c9, "PRIMA NETA", "PRIMA_NETA");
    // RUT
    RutThroughNine(cols);
    RenameOther(c9, "PRIMA NETA", "PRIMA_NETA", "RUT");
    RenameOther(c10, "MONTO", "PRIMA_NETA", "RUT");
    // PRIMA_NETA and its aliases are untouched until the last two renames
    ThroughNine(cols, "PRIMA_NETA");
    ThroughNine(cols, "PRIMA NETA");
    ThroughNine(cols, "MONTO");
    ThroughNine(cols, "VIGENCIA");
    RenameTarget(c9, "PRIMA NETA", "PRIMA_NETA");
    RenameOther(c9, "PRIMA NETA", "PRIMA_NETA", "MONTO");
    RenameTarget(c10, "MONTO", "PRIMA_NETA");
    RenameOther(c9, "PRIMA NETA", "PRIMA_NETA", "VIGENCIA");
    RenameOther(c10, "MONTO", "PRIMA_NETA", "VIGENCIA");
  }

  /** Through the first nine renames RUT is present iff it or its long alias was. */
  lemma RutThroughNine(cols: seq<string>)
    ensures "RUT" in FirstNine(cols) <==> "RUT" in cols || "RUT CONTRATANTE" in cols
  {
    var c1 := Rename(cols, "COMPAÑÍA", "COMPANIA");
    var c2 := Rename(c1, "COMPANIA", "COMPANIA");
    var c3 := Rename(c2, "RUT CONTRATANTE", "RUT");
    var c4 := Rename(c3, "RUT", "RUT");
    var c5 := Rename(c4, "NOMBRE CONTRATANTE", "NOMBRE_CLIENTE");
    var c6 := Rename(c5, "NOMBRE", "NOMBRE_CLIENTE");
    var c7 := Rename(c6, "PÓLIZA", "NUMERO_POLIZA");
    var c8 := Rename(c7, "POLIZA", "NUMERO_POLIZA");
    RenameOther(cols, "COMPAÑÍA", "COMPANIA", "RUT");
    RenameOther(cols, "COMPAÑÍA", "COMPANIA", "RUT CONTRATANTE");
    RenameOther(c1, "COMPANIA", "COMPANIA", "RUT");
    RenameOther(c1, "COMPANIA", "COMPANIA", "RUT CONTRATANTE");
    RenameTarget(c2, "RUT CONTRATANTE", "RUT");
    RenameTarget(c3, "RUT", "RUT");
    RenameOther(c4, "NOMBRE CONTRATANTE", "NOMBRE_CLIENTE", "RUT");
    RenameOther(c5, "NOMBRE", "NOMBRE_CLIENTE", "RUT");
    RenameOther(c6, "PÓLIZA", "NUMERO_POLIZA", "RUT");
    RenameOther(c7, "POLIZA", "NUMERO_POLIZA", "RUT");
    RenameOther(c8, "VIGENCIA", "VIGENCIA", "RUT");
  }

  /** The first nine renames leave the presence of these names alone. */
  lemma ThroughNine(cols: seq<string>, x: string)
    requires x == "PRIMA_NETA" || x == "PRIMA NETA" || x == "MONTO" || x == "VIGENCIA"
    ensures x in FirstNine(cols) <==> x in cols
  {
    var c1 := Rename(cols, "COMPAÑÍA", "COMPANIA");
    var c2 := Rename(c1, "COMPANIA", "COMPANIA");
    var c3 := Rename(c2, "RUT CONTRATANTE", "RUT");
    var c4 := Rename(c3, "RUT", "RUT");
    var c5 := Rename(c4, "NOMBRE CONTRATANTE", "NOMBRE_CLIENTE");
    var c6 := Rename(c5, "NOMBRE", "NOMBRE_CLIENTE");
    var c7 := Rename(c6, "PÓLIZA", "NUMERO_POLIZA");
    var c8 := Rename(c7, "POLIZA", "NUMERO_POLIZA");
    RenameOther(cols, "COMPAÑÍA", "COMPANIA", x);
    RenameOther(c1, "COMPANIA", "COMPANIA", x);
    RenameOther(c2, "RUT CONTRATANTE", "RUT", x);
    RenameOther(c3, "RUT", "RUT", x);
    RenameOther(c4, "NOMBRE CONTRATANTE", "NOMBRE_CLIENTE", x);
    RenameOther(c5, "NOMBRE", "NOMBRE_CLIENTE", x);
    RenameOther(c6, "PÓLIZA", "NUMERO_POLIZA", x);
    RenameOther(c7, "POLIZA", "NUMERO_POLIZA", x);
    if x != "VIGENCIA" {
      RenameOther(c8, "VIGENCIA", "VIGENCIA", x);
    } else {
      RenameTarget(c8, "VIGENCIA", "VIGENCIA");
    }
  }

  /** row.get(name): the cell under the first column of that name, None when absent. */
  function Get(cols: seq<string>, cells: seq<Cell>, name: string): (c: Cell)
    ensures name !in cols ==> c == Missing
    ensures forall j :: 0 <= j < |cols| && cols[j] == name && name !in cols[..j] ==>
              c == (if j < |cells| then cells[j] else Missing)
    decreases |cols|
  {
    if |cols| == 0 then Missing
    else if cols[0] == name then (if |cells| > 0 then cells[0] else Missing)
    else
      var rest := if |cells| > 0 then cells[1..] else [];
      assert forall j :: 1 <= j < |cols| ==> cols[1..][..j - 1] == cols[1..j];
      assert forall j :: 1 <= j < |cols| && name !in cols[..j] ==> name !in cols[1..j];
      Get(cols[1..], rest, name)
  }

  // ---------------------------------------------------------------------------
  // Column-wide parses: the first failure aborts the load

  /** Applying a parse to every element of a column, in order; the first
      exception escapes. */
  function ApplyAll<A, T>(xs: seq<A>, f: A -> Result<T>): (r: Result<seq<T>>)
    ensures r.Ok? <==> forall i :: 0 <= i < |xs| ==> f(xs[i]).Ok?
    ensures r.Ok? ==> |r.value| == |xs| && forall i :: 0 <= i < |xs| ==> r.value[i] == f(xs[i]).value
    ensures r.Err? ==> exists i :: 0 <= i < |xs| && f(xs[i]) == Err(r.msg) && forall j :: 0 <= j < i ==> f(xs[j]).Ok?
    decreases |xs|
  {
    if |xs| == 0 then Ok([])
    else
      match f(xs[0])
      case Err(m) => Err(m)
      case Ok(v) =>
        match ApplyAll(xs[1..], f)
        case Err(m) =>
          var i :| 0 <= i < |xs[1..]| && f(xs[1..][i]) == Err(m) && forall j :: 0 <= j < i ==> f(xs[1..][j]).Ok?;
          assert f(xs[i + 1]) == Err(m);
          assert forall j :: 0 <= j < i + 1 ==> f(xs[j]).Ok? by {
            forall j | 0 < j < i + 1 ensures f(xs[j]).Ok? {
              assert xs[j] == xs[1..][j - 1];
            }
          }
          Err(m)
        case Ok(vs) =>
          assert forall i :: 1 <= i < |xs| ==> xs[i] == xs[1..][i - 1];
          Ok([v] + vs)
  }

  /** A row with what the column-wide parses produced for it. */
  datatype Prepared = Prepared(cells: seq<Cell>, window: Option<Window>, monto: Option<real>)

  /** A spreadsheet as read: the header line and the data rows. */
  datatype Sheet = Sheet(headers: seq<string>, rows: seq<seq<Cell>>)

  /** The VIGENCIA cell of a row, null filled with '', str() parsed. */
  function VigenciaAt(cols: seq<string>, cells: seq<Cell>, toDate: DateParser): Result<Window> {
    ParseVigencia(Get(cols, cells, "VIGENCIA").FillEmpty().Str(), toDate)
  }

  /** The PRIMA_NETA cell of a row parsed with float_from_str. */
  function MontoAt(cols: seq<string>, cells: seq<Cell>, other: FloatOracle): Result<real> {
    FloatFromStr(Get(cols, cells, "PRIMA_NETA"), other)
  }

  /** The VIGENCIA parse as the column-wide apply sees it. */
  function VigenciaOf(cols: seq<string>, toDate: DateParser): seq<Cell> -> Result<Option<Window>>
  {
    (cells: seq<Cell>) =>
      match VigenciaAt(cols, cells, toDate)
      case Ok(w) => Ok(Some(w))
      case Err(m) => Err(m)
  }

  /** The amount parse as the column-wide apply sees it. */
  function MontoOf(cols: seq<string>, other: FloatOracle): seq<Cell> -> Result<Option<real>>
  {
    (cells: seq<Cell>) =>
      match MontoAt(cols, cells, other)
      case Ok(v) => Ok(Some(v))
      case Err(m) => Err(m)
  }

  /** Every row's VIGENCIA cell parses. */
  predicate AllWindows(cols: seq<string>, rows: seq<seq<Cell>>, toDate: DateParser) {
    forall i :: 0 <= i < |rows| ==> VigenciaAt(cols, rows[i], toDate).Ok?
  }

  /** Every row's amount cell parses. */
  predicate AllMontos(cols: seq<string>, rows: seq<seq<Cell>>, other: FloatOracle) {
    forall i :: 0 <= i < |rows| ==> MontoAt(cols, rows[i], other).Ok?
  }

  /** Row i is the first whose VIGENCIA parse fails, with message m. */
  predicate FirstBadWindow(cols: seq<string>, rows: seq<seq<Cell>>, toDate: DateParser, i: int, m: string) {
    0 <= i < |rows| && VigenciaAt(cols, rows[i], toDate) == Err(m)
    && forall j :: 0 <= j < i ==> VigenciaAt(cols, rows[j], toDate).Ok?
  }

  /** Row i is the first whose amount parse fails, with message m. */
  predicate FirstBadMonto(cols: seq<string>, rows: seq<seq<Cell>>, other: FloatOracle, i: int, m: string) {
    0 <= i < |rows| && MontoAt(cols, rows[i], other) == Err(m)
    && forall j :: 0 <= j < i ==> MontoAt(cols, rows[j], other).Ok?
  }

  /** The column-wide parses over the mapped columns: first every VIGENCIA
      cell, then every amount; the first failure is the fatal message. */
  function ParseColumns(cols: seq<string>, rows: seq<seq<Cell>>, toDate: DateParser, other: FloatOracle): (r: Result<seq<Prepared>>)
    ensures r.Ok? ==> |r.value| == |rows|
    ensures r.Ok? ==> forall i :: 0 <= i < |rows| ==> r.value[i].cells == rows[i]
    ensures r.Ok? ==> forall i :: 0 <= i < |rows| ==>
              if "VIGENCIA" in cols then VigenciaAt(cols, rows[i], toDate).Ok?
                                         && r.value[i].window == Some(VigenciaAt(cols, rows[i], toDate).value)
              else r.value[i].window.None?
    ensures r.Ok? ==> forall i :: 0 <= i < |rows| ==>
              if "PRIMA_NETA" in cols then MontoAt(cols, rows[i], other).Ok?
                                           && r.value[i].monto == Some(MontoAt(cols, rows[i], other).value)
              else r.value[i].monto.None?
    ensures r.Ok? <==> ("VIGENCIA" !in cols || AllWindows(cols, rows, toDate))
                       && ("PRIMA_NETA" !in cols || AllMontos(cols, rows, other))
    ensures r.Err? && "VIGENCIA" in cols && !AllWindows(cols, rows, toDate)
            ==> exists i :: FirstBadWindow(cols, rows, toDate, i, r.msg)
    ensures r.Err? && ("VIGENCIA" !in cols || AllWindows(cols, rows, toDate))
            ==> "PRIMA_NETA" in cols && exists i :: FirstBadMonto(cols, rows, other, i, r.msg)
  {
    var windows := Windows(cols, rows, toDate);
    if windows.Err? then Err(windows.msg)
    else
      var montos := Montos(cols, rows, other);
      if montos.Err? then Err(montos.msg)
      else Ok(Zip(rows, windows.value, montos.value))
  }

  /** The VIGENCIA parse of every row; all None without the column. */
  function Windows(cols: seq<string>, rows: seq<seq<Cell>>, toDate: DateParser): (r: Result<seq<Option<Window>>>)
    ensures r.Ok? ==> |r.value| == |rows|
    ensures r.Ok? ==> forall i :: 0 <= i < |rows| ==>
              if "VIGENCIA" in cols then VigenciaAt(cols, rows[i], toDate).Ok?
                                         && r.value[i] == Some(VigenciaAt(cols, rows[i], toDate).value)
              else r.value[i].None?
    ensures r.Ok? <==> "VIGENCIA" !in cols || AllWindows(cols, rows, toDate)
    ensures r.Err? ==> "VIGENCIA" in cols && exists i :: FirstBadWindow(cols, rows, toDate, i, r.msg)
  {
    if "VIGENCIA" in cols then
      var f := VigenciaOf(cols, toDate);
      var r := ApplyAll(rows, f);
      assert forall i :: 0 <= i < |rows| ==>
               (f(rows[i]).Ok? <==> VigenciaAt(cols, rows[i], toDate).Ok?)
               && (f(rows[i]).Ok? ==> f(rows[i]).value == Some(VigenciaAt(cols, rows[i], toDate).value))
               && (f(rows[i]).Err? ==> f(rows[i]) == Err(VigenciaAt(cols, rows[i], toDate).msg));
      assert r.Err? ==> exists i :: FirstBadWindow(cols, rows, toDate, i, r.msg) by {
        if r.Err? {
          var i :| 0 <= i < |rows| && f(rows[i]) == Err(r.msg) && forall j :: 0 <= j < i ==> f(rows[j]).Ok?;
          assert FirstBadWindow(cols, rows, toDate, i, r.msg);
        }
      }
      r
    else Ok(seq(|rows|, i => None))
  }

  /** The amount parse of every row; all None without the column. */
  function Montos(cols: seq<string>, rows: seq<seq<Cell>>, other: FloatOracle): (r: Result<seq<Option<real>>>)
    ensures r.Ok? ==> |r.value| == |rows|
    ensures r.Ok? ==> forall i :: 0 <= i < |rows| ==>
              if "PRIMA_NETA" in cols then MontoAt(cols, rows[i], other).Ok?
                                           && r.value[i] == Some(MontoAt(cols, rows[i], other).value)
              else r.value[i].None?
    ensures r.Ok? <==> "PRIMA_NETA" !in cols || AllMontos(cols, rows, other)
    ensures r.Err? ==> "PRIMA_NETA" in cols && exists i :: FirstBadMonto(cols, rows, other, i, r.msg)
  {
    if "PRIMA_NETA" in cols then
      var f := MontoOf(cols, other);
      var r := ApplyAll(rows, f);
      assert forall i :: 0 <= i < |rows| ==>
               (f(rows[i]).Ok? <==> MontoAt(cols, rows[i], other).Ok?)
               && (f(rows[i]).Ok? ==> f(rows[i]).value == Some(MontoAt(cols, rows[i], other).value))
               && (f(rows[i]).Err? ==> f(rows[i]) == Err(MontoAt(cols, rows[i], other).msg));
      assert r.Err? ==> exists i :: FirstBadMonto(cols, rows, other, i, r.msg) by {
        if r.Err? {
          var i :| 0 <= i < |rows| && f(rows[i]) == Err(r.msg) && forall j :: 0 <= j < i ==> f(rows[j]).Ok?;
          assert FirstBadMonto(cols, rows, other, i, r.msg);
        }
      }
      r
    else Ok(seq(|rows|, i => None))
  }

  /** Each row with its two parses. */
  function Zip(rows: seq<seq<Cell>>, ws: seq<Option<Window>>, ms: seq<Option<real>>): (r: seq<Prepared>)
    requires |ws| == |rows| && |ms| == |rows|
    ensures |r| == |rows| && forall i :: 0 <= i < |rows| ==> r[i] == Prepared(rows[i], ws[i], ms[i])
  {
    seq(|rows|, i requires 0 <= i < |rows| => Prepared(rows[i], ws[i], ms[i]))
  }

  /** Everything the loader does before the row loop; an Err is the fatal message. */
  function Prepare(sheet: Result<Sheet>, toDate: DateParser, other: FloatOracle): (r: Result<(seq<string>, seq<Prepared>)>)
    ensures sheet.Err? ==> r == Err("Error leyendo Excel: " + sheet.msg)
    ensures sheet.Ok? && |sheet.value.rows| == 0 ==> r == Err("Archivo Excel vacío")
    ensures r.Ok? ==> sheet.Ok? && |r.value.1| == |sheet.value.rows| > 0 && r.value.0 == MapColumns(sheet.value.headers)
    ensures sheet.Ok? && |sheet.value.rows| > 0 ==>
              match ParseColumns(MapColumns(sheet.value.headers), sheet.value.rows, toDate, other)
              case Ok(p) => r == Ok((MapColumns(sheet.value.headers), p))
              case Err(m) => r == Err(m)
  {
    if sheet.Err? then Err("Error leyendo Excel: " + sheet.msg)
    else if |sheet.value.rows| == 0 then Err("Archivo Excel vacío")
    else
      var cols := MapColumns(sheet.value.headers);
      match ParseColumns(cols, sheet.value.rows, toDate, other)
      case Ok(p) => Ok((cols, p))
      case Err(m) => Err(m)
  }

  // ---------------------------------------------------------------------------
  // One row

  datatype RowResult = Inserted | Updated | Failed(msg: string)

  /** What the row loop reads from one row. */
  datatype Fields = Fields(
    rutCell: Cell,          // row.get('RUT')
    rut: Option<string>,    // normalize_rut of it
    rutOk: bool,            // is_valid_rut of that
    nombre: string,         // the name a new client gets
    numero: string,         // str(row.get('NUMERO_POLIZA')).strip()
    numeroOk: bool,         // not blank and not "nan" in any case
    window: Option<Window>, // the parsed VIGENCIA, None when the column is absent
    vigenciaCell: Cell,     // row.get('VIGENCIA'), for the message
    monto: real)            // the parsed amount, 0.0 for NaN

  /** A usable policy number: not blank and not the text of a NaN. */
  predicate NumeroOk(n: string) {
    n != [] && Lower(n) != "nan"
  }

  /** The client name a new client gets: the cell if truthy, else SIN_NOMBRE, cut to 200. */
  function ClientName(c: Cell): (n: string)
    ensures |n| <= 200
    ensures !c.Truthy() ==> n == "SIN_NOMBRE"
  {
    if c.Truthy() then Prefix(c.Str(), 200) else "SIN_NOMBRE"
  }

  /** Reading a prepared row. */
  function Read(cols: seq<string>, p: Prepared): (f: Fields)
    ensures f.rutOk ==> f.rut.Some? && f.rutCell.Text?
    ensures f.rutOk <==> IsValidRut(NormalizeRut(Get(cols, p.cells, "RUT")))
    ensures f.numeroOk <==> NumeroOk(f.numero)
    ensures f.window == p.window
    ensures p.monto.None? ==> f.monto == 0.0
  {
    var rutCell := Get(cols, p.cells, "RUT");
    var rut := NormalizeRut(rutCell);
    var numero := Strip(Get(cols, p.cells, "NUMERO_POLIZA").Str());
    Fields(rutCell, rut, IsValidRut(rut), ClientName(Get(cols, p.cells, "NOMBRE_CLIENTE")),
           numero, NumeroOk(numero), p.window, Get(cols, p.cells, "VIGENCIA"), p.monto.GetOr(0.0))
  }

  /** The row passes every check and reaches update_or_create. */
  predicate Accepted(f: Fields) {
    f.rutOk && f.numeroOk && f.window.Some?
  }

  /** The body of the row loop. The client is created before the policy
      number and the dates are checked, so a row can fail after adding it. */
  function ProcessRow(st: Store, f: Fields, today: int): (r: (Store, RowResult))
    requires f.rutOk ==> f.rut.Some?
    ensures !f.rutOk ==> r == (st, Failed("RUT inválido: " + f.rutCell.Str()))
    ensures r.1.Failed? <==> !Accepted(f)
    ensures r.1.Inserted? <==> Accepted(f) && f.numero !in st.policies
    ensures r.1.Updated? <==> Accepted(f) && f.numero in st.policies
    ensures r.1.Failed? ==> r.0.policies == st.policies
    ensures Accepted(f) ==>
              r.0.policies == UpsertPoliza(st.policies, f.numero, f.rut.value,
                                           f.window.value.start, f.window.value.end, f.monto, today)
    ensures f.rutOk ==> r.0.clients == GetOrCreateClient(st.clients, f.rut.value, f.nombre)
    ensures f.rutOk ==> f.rut.value in r.0.clients
    ensures st.clients.Keys <= r.0.clients.Keys
    ensures f.rutOk && !f.numeroOk ==> r.1 == Failed("Número de póliza inválido o vacío")
    ensures f.rutOk && f.numeroOk && f.window.None? ==> r.1 == Failed("Vigencia inválida: " + f.vigenciaCell.Str())
  {
    if !f.rutOk then (st, Failed("RUT inválido: " + f.rutCell.Str()))
    else
      var st1 := st.(clients := GetOrCreateClient(st.clients, f.rut.value, f.nombre));
      if !f.numeroOk then (st1, Failed("Número de póliza inválido o vacío"))
      else if f.window.None? then (st1, Failed("Vigencia inválida: " + f.vigenciaCell.Str()))
      else
        var created := f.numero !in st.policies;
        var policies := UpsertPoliza(st.policies, f.numero, f.rut.value, f.window.value.start,
                                     f.window.value.end, f.monto, today);
        (st1.(policies := policies), if created then Inserted else Updated)
  }

  /** Rows read from a sheet all satisfy the loop's precondition. */
  predicate Readable(rows: seq<Fields>) {
    forall i :: 0 <= i < |rows| ==> (rows[i].rutOk ==> rows[i].rut.Some?)
  }

  // ---------------------------------------------------------------------------
  // The row loop

  /** One error entry: the spreadsheet line (data row index + 2) and the message. */
  datatype RowError = RowError(rowNumber: int, msg: string)

  datatype Tally = Tally(processed: nat, inserted: nat, updated: nat, errors: seq<RowError>)

  /** The counters after one more row, the row with index `k`. */
  function Count(t: Tally, res: RowResult, k: nat): Tally {
    var t1 := t.(processed := t.processed + 1);
    match res
    case Inserted => t1.(inserted := t1.inserted + 1)
    case Updated => t1.(updated := t1.updated + 1)
    case Failed(m) => t1.(errors := t1.errors + [RowError(k + 2, m)])
  }

  /** The reference run: the first n rows, one after the other, with no batching. */
  function Run(st: Store, rows: seq<Fields>, n: nat, today: int): (Store, Tally)
    requires n <= |rows| && Readable(rows)
    decreases n
  {
    if n == 0 then (st, Tally(0, 0, 0, []))
    else
      var prev := Run(st, rows, n - 1, today);
      var next := ProcessRow(prev.0, rows[n - 1], today);
      (next.0, Count(prev.1, next.1, n - 1))
  }

  /** Whether the row with index k failed, given the store it met. */
  predicate FailedAt(st: Store, rows: seq<Fields>, k: nat, today: int)
    requires k < |rows| && Readable(rows)
  {
    ProcessRow(Run(st, rows, k, today).0, rows[k], today).1.Failed?
  }

  /** Every row is counted once and ends in exactly one of the three outcomes. */
  lemma {:induction false} RunCounts(st: Store, rows: seq<Fields>, n: nat, today: int)
    requires n <= |rows| && Readable(rows)
    ensures var t := Run(st, rows, n, today).1;
            t.processed == n && t.inserted + t.updated + |t.errors| == n
    decreases n
  {
    if n > 0 {
      RunCounts(st, rows, n - 1, today);
    }
  }

  /** Some entry of the error list names row number r. */
  predicate Names(e: seq<RowError>, r: int) {
    exists i :: 0 <= i < |e| && e[i].rowNumber == r
  }

  /** The entries of an error list after n rows are numbered from 2 to n + 1,
      increasing. */
  predicate Numbered(e: seq<RowError>, n: nat) {
    && (forall i :: 0 <= i < |e| ==> 2 <= e[i].rowNumber <= n + 1)
    && (forall i, j :: 0 <= i < j < |e| ==> e[i].rowNumber < e[j].rowNumber)
  }

  /** Counting row n - 1 keeps the numbering, names row number n + 1 exactly
      when the row failed, and names the earlier row numbers as before. */
  lemma ErrorsStep(t: Tally, res: RowResult, n: nat)
    requires n >= 1 && Numbered(t.errors, n - 1)
    ensures Numbered(Count(t, res, n - 1).errors, n)
    ensures Names(Count(t, res, n - 1).errors, n + 1) <==> res.Failed?
    ensures forall r :: r <= n ==> (Names(Count(t, res, n - 1).errors, r) <==> Names(t.errors, r))
  {
    var e := Count(t, res, n - 1).errors;
    if res.Failed? {
      assert e == t.errors + [RowError(n + 1, res.msg)];
      assert e[|t.errors|].rowNumber == n + 1;
      forall r | r <= n
        ensures Names(e, r) <==> Names(t.errors, r)
      {
        if Names(t.errors, r) {
          var i :| 0 <= i < |t.errors| && t.errors[i].rowNumber == r;
          assert e[i] == t.errors[i];
        }
      }
    } else {
      assert e == t.errors;
    }
  }

  /** Error entries are numbered index + 2, in increasing order. */
  lemma {:induction false} RunErrors(st: Store, rows: seq<Fields>, n: nat, today: int)
    requires n <= |rows| && Readable(rows)
    ensures Numbered(Run(st, rows, n, today).1.errors, n)
    decreases n
  {
    if n > 0 {
      RunErrors(st, rows, n - 1, today);
      var prev := Run(st, rows, n - 1, today);
      var next := ProcessRow(prev.0, rows[n - 1], today);
      assert Run(st, rows, n, today).1 == Count(prev.1, next.1, n - 1);
      ErrorsStep(prev.1, next.1, n);
    }
  }

  /** There is an error entry for each failed row and no other. */
  lemma {:induction false} RunErrorsFailed(st: Store, rows: seq<Fields>, n: nat, today: int)
    requires n <= |rows| && Readable(rows)
    ensures forall k :: 0 <= k < n ==> (FailedAt(st, rows, k, today) <==> Names(Run(st, rows, n, today).1.errors, k + 2))
    decreases n
  {
    if n > 0 {
      RunErrorsFailed(st, rows, n - 1, today);
      RunErrors(st, rows, n - 1, today);
      var prev := Run(st, rows, n - 1, today);
      var next := ProcessRow(prev.0, rows[n - 1], today);
      var e := Run(st, rows, n, today).1.errors;
      assert Run(st, rows, n, today).1 == Count(prev.1, next.1, n - 1);
      ErrorsStep(prev.1, next.1, n);
      forall k | 0 <= k < n
        ensures FailedAt(st, rows, k, today) <==> Names(e, k + 2)
      {
        if k == n - 1 {
          assert FailedAt(st, rows, k, today) <==> next.1.Failed?;
        } else {
          assert Names(e, k + 2) <==> Names(prev.1.errors, k + 2);
        }
      }
    }
  }

  /** The policy store stays keyed by policy number. */
  lemma {:induction false} RunKeyed(st: Store, rows: seq<Fields>, n: nat, today: int)
    requires n <= |rows| && Readable(rows) && Keyed(st.policies)
    ensures Keyed(Run(st, rows, n, today).0.policies)
    decreases n
  {
    if n > 0 {
      RunKeyed(st, rows, n - 1, today);
      var prev := Run(st, rows, n - 1, today);
      var f := rows[n - 1];
      if Accepted(f) {
        UpsertKeyed(prev.0.policies, f.numero, f.rut.value, f.window.value.start, f.window.value.end, f.monto, today);
      }
    }
  }

  function Min(a: int, b: int): int {
    if a <= b then a else b
  }

  /** One row's bookkeeping in the loop: the processed counter, then the
      inserted or updated counter or an error entry with the row number. */
  method Record(t0: Tally, res: RowResult, rowNumber: nat) returns (t: Tally)
    requires rowNumber >= 2
    ensures t == Count(t0, res, rowNumber - 2)
  {
    t := t0.(processed := t0.processed + 1);
    match res {
      case Inserted => t := t.(inserted := t.inserted + 1);
      case Updated => t := t.(updated := t.updated + 1);
      case Failed(m) => t := t.(errors := t.errors + [RowError(rowNumber, m)]);
    }
  }

  /** The loop as written: batches of 500 rows, each row numbered start +
      index-in-batch + 2. It computes exactly the reference run. */
  method ProcessBatches(st0: Store, rows: seq<Fields>, today: int)
    returns (st: Store, t: Tally)
    requires Readable(rows)
    ensures (st, t) == Run(st0, rows, |rows|, today)
    ensures t.processed == |rows| && t.inserted + t.updated + |t.errors| == |rows|
  {
    st := st0;
    t := Tally(0, 0, 0, []);
    var start := 0;
    while start < |rows|
      invariant 0 <= start
      invariant (st, t) == Run(st0, rows, Min(start, |rows|), today)
      decreases |rows| - start
    {
      var batch := rows[start..Min(start + BatchSize, |rows|)];
      st, t := ProcessBatch(st0, rows, start, batch, st, t, today);
      start := start + BatchSize;
    }
    RunCounts(st0, rows, |rows|, today);
  }

  /** The reference run one row further. */
  lemma RunNext(st0: Store, rows: seq<Fields>, k: nat, today: int)
    requires k < |rows| && Readable(rows)
    ensures var prev := Run(st0, rows, k, today);
            var next := ProcessRow(prev.0, rows[k], today);
            Run(st0, rows, k + 1, today) == (next.0, Count(prev.1, next.1, k))
  {
  }

  /** One batch: the rows from `start` on, continuing the reference run. */
  method ProcessBatch(ghost st0: Store, ghost rows: seq<Fields>, start: nat, batch: seq<Fields>,
                      stIn: Store, tIn: Tally, today: int)
    returns (st: Store, t: Tally)
    requires Readable(rows) && start + |batch| <= |rows| && batch == rows[start..start + |batch|]
    requires (stIn, tIn) == Run(st0, rows, start, today)
    ensures (st, t) == Run(st0, rows, start + |batch|, today)
  {
    var acc := (stIn, tIn);
    var rowIdx := 0;
    while rowIdx < |batch|
      invariant 0 <= rowIdx <= |batch|
      invariant acc == Run(st0, rows, start + rowIdx, today)
    {
      var rowNumber := start + rowIdx + 2;
      assert batch[rowIdx] == rows[start + rowIdx];
      RunNext(st0, rows, start + rowIdx, today);
      var outcome := ProcessRow(acc.0, batch[rowIdx], today);
      var counted := Record(acc.1, outcome.1, rowNumber);
      acc := (outcome.0, counted);
      rowIdx := rowIdx + 1;
    }
    st, t := acc.0, acc.1;
  }

  // ---------------------------------------------------------------------------
  // The whole upload

  /** An alert the importer asks the alert factory for. */
  datatype AlertRequest = AlertRequest(tipo: string, severidad: string, titulo: string, mensaje: string)

  /** The dictionary process_upload returns; `errors` is absent after a fatal error. */
  datatype Report = Report(processed: nat, inserted: nat, updated: nat, errors: Option<nat>, error: Option<string>)

  datatype Outcome = Outcome(
    upload: Upload,
    store: Store,
    freshness: FreshStore,
    alerts: seq<AlertRequest>,
    errorRows: seq<RowError>,
    report: Report)

  /** The file's base name, or archivo.xlsx when there is none. */
  function FileName(name: Option<string>): string {
    if name.Some? && |name.value| > 0 then
      var parts := Split(name.value, "/");
      parts[|parts| - 1]
    else "archivo.xlsx"
  }

  /** The freshness rows after registrar_carga for every given client. */
  function RegisterAll(fs: FreshStore, ruts: set<string>, usuario: Option<string>, registros: int,
                       today: int): (r: FreshStore)
    ensures r.Keys == fs.Keys + ruts
    ensures forall k :: k in ruts ==> r[k] == RegistrarCarga(fs, k, usuario, registros, today)[k]
    ensures forall k :: k in fs && k !in ruts ==> r[k] == fs[k]
  {
    map k | k in fs.Keys + ruts :: if k in ruts then Fresh(today, 0, false, Some(today), usuario, registros) else fs[k]
  }

  /** Every prepared row, read. */
  function ReadAll(cols: seq<string>, prepared: seq<Prepared>): (rows: seq<Fields>)
    ensures |rows| == |prepared| && Readable(rows)
    ensures forall i :: 0 <= i < |rows| ==> rows[i] == Read(cols, prepared[i])
  {
    seq(|prepared|, i requires 0 <= i < |prepared| => Read(cols, prepared[i]))
  }

  /** The message stored when some rows failed. */
  function RowErrorsMessage(errors: nat, processed: nat): string {
    NatToString(errors) + " filas con error de " + NatToString(processed) + " procesadas"
  }

  /** The text of the NameError raised by the post-load hooks. */
  const LoggerError := "name 'logger' is not defined"

  /** The upload after the three progress states, before the loop. */
  function Started(u: Upload): Upload {
    UpdateStatus(UpdateStatus(UpdateStatus(u, Validando, None, None), Limpiando, None, None), Procesando, None, None)
  }

  /** The outer handler after a fatal error before the loop. */
  function FatalOutcome(u: Upload, m: string, st: Store, fs: FreshStore): (o: Outcome)
    ensures o.upload.estado == Error && o.report.error == Some(m) && o.store == st && o.freshness == fs
  {
    Outcome(UpdateStatus(UpdateStatus(u, Validando, None, None), Error, Some(m), None), st, fs, [], [],
            Report(0, 0, 0, None, Some(m)))
  }

  /** The upload after the loop, with the three counters stored. */
  function Counted(u: Upload, t: Tally): (r: Upload)
    ensures r.estado == Procesando && r.mensajeError == u.mensajeError
    ensures r.processedRows == t.processed && r.insertedRows == t.inserted && r.updatedRows == t.updated
  {
    Started(u).(processedRows := t.processed, insertedRows := t.inserted, updatedRows := t.updated)
  }

  /** Some rows failed: state error with the count message, one error_carga alert. */
  function RowErrorsOutcome(u: Upload, t: Tally, st: Store, fs: FreshStore, name: string): (o: Outcome)
    requires |t.errors| > 0
    ensures o.upload.estado == Error && o.report.error.None? && o.errorRows == t.errors
    ensures o.upload.mensajeError == Some(RowErrorsMessage(|t.errors|, t.processed))
  {
    var msg := RowErrorsMessage(|t.errors|, t.processed);
    var alert := AlertRequest("error_carga", "warning", "Errores en carga de " + name,
                              "El archivo " + name + " tiene " + NatToString(|t.errors|) + " filas con error.");
    Outcome(UpdateStatus(Counted(u, t), Error, Some(msg), None), st, fs, [alert], t.errors,
            Report(t.processed, t.inserted, t.updated, Some(|t.errors|), None))
  }

  /** The success alert. */
  function SuccessAlert(name: string, t: Tally): AlertRequest {
    AlertRequest("importaciones", "info", "Carga exitosa: " + name,
                 "Archivo " + name + " procesado correctamente. " + NatToString(t.inserted)
                 + " nuevas pólizas, " + NatToString(t.updated) + " actualizadas.")
  }

  /** Freshness registration for every client owning a policy, when anything was written. */
  function Registered(fs: FreshStore, t: Tally, st: Store, usuario: Option<string>, today: int): FreshStore {
    if t.inserted > 0 || t.updated > 0
    then RegisterAll(fs, ClientsWithPolicies(st.policies), usuario, t.inserted + t.updated, today)
    else fs
  }

  /** The state chosen after a loop without row errors. */
  function CleanStatus(runMl: bool): Status {
    if runMl then Ml else Completado
  }

  /** process_upload as written. After a load without row errors the hooks
      register freshness and then reach an undefined `logger`; the NameError
      falls through to the outer handler, which marks the upload as failed. */
  function ProcessUpload(u: Upload, sheet: Result<Sheet>, runMl: bool, usuario: Option<string>,
                         fileName: Option<string>, st: Store, fs: FreshStore,
                         toDate: DateParser, other: FloatOracle, today: int): (o: Outcome)
  {
    match Prepare(sheet, toDate, other)
    case Err(m) => FatalOutcome(u, m, st, fs)
    case Ok(prep) =>
      var rows := ReadAll(prep.0, prep.1);
      var run := Run(st, rows, |rows|, today);
      Finish(u, run.1, run.0, fs, runMl, usuario, FileName(fileName), today)
  }

  /** The end of process_upload as written, after the row loop. */
  function Finish(u: Upload, t: Tally, st: Store, fs: FreshStore, runMl: bool, usuario: Option<string>,
                  name: string, today: int): (o: Outcome)
  {
    if |t.errors| > 0 then RowErrorsOutcome(u, t, st, fs, name)
    else
      var u2 := UpdateStatus(Counted(u, t), CleanStatus(runMl), None, None);
      Outcome(UpdateStatus(u2, Error, Some(LoggerError), None), st,
              Registered(fs, t, st, usuario, today), [SuccessAlert(name, t)], [],
              Report(t.processed, t.inserted, t.updated, None, Some(LoggerError)))
  }

  /** process_upload as evidently intended: the hooks complete and the final
      state is the one chosen after the loop. The rule pass and the dataset
      regeneration that follow are not modelled. */
  function ProcessUploadIntended(u: Upload, sheet: Result<Sheet>, runMl: bool, usuario: Option<string>,
                                 fileName: Option<string>, st: Store, fs: FreshStore,
                                 toDate: DateParser, other: FloatOracle, today: int): (o: Outcome)
  {
    match Prepare(sheet, toDate, other)
    case Err(m) => FatalOutcome(u, m, st, fs)
    case Ok(prep) =>
      var rows := ReadAll(prep.0, prep.1);
      var run := Run(st, rows, |rows|, today);
      FinishIntended(u, run.1, run.0, fs, runMl, usuario, FileName(fileName), today)
  }

  /** The end of process_upload as intended, after the row loop. */
  function FinishIntended(u: Upload, t: Tally, st: Store, fs: FreshStore, runMl: bool, usuario: Option<string>,
                          name: string, today: int): (o: Outcome)
  {
    if |t.errors| > 0 then RowErrorsOutcome(u, t, st, fs, name)
    else
      Outcome(UpdateStatus(Counted(u, t), CleanStatus(runMl), None, None), st,
              Registered(fs, t, st, usuario, today), [SuccessAlert(name, t)], [],
              Report(t.processed, t.inserted, t.updated, Some(0), None))
  }

  // ---------------------------------------------------------------------------
  // Properties of the whole upload

  /** A fatal error before the loop: the upload is marked failed with the
      message, nothing is stored, and the report carries the message. */
  lemma FatalBeforeLoop(u: Upload, sheet: Result<Sheet>, runMl: bool, usuario: Option<string>,
                        fileName: Option<string>, st: Store, fs: FreshStore,
                        toDate: DateParser, other: FloatOracle, today: int)
    requires Prepare(sheet, toDate, other).Err?
    ensures var o := ProcessUpload(u, sheet, runMl, usuario, fileName, st, fs, toDate, other, today);
            var m := Prepare(sheet, toDate, other).msg;
            o.upload.estado == Error && o.report.error == Some(m) && o.store == st && o.freshness == fs
            && (|m| > 0 ==> o.upload.mensajeError == Some(m))
            && o.upload.processedRows == u.processedRows
  {
  }

  /** Row errors: the upload ends in error with "N filas con error de M
      procesadas", the counters add up, and the report has no 'error' key. */
  lemma RowErrorsEndInError(u: Upload, sheet: Result<Sheet>, runMl: bool, usuario: Option<string>,
                            fileName: Option<string>, st: Store, fs: FreshStore,
                            toDate: DateParser, other: FloatOracle, today: int)
    requires Prepare(sheet, toDate, other).Ok?
    requires var prep := Prepare(sheet, toDate, other).value;
             |Run(st, ReadAll(prep.0, prep.1), |prep.1|, today).1.errors| > 0
    ensures var o := ProcessUpload(u, sheet, runMl, usuario, fileName, st, fs, toDate, other, today);
            o.upload.estado == Error && o.report.error.None? && o.report.errors == Some(|o.errorRows|)
            && o.upload.mensajeError == Some(RowErrorsMessage(|o.errorRows|, o.upload.processedRows))
            && o.upload.processedRows == o.upload.insertedRows + o.upload.updatedRows + |o.errorRows|
            && o.upload.processedRows == |sheet.value.rows|
            && GetResumen(o.upload).errores == |o.errorRows|
  {
    var prep := Prepare(sheet, toDate, other).value;
    var rows := ReadAll(prep.0, prep.1);
    var run := Run(st, rows, |rows|, today);
    RunCounts(st, rows, |rows|, today);
    assert ProcessUpload(u, sheet, runMl, usuario, fileName, st, fs, toDate, other, today)
           == RowErrorsOutcome(u, run.1, run.0, fs, FileName(fileName));
    RowErrorsCounted(u, run.1, run.0, fs, FileName(fileName));
  }

  /** The row-error outcome reports the tally's counts and names them in its message. */
  lemma RowErrorsCounted(u: Upload, t: Tally, st: Store, fs: FreshStore, name: string)
    requires |t.errors| > 0 && t.processed == t.inserted + t.updated + |t.errors|
    ensures var o := RowErrorsOutcome(u, t, st, fs, name);
            o.report.errors == Some(|o.errorRows|)
            && o.upload.mensajeError == Some(RowErrorsMessage(|o.errorRows|, o.upload.processedRows))
            && o.upload.processedRows == t.processed
            && o.upload.processedRows == o.upload.insertedRows + o.upload.updatedRows + |o.errorRows|
            && GetResumen(o.upload).errores == |o.errorRows|
  {
  }

  /** As written, a load in which every row succeeds still ends in state
      error with the NameError's text, after registering freshness. */
  lemma CleanLoadEndsInError(u: Upload, sheet: Result<Sheet>, runMl: bool, usuario: Option<string>,
                             fileName: Option<string>, st: Store, fs: FreshStore,
                             toDate: DateParser, other: FloatOracle, today: int)
    requires Prepare(sheet, toDate, other).Ok?
    requires var prep := Prepare(sheet, toDate, other).value;
             |Run(st, ReadAll(prep.0, prep.1), |prep.1|, today).1.errors| == 0
    ensures var o := ProcessUpload(u, sheet, runMl, usuario, fileName, st, fs, toDate, other, today);
            o.upload.estado == Error && o.upload.mensajeError == Some(LoggerError)
            && o.report.error == Some(LoggerError)
            && o.upload.insertedRows + o.upload.updatedRows == |sheet.value.rows| > 0
            && ClientsWithPolicies(o.store.policies) <= o.freshness.Keys
  {
    var prep := Prepare(sheet, toDate, other).value;
    var rows := ReadAll(prep.0, prep.1);
    var run := Run(st, rows, |rows|, today);
    RunCounts(st, rows, |rows|, today);
    assert ProcessUpload(u, sheet, runMl, usuario, fileName, st, fs, toDate, other, today)
           == Finish(u, run.1, run.0, fs, runMl, usuario, FileName(fileName), today);
    FinishClean(u, run.1, run.0, fs, runMl, usuario, FileName(fileName), today);
  }

  /** After a loop without row errors that wrote something, the as-written
      end marks the upload failed with the NameError's text and registers
      every client owning a policy. */
  lemma FinishClean(u: Upload, t: Tally, st: Store, fs: FreshStore, runMl: bool, usuario: Option<string>,
                    name: string, today: int)
    requires |t.errors| == 0 && t.inserted + t.updated > 0
    ensures var o := Finish(u, t, st, fs, runMl, usuario, name, today);
            o.upload.estado == Error && o.upload.mensajeError == Some(LoggerError)
            && o.report.error == Some(LoggerError) && o.store == st
            && o.upload.insertedRows + o.upload.updatedRows == t.inserted + t.updated
            && ClientsWithPolicies(st.policies) <= o.freshness.Keys
  {
  }

  /** As intended: the upload ends in error exactly when some row failed,
      otherwise in ml or completado as requested, keeping any earlier message. */
  lemma IntendedFinalStatus(u: Upload, sheet: Result<Sheet>, runMl: bool, usuario: Option<string>,
                            fileName: Option<string>, st: Store, fs: FreshStore,
                            toDate: DateParser, other: FloatOracle, today: int)
    requires Prepare(sheet, toDate, other).Ok?
    ensures var o := ProcessUploadIntended(u, sheet, runMl, usuario, fileName, st, fs, toDate, other, today);
            (o.upload.estado == Error <==> |o.errorRows| > 0)
            && (|o.errorRows| == 0 ==>
                  o.upload.estado == (if runMl then Ml else Completado)
                  && o.upload.mensajeError == u.mensajeError
                  && o.report.error.None? && o.report.errors == Some(0))
            && o.upload.processedRows == o.upload.insertedRows + o.upload.updatedRows + |o.errorRows|
  {
    var prep := Prepare(sheet, toDate, other).value;
    var rows := ReadAll(prep.0, prep.1);
    var run := Run(st, rows, |rows|, today);
    RunCounts(st, rows, |rows|, today);
    assert ProcessUploadIntended(u, sheet, runMl, usuario, fileName, st, fs, toDate, other, today)
           == FinishIntended(u, run.1, run.0, fs, runMl, usuario, FileName(fileName), today);
    FinishIntendedStatus(u, run.1, run.0, fs, runMl, usuario, FileName(fileName), today);
  }

  /** The intended end fails exactly when some row failed, and otherwise
      lands in the state chosen by the ML flag with a clean report. */
  lemma FinishIntendedStatus(u: Upload, t: Tally, st: Store, fs: FreshStore, runMl: bool, usuario: Option<string>,
                             name: string, today: int)
    requires t.processed == t.inserted + t.updated + |t.errors|
    ensures var o := FinishIntended(u, t, st, fs, runMl, usuario, name, today);
            (o.upload.estado == Error <==> |o.errorRows| > 0)
            && (|o.errorRows| == 0 ==>
                  o.upload.estado == (if runMl then Ml else Completado)
                  && o.upload.mensajeError == u.mensajeError
                  && o.report.error.None? && o.report.errors == Some(0))
            && o.upload.processedRows == o.upload.insertedRows + o.upload.updatedRows + |o.errorRows|
  {
  }

  /** The two versions store, register and alert the same; they differ only
      in the final state and in the report. */
  lemma IntendedDiffersOnlyInStatus(u: Upload, sheet: Result<Sheet>, runMl: bool, usuario: Option<string>,
                                    fileName: Option<string>, st: Store, fs: FreshStore,
                                    toDate: DateParser, other: FloatOracle, today: int)
    ensures var w := ProcessUpload(u, sheet, runMl, usuario, fileName, st, fs, toDate, other, today);
            var i := ProcessUploadIntended(u, sheet, runMl, usuario, fileName, st, fs, toDate, other, today);
            w.store == i.store && w.freshness == i.freshness && w.alerts == i.alerts && w.errorRows == i.errorRows
            && w.upload.processedRows == i.upload.processedRows
            && (w.upload.estado != Error ==> w == i)
  {
    match Prepare(sheet, toDate, other)
    case Err(m) =>
    case Ok(prep) =>
      var rows := ReadAll(prep.0, prep.1);
      var run := Run(st, rows, |rows|, today);
      assert ProcessUpload(u, sheet, runMl, usuario, fileName, st, fs, toDate, other, today)
             == Finish(u, run.1, run.0, fs, runMl, usuario, FileName(fileName), today);
      assert ProcessUploadIntended(u, sheet, runMl, usuario, fileName, st, fs, toDate, other, today)
             == FinishIntended(u, run.1, run.0, fs, runMl, usuario, FileName(fileName), today);
  }
}

=== FILE: freshness.dfy ===
/** Per-client data freshness: how many days since a client's data was last
    loaded, a graded status, the upsert done after each load, and the
    queries over all clients. */
module Freshness {
  import opened Base
  import opened Text

  /** One DataFreshness row; dates are day numbers, `usuario` the loader's name. */
  datatype Fresh = Fresh(
    ultimaActualizacion: int,
    diasSinActualizacion: int,
    alertaFrescura: bool,
    fechaUltimaCarga: Option<int>,
    usuario: Option<string>,
    registrosActualizados: int)

  /** Rows by their unique client key. */
  type FreshStore = map<string, Fresh>

  /** The age threshold at which a row is flagged. */
  const AlertDays := 30

  /** The stored counters agree with the stored date on `today`. */
  predicate Current(f: Fresh, today: int) {
    f.diasSinActualizacion == today - f.ultimaActualizacion
    && (f.alertaFrescura <==> f.diasSinActualizacion >= AlertDays)
  }

  /** actualizar_dias: recompute the age and the flag; nothing else is written. */
  function ActualizarDias(f: Fresh, today: int): (r: Fresh)
    ensures Current(r, today)
    ensures r.(diasSinActualizacion := f.diasSinActualizacion, alertaFrescura := f.alertaFrescura) == f
  {
    var dias := today - f.ultimaActualizacion;
    f.(diasSinActualizacion := dias, alertaFrescura := dias >= AlertDays)
  }

  /** A current row is left as it is by a recompute on the same day. */
  lemma ActualizarDiasFixesCurrent(f: Fresh, today: int)
    requires Current(f, today)
    ensures ActualizarDias(f, today) == f
  {
  }

  /** es_fresca(limite): recompute, then compare the age with the limit. */
  function EsFresca(f: Fresh, today: int, limite: int): (r: (Fresh, bool))
    ensures r.0 == ActualizarDias(f, today)
    ensures r.1 <==> today - f.ultimaActualizacion < limite
  {
    var g := ActualizarDias(f, today);
    (g, g.diasSinActualizacion < limite)
  }

  /** With the default limit, a row is fresh exactly when it is not flagged. */
  lemma FreshIffNotFlagged(f: Fresh, today: int)
    ensures EsFresca(f, today, AlertDays).1 <==> !EsFresca(f, today, AlertDays).0.alertaFrescura
  {
  }

  datatype Grade = Excelente | Bueno | AdvertenciaGrade | CriticoGrade {
    function Code(): string {
      match this
      case Excelente => "EXCELENTE"
      case Bueno => "BUENO"
      case AdvertenciaGrade => "ADVERTENCIA"
      case CriticoGrade => "CRITICO"
    }

    function Emoji(): string {
      match this
      case Excelente => "\U{2705}"
      case Bueno => "\U{2714}\U{FE0F}"
      case AdvertenciaGrade => "\U{26A0}\U{FE0F}"
      case CriticoGrade => "\U{1F534}"
    }
  }

  /** The description returned by obtener_estado_frescura. */
  datatype Estado = Estado(status: Grade, dias: int, confiable: bool, cliente: string, mensaje: string)

  /** The grade for an age: under 15, under 30, under 45, older. */
  function GradeOf(dias: int): (g: Grade)
    ensures g == Excelente <==> dias < 15
    ensures g == Bueno <==> 15 <= dias < 30
    ensures g == AdvertenciaGrade <==> 30 <= dias < 45
    ensures g == CriticoGrade <==> dias >= 45
  {
    if dias < 15 then Excelente
    else if dias < 30 then Bueno
    else if dias < 45 then AdvertenciaGrade
    else CriticoGrade
  }

  /** obtener_estado_frescura: recompute, then grade. */
  function ObtenerEstadoFrescura(cliente: string, f: Fresh, today: int): (r: (Fresh, Estado))
    ensures r.0 == ActualizarDias(f, today)
    ensures r.1.dias == today - f.ultimaActualizacion
    ensures r.1.status == GradeOf(r.1.dias)
    ensures r.1.confiable <==> r.1.status == Excelente || r.1.status == Bueno
    ensures r.1.dias < 15 ==> r.1.mensaje == "\U{2705} EXCELENTE: hace " + IntToString(r.1.dias) + " días"
    ensures 15 <= r.1.dias < 30 ==> r.1.mensaje == "\U{2714}\U{FE0F} BUENO: hace " + IntToString(r.1.dias) + " días"
    ensures 30 <= r.1.dias < 45 ==> r.1.mensaje == "\U{26A0}\U{FE0F} ADVERTENCIA: hace " + IntToString(r.1.dias) + " días"
    ensures r.1.dias >= 45 ==> r.1.mensaje == "\U{1F534} CRITICO: hace " + IntToString(r.1.dias) + " días"
    ensures r.1.cliente == cliente
  {
    var g := ActualizarDias(f, today);
    var d := g.diasSinActualizacion;
    var grade := GradeOf(d);
    var mensaje := grade.Emoji() + " " + grade.Code() + ": hace " + IntToString(d) + " días";
    (g, Estado(grade, d, grade == Excelente || grade == Bueno, cliente, mensaje))
  }

  /** The grade says "trustworthy" exactly when es_fresca with the default limit holds. */
  lemma ConfiableIffFresh(cliente: string, f: Fresh, today: int)
    ensures ObtenerEstadoFrescura(cliente, f, today).1.confiable <==> EsFresca(f, today, AlertDays).1
  {
  }

  /** registrar_carga: get_or_create on the client key, and whether found or
      created the row ends up loaded today, with age 0 and no flag. */
  function RegistrarCarga(m: FreshStore, cliente: string, usuario: Option<string>, registros: int,
                          today: int): (r: FreshStore)
    ensures r.Keys == m.Keys + {cliente}
    ensures forall k :: k in m && k != cliente ==> r[k] == m[k]
    ensures r[cliente].ultimaActualizacion == today && r[cliente].fechaUltimaCarga == Some(today)
    ensures r[cliente].diasSinActualizacion == 0 && !r[cliente].alertaFrescura
    ensures r[cliente].usuario == usuario && r[cliente].registrosActualizados == registros
    ensures Current(r[cliente], today)
  {
    m[cliente := Fresh(today, 0, false, Some(today), usuario, registros)]
  }

  /** Registering twice on the same day is the same as registering once. */
  lemma RegistrarCargaIdempotent(m: FreshStore, cliente: string, usuario: Option<string>, registros: int, today: int)
    ensures var once := RegistrarCarga(m, cliente, usuario, registros, today);
            RegistrarCarga(once, cliente, usuario, registros, today) == once
  {
  }

  /** obtener_clientes_desactualizados(limite): rows loaded before today - limite. */
  function ClientesDesactualizados(m: FreshStore, today: int, limite: int): (s: set<string>)
    ensures forall k :: k in s <==> k in m && today - m[k].ultimaActualizacion > limite
  {
    set k | k in m && m[k].ultimaActualizacion < today - limite
  }

  /** Every listed client fails es_fresca with the same limit. */
  lemma ListedAreNotFresh(m: FreshStore, today: int, limite: int, k: string)
    requires k in ClientesDesactualizados(m, today, limite)
    ensures !EsFresca(m[k], today, limite).1
  {
  }

  /** A row exactly `limite` days old fails es_fresca but is not listed. */
  lemma BoundaryRowNotListed(m: FreshStore, today: int, limite: int, k: string)
    requires k in m && today - m[k].ultimaActualizacion == limite
    ensures !EsFresca(m[k], today, limite).1
    ensures k !in ClientesDesactualizados(m, today, limite)
  {
  }

  /** obtener_estadisticas_frescura, with exact percentages. */
  datatype Stats = Stats(
    total: nat, frescos: nat, advertencia: nat, criticos: nat,
    porcentajeFresco: real, porcentajeAdvertencia: real, porcentajeCritico: real,
    desactualizados: set<string>)

  function Percent(part: nat, total: nat): real {
    if total > 0 then part as real / total as real * 100.0 else 0.0
  }

  lemma PercentTimesTotal(part: nat, total: nat)
    ensures total > 0 ==> Percent(part, total) * total as real == part as real * 100.0
  {
    if total > 0 {
      var t := total as real;
      assert part as real / t * t == part as real;
    }
  }

  /** The rows stored as under 30 days old. */
  function Frescos(m: FreshStore): set<string> {
    set k | k in m && m[k].diasSinActualizacion < 30
  }

  /** The rows stored as 30 to 44 days old. */
  function EnAdvertencia(m: FreshStore): set<string> {
    set k | k in m && 30 <= m[k].diasSinActualizacion < 45
  }

  /** The rows stored as 45 days old or more. */
  function Criticos(m: FreshStore): set<string> {
    set k | k in m && m[k].diasSinActualizacion >= 45
  }

  /** The rows stored as at least `AlertDays` old. */
  function Desactualizados(m: FreshStore): set<string> {
    set k | k in m && m[k].diasSinActualizacion >= AlertDays
  }

  /** Counts by the stored age, which is not recomputed here. */
  function ObtenerEstadisticas(m: FreshStore): (s: Stats)
    ensures s.total == |m.Keys|
    ensures s.frescos + s.advertencia + s.criticos == s.total
    ensures forall k :: k in s.desactualizados <==> k in m && m[k].diasSinActualizacion >= AlertDays
    ensures s.frescos == |Frescos(m)| && s.advertencia == |EnAdvertencia(m)| && s.criticos == |Criticos(m)|
    ensures s.advertencia + s.criticos == |s.desactualizados|
    ensures s.total == 0 ==> s.porcentajeFresco == 0.0 && s.porcentajeAdvertencia == 0.0 && s.porcentajeCritico == 0.0
    ensures s.total > 0 ==>
              && s.porcentajeFresco * s.total as real == s.frescos as real * 100.0
              && s.porcentajeAdvertencia * s.total as real == s.advertencia as real * 100.0
              && s.porcentajeCritico * s.total as real == s.criticos as real * 100.0
  {
    var ok, warn, crit := |Frescos(m)|, |EnAdvertencia(m)|, |Criticos(m)|;
    BucketCounts(m);
    PercentTimesTotal(ok, |m.Keys|);
    PercentTimesTotal(warn, |m.Keys|);
    PercentTimesTotal(crit, |m.Keys|);
    Stats(|m.Keys|, ok, warn, crit,
          Percent(ok, |m.Keys|), Percent(warn, |m.Keys|), Percent(crit, |m.Keys|), Desactualizados(m))
  }

  /** The three buckets partition the store; the last two make up the stale rows. */
  lemma BucketCounts(m: FreshStore)
    ensures |Frescos(m)| + |EnAdvertencia(m)| + |Criticos(m)| == |m.Keys|
    ensures |EnAdvertencia(m)| + |Criticos(m)| == |Desactualizados(m)|
  {
    PartitionCount(m.Keys, Frescos(m), EnAdvertencia(m), Criticos(m));
    DisjointUnionCard(EnAdvertencia(m), Criticos(m), Desactualizados(m));
  }

  /** With some row, the three percentages add up to 100. */
  lemma PorcentajesSuman(m: FreshStore)
    requires |m.Keys| > 0
    ensures var s := ObtenerEstadisticas(m);
            s.porcentajeFresco + s.porcentajeAdvertencia + s.porcentajeCritico == 100.0
  {
    var s := ObtenerEstadisticas(m);
    var t := s.total as real;
    assert s.total > 0;
    var f, a, c := s.frescos as real, s.advertencia as real, s.criticos as real;
    assert f + a + c == t;
    assert s.porcentajeFresco * t == f * 100.0;
    assert s.porcentajeAdvertencia * t == a * 100.0;
    assert s.porcentajeCritico * t == c * 100.0;
    SumTimes(s.porcentajeFresco, s.porcentajeAdvertencia, s.porcentajeCritico, f, a, c, t);
  }

  /** Three scaled parts that scale back to their counts sum to 100 when the counts sum to t. */
  lemma SumTimes(x: real, y: real, z: real, f: real, a: real, c: real, t: real)
    requires t > 0.0 && f + a + c == t
    requires x * t == f * 100.0 && y * t == a * 100.0 && z * t == c * 100.0
    ensures x + y + z == 100.0
  {
    assert (x + y + z) * t == (f + a + c) * 100.0;
    CancelPositive(x + y + z, 100.0, t);
  }

  lemma CancelPositive(x: real, y: real, t: real)
    requires t > 0.0 && x * t == y * t
    ensures x == y
  {
    assert (x - y) * t == 0.0;
  }

  /** Two disjoint sets covering a set add up to its size. */
  lemma DisjointUnionCard<T>(a: set<T>, b: set<T>, all: set<T>)
    requires a + b == all && a * b == {}
    ensures |a| + |b| == |all|
  {
  }

  /** Three disjoint sets covering a set add up to its size. */
  lemma PartitionCount<T>(all: set<T>, a: set<T>, b: set<T>, c: set<T>)
    requires a + b + c == all
    requires a * b == {} && a * c == {} && b * c == {}
    ensures |a| + |b| + |c| == |all|
  {
    assert (a + b) * c == {};
  }
}

=== FILE: grouping.dfy ===
/** Per-client totals over a sequence of policies, in the order clients are
    first met: the grouping of the top-clients rule and of the top-clients
    report. */
module Agrupacion {
  import opened Base
  import opened Polizas

  /** A client's running totals. */
  datatype Acum = Acum(rut: string, totalUf: real, polizas: nat)

  /** The amounts of a client's policies, added up. */
  function SumaRut(ps: seq<Poliza>, rut: string): real {
    if |ps| == 0 then 0.0
    else SumaRut(ps[..|ps| - 1], rut)
         + (if ps[|ps| - 1].cliente == rut then ps[|ps| - 1].montoUf else 0.0)
  }

  /** How many policies a client has. */
  function CuentaRut(ps: seq<Poliza>, rut: string): nat {
    if |ps| == 0 then 0
    else CuentaRut(ps[..|ps| - 1], rut) + (if ps[|ps| - 1].cliente == rut then 1 else 0)
  }

  /** A client without policies has a total of zero. */
  lemma {:induction false} NoCountNoSum(ps: seq<Poliza>, rut: string)
    requires CuentaRut(ps, rut) == 0
    ensures SumaRut(ps, rut) == 0.0
  {
    if |ps| > 0 {
      NoCountNoSum(ps[..|ps| - 1], rut);
    }
  }

  function FindAcum(acc: seq<Acum>, rut: string): (o: Option<nat>)
    ensures o.None? <==> forall i :: 0 <= i < |acc| ==> acc[i].rut != rut
    ensures o.Some? ==> o.value < |acc| && acc[o.value].rut == rut
  {
    if |acc| == 0 then None
    else if acc[|acc| - 1].rut == rut then Some(|acc| - 1)
    else FindAcum(acc[..|acc| - 1], rut)
  }

  /** acc holds each client with a policy once, with its total and its
      number of policies. */
  ghost predicate Tallies(acc: seq<Acum>, ps: seq<Poliza>) {
    Distinct(acc) && Totals(acc, ps) && Covers(acc, ps)
  }

  predicate Distinct(acc: seq<Acum>) {
    forall i, j :: 0 <= i < j < |acc| ==> acc[i].rut != acc[j].rut
  }

  predicate Totals(acc: seq<Acum>, ps: seq<Poliza>) {
    forall i :: 0 <= i < |acc| ==>
      acc[i].totalUf == SumaRut(ps, acc[i].rut) && acc[i].polizas == CuentaRut(ps, acc[i].rut)
  }

  ghost predicate Covers(acc: seq<Acum>, ps: seq<Poliza>) {
    forall rut :: FindAcum(acc, rut).Some? <==> CuentaRut(ps, rut) > 0
  }

  /** One policy added to the running totals. */
  function Sumar(acc: seq<Acum>, p: Poliza): seq<Acum> {
    match FindAcum(acc, p.cliente)
    case Some(i) => acc[i := Acum(p.cliente, acc[i].totalUf + p.montoUf, acc[i].polizas + 1)]
    case None => acc + [Acum(p.cliente, p.montoUf, 1)]
  }

  lemma SumarTallies(acc: seq<Acum>, ps: seq<Poliza>)
    requires |ps| > 0 && Tallies(acc, ps[..|ps| - 1])
    ensures Tallies(Sumar(acc, ps[|ps| - 1]), ps)
  {
    var init := ps[..|ps| - 1];
    var p := ps[|ps| - 1];
    assert ps == init + [p];
    match FindAcum(acc, p.cliente)
    case Some(i) => SumarExisting(acc, init, p, i);
    case None => SumarNew(acc, init, p);
  }

  lemma SumarExisting(acc: seq<Acum>, init: seq<Poliza>, p: Poliza, i: nat)
    requires Tallies(acc, init) && FindAcum(acc, p.cliente) == Some(i)
    ensures Tallies(Sumar(acc, p), init + [p])
  {
    SumarFound(acc, p, i);
    var r := acc[i := Acum(p.cliente, acc[i].totalUf + p.montoUf, acc[i].polizas + 1)];
    assert forall j :: 0 <= j < |r| ==> r[j].rut == acc[j].rut;
    TotalsExisting(acc, init, p, i);
    SameRuts(r, acc);
    CoversExisting(acc, r, init, p);
  }

  lemma TotalsExisting(acc: seq<Acum>, init: seq<Poliza>, p: Poliza, i: nat)
    requires Distinct(acc) && Totals(acc, init) && i < |acc| && acc[i].rut == p.cliente
    ensures Totals(acc[i := Acum(p.cliente, acc[i].totalUf + p.montoUf, acc[i].polizas + 1)], init + [p])
  {
    var ps := init + [p];
    var r := acc[i := Acum(p.cliente, acc[i].totalUf + p.montoUf, acc[i].polizas + 1)];
    forall j | 0 <= j < |r|
      ensures r[j].totalUf == SumaRut(ps, r[j].rut) && r[j].polizas == CuentaRut(ps, r[j].rut)
    {
      Snoc(init, p, r[j].rut);
      if j != i {
        assert acc[j].rut != p.cliente;
      }
    }
  }

  lemma CoversExisting(acc: seq<Acum>, r: seq<Acum>, init: seq<Poliza>, p: Poliza)
    requires Covers(acc, init) && FindAcum(acc, p.cliente).Some?
    requires forall rut :: FindAcum(r, rut).Some? <==> FindAcum(acc, rut).Some?
    ensures Covers(r, init + [p])
  {
    forall rut ensures FindAcum(r, rut).Some? <==> CuentaRut(init + [p], rut) > 0 {
      Snoc(init, p, rut);
    }
  }

  lemma SumarFound(acc: seq<Acum>, p: Poliza, i: nat)
    requires FindAcum(acc, p.cliente) == Some(i)
    ensures Sumar(acc, p) == acc[i := Acum(p.cliente, acc[i].totalUf + p.montoUf, acc[i].polizas + 1)]
  {
  }

  /** The totals over one more policy. */
  lemma Snoc(init: seq<Poliza>, p: Poliza, rut: string)
    ensures SumaRut(init + [p], rut) == SumaRut(init, rut) + (if p.cliente == rut then p.montoUf else 0.0)
    ensures CuentaRut(init + [p], rut) == CuentaRut(init, rut) + (if p.cliente == rut then 1 else 0)
  {
    assert (init + [p])[..|init|] == init;
  }

  /** Two tallies with the same clients in the same places find the same clients. */
  lemma SameRuts(a: seq<Acum>, b: seq<Acum>)
    requires |a| == |b| && forall j :: 0 <= j < |a| ==> a[j].rut == b[j].rut
    ensures forall rut :: FindAcum(a, rut).Some? <==> FindAcum(b, rut).Some?
  {
    forall rut ensures FindAcum(a, rut).Some? <==> FindAcum(b, rut).Some? {
      if FindAcum(a, rut).Some? {
        var j := FindAcum(a, rut).value;
        assert b[j].rut == rut;
      }
      if FindAcum(b, rut).Some? {
        var j := FindAcum(b, rut).value;
        assert a[j].rut == rut;
      }
    }
  }

  lemma SumarNew(acc: seq<Acum>, init: seq<Poliza>, p: Poliza)
    requires Tallies(acc, init) && FindAcum(acc, p.cliente).None?
    ensures Tallies(Sumar(acc, p), init + [p])
  {
    var ps := init + [p];
    var r := Sumar(acc, p);
    assert r == acc + [Acum(p.cliente, p.montoUf, 1)];
    NoCountNoSum(init, p.cliente);
    forall j | 0 <= j < |r|
      ensures r[j].totalUf == SumaRut(ps, r[j].rut) && r[j].polizas == CuentaRut(ps, r[j].rut)
    {
      Snoc(init, p, r[j].rut);
      if j < |acc| {
        assert acc[j].rut != p.cliente;
      }
    }
    forall rut
      ensures FindAcum(r, rut).Some? <==> CuentaRut(ps, rut) > 0
    {
      Snoc(init, p, rut);
      assert FindAcum(r, rut).Some? <==> rut == p.cliente || FindAcum(acc, rut).Some?;
    }
  }

  /** The per-client totals, in the order clients are first met. */
  function Acumular(ps: seq<Poliza>): (acc: seq<Acum>)
    ensures Tallies(acc, ps)
  {
    if |ps| == 0 then []
    else
      var acc := Acumular(ps[..|ps| - 1]);
      SumarTallies(acc, ps);
      Sumar(acc, ps[|ps| - 1])
  }
}

=== FILE: legacy.dfy ===
/** The older synchronous upload path: it finds the header row, maps the
    spreadsheet's columns to the five it needs by fuzzy synonym matching,
    splits the validity text into two dates, rewrites the amounts, and
    upserts clients and policies row by row, keeping counters. */
module Legacy {
  import opened Base
  import opened Text
  import opened Amounts
  import opened Vigencia
  import opened Polizas
  import opened Calendar
  import Etl
  import Validators

  // ---------------------------------------------------------------------------
  // Header row

  /** The words that mark a header row. */
  const Keywords: seq<string> := ["RUT", "NOMBRE", "POLIZA", "VIGENCIA", "PRIMA", "CLIENTE", "CONTRATANTE", "NUMERO"]

  /** The non-null cells of a row, in order. */
  function NonNullCells(row: seq<Cell>): (r: seq<Cell>)
    ensures |r| <= |row|
    ensures forall i :: 0 <= i < |r| ==> !r[i].IsNull()
    ensures (forall i :: 0 <= i < |row| ==> !row[i].IsNull()) ==> r == row
  {
    if row == [] then []
    else (if row[0].IsNull() then [] else [row[0]]) + NonNullCells(row[1..])
  }

  /** The text searched for keywords: the non-null cells, upper-cased, joined by blanks. */
  function RowText(row: seq<Cell>): string {
    var cells := NonNullCells(row);
    Join(" ", seq(|cells|, i requires 0 <= i < |cells| => Upper(cells[i].Str())))
  }

  predicate HasKeyword(s: string, kws: seq<string>) {
    exists k :: 0 <= k < |kws| && Contains(s, kws[k])
  }

  /** At least five non-null cells and a keyword somewhere in the row. */
  predicate LooksLikeHeader(row: seq<Cell>, kws: seq<string>) {
    |NonNullCells(row)| >= 5 && HasKeyword(RowText(row), kws)
  }

  function HeaderFrom(rows: seq<seq<Cell>>, kws: seq<string>, i: nat): (r: Option<nat>)
    requires i <= |rows|
    ensures r.Some? ==> i <= r.value < |rows| && LooksLikeHeader(rows[r.value], kws)
                        && forall j :: i <= j < r.value ==> !LooksLikeHeader(rows[j], kws)
    ensures r.None? ==> forall j :: i <= j < |rows| ==> !LooksLikeHeader(rows[j], kws)
    decreases |rows| - i
  {
    if i == |rows| then None
    else if LooksLikeHeader(rows[i], kws) then Some(i)
    else HeaderFrom(rows, kws, i + 1)
  }

  /** The header row: the first row that looks like one, otherwise row 0. */
  function HeaderRow(rows: seq<seq<Cell>>, kws: seq<string>): (r: nat)
    ensures (exists j :: 0 <= j < |rows| && LooksLikeHeader(rows[j], kws))
            ==> r < |rows| && LooksLikeHeader(rows[r], kws)
    ensures forall j :: 0 <= j < r && j < |rows| ==> !LooksLikeHeader(rows[j], kws)
    ensures (forall j :: 0 <= j < |rows| ==> !LooksLikeHeader(rows[j], kws)) ==> r == 0
  {
    match HeaderFrom(rows, kws, 0)
    case Some(i) => i
    case None => 0
  }

  // ---------------------------------------------------------------------------
  // Column names

  /** unicodedata.normalize("NFKD", ·), which is not modelled. */
  type Nfkd = string -> string

  predicate AllAscii(s: string) {
    forall i :: 0 <= i < |s| ==> IsAscii(s[i])
  }

  /** No blank at either end. */
  predicate Unpadded(s: string) {
    |s| > 0 ==> !IsSpace(s[0]) && !IsSpace(s[|s| - 1])
  }

  /** encode("ascii", "ignore").decode("ascii"): drop every non-ASCII character. */
  function AsciiOnly(s: string): (r: string)
    ensures AllAscii(r)
    ensures AllAscii(s) ==> r == s
  {
    if s == [] then []
    else
      var rest := AsciiOnly(s[1..]);
      var r := (if IsAscii(s[0]) then [s[0]] else []) + rest;
      assert AllAscii(r) by {
        forall i | 0 <= i < |r| ensures IsAscii(r[i]) {
          if !IsAscii(s[0]) || i > 0 {
            assert r[i] == rest[i - (if IsAscii(s[0]) then 1 else 0)];
          }
        }
      }
      assert AllAscii(s) ==> r == s by {
        if AllAscii(s) {
          assert AllAscii(s[1..]) by {
            forall i | 0 <= i < |s| - 1 ensures IsAscii(s[1..][i]) {
              assert s[1..][i] == s[i + 1];
            }
          }
        }
      }
      r
  }

  lemma StripKeepsAscii(s: string)
    requires AllAscii(s)
    ensures AllAscii(Strip(s)) && Unpadded(Strip(s))
  {
    var l := LStrip(s);
    var t := RStrip(l);
    assert Strip(s) == t;
    assert AllAscii(l) by {
      forall i | 0 <= i < |l| ensures IsAscii(l[i]) {
        assert l[i] == s[|s| - |l| + i];
      }
    }
    assert AllAscii(t) by {
      forall i | 0 <= i < |t| ensures IsAscii(t[i]) {
        assert t[i] == l[i];
      }
    }
    if |t| > 0 {
      assert t[0] == l[0];
    }
  }

  lemma UpperKeepsAscii(t: string)
    requires AllAscii(t) && Unpadded(t)
    ensures AllAscii(Upper(t)) && Unpadded(Upper(t))
  {
  }

  /** normalize_column: decompose, drop what is not ASCII, trim, upper-case. */
  function NormalizeColumn(col: string, nfkd: Nfkd): (r: string)
    ensures AllAscii(r) && Unpadded(r)
  {
    var t := Strip(AsciiOnly(nfkd(col)));
    StripKeepsAscii(AsciiOnly(nfkd(col)));
    UpperKeepsAscii(t);
    Upper(t)
  }

  /** A normalized name is upper-case and trimmed, so normalizing it again,
      with a decomposition that leaves ASCII text alone, gives it back. */
  lemma NormalizeColumnIdempotent(col: string, nfkd: Nfkd)
    requires nfkd(NormalizeColumn(col, nfkd)) == NormalizeColumn(col, nfkd)
    ensures NormalizeColumn(NormalizeColumn(col, nfkd), nfkd) == NormalizeColumn(col, nfkd)
  {
    var r := NormalizeColumn(col, nfkd);
    assert AsciiOnly(r) == r;
    StripTrimmed(r);
    UpperIdempotent(Strip(AsciiOnly(nfkd(col))));
  }

  // ---------------------------------------------------------------------------
  // Python dicts: insertion-ordered, a repeated key keeps its place

  type Dict = seq<(string, string)>

  predicate UniqueKeys(d: Dict) {
    forall i, j :: 0 <= i < j < |d| ==> d[i].0 != d[j].0
  }

  function KeyIndex(d: Dict, k: string): (r: Option<nat>)
    ensures r.Some? ==> r.value < |d| && d[r.value].0 == k
    ensures r.None? ==> forall i :: 0 <= i < |d| ==> d[i].0 != k
  {
    if d == [] then None
    else if d[0].0 == k then Some(0)
    else match KeyIndex(d[1..], k)
         case None => None
         case Some(i) => Some(i + 1)
  }

  function Lookup(d: Dict, k: string): (r: Option<string>)
    ensures r.Some? <==> exists i :: 0 <= i < |d| && d[i].0 == k
  {
    match KeyIndex(d, k)
    case None => None
    case Some(i) => Some(d[i].1)
  }

  /** In a dict without repeated keys, a key is found where it stands. */
  lemma KeyIndexAt(d: Dict, i: nat)
    requires UniqueKeys(d) && i < |d|
    ensures KeyIndex(d, d[i].0) == Some(i)
  {
  }

  /** Overwriting the value at a key's place changes only that key's lookup. */
  lemma OverwriteLookup(d: Dict, i: nat, k: string, v: string, q: string)
    requires UniqueKeys(d) && i < |d| && d[i].0 == k
    ensures UniqueKeys(d[i := (k, v)])
    ensures Lookup(d[i := (k, v)], q) == if q == k then Some(v) else Lookup(d, q)
  {
    var r := d[i := (k, v)];
    assert forall a :: 0 <= a < |d| ==> r[a].0 == d[a].0;
    if q == k {
      KeyIndexAt(r, i);
    } else if KeyIndex(d, q).Some? {
      KeyIndexAt(r, KeyIndex(d, q).value);
    }
  }

  /** d[k] = v */
  function Put(d: Dict, k: string, v: string): (r: Dict)
    requires UniqueKeys(d)
    ensures UniqueKeys(r)
    ensures Lookup(r, k) == Some(v)
    ensures forall k' :: k' != k ==> Lookup(r, k') == Lookup(d, k')
    ensures Lookup(d, k).Some? ==> |r| == |d| && forall i :: 0 <= i < |d| ==> r[i].0 == d[i].0
    ensures Lookup(d, k).None? ==> r == d + [(k, v)]
  {
    match KeyIndex(d, k)
    case Some(i) =>
      var r := d[i := (k, v)];
      assert UniqueKeys(r) && Lookup(r, k) == Some(v) by { OverwriteLookup(d, i, k, v, k); }
      assert forall k' :: k' != k ==> Lookup(r, k') == Lookup(d, k') by {
        forall k' | k' != k ensures Lookup(r, k') == Lookup(d, k') {
          OverwriteLookup(d, i, k, v, k');
        }
      }
      r
    case None =>
      var r := d + [(k, v)];
      assert KeyIndex(r, k) == Some(|d|) by { KeyIndexAppend(d, k, v, k); }
      assert forall k' :: k' != k ==> Lookup(r, k') == Lookup(d, k') by {
        forall k' | k' != k ensures Lookup(r, k') == Lookup(d, k') {
          KeyIndexAppend(d, k, v, k');
        }
      }
      r
  }

  lemma {:induction false} KeyIndexAppend(d: Dict, k: string, v: string, q: string)
    ensures KeyIndex(d + [(k, v)], q) == if KeyIndex(d, q).Some? then KeyIndex(d, q)
                                         else if q == k then Some(|d|) else None
  {
    if d != [] {
      assert (d + [(k, v)])[1..] == d[1..] + [(k, v)];
      KeyIndexAppend(d[1..], k, v, q);
    }
  }

  /** Every entry maps a column's normalized name to that column. */
  predicate FromColumns(d: Dict, cols: seq<string>, nfkd: Nfkd) {
    forall i :: 0 <= i < |d| ==> d[i].1 in cols && NormalizeColumn(d[i].1, nfkd) == d[i].0
  }

  /** {normalize_column(c): c for c in columns}: a name that normalizes like an
      earlier one keeps the earlier one's place but takes the later column. */
  function NormalizedColumns(cols: seq<string>, nfkd: Nfkd): (r: Dict)
    ensures UniqueKeys(r)
  {
    if cols == [] then []
    else Put(NormalizedColumns(cols[..|cols| - 1], nfkd), NormalizeColumn(cols[|cols| - 1], nfkd), cols[|cols| - 1])
  }

  /** Every entry of the dict comes from a column and its normalized name. */
  lemma {:induction false} NormalizedColumnsFrom(cols: seq<string>, nfkd: Nfkd)
    ensures FromColumns(NormalizedColumns(cols, nfkd), cols, nfkd)
  {
    if cols != [] {
      NormalizedColumnsFrom(cols[..|cols| - 1], nfkd);
      PutFromColumns(NormalizedColumns(cols[..|cols| - 1], nfkd), cols, nfkd);
    }
  }

  lemma PutFromColumns(d: Dict, cols: seq<string>, nfkd: Nfkd)
    requires |cols| > 0 && UniqueKeys(d) && FromColumns(d, cols[..|cols| - 1], nfkd)
    ensures FromColumns(Put(d, NormalizeColumn(cols[|cols| - 1], nfkd), cols[|cols| - 1]), cols, nfkd)
  {
    var init := cols[..|cols| - 1];
    var c := cols[|cols| - 1];
    assert c in cols by { assert cols[|cols| - 1] == c; }
    assert FromColumns(d, cols, nfkd) by {
      assert forall x :: x in init ==> x in cols by { assert cols == init + [c]; }
      FromColumnsWiden(d, init, cols, nfkd);
    }
    match KeyIndex(d, NormalizeColumn(c, nfkd))
    case Some(idx) => FromColumnsSet(d, cols, nfkd, idx, c);
    case None => FromColumnsAppend(d, cols, nfkd, c);
  }

  lemma FromColumnsWiden(d: Dict, init: seq<string>, cols: seq<string>, nfkd: Nfkd)
    requires FromColumns(d, init, nfkd) && forall x :: x in init ==> x in cols
    ensures FromColumns(d, cols, nfkd)
  {
  }

  lemma FromColumnsSet(d: Dict, cols: seq<string>, nfkd: Nfkd, idx: nat, c: string)
    requires FromColumns(d, cols, nfkd) && idx < |d| && c in cols
    ensures FromColumns(d[idx := (NormalizeColumn(c, nfkd), c)], cols, nfkd)
  {
    var r := d[idx := (NormalizeColumn(c, nfkd), c)];
    forall i | 0 <= i < |r| ensures r[i].1 in cols && NormalizeColumn(r[i].1, nfkd) == r[i].0 {
      if i != idx {
        assert r[i] == d[i];
      }
    }
  }

  lemma FromColumnsAppend(d: Dict, cols: seq<string>, nfkd: Nfkd, c: string)
    requires FromColumns(d, cols, nfkd) && c in cols
    ensures FromColumns(d + [(NormalizeColumn(c, nfkd), c)], cols, nfkd)
  {
    var r := d + [(NormalizeColumn(c, nfkd), c)];
    forall i | 0 <= i < |r| ensures r[i].1 in cols && NormalizeColumn(r[i].1, nfkd) == r[i].0 {
      if i < |d| {
        assert r[i] == d[i];
      }
    }
  }

  /** A column that no later column normalizes like is the one its name maps to. */
  lemma {:induction false} NormalizedColumnsLast(cols: seq<string>, nfkd: Nfkd, j: nat)
    requires j < |cols|
    requires forall j2 :: j < j2 < |cols| ==> NormalizeColumn(cols[j2], nfkd) != NormalizeColumn(cols[j], nfkd)
    ensures Lookup(NormalizedColumns(cols, nfkd), NormalizeColumn(cols[j], nfkd)) == Some(cols[j])
  {
    var init := cols[..|cols| - 1];
    if j < |cols| - 1 {
      assert init[j] == cols[j];
      assert forall j2 :: j < j2 < |init| ==> init[j2] == cols[j2];
      NormalizedColumnsLast(init, nfkd, j);
    }
  }

  // ---------------------------------------------------------------------------
  // Synonym mapping

  /** fuzz.ratio(a, b): a similarity score from 0 to 100, not modelled. */
  type Ratio = (string, string) -> int

  /** A required column and the names it is matched against. */
  datatype Requirement = Requirement(target: string, synonyms: seq<string>)

  const Requirements: seq<Requirement> := [
    Requirement("RUT", ["RUT", "RUT_CLIENTE", "RUT_CONTRATANTE", "NUMERO_RUT"]),
    Requirement("NOMBRE_CLIENTE", ["NOMBRE", "NOMBRE_CLIENTE", "NOMBRE_CONTRATANTE", "NOMBRE_ASEGURADO"]),
    Requirement("NUMERO_POLIZA", ["POLIZA", "NUMERO_POLIZA", "NUMERO_DE_POLIZA", "POLIZA_NUM"]),
    Requirement("VIGENCIA", ["VIGENCIA", "FECHA_VIGENCIA", "PERIODO_VIGENCIA"]),
    Requirement("PRIMA_NETA", ["PRIMA_NETA", "PRIMA_NETA_UF", "PRIMA_UF", "PRIMA"])
  ]

  /** The columns the import cannot do without, in the order they are reported. */
  const Required: seq<string> := ["RUT", "NOMBRE_CLIENTE", "NUMERO_POLIZA", "VIGENCIA", "PRIMA_NETA"]

  /** The external helpers the mapping uses. */
  datatype Matcher = Matcher(ratio: Ratio, nfkd: Nfkd)

  /** One (column, synonym) comparison. */
  datatype Candidate = Candidate(score: int, name: string, original: string)

  /** The comparisons in the order the loops make them: columns outside, synonyms inside. */
  function Candidates(d: Dict, synonyms: seq<string>, m: Matcher): (r: seq<Candidate>)
    ensures |r| == |d| * |synonyms|
  {
    if d == [] then []
    else
      seq(|synonyms|, k requires 0 <= k < |synonyms|
                      => Candidate(m.ratio(d[0].0, NormalizeColumn(synonyms[k], m.nfkd)), d[0].0, d[0].1))
      + Candidates(d[1..], synonyms, m)
  }

  /** The candidate kept by `score > best_score` starting from 0: the first one
      with the highest score, if that score is positive. */
  function Best(cs: seq<Candidate>): (r: Option<nat>)
    ensures r.None? <==> forall i :: 0 <= i < |cs| ==> cs[i].score <= 0
    ensures r.Some? ==> r.value < |cs| && cs[r.value].score > 0
                        && (forall i :: 0 <= i < |cs| ==> cs[i].score <= cs[r.value].score)
                        && (forall i :: 0 <= i < r.value ==> cs[i].score < cs[r.value].score)
  {
    if cs == [] then None
    else
      var n := |cs| - 1;
      var init := cs[..n];
      assert forall i :: 0 <= i < n ==> init[i] == cs[i];
      match Best(init)
      case None => if cs[n].score > 0 then Some(n) else None
      case Some(b) => if cs[n].score > cs[b].score then Some(n) else Some(b)
  }

  /** The source column a requirement takes: the best candidate, when its score
      exceeds 70 and its normalized name is not empty. */
  function Chosen(req: Requirement, d: Dict, m: Matcher): (r: Option<string>)
    ensures r.Some? ==> exists i :: 0 <= i < |d| && d[i].1 == r.value
  {
    var cs := Candidates(d, req.synonyms, m);
    match Best(cs)
    case None => None
    case Some(b) =>
      if cs[b].score > 70 && |cs[b].name| > 0 then
        CandidateFromDict(d, req.synonyms, m, b);
        Some(cs[b].original)
      else None
  }

  lemma {:induction false} CandidateFromDict(d: Dict, synonyms: seq<string>, m: Matcher, b: nat)
    requires b < |Candidates(d, synonyms, m)|
    ensures exists i :: 0 <= i < |d| && d[i].1 == Candidates(d, synonyms, m)[b].original
  {
    if b >= |synonyms| {
      CandidateFromDict(d[1..], synonyms, m, b - |synonyms|);
      var i :| 0 <= i < |d[1..]| && d[1..][i].1 == Candidates(d[1..], synonyms, m)[b - |synonyms|].original;
      assert d[i + 1].1 == d[1..][i].1;
    } else {
      assert d[0].1 == Candidates(d, synonyms, m)[b].original;
    }
  }

  /** Each requirement's choice, paired with its target. */
  function Choices(reqs: seq<Requirement>, d: Dict, m: Matcher): (cs: seq<(Option<string>, string)>)
    ensures |cs| == |reqs|
    ensures forall i :: 0 <= i < |reqs| ==> cs[i] == (Chosen(reqs[i], d, m), reqs[i].target)
  {
    seq(|reqs|, i requires 0 <= i < |reqs| => (Chosen(reqs[i], d, m), reqs[i].target))
  }

  /** The choices assigned in order: a later choice of the same column overwrites. */
  function Assign(cs: seq<(Option<string>, string)>): (r: Dict)
    ensures UniqueKeys(r)
  {
    if cs == [] then []
    else
      var n := |cs| - 1;
      var cm := Assign(cs[..n]);
      match cs[n].0
      case None => cm
      case Some(o) => Put(cm, o, cs[n].1)
  }

  /** column_map: each accepted requirement, in order, assigns its target to its
      source column, so when two requirements pick the same column the later one wins. */
  function ColumnMap(reqs: seq<Requirement>, d: Dict, m: Matcher): (r: Dict)
    ensures UniqueKeys(r)
  {
    Assign(Choices(reqs, d, m))
  }

  /** Every entry of the assignment is some choice and that choice's target. */
  lemma {:induction false} AssignFromChoices(cs: seq<(Option<string>, string)>, o: string)
    requires Lookup(Assign(cs), o).Some?
    ensures exists i :: 0 <= i < |cs| && cs[i].0 == Some(o) && Lookup(Assign(cs), o) == Some(cs[i].1)
  {
    var n := |cs| - 1;
    var init := cs[..n];
    if cs[n].0 == Some(o) {
      assert Lookup(Assign(cs), o) == Some(cs[n].1);
    } else {
      assert Lookup(Assign(cs), o) == Lookup(Assign(init), o);
      AssignFromChoices(init, o);
      var i :| 0 <= i < |init| && init[i].0 == Some(o) && Lookup(Assign(init), o) == Some(init[i].1);
      assert init[i] == cs[i];
    }
  }

  /** A choice no later choice repeats keeps its target. */
  lemma {:induction false} AssignLast(cs: seq<(Option<string>, string)>, i: nat)
    requires i < |cs| && cs[i].0.Some?
    requires forall j :: i < j < |cs| ==> cs[j].0 != cs[i].0
    ensures Lookup(Assign(cs), cs[i].0.value) == Some(cs[i].1)
  {
    var n := |cs| - 1;
    var init := cs[..n];
    if i < n {
      assert init[i] == cs[i];
      assert forall j :: i < j < |init| ==> init[j] == cs[j];
      AssignLast(init, i);
    }
  }

  /** Every entry of the map is a requirement's choice and that requirement's target. */
  lemma ColumnMapFromChoices(reqs: seq<Requirement>, d: Dict, m: Matcher, o: string)
    requires Lookup(ColumnMap(reqs, d, m), o).Some?
    ensures exists i :: 0 <= i < |reqs| && Chosen(reqs[i], d, m) == Some(o)
                        && Lookup(ColumnMap(reqs, d, m), o) == Some(reqs[i].target)
  {
    var cs := Choices(reqs, d, m);
    AssignFromChoices(cs, o);
    var i :| 0 <= i < |cs| && cs[i].0 == Some(o) && Lookup(Assign(cs), o) == Some(cs[i].1);
    assert Chosen(reqs[i], d, m) == Some(o);
  }

  /** A requirement whose column no later requirement picks maps that column to its target. */
  lemma ColumnMapLast(reqs: seq<Requirement>, d: Dict, m: Matcher, i: nat)
    requires i < |reqs| && Chosen(reqs[i], d, m).Some?
    requires forall j :: i < j < |reqs| ==> Chosen(reqs[j], d, m) != Chosen(reqs[i], d, m)
    ensures Lookup(ColumnMap(reqs, d, m), Chosen(reqs[i], d, m).value) == Some(reqs[i].target)
  {
    var cs := Choices(reqs, d, m);
    assert forall j :: i < j < |cs| ==> cs[j].0 != cs[i].0;
    AssignLast(cs, i);
  }

  /** df.rename(columns={o: t}): every column named o is renamed. */
  function Rename(cols: seq<string>, o: string, t: string): (r: seq<string>)
    ensures |r| == |cols|
    ensures forall i :: 0 <= i < |cols| ==> r[i] == if cols[i] == o then t else cols[i]
  {
    seq(|cols|, i requires 0 <= i < |cols| => if cols[i] == o then t else cols[i])
  }

  /** The renames applied one after another, in the map's order. */
  function RenameAll(cols: seq<string>, cm: Dict): (r: seq<string>)
    ensures |r| == |cols|
    decreases |cm|
  {
    if cm == [] then cols else RenameAll(Rename(cols, cm[0].0, cm[0].1), cm[1..])
  }

  /** A name that reads as a document number. */
  predicate DocumentNumber(n: string) {
    Contains(n, "NUMERO") && (Contains(n, "DOCUMENT") || Contains(n, "DOCUMENTO") || Contains(n, "NUMERODOCUMENTO"))
  }

  function FirstDocumentEntry(d: Dict, cols: seq<string>): (r: Option<string>)
    ensures r.Some? ==> r.value in cols && exists i :: 0 <= i < |d| && d[i].1 == r.value && DocumentNumber(d[i].0)
    ensures r.None? ==> forall i :: 0 <= i < |d| && DocumentNumber(d[i].0) ==> d[i].1 !in cols
  {
    if d == [] then None
    else if DocumentNumber(d[0].0) && d[0].1 in cols then Some(d[0].1)
    else
      var r := FirstDocumentEntry(d[1..], cols);
      assert forall i :: 1 <= i < |d| ==> d[i] == d[1..][i - 1];
      r
  }

  /** The first element satisfying p, if any. */
  function FirstWhere<T>(xs: seq<T>, p: T -> bool): (r: Option<T>)
    ensures r.Some? ==> r.value in xs && p(r.value)
    ensures r.None? ==> forall i :: 0 <= i < |xs| ==> !p(xs[i])
  {
    if xs == [] then None
    else if p(xs[0]) then Some(xs[0])
    else
      var r := FirstWhere(xs[1..], p);
      assert forall i :: 1 <= i < |xs| ==> xs[i] == xs[1..][i - 1];
      r
  }

  predicate DocumentColumn(c: string, nfkd: Nfkd) {
    DocumentNumber(NormalizeColumn(c, nfkd))
  }

  function FirstDocumentColumn(cols: seq<string>, nfkd: Nfkd): (r: Option<string>)
    ensures r.Some? ==> r.value in cols && DocumentColumn(r.value, nfkd)
    ensures r.None? ==> forall i :: 0 <= i < |cols| ==> !DocumentColumn(cols[i], nfkd)
  {
    FirstWhere(cols, (c: string) => DocumentColumn(c, nfkd))
  }

  /** Without a NUMERO_POLIZA column, a document-number column takes the name:
      first one from the original names, else one from the current names. */
  function PolicyNumberFallback(cols: seq<string>, d: Dict, nfkd: Nfkd): (r: seq<string>)
    ensures "NUMERO_POLIZA" in cols ==> r == cols
    ensures "NUMERO_POLIZA" !in cols && (FirstDocumentEntry(d, cols).Some? || FirstDocumentColumn(cols, nfkd).Some?)
            ==> "NUMERO_POLIZA" in r
    ensures |r| == |cols|
    ensures forall i :: 0 <= i < |cols| ==> r[i] == cols[i] || r[i] == "NUMERO_POLIZA"
  {
    if "NUMERO_POLIZA" in cols then cols
    else match FirstDocumentEntry(d, cols)
      case Some(o) =>
        var i :| 0 <= i < |cols| && cols[i] == o;
        assert Rename(cols, o, "NUMERO_POLIZA")[i] == "NUMERO_POLIZA";
        Rename(cols, o, "NUMERO_POLIZA")
      case None =>
        match FirstDocumentColumn(cols, nfkd)
        case Some(c) =>
          var i :| 0 <= i < |cols| && cols[i] == c;
          assert Rename(cols, c, "NUMERO_POLIZA")[i] == "NUMERO_POLIZA";
          Rename(cols, c, "NUMERO_POLIZA")
        case None => cols
  }

  /** Some requirement asks for the name x. */
  predicate IsTarget(reqs: seq<Requirement>, x: string) {
    exists q :: q in reqs && q.target == x
  }

  /** The column names after mapping and the fallback: no column is dropped
      or moved, and each keeps its name or takes a required one. */
  function MapHeaders(cols: seq<string>, reqs: seq<Requirement>, m: Matcher): (r: seq<string>)
    ensures |r| == |cols|
    ensures forall i :: 0 <= i < |cols| ==>
              r[i] == cols[i] || IsTarget(reqs, r[i]) || r[i] == "NUMERO_POLIZA"
  {
    var d := NormalizedColumns(cols, m.nfkd);
    var cm := ColumnMap(reqs, d, m);
    var renamed := RenameAll(cols, cm);
    RenameAllOrigin(cols, cm);
    ColumnMapTargets(reqs, d, m);
    PolicyNumberFallback(renamed, d, m.nfkd)
  }

  /** After the renames each name is the original or the target of some rename. */
  lemma {:induction false} RenameAllOrigin(cols: seq<string>, cm: Dict)
    ensures forall i :: 0 <= i < |cols| ==>
              RenameAll(cols, cm)[i] == cols[i] || exists k :: 0 <= k < |cm| && RenameAll(cols, cm)[i] == cm[k].1
    decreases |cm|
  {
    if cm != [] {
      var once := Rename(cols, cm[0].0, cm[0].1);
      RenameAllOrigin(once, cm[1..]);
      forall i | 0 <= i < |cols|
        ensures RenameAll(cols, cm)[i] == cols[i] || exists k :: 0 <= k < |cm| && RenameAll(cols, cm)[i] == cm[k].1
      {
        var x := RenameAll(cols, cm)[i];
        if x != once[i] {
          var k :| 0 <= k < |cm[1..]| && x == cm[1..][k].1;
          assert x == cm[k + 1].1;
        } else if x != cols[i] {
          assert x == cm[0].1;
        }
      }
    }
  }

  /** Every value of the column map is some requirement's target. */
  lemma ColumnMapTargets(reqs: seq<Requirement>, d: Dict, m: Matcher)
    ensures forall k :: 0 <= k < |ColumnMap(reqs, d, m)| ==> IsTarget(reqs, ColumnMap(reqs, d, m)[k].1)
  {
    var cs := Choices(reqs, d, m);
    var cm := ColumnMap(reqs, d, m);
    forall k | 0 <= k < |cm| ensures IsTarget(reqs, cm[k].1) {
      KeyIndexAt(cm, k);
      assert Lookup(cm, cm[k].0) == Some(cm[k].1);
      AssignFromChoices(cs, cm[k].0);
      var i :| 0 <= i < |cs| && cs[i].0 == Some(cm[k].0) && Lookup(cm, cm[k].0) == Some(cs[i].1);
      assert reqs[i] in reqs && reqs[i].target == cm[k].1;
    }
  }

  /** The required names still absent, in order. */
  function Missing(required: seq<string>, cols: seq<string>): (r: seq<string>)
    ensures forall x :: x in r <==> x in required && x !in cols
  {
    if required == [] then []
    else (if required[0] in cols then [] else [required[0]]) + Missing(required[1..], cols)
  }

  // ---------------------------------------------------------------------------
  // The validity window

  /** The date helpers separar_vigencia calls, none of them modelled:
      - parse: the format attempts followed by the day-first fallback;
      - toInt: Python's int() on a piece of text;
      - fromParts: pd.to_datetime of the ISO text built from (year, month, day). */
  datatype DateTools = DateTools(parse: string -> Option<int>, toInt: string -> Option<int>,
                                 fromParts: (int, int, int) -> Option<int>)

  /** The longest day the repair allows in a month: February always 29. */
  function DayCap(mes: int): (cap: int)
    ensures 29 <= cap <= 31
  {
    if mes == 2 then 29
    else if mes == 4 || mes == 6 || mes == 9 || mes == 11 then 30
    else 31
  }

  /** The day repair: a day beyond the cap becomes the cap. */
  function ClampDay(dia: int, mes: int): (r: int)
    ensures r <= dia && r <= DayCap(mes)
    ensures r == dia || r == DayCap(mes)
  {
    if dia <= DayCap(mes) then dia else DayCap(mes)
  }

  /** The cap is the month's length in a leap year: a real day of any year is
      left alone, and a repaired day exists in a leap year. */
  lemma ClampDayMatchesCalendar(y: int, dia: int, mes: int)
    requires 1 <= mes <= 12
    ensures dia <= DaysInMonth(y, mes) ==> ClampDay(dia, mes) == dia
    ensures ClampDay(dia, mes) <= DaysInMonth(y, mes) || (mes == 2 && !IsLeap(y) && ClampDay(dia, mes) == 29)
    ensures DayCap(mes) == DaysInMonth(2024, mes)
  {
  }

  /** The repair of a "d-m-y" text whose parse failed. */
  function RepairDate(fecha: string, tools: DateTools): (r: Option<int>)
    ensures !Contains(fecha, "-") ==> r.None?
  {
    if !Contains(fecha, "-") then None
    else
      var p := Split(fecha, "-");
      if |p| != 3 then None
      else match (tools.toInt(p[0]), tools.toInt(p[1]), tools.toInt(p[2]))
        case (Some(dia), Some(mes), Some(ano)) => tools.fromParts(ano, mes, ClampDay(dia, mes))
        case _ => None
  }

  /** One end of the window: the parse, and the repair only when it failed. */
  function ParseEnd(fecha: string, tools: DateTools): (r: Option<int>)
    ensures tools.parse(fecha).Some? ==> r == tools.parse(fecha)
    ensures tools.parse(fecha).None? ==> r == RepairDate(fecha, tools)
  {
    match tools.parse(fecha)
    case Some(d) => Some(d)
    case None => RepairDate(fecha, tools)
  }

  /** " AL " somewhere in the upper-cased text. */
  predicate HasAl(s: string) {
    Contains(Upper(s), " AL ")
  }

  /** Exactly one lower-case " a ". */
  predicate SingleA(s: string) {
    Contains(s, " a ") && Count(s, " a ") == 1
  }

  /** Exactly five dashes. */
  predicate FiveDashes(s: string) {
    Contains(s, "-") && Count(s, "-") == 5
  }

  /** The first and last blank-separated words, when there are three or more. */
  function OuterWords(s: string): Option<seq<string>> {
    Outer(Tokens(s))
  }

  /** The first and last of three or more words. */
  function Outer(t: seq<string>): (r: Option<seq<string>>)
    ensures r.Some? <==> |t| >= 3
    ensures r.Some? ==> |r.value| == 2 && r.value[0] == t[0] && r.value[1] == t[|t| - 1]
  {
    if |t| >= 3 then Some([t[0], t[|t| - 1]]) else None
  }

  /** The two texts the value is cut into, when a separator applies: " AL "
      (looked for upper-cased, cut in the original), a single " a ", or five
      dashes with the first and last words taken. */
  function Partes(s: string): (r: Option<seq<string>>)
    ensures HasAl(s) ==> r == Some(SplitOnce(s, " AL "))
    ensures !HasAl(s) && SingleA(s) ==> r == Some(SplitOnce(s, " a "))
    ensures !HasAl(s) && !SingleA(s) && FiveDashes(s) ==> r == OuterWords(s)
    ensures !HasAl(s) && !SingleA(s) && !FiveDashes(s) ==> r.None?
  {
    if HasAl(s) then Some(SplitOnce(s, " AL "))
    else if SingleA(s) then Some(SplitOnce(s, " a "))
    else if FiveDashes(s) then OuterWords(s)
    else None
  }

  /** The window from the two texts, when there are two and both dates come out. */
  function WindowFrom(p: Option<seq<string>>, tools: DateTools): (r: Option<Window>)
    ensures r.Some? <==> p.Some? && |p.value| == 2
                         && ParseEnd(Strip(p.value[0]), tools).Some? && ParseEnd(Strip(p.value[1]), tools).Some?
    ensures r.Some? ==> r.value == Window(ParseEnd(Strip(p.value[0]), tools).value,
                                          ParseEnd(Strip(p.value[1]), tools).value)
  {
    match p
    case None => None
    case Some(q) =>
      if |q| != 2 then None
      else match (ParseEnd(Strip(q[0]), tools), ParseEnd(Strip(q[1]), tools))
        case (Some(i), Some(f)) => Some(Window(i, f))
        case _ => None
  }

  /** separar_vigencia: never raises; a null cell or any failure gives no window. */
  function SepararVigencia(c: Cell, tools: DateTools): (r: Option<Window>)
    ensures c.IsNull() ==> r.None?
    ensures c.Stamp? ==> r == Some(Window(c.day, c.day))
    ensures c.Text? ==> r == WindowFrom(Partes(Strip(c.s)), tools)
  {
    if c.IsNull() then None
    else if c.Stamp? then Some(Window(c.day, c.day))
    else WindowFrom(Partes(Strip(c.Str())), tools)
  }

  /** " AL " is looked for in the upper-cased text but cut in the original, so
      a lower-case " al " gives no window, whatever the dates. */
  lemma LowerCaseAlGivesNothing(raw: string, tools: DateTools)
    requires HasAl(Strip(raw)) && !Contains(Strip(raw), " AL ")
    ensures SepararVigencia(Text(raw), tools).None?
  {
  }

  /** " a " separates only when it occurs once: with two or more, and no
      upper-case " AL " and no five dashes, there is no window. */
  lemma RepeatedLowerAGivesNothing(raw: string, tools: DateTools)
    requires var s := Strip(raw);
             !HasAl(s) && Count(s, " a ") >= 2 && !FiveDashes(s)
    ensures SepararVigencia(Text(raw), tools).None?
  {
    var s := Strip(raw);
    assert !SingleA(s);
    assert Partes(s).None?;
  }

  /** With exactly five dashes and no word separator, the first and last
      blank-separated words are the two dates. */
  lemma FiveDashesTakeOuterWords(c: Cell, tools: DateTools)
    requires c.Text?
    requires var s := Strip(c.s); !HasAl(s) && !SingleA(s) && FiveDashes(s)
    ensures SepararVigencia(c, tools) == WindowFrom(OuterWords(Strip(c.s)), tools)
  {
  }

  // ---------------------------------------------------------------------------
  // Amounts

  /** pd.to_numeric(errors="coerce"): plain decimals exactly, anything else
      by the oracle; None stands for NaN. */
  function ToNumeric(s: string, other: string -> Option<real>): (r: Option<real>)
    ensures PlainDecimal(s) ==> r == Some(DecimalValue(s))
  {
    if PlainDecimal(s) then Some(DecimalValue(s)) else other(s)
  }

  /** The amount stored for a premium cell: str(), dots deleted, commas made
      dots, trimmed, coerced; NaN is stored as 0.0. */
  function MontoUf(c: Cell, other: string -> Option<real>): (r: real)
    ensures PlainDecimal(Strip(Rewrite(c.Str()))) ==> r == DecimalValue(Strip(Rewrite(c.Str())))
    ensures !PlainDecimal(Strip(Rewrite(c.Str()))) && other(Strip(Rewrite(c.Str()))).None? ==> r == 0.0
  {
    ToNumeric(Strip(Rewrite(c.Str())), other).GetOr(0.0)
  }

  /** A rewritten "digits and dots, comma, digits" amount has no blank at either end. */
  lemma ChileanRewriteTrimmed(a: string, f: string)
    requires |a| > 0 && a[0] != '.' && !IsSpace(a[0])
    requires forall k :: 0 <= k < |a| ==> IsDigit(a[k]) || a[k] == '.'
    requires AllDigits(f) && |f| > 0
    ensures Strip(Rewrite(a + "," + f)) == Rewrite(a + "," + f)
  {
    var d := Delete(a, '.');
    assert |d| > 0 && d[0] == a[0] by { DeleteHead(a); }
    assert AllDigits(d) by { DigitsAndDots(a); }
    RewriteComma(a, f);
    EdgesTrimmed(d, f);
  }

  lemma EdgesTrimmed(d: string, f: string)
    requires |d| > 0 && !IsSpace(d[0]) && |f| > 0 && AllDigits(f)
    ensures Strip(d + "." + f) == d + "." + f
  {
    var u := d + "." + f;
    assert u[0] == d[0];
    assert u[|u| - 1] == f[|f| - 1];
    StripTrimmed(u);
  }

  /** Dots and one comma: the dots are thousands separators, the comma the decimal mark. */
  lemma MontoChileanFormat(a: string, f: string, other: string -> Option<real>)
    requires |a| > 0 && a[0] != '.' && !IsSpace(a[0])
    requires forall k :: 0 <= k < |a| ==> IsDigit(a[k]) || a[k] == '.'
    requires AllDigits(f) && |f| > 0
    ensures AllDigits(Delete(a, '.'))
    ensures MontoUf(Text(a + "," + f), other)
            == DigitsValue(Delete(a, '.')) as real + DigitsValue(f) as real / Pow10(|f|) as real
  {
    CommaIsDecimalMark(a, f);
    ChileanRewriteTrimmed(a, f);
    assert Text(a + "," + f).Str() == a + "," + f;
  }

  // ---------------------------------------------------------------------------
  // The row loop

  /** What the loop reads from one row: the trimmed policy number and the
      trimmed, upper-cased RUT (None for a null cell), the trimmed name or
      "Sin nombre", the window and the amount. */
  datatype LegacyRow = LegacyRow(numero: Option<string>, rut: Option<string>, nombre: string,
                                 window: Option<Window>, monto: real)

  /** A rejected row, by its position among the data rows. */
  datatype RowError = IncompleteData(index: nat) | InvalidDates(index: nat) {
    /** The line written to the import history; "Fila" counts the header as line 1. */
    function Message(): string {
      match this
      case IncompleteData(i) => "Fila " + IntToString(i + 2) + ": datos incompletos (RUT o NUMERO_POLIZA vacío)."
      case InvalidDates(i) => "Fila " + IntToString(i + 2) + ": fechas inválidas en VIGENCIA."
    }
  }

  /** The running counters: errors are counted and described; every policy
      number reached is remembered. */
  datatype Tally = Tally(insertados: nat, actualizados: nat, errores: nat, detalle: seq<RowError>,
                         polizas: set<string>)

  predicate Incomplete(r: LegacyRow) {
    r.numero.None? || r.rut.None?
  }

  /** The policy number the row is filed under. */
  function Numero(r: LegacyRow): string
    requires !Incomplete(r)
  {
    r.numero.value
  }

  /** The writes for an accepted row: get or create the client by its
      upper-cased RUT, then update or create the policy by its number. */
  function Apply(st: Store, r: LegacyRow, w: Window, today: int): (o: Store)
    requires !Incomplete(r)
    ensures o.policies.Keys == st.policies.Keys + {Numero(r)}
    ensures r.rut.value in o.clients
  {
    Store(GetOrCreateClient(st.clients, r.rut.value, r.nombre),
          UpsertPoliza(st.policies, Numero(r), r.rut.value, w.start, w.end, r.monto, today))
  }

  /** A row the loop writes: complete and with a window. */
  predicate Accepted(r: LegacyRow) {
    !Incomplete(r) && r.window.Some?
  }

  /** The writes of one row: none for a rejected row. */
  function Write(st: Store, r: LegacyRow, today: int): (o: Store)
    ensures !Accepted(r) ==> o == st
    ensures Accepted(r) ==> o.policies.Keys == st.policies.Keys + {Numero(r)} && r.rut.value in o.clients
  {
    if Accepted(r) then Apply(st, r, r.window.value, today) else st
  }

  /** The counters after one row; `known` says whether the row's number was
      already stored: a row without number or RUT, or without a window, is an
      error; an accepted row is an update when known and an insert otherwise. */
  function Tick(t: Tally, r: LegacyRow, index: nat, known: bool): (o: Tally)
    ensures Incomplete(r) ==> o.errores == t.errores + 1 && o.polizas == t.polizas
                              && o.detalle == t.detalle + [IncompleteData(index)]
    ensures !Incomplete(r) && r.window.None? ==> o.errores == t.errores + 1 && o.polizas == t.polizas
                                                 && o.detalle == t.detalle + [InvalidDates(index)]
    ensures Accepted(r) ==> o.polizas == t.polizas + {Numero(r)} && o.errores == t.errores && o.detalle == t.detalle
    ensures Accepted(r) ==> o.insertados == t.insertados + (if known then 0 else 1)
    ensures !Accepted(r) ==> o.insertados == t.insertados
    ensures o.insertados + o.actualizados + o.errores == t.insertados + t.actualizados + t.errores + 1
  {
    if Incomplete(r) then
      t.(errores := t.errores + 1, detalle := t.detalle + [IncompleteData(index)])
    else if r.window.None? then
      t.(errores := t.errores + 1, detalle := t.detalle + [InvalidDates(index)])
    else
      var t1 := t.(polizas := t.polizas + {Numero(r)});
      if known then t1.(actualizados := t.actualizados + 1)
      else t1.(insertados := t.insertados + 1)
  }

  /** Whether the row's number is already stored. */
  predicate Known(st: Store, r: LegacyRow) {
    !Incomplete(r) && Numero(r) in st.policies
  }

  /** The first n rows, in order, from the given store. */
  function Run(st: Store, rows: seq<LegacyRow>, n: nat, today: int): (o: (Store, Tally))
    requires n <= |rows|
  {
    if n == 0 then (st, Tally(0, 0, 0, [], {}))
    else
      var prev := Run(st, rows, n - 1, today);
      var r := rows[n - 1];
      (Write(prev.0, r, today), Tick(prev.1, r, n - 1, Known(prev.0, r)))
  }

  predicate AllDated(rows: seq<LegacyRow>) {
    forall i :: 0 <= i < |rows| ==> rows[i].window.Some?
  }

  /** How many of the first n rows are rejected. */
  function Rejected(rows: seq<LegacyRow>, n: nat): nat
    requires n <= |rows|
  {
    if n == 0 then 0 else Rejected(rows, n - 1) + (if Accepted(rows[n - 1]) then 0 else 1)
  }

  /** The policy numbers of the accepted rows among the first n. */
  function Reached(rows: seq<LegacyRow>, n: nat): (r: set<string>)
    requires n <= |rows|
  {
    if n == 0 then {}
    else Reached(rows, n - 1) + (if Accepted(rows[n - 1]) then {Numero(rows[n - 1])} else {})
  }

  /** A number is reached exactly when some accepted row among the first n carries it. */
  lemma {:induction false} ReachedMembers(rows: seq<LegacyRow>, n: nat, x: string)
    requires n <= |rows|
    ensures x in Reached(rows, n) <==> exists i :: 0 <= i < n && Accepted(rows[i]) && Numero(rows[i]) == x
  {
    if n > 0 {
      ReachedMembers(rows, n - 1, x);
      if x in Reached(rows, n) && x !in Reached(rows, n - 1) {
        assert Accepted(rows[n - 1]) && Numero(rows[n - 1]) == x;
      }
    }
  }

  /** Every row is counted once, and every error is described once. */
  lemma {:induction false} RunCounts(st: Store, rows: seq<LegacyRow>, n: nat, today: int)
    requires n <= |rows|
    ensures var o := Run(st, rows, n, today);
            o.1.insertados + o.1.actualizados + o.1.errores == n && |o.1.detalle| == o.1.errores
  {
    if n > 0 {
      RunCounts(st, rows, n - 1, today);
    }
  }

  /** The errors are exactly the rejected rows. */
  lemma {:induction false} RunErrors(st: Store, rows: seq<LegacyRow>, n: nat, today: int)
    requires n <= |rows|
    ensures Run(st, rows, n, today).1.errores == Rejected(rows, n)
  {
    if n > 0 {
      RunErrors(st, rows, n - 1, today);
    }
  }

  /** The numbers remembered are those of the accepted rows, and the store
      gains exactly those keys. */
  lemma {:induction false} RunPolicies(st: Store, rows: seq<LegacyRow>, n: nat, today: int)
    requires n <= |rows|
    ensures Run(st, rows, n, today).1.polizas == Reached(rows, n)
    ensures Run(st, rows, n, today).0.policies.Keys == st.policies.Keys + Reached(rows, n)
  {
    if n > 0 {
      RunPolicies(st, rows, n - 1, today);
    }
  }

  /** Adding x to the numbers seen adds one new number exactly when x was
      neither stored before nor seen. */
  lemma NewKeys<T>(seen: set<T>, keys: set<T>, x: T)
    ensures |(seen + {x}) - keys| == |seen - keys| + (if x in keys + seen then 0 else 1)
  {
    if x in keys + seen {
      assert (seen + {x}) - keys == seen - keys;
    } else {
      assert (seen + {x}) - keys == (seen - keys) + {x};
    }
  }

  /** One more row inserts one more policy exactly when it is accepted and its
      number is not yet stored. */
  lemma InsertedStep(st: Store, rows: seq<LegacyRow>, n: nat, today: int)
    requires 0 < n <= |rows|
    ensures var prev := Run(st, rows, n - 1, today);
            Run(st, rows, n, today).1.insertados
            == prev.1.insertados + (if Accepted(rows[n - 1]) && Numero(rows[n - 1]) !in prev.0.policies then 1 else 0)
  {
  }

  /** How many of the first n rows carry a number neither stored in keys nor
      seen in an earlier row. */
  function NewCount(rows: seq<LegacyRow>, n: nat, keys: set<string>): nat
    requires n <= |rows|
  {
    if n == 0 then 0
    else NewCount(rows, n - 1, keys)
         + (if Accepted(rows[n - 1]) && Numero(rows[n - 1]) !in keys + Reached(rows, n - 1) then 1 else 0)
  }

  /** That count is the number of distinct new numbers. */
  lemma {:induction false} NewCountIsSize(rows: seq<LegacyRow>, n: nat, keys: set<string>)
    requires n <= |rows|
    ensures NewCount(rows, n, keys) == |Reached(rows, n) - keys|
  {
    if n > 0 {
      NewCountIsSize(rows, n - 1, keys);
      ReachedStep(rows, n, keys);
    }
  }

  lemma ReachedStep(rows: seq<LegacyRow>, n: nat, keys: set<string>)
    requires 0 < n <= |rows|
    ensures var seen := Reached(rows, n - 1);
            |Reached(rows, n) - keys|
            == |seen - keys| + (if Accepted(rows[n - 1]) && Numero(rows[n - 1]) !in keys + seen then 1 else 0)
  {
    var seen := Reached(rows, n - 1);
    if Accepted(rows[n - 1]) {
      NewKeys(seen, keys, Numero(rows[n - 1]));
    }
  }

  /** The inserted counter counts the rows that bring a new number. */
  lemma {:induction false} RunInserted(st: Store, rows: seq<LegacyRow>, n: nat, today: int)
    requires n <= |rows|
    ensures Run(st, rows, n, today).1.insertados == NewCount(rows, n, st.policies.Keys)
  {
    if n > 0 {
      RunInserted(st, rows, n - 1, today);
      RunInsertedStep(st, rows, n, today);
    }
  }

  lemma RunInsertedStep(st: Store, rows: seq<LegacyRow>, n: nat, today: int)
    requires 0 < n <= |rows|
    ensures Run(st, rows, n, today).1.insertados
            == Run(st, rows, n - 1, today).1.insertados
               + (if Accepted(rows[n - 1]) && Numero(rows[n - 1]) !in st.policies.Keys + Reached(rows, n - 1) then 1 else 0)
  {
    RunPolicies(st, rows, n - 1, today);
    InsertedStep(st, rows, n, today);
  }

  // ---------------------------------------------------------------------------
  // The whole upload

  /** The HistorialImportacion row written at the end. */
  datatype History = History(clientesIngresados: nat, filasInsertadas: nat, filasActualizadas: nat,
                             filasErroneas: nat, mensaje: string)

  const MessageCap := 5000

  datatype LegacyOutcome =
    | MissingRequired(faltantes: seq<string>)
    | BadDates(muestra: seq<Cell>)
    | Imported(store: Store, history: History)

  /** The history row a finished loop produces. */
  function HistoryOf(t: Tally): (h: History)
    ensures |h.mensaje| <= MessageCap
    ensures h.clientesIngresados == |t.polizas|
  {
    var lines := seq(|t.detalle|, i requires 0 <= i < |t.detalle| => t.detalle[i].Message());
    History(|t.polizas|, t.insertados, t.actualizados, t.errores, Prefix(Join("\n", lines), MessageCap))
  }

  /** The VIGENCIA values of the first three rows without a window. */
  function Sample(cells: seq<Cell>, windows: seq<Option<Window>>): (r: seq<Cell>)
    requires |cells| == |windows|
    ensures |r| <= 3
  {
    var bad := BadCells(cells, windows);
    Prefix(bad, 3)
  }

  function BadCells(cells: seq<Cell>, windows: seq<Option<Window>>): seq<Cell>
    requires |cells| == |windows|
  {
    if cells == [] then []
    else (if windows[0].None? then [cells[0]] else []) + BadCells(cells[1..], windows[1..])
  }

  /** The window of every row, from its VIGENCIA cell. */
  function Windows(cols: seq<string>, rows: seq<seq<Cell>>, tools: DateTools): (r: seq<Option<Window>>)
    ensures |r| == |rows|
  {
    seq(|rows|, i requires 0 <= i < |rows| => SepararVigencia(Etl.Get(cols, rows[i], "VIGENCIA"), tools))
  }

  /** str(cell).strip(), or None for a null cell. */
  function Trimmed(c: Cell): (r: Option<string>)
    ensures r.None? <==> c.IsNull()
  {
    if c.IsNull() then None else Some(Strip(c.Str()))
  }

  /** One row as the loop reads it: the RUT is also upper-cased, a null name
      becomes "Sin nombre". */
  function ReadRow(cols: seq<string>, cells: seq<Cell>, window: Option<Window>,
                   other: string -> Option<real>): (r: LegacyRow)
    ensures r.numero == Trimmed(Etl.Get(cols, cells, "NUMERO_POLIZA"))
    ensures r.rut.None? <==> Etl.Get(cols, cells, "RUT").IsNull()
    ensures r.rut.Some? ==> r.rut.value == Upper(Strip(Etl.Get(cols, cells, "RUT").Str()))
    ensures Etl.Get(cols, cells, "NOMBRE_CLIENTE").IsNull() ==> r.nombre == "Sin nombre"
    ensures r.window == window
  {
    var rut := Trimmed(Etl.Get(cols, cells, "RUT"));
    var nombre := Etl.Get(cols, cells, "NOMBRE_CLIENTE");
    LegacyRow(Trimmed(Etl.Get(cols, cells, "NUMERO_POLIZA")),
              if rut.None? then None else Some(Upper(rut.value)),
              if nombre.IsNull() then "Sin nombre" else Strip(nombre.Str()),
              window,
              MontoUf(Etl.Get(cols, cells, "PRIMA_NETA"), other))
  }

  /** The rows the loop sees, read by column name. */
  function LoopRows(cols: seq<string>, rows: seq<seq<Cell>>, windows: seq<Option<Window>>,
                    other: string -> Option<real>): (r: seq<LegacyRow>)
    requires |windows| == |rows|
    ensures |r| == |rows|
    ensures forall i :: 0 <= i < |rows| ==> r[i] == ReadRow(cols, rows[i], windows[i], other)
  {
    seq(|rows|, i requires 0 <= i < |rows| => ReadRow(cols, rows[i], windows[i], other))
  }

  lemma {:induction false} BadCellsNonEmpty(cells: seq<Cell>, windows: seq<Option<Window>>, i: nat)
    requires |cells| == |windows| && i < |windows| && windows[i].None?
    ensures |BadCells(cells, windows)| > 0
  {
    if i > 0 && windows[0].Some? {
      BadCellsNonEmpty(cells[1..], windows[1..], i - 1);
    }
  }

  lemma BadCellsAny(cells: seq<Cell>, windows: seq<Option<Window>>)
    requires |cells| == |windows|
    requires exists i :: 0 <= i < |windows| && windows[i].None?
    ensures |BadCells(cells, windows)| > 0
  {
    var i :| 0 <= i < |windows| && windows[i].None?;
    BadCellsNonEmpty(cells, windows, i);
  }

  /** The loop over rows that all have a window, and the history row it leaves. */
  function ImportRows(lr: seq<LegacyRow>, st: Store, today: int): (o: (Store, History))
    ensures o.1.filasInsertadas + o.1.filasActualizadas + o.1.filasErroneas == |lr|
    ensures o.1.filasErroneas == Rejected(lr, |lr|)
    ensures o.1.clientesIngresados == |Reached(lr, |lr|)|
    ensures o.1.filasInsertadas == |Reached(lr, |lr|) - st.policies.Keys|
    ensures o.0.policies.Keys == st.policies.Keys + Reached(lr, |lr|)
    ensures |o.1.mensaje| <= MessageCap
  {
    var o := Run(st, lr, |lr|, today);
    assert o.1.insertados + o.1.actualizados + o.1.errores == |lr| by { RunCounts(st, lr, |lr|, today); }
    assert o.1.errores == Rejected(lr, |lr|) by { RunErrors(st, lr, |lr|, today); }
    assert o.1.polizas == Reached(lr, |lr|) && o.0.policies.Keys == st.policies.Keys + Reached(lr, |lr|) by {
      RunPolicies(st, lr, |lr|, today);
    }
    assert o.1.insertados == |Reached(lr, |lr|) - st.policies.Keys| by {
      RunInserted(st, lr, |lr|, today);
      NewCountIsSize(lr, |lr|, st.policies.Keys);
    }
    (o.0, HistoryOf(o.1))
  }

  // ---------------------------------------------------------------------------
  // dropna(axis=1, how='all')

  /** Column j holds no value on any row; a short row has none there. */
  predicate EmptyColumn(rows: seq<seq<Cell>>, j: nat) {
    forall i :: 0 <= i < |rows| ==> Validators.CellAt(rows[i], j).IsNull()
  }

  /** The positions below n of the columns that hold a value, ascending. */
  function KeptColumns(rows: seq<seq<Cell>>, n: nat): (ks: seq<nat>)
    ensures forall j: nat :: j in ks <==> j < n && !EmptyColumn(rows, j)
    ensures forall k :: 0 <= k < |ks| ==> ks[k] < n
    ensures forall a, b :: 0 <= a < b < |ks| ==> ks[a] < ks[b]
  {
    if n == 0 then []
    else KeptColumns(rows, n - 1) + (if EmptyColumn(rows, n - 1) then [] else [n - 1])
  }

  /** The cells of a row under the given positions. */
  function Project(row: seq<Cell>, ks: seq<nat>): (r: seq<Cell>)
    ensures |r| == |ks|
    ensures forall k :: 0 <= k < |ks| ==> r[k] == Validators.CellAt(row, ks[k])
  {
    seq(|ks|, k requires 0 <= k < |ks| => Validators.CellAt(row, ks[k]))
  }

  /** The names under the given positions. */
  function Pick(cols: seq<string>, ks: seq<nat>): (r: seq<string>)
    requires forall k :: 0 <= k < |ks| ==> ks[k] < |cols|
    ensures |r| == |ks|
    ensures forall k :: 0 <= k < |ks| ==> r[k] == cols[ks[k]]
  {
    seq(|ks|, k requires 0 <= k < |ks| => cols[ks[k]])
  }

  /** Every row cut down to the given positions. */
  function Cut(rows: seq<seq<Cell>>, ks: seq<nat>): (r: seq<seq<Cell>>)
    ensures |r| == |rows|
    ensures forall i :: 0 <= i < |rows| ==> r[i] == Project(rows[i], ks)
  {
    seq(|rows|, i requires 0 <= i < |rows| => Project(rows[i], ks))
  }

  /** The table without the columns that hold no value: the kept names in
      their order, each row cut down to them. */
  function DropEmptyColumns(cols: seq<string>, rows: seq<seq<Cell>>): (r: (seq<string>, seq<seq<Cell>>))
    ensures |r.0| <= |cols| && |r.1| == |rows|
    ensures forall i :: 0 <= i < |rows| ==> |r.1[i]| == |r.0|
    ensures forall x :: x in r.0 ==> x in cols
    ensures forall j: nat :: j < |cols| && !EmptyColumn(rows, j) ==> cols[j] in r.0
    ensures forall k: nat :: k < |r.0| ==> !EmptyColumn(r.1, k)
    ensures rows == [] ==> r.0 == []
    ensures (forall j: nat :: j < |cols| ==> !EmptyColumn(rows, j)) ==> r.0 == cols
  {
    var ks := KeptColumns(rows, |cols|);
    KeptDistinctBound(ks, |cols|);
    KeptNamesComplete(cols, rows, ks);
    CutKeepsValues(rows, ks);
    NoRowsNoneKept(rows, |cols|);
    if forall j: nat :: j < |cols| ==> !EmptyColumn(rows, j) then
      AllKept(rows, |cols|);
      assert Pick(cols, ks) == cols;
      (Pick(cols, ks), Cut(rows, ks))
    else (Pick(cols, ks), Cut(rows, ks))
  }

  /** Without rows every column is empty. */
  lemma {:induction false} NoRowsNoneKept(rows: seq<seq<Cell>>, n: nat)
    ensures rows == [] ==> KeptColumns(rows, n) == []
  {
    if n > 0 {
      NoRowsNoneKept(rows, n - 1);
    }
  }

  /** Strictly ascending positions below n number at most n. */
  lemma {:induction false} KeptDistinctBound(ks: seq<nat>, n: nat)
    requires forall k :: 0 <= k < |ks| ==> ks[k] < n
    requires forall a, b :: 0 <= a < b < |ks| ==> ks[a] < ks[b]
    ensures |ks| <= n
    decreases n
  {
    if |ks| > 0 {
      var init := ks[..|ks| - 1];
      assert forall k :: 0 <= k < |init| ==> init[k] < ks[|ks| - 1] <= n - 1;
      KeptDistinctBound(init, n - 1);
    }
  }

  lemma KeptNamesComplete(cols: seq<string>, rows: seq<seq<Cell>>, ks: seq<nat>)
    requires ks == KeptColumns(rows, |cols|)
    ensures forall j: nat :: j < |cols| && !EmptyColumn(rows, j) ==> cols[j] in Pick(cols, ks)
  {
    forall j: nat | j < |cols| && !EmptyColumn(rows, j) ensures cols[j] in Pick(cols, ks) {
      var k :| 0 <= k < |ks| && ks[k] == j;
      assert Pick(cols, ks)[k] == cols[j];
    }
  }

  lemma CutKeepsValues(rows: seq<seq<Cell>>, ks: seq<nat>)
    requires forall k :: 0 <= k < |ks| ==> !EmptyColumn(rows, ks[k])
    ensures forall k: nat :: k < |ks| ==> !EmptyColumn(Cut(rows, ks), k)
  {
    forall k: nat | k < |ks| ensures !EmptyColumn(Cut(rows, ks), k) {
      var i :| 0 <= i < |rows| && !Validators.CellAt(rows[i], ks[k]).IsNull();
      assert Validators.CellAt(Cut(rows, ks)[i], k) == Validators.CellAt(rows[i], ks[k]);
    }
  }

  /** When every column holds a value, every position is kept. */
  lemma {:induction false} AllKept(rows: seq<seq<Cell>>, n: nat)
    requires forall j: nat :: j < n ==> !EmptyColumn(rows, j)
    ensures |KeptColumns(rows, n)| == n
    ensures forall k :: 0 <= k < n ==> KeptColumns(rows, n)[k] == k
  {
    if n > 0 {
      AllKept(rows, n - 1);
      assert !EmptyColumn(rows, n - 1);
    }
  }

  /** ExcelUploadView.post from the re-read table on: drop the columns with no
      value, map the headers, require the five columns, require a window on
      every row, then run the loop. */
  function LegacyImport(cols: seq<string>, rows: seq<seq<Cell>>, m: Matcher, tools: DateTools,
                        other: string -> Option<real>, st: Store, today: int): (o: LegacyOutcome)
    ensures var t := DropEmptyColumns(cols, rows);
            o == ImportMapped(MapHeaders(t.0, Requirements, m), t.1, tools, other, st, today)
    ensures rows == [] ==> o == MissingRequired(Required)
  {
    var t := DropEmptyColumns(cols, rows);
    if rows == [] then
      assert Missing(Required, MapHeaders(t.0, Requirements, m)) == Required by {
        MissingFromNothing(Required);
      }
      ImportMapped(MapHeaders(t.0, Requirements, m), t.1, tools, other, st, today)
    else ImportMapped(MapHeaders(t.0, Requirements, m), t.1, tools, other, st, today)
  }

  /** With no column at all, every required name is missing. */
  lemma {:induction false} MissingFromNothing(required: seq<string>)
    ensures Missing(required, []) == required
  {
    if required != [] {
      MissingFromNothing(required[1..]);
    }
  }

  /** The outcome once the header names are mapped: the missing required
      names, else a sample of the rows without a window, else the loop's result. */
  function ImportMapped(mapped: seq<string>, rows: seq<seq<Cell>>, tools: DateTools,
                        other: string -> Option<real>, st: Store, today: int): (o: LegacyOutcome)
    ensures o.MissingRequired? <==> exists x :: x in Required && x !in mapped
    ensures o.MissingRequired? ==> o.faltantes == Missing(Required, mapped)
    ensures o.BadDates? ==> 0 < |o.muestra| <= 3
    ensures o.BadDates? <==> (forall x :: x in Required ==> x in mapped)
                             && exists i :: 0 <= i < |rows| && Windows(mapped, rows, tools)[i].None?
    ensures o.Imported? ==>
              var lr := LoopRows(mapped, rows, Windows(mapped, rows, tools), other);
              AllDated(lr) && (o.store, o.history) == ImportRows(lr, st, today)
  {
    var faltantes := Missing(Required, mapped);
    if faltantes != [] then
      assert faltantes[0] in Required && faltantes[0] !in mapped;
      MissingRequired(faltantes)
    else
      var windows := Windows(mapped, rows, tools);
      if exists i :: 0 <= i < |windows| && windows[i].None? then
        var vig := seq(|rows|, i requires 0 <= i < |rows| => Etl.Get(mapped, rows[i], "VIGENCIA"));
        assert |BadCells(vig, windows)| > 0 by { BadCellsAny(vig, windows); }
        BadDates(Sample(vig, windows))
      else
        var lr := LoopRows(mapped, rows, windows, other);
        var o := ImportRows(lr, st, today);
        Imported(o.0, o.1)
  }
}

=== FILE: polizas.dfy ===
/** Insurance policies and their clients as the importer stores them, and the
    per-policy freshness ladder. */
module Polizas {
  import opened Base

  /** The three policy states; the field is free text, these are its choices. */
  const Vigente := "VIGENTE"
  const Vencida := "VENCIDA"
  const Cancelada := "CANCELADA"

  predicate IsEstadoChoice(e: string) {
    e == Vigente || e == Vencida || e == Cancelada
  }

  /** The per-policy freshness grades, best first. */
  datatype Freshness = Excelente | Bueno | Advertencia | Critico {
    function Code(): string {
      match this
      case Excelente => "excelente"
      case Bueno => "bueno"
      case Advertencia => "advertencia"
      case Critico => "critico"
    }

    /** 0 for the best grade, 3 for the worst. */
    function Rank(): nat {
      match this
      case Excelente => 0
      case Bueno => 1
      case Advertencia => 2
      case Critico => 3
    }
  }

  /** A policy. `cliente` is the client's RUT; dates are day numbers. */
  datatype Poliza = Poliza(
    numero: string,
    cliente: string,
    fechaInicio: int,
    fechaVencimiento: int,
    montoUf: real,
    estado: string,
    cluster: Option<int>,
    ultimaActualizacion: int,
    frescura: Freshness,
    datosConfiables: bool)

  /** Policies by their unique number. */
  type PolicyStore = map<string, Poliza>

  /** Clients by their unique RUT, holding the name. */
  type ClientStore = map<string, string>

  /** The two tables an import writes to. */
  datatype Store = Store(clients: ClientStore, policies: PolicyStore)

  /** The key of every stored policy is its number. */
  predicate Keyed(m: PolicyStore) {
    forall k :: k in m ==> m[k].numero == k
  }

  /** The grade for an age in days: up to 7, up to 30, up to 60, older. */
  function Ladder(age: int): (f: Freshness)
    ensures f == Excelente <==> age <= 7
    ensures f == Bueno <==> 7 < age <= 30
    ensures f == Advertencia <==> 30 < age <= 60
    ensures f == Critico <==> age > 60
  {
    if age <= 7 then Excelente
    else if age <= 30 then Bueno
    else if age <= 60 then Advertencia
    else Critico
  }

  /** An older record never gets a better grade. */
  lemma LadderMonotone(a: int, b: int)
    requires a <= b
    ensures Ladder(a).Rank() <= Ladder(b).Rank()
  {
  }

  /** Poliza.actualizar_frescura: the grade of today's age and whether the
      data is trustworthy; only these two fields are written. */
  function ActualizarFrescura(p: Poliza, today: int): (r: Poliza)
    ensures r.frescura == Ladder(today - p.ultimaActualizacion)
    ensures r.datosConfiables <==> today - p.ultimaActualizacion <= 30
    ensures r.datosConfiables <==> r.frescura.Rank() <= 1
    ensures r.(frescura := p.frescura, datosConfiables := p.datosConfiables) == p
  {
    var f := Ladder(today - p.ultimaActualizacion);
    p.(frescura := f, datosConfiables := f == Excelente || f == Bueno)
  }

  /** Grading twice on the same day gives the same record. */
  lemma ActualizarFrescuraIdempotent(p: Poliza, today: int)
    ensures ActualizarFrescura(ActualizarFrescura(p, today), today) == ActualizarFrescura(p, today)
  {
  }

  /** update_or_create on the policy number: an existing policy gets the new
      client, dates, amount and state VIGENTE and keeps its cluster and grade;
      a new one starts with the field defaults. The save stamps today. */
  function UpsertPoliza(m: PolicyStore, numero: string, cliente: string, inicio: int, fin: int,
                        monto: real, today: int): (r: PolicyStore)
    ensures r.Keys == m.Keys + {numero}
    ensures forall k :: k in m && k != numero ==> r[k] == m[k]
    ensures r[numero].numero == numero && r[numero].cliente == cliente
    ensures r[numero].fechaInicio == inicio && r[numero].fechaVencimiento == fin
    ensures r[numero].montoUf == monto && r[numero].estado == Vigente
    ensures r[numero].ultimaActualizacion == today
    ensures numero in m ==> r[numero].cluster == m[numero].cluster && r[numero].frescura == m[numero].frescura
    ensures numero !in m ==> r[numero].cluster.None? && r[numero].frescura == Excelente && r[numero].datosConfiables
  {
    var p :=
      if numero in m then
        m[numero].(cliente := cliente, fechaInicio := inicio, fechaVencimiento := fin,
                   montoUf := monto, estado := Vigente, ultimaActualizacion := today)
      else Poliza(numero, cliente, inicio, fin, monto, Vigente, None, today, Excelente, true);
    m[numero := p.(numero := numero)]
  }

  /** An upsert keeps the store keyed by policy number. */
  lemma UpsertKeyed(m: PolicyStore, numero: string, cliente: string, inicio: int, fin: int,
                    monto: real, today: int)
    requires Keyed(m)
    ensures Keyed(UpsertPoliza(m, numero, cliente, inicio, fin, monto, today))
  {
  }

  /** Upserting the same values twice leaves the store as one upsert does. */
  lemma UpsertIdempotent(m: PolicyStore, numero: string, cliente: string, inicio: int, fin: int,
                         monto: real, today: int)
    ensures var once := UpsertPoliza(m, numero, cliente, inicio, fin, monto, today);
            UpsertPoliza(once, numero, cliente, inicio, fin, monto, today) == once
  {
  }

  /** Cliente get_or_create: a known RUT keeps its name. */
  function GetOrCreateClient(c: ClientStore, rut: string, nombre: string): (r: ClientStore)
    ensures r.Keys == c.Keys + {rut}
    ensures rut in c ==> r == c
    ensures rut !in c ==> r[rut] == nombre && forall k :: k in c ==> r[k] == c[k]
  {
    if rut in c then c else c[rut := nombre]
  }

  /** The RUTs of the clients that own at least one policy. */
  function ClientsWithPolicies(m: PolicyStore): (s: set<string>)
    ensures forall k :: k in m ==> m[k].cliente in s
    ensures forall r :: r in s ==> exists k :: k in m && m[k].cliente == r
  {
    set k | k in m :: m[k].cliente
  }
}

=== FILE: reports.dfy ===
/** The four automatic reports: expired policies, policies about to expire,
    the month's production against the previous month's, and the month's top
    clients. Policies are given in the queryset's order; dates are day numbers, and
    `today` is also given as a civil date where the month matters. */
module Reports {
  import opened Base
  import opened Text
  import opened Calendar
  import opened Polizas
  import opened Agrupacion
  import Alerts
  import Freshness

  // ---------------------------------------------------------------------
  // Ordering by expiry date
  // ---------------------------------------------------------------------

  predicate AscendingVencimiento(ps: seq<Poliza>) {
    forall i, j :: 0 <= i < j < |ps| ==> ps[i].fechaVencimiento <= ps[j].fechaVencimiento
  }

  /** Insert a policy after every policy expiring no later. */
  function InsertVencimiento(x: Poliza, s: seq<Poliza>): (r: seq<Poliza>)
    ensures multiset(r) == multiset(s) + multiset{x}
    ensures forall y :: y in r <==> y == x || y in s
  {
    if |s| == 0 then [x]
    else if x.fechaVencimiento < s[0].fechaVencimiento then [x] + s
    else
      assert s == [s[0]] + s[1..];
      [s[0]] + InsertVencimiento(x, s[1..])
  }

  lemma {:induction false} InsertVencimientoAscending(x: Poliza, s: seq<Poliza>)
    requires AscendingVencimiento(s)
    ensures AscendingVencimiento(InsertVencimiento(x, s))
  {
    if |s| > 0 && x.fechaVencimiento >= s[0].fechaVencimiento {
      var t := InsertVencimiento(x, s[1..]);
      InsertVencimientoAscending(x, s[1..]);
      forall k | 0 <= k < |t|
        ensures s[0].fechaVencimiento <= t[k].fechaVencimiento
      {
        assert t[k] in t;
        if t[k] != x {
          var i :| 0 <= i < |s[1..]| && s[1..][i] == t[k];
          assert s[i + 1] == t[k];
        }
      }
    }
  }

  /** order_by('fecha_vencimiento'), as a stable insertion sort. */
  function SortByVencimiento(s: seq<Poliza>): (r: seq<Poliza>)
    ensures multiset(r) == multiset(s)
    ensures forall y :: y in r <==> y in s
    ensures AscendingVencimiento(r)
  {
    if |s| == 0 then []
    else
      assert s == s[..|s| - 1] + [s[|s| - 1]];
      assert forall y :: y in s <==> y == s[|s| - 1] || y in s[..|s| - 1];
      var r := SortByVencimiento(s[..|s| - 1]);
      InsertVencimientoAscending(s[|s| - 1], r);
      InsertVencimiento(s[|s| - 1], r)
  }

  /** The policies satisfying a condition, in the order given. */
  function Filter(ps: seq<Poliza>, keep: Poliza -> bool): (r: seq<Poliza>)
    ensures forall p :: p in r <==> p in ps && keep(p)
    ensures forall p :: p in r ==> multiset(r)[p] == multiset(ps)[p]
  {
    if |ps| == 0 then []
    else
      var init := ps[..|ps| - 1];
      var last := ps[|ps| - 1];
      assert ps == init + [last];
      var r := Filter(init, keep);
      assert forall p :: p in ps <==> p in init || p == last;
      if keep(last) then r + [last] else r
  }

  /** The policies satisfying a condition, by expiry date. */
  function Listado(ps: seq<Poliza>, keep: Poliza -> bool): (r: seq<Poliza>)
    ensures forall p :: p in r <==> p in ps && keep(p)
    ensures forall p :: p in r ==> multiset(r)[p] == multiset(ps)[p]
    ensures AscendingVencimiento(r)
  {
    SortByVencimiento(Filter(ps, keep))
  }

  // ---------------------------------------------------------------------
  // reporte_polizas_vencidas
  // ---------------------------------------------------------------------

  /** A row of the expired-policies report; the client's name is a join that
      is not modelled. */
  datatype FilaVencida = FilaVencida(poliza: string, rut: string, vencimiento: int, diasAtraso: int,
                                     estado: string, primaUf: real)

  datatype Vencidas = Vencidas(db: Alerts.Db, fs: Freshness.FreshStore, polizas: seq<Poliza>, filas: seq<FilaVencida>)

  function MensajeVencida(p: Poliza, today: int): string {
    "La póliza " + p.numero + " venció hace " + IntToString(today - p.fechaVencimiento) + " días"
  }

  const TituloVencida := "PÓLIZA VENCIDA"
  const Critical := "critical"

  /** A report row describes policy p: its number, its client and the days
      since it expired. */
  predicate VencidaEnFila(f: FilaVencida, p: Poliza, today: int) {
    f.poliza == p.numero && f.rut == p.cliente && f.diasAtraso == today - p.fechaVencimiento
  }

  /** One row per listed policy, in the same order. */
  function FilasVencidas(orden: seq<Poliza>, today: int): (filas: seq<FilaVencida>)
    ensures |filas| == |orden|
    ensures forall i :: 0 <= i < |filas| ==> VencidaEnFila(filas[i], orden[i], today)
  {
    seq(|orden|, i requires 0 <= i < |orden| =>
          FilaVencida(orden[i].numero, orden[i].cliente, orden[i].fechaVencimiento,
                      today - orden[i].fechaVencimiento, orden[i].estado, orden[i].montoUf))
  }

  /** reporte_polizas_vencidas: the policies expired before today, oldest
      expiry first, with the days since; each gets a critical 'vencimientos'
      alert request (every policy has a client). */
  function ReportePolizasVencidas(db: Alerts.Db, fs: Freshness.FreshStore, store: PolicyStore, ps: seq<Poliza>,
                                  today: int, now: int): (r: Vencidas)
    requires forall p :: p in ps ==> p.numero in store
    ensures forall p :: p in r.polizas <==> p in ps && p.fechaVencimiento < today
    ensures forall p :: p in r.polizas ==> multiset(r.polizas)[p] == multiset(ps)[p]
    ensures AscendingVencimiento(r.polizas)
    ensures |r.filas| == |r.polizas|
    ensures forall i :: 0 <= i < |r.filas| ==> VencidaEnFila(r.filas[i], r.polizas[i], today) && r.filas[i].diasAtraso >= 1
    ensures |r.db.alertas| >= |db.alertas| && r.db.alertas[..|db.alertas|] == db.alertas
  {
    var orden := Listado(ps, (p: Poliza) => p.fechaVencimiento < today);
    var a := Alerts.AlertarPolizas(db, fs, store, orden, TituloVencida, _ => Critical,
                                   p => MensajeVencida(p, today), now, today);
    var filas := FilasVencidas(orden, today);
    assert forall i :: 0 <= i < |filas| ==> filas[i].diasAtraso >= 1 by {
      forall i | 0 <= i < |filas| ensures filas[i].diasAtraso >= 1 {
        assert orden[i] in orden;
        assert VencidaEnFila(filas[i], orden[i], today);
      }
    }
    Vencidas(a.0, a.1, orden, filas)
  }

  /** Every listed policy ends with an active 'vencimientos' alert; one that
      still has an active alert from the expiring report gets no new one. */
  lemma VencidasCovered(db: Alerts.Db, fs: Freshness.FreshStore, store: PolicyStore, ps: seq<Poliza>,
                        today: int, now: int)
    requires forall p :: p in ps ==> p.numero in store
    ensures var r := ReportePolizasVencidas(db, fs, store, ps, today, now);
            forall p :: p in r.polizas ==> Alerts.Covered(r.db.alertas, p.numero)
    ensures (forall p :: p in ps && p.fechaVencimiento < today ==> Alerts.Covered(db.alertas, p.numero))
            ==> ReportePolizasVencidas(db, fs, store, ps, today, now).db == db
  {
    var r := ReportePolizasVencidas(db, fs, store, ps, today, now);
    var sev: Poliza -> string := _ => "critical";
    var msg: Poliza -> string := p => MensajeVencida(p, today);
    Alerts.AlertarPolizasCovers(db, fs, store, r.polizas, "PÓLIZA VENCIDA", sev, msg, now, today);
    if forall p :: p in ps && p.fechaVencimiento < today ==> Alerts.Covered(db.alertas, p.numero) {
      Alerts.AlertarPolizasCovered(db, fs, store, r.polizas, "PÓLIZA VENCIDA", sev, msg, now, today);
    }
  }

  // ---------------------------------------------------------------------
  // reporte_polizas_por_expirar
  // ---------------------------------------------------------------------

  /** The recommendation by days left, and the alert severity it goes with. */
  datatype Recomendacion = Urgente | Contactar | Preparar {
    function Texto(): string {
      match this
      case Urgente => "URGENTE: Contactar cliente para renovación inmediata"
      case Contactar => "Contactar cliente para renovación"
      case Preparar => "Preparar comunicación de renovación"
    }

    function Severidad(): string {
      match this
      case Urgente => "critical"
      case Contactar => "warning"
      case Preparar => "info"
    }

    function Rank(): nat {
      match this
      case Urgente => 2
      case Contactar => 1
      case Preparar => 0
    }
  }

  function RecomendacionPorDias(dias: int): (r: Recomendacion)
    ensures r == Urgente <==> dias <= 5
    ensures r == Contactar <==> 5 < dias <= 15
    ensures r == Preparar <==> 15 < dias
  {
    if dias <= 5 then Urgente else if dias <= 15 then Contactar else Preparar
  }

  /** Fewer days left never means a less urgent recommendation. */
  lemma RecomendacionMonotone(a: int, b: int)
    requires a <= b
    ensures RecomendacionPorDias(a).Rank() >= RecomendacionPorDias(b).Rank()
  {
  }

  /** The expiring report's horizon, in days. */
  const Horizonte := 30

  predicate PorExpirar(p: Poliza, today: int) {
    today <= p.fechaVencimiento <= today + Horizonte && (p.estado == "vigente" || p.estado == Vigente)
  }

  datatype FilaPorExpirar = FilaPorExpirar(poliza: string, rut: string, vencimiento: int, diasRestantes: int,
                                           recomendacion: Recomendacion, primaUf: real, estado: string)

  datatype PorExpirarReporte = PorExpirarReporte(db: Alerts.Db, fs: Freshness.FreshStore, polizas: seq<Poliza>,
                                                 filas: seq<FilaPorExpirar>)

  function MensajePorExpirar(p: Poliza, today: int): string {
    "La póliza " + p.numero + " vence en " + IntToString(p.fechaVencimiento - today) + " días"
  }

  /** A report row describes policy p: its number, the days left and the
      recommendation for them. */
  predicate ExpiraEnFila(f: FilaPorExpirar, p: Poliza, today: int) {
    && f.poliza == p.numero
    && f.diasRestantes == p.fechaVencimiento - today
    && f.recomendacion == RecomendacionPorDias(f.diasRestantes)
  }

  /** One row per listed policy, in the same order. */
  function FilasPorExpirar(orden: seq<Poliza>, today: int): (filas: seq<FilaPorExpirar>)
    ensures |filas| == |orden|
    ensures forall i :: 0 <= i < |filas| ==> ExpiraEnFila(filas[i], orden[i], today)
  {
    seq(|orden|, i requires 0 <= i < |orden| =>
          var d := orden[i].fechaVencimiento - today;
          FilaPorExpirar(orden[i].numero, orden[i].cliente, orden[i].fechaVencimiento, d,
                         RecomendacionPorDias(d), orden[i].montoUf, orden[i].estado))
  }

  /** reporte_polizas_por_expirar: VIGENTE policies expiring within the next
      30 days, soonest first, with the days left, the recommendation, and an
      alert request at the recommendation's severity. */
  function ReportePolizasPorExpirar(db: Alerts.Db, fs: Freshness.FreshStore, store: PolicyStore, ps: seq<Poliza>,
                                    today: int, now: int): (r: PorExpirarReporte)
    requires forall p :: p in ps ==> p.numero in store
    ensures forall p :: p in r.polizas <==> p in ps && PorExpirar(p, today)
    ensures forall p :: p in r.polizas ==> multiset(r.polizas)[p] == multiset(ps)[p]
    ensures AscendingVencimiento(r.polizas)
    ensures |r.filas| == |r.polizas|
    ensures forall i :: 0 <= i < |r.filas| ==>
              ExpiraEnFila(r.filas[i], r.polizas[i], today) && 0 <= r.filas[i].diasRestantes <= Horizonte
    ensures |r.db.alertas| >= |db.alertas| && r.db.alertas[..|db.alertas|] == db.alertas
  {
    var orden := Listado(ps, (p: Poliza) => PorExpirar(p, today));
    var a := Alerts.AlertarPolizas(db, fs, store, orden, "EXPIRACIÓN PRÓXIMA",
                                   (p: Poliza) => RecomendacionPorDias(p.fechaVencimiento - today).Severidad(),
                                   p => MensajePorExpirar(p, today), now, today);
    var filas := FilasPorExpirar(orden, today);
    assert forall i :: 0 <= i < |filas| ==> 0 <= filas[i].diasRestantes <= Horizonte by {
      forall i | 0 <= i < |filas| ensures 0 <= filas[i].diasRestantes <= Horizonte {
        assert orden[i] in orden;
        assert ExpiraEnFila(filas[i], orden[i], today);
      }
    }
    PorExpirarReporte(a.0, a.1, orden, filas)
  }

  // ---------------------------------------------------------------------
  // reporte_produccion_mensual
  // ---------------------------------------------------------------------

  /** The policies starting in [lo, hi): their amounts added up, and how many. */
  function PrimaEntre(ps: seq<Poliza>, lo: int, hi: int): real {
    if |ps| == 0 then 0.0
    else PrimaEntre(ps[..|ps| - 1], lo, hi)
         + (if lo <= ps[|ps| - 1].fechaInicio < hi then ps[|ps| - 1].montoUf else 0.0)
  }

  function CuentaEntre(ps: seq<Poliza>, lo: int, hi: int): (n: nat)
    ensures n <= |ps|
  {
    if |ps| == 0 then 0
    else CuentaEntre(ps[..|ps| - 1], lo, hi) + (if lo <= ps[|ps| - 1].fechaInicio < hi then 1 else 0)
  }

  /** A policy is counted in a window exactly when it starts inside it. */
  lemma {:induction false} CuentaEntreSingle(p: Poliza, lo: int, hi: int)
    ensures CuentaEntre([p], lo, hi) == 1 <==> lo <= p.fechaInicio < hi
  {
    assert [p][..0] == [];
  }

  function MesInicio(t: Date): Date {
    Date(t.year, t.month, 1)
  }

  /** The bound the code puts on the current month: day 28 plus four days. */
  function LimiteEscrito(t: Date): int
    requires Valid(t)
  {
    ToDays(Date(t.year, t.month, 28)) + 4
  }

  /** The first day of the next month, the bound the comment names. */
  function LimiteMes(t: Date): int
    requires Valid(t)
  {
    ToDays(NextMonth(t.year, t.month))
  }

  /** The code's bound lies 31 - (days in the month) days past the next
      month's first day: it is that first day only for 31-day months. */
  lemma LimiteEscritoOvershoots(t: Date)
    requires Valid(t)
    ensures LimiteEscrito(t) == LimiteMes(t) + (31 - DaysInMonth(t.year, t.month))
    ensures LimiteEscrito(t) == LimiteMes(t) <==> DaysInMonth(t.year, t.month) == 31
  {
    NextMonthStart(t.year, t.month);
  }

  /** As written, a report made in a month of fewer than 31 days counts a
      policy starting on the next month's first day as production of the
      current month, and the next month's report counts it again. */
  lemma ProduccionAsWrittenCountsNextMonth(t: Date, p: Poliza, u: Date)
    requires Valid(t) && DaysInMonth(t.year, t.month) < 31
    requires p.fechaInicio == LimiteMes(t)
    requires Valid(u) && MesInicio(u) == NextMonth(t.year, t.month)
    ensures CuentaEntre([p], ToDays(MesInicio(t)), LimiteEscrito(t)) == 1
    ensures CuentaEntre([p], ToDays(MesInicio(u)), LimiteEscrito(u)) == 1
  {
    LimiteEscritoOvershoots(t);
    NextMonthStart(t.year, t.month);
    LimiteEscritoOvershoots(u);
    NextMonthStart(u.year, u.month);
    CuentaEntreSingle(p, ToDays(MesInicio(t)), LimiteEscrito(t));
    CuentaEntreSingle(p, ToDays(MesInicio(u)), LimiteEscrito(u));
  }

  /** With the intended bound, the current window holds exactly the days of
      the current month. */
  lemma LimiteMesExact(t: Date, d: int)
    requires Valid(t)
    ensures ToDays(MesInicio(t)) <= ToDays(Date(t.year, t.month, d)) < LimiteMes(t)
            <==> 1 <= d <= DaysInMonth(t.year, t.month)
  {
    NextMonthStart(t.year, t.month);
  }

  datatype Produccion = Produccion(totalPrimaUf: real, cantidad: nat, primaPromedio: real)

  datatype Variacion = Variacion(primaUf: real, primaPorcentaje: real, polizas: int, polizasPorcentaje: real)

  datatype Mensual = Mensual(mes: Date, mesAnterior: Date, actual: Produccion, anterior: Produccion,
                             variacion: Variacion, totalVigentes: nat)

  /** A change in percent of the earlier value; 0 when that value is not positive. */
  function Porcentaje(diff: real, base: real): (r: real)
    ensures base > 0.0 ==> r * base == diff * 100.0
    ensures base <= 0.0 ==> r == 0.0
  {
    if base > 0.0 then diff / base * 100.0 else 0.0
  }

  function ProduccionEntre(ps: seq<Poliza>, lo: int, hi: int): (r: Produccion)
    ensures r.totalPrimaUf == PrimaEntre(ps, lo, hi) && r.cantidad == CuentaEntre(ps, lo, hi)
    ensures r.cantidad > 0 ==> r.primaPromedio * r.cantidad as real == r.totalPrimaUf
    ensures r.cantidad == 0 ==> r.primaPromedio == 0.0
  {
    var total := PrimaEntre(ps, lo, hi);
    var n := CuentaEntre(ps, lo, hi);
    Produccion(total, n, if n > 0 then total / n as real else 0.0)
  }

  function CuentaVigentes(ps: seq<Poliza>): (n: nat)
    ensures n <= |ps|
  {
    if |ps| == 0 then 0
    else CuentaVigentes(ps[..|ps| - 1])
         + (if ps[|ps| - 1].estado == "vigente" || ps[|ps| - 1].estado == Vigente then 1 else 0)
  }

  /** The change from the previous month to the current one: the
      differences of the totals and counts, and each in percent of the
      previous month's value (0 when that is not positive). */
  predicate VariacionDe(v: Variacion, actual: Produccion, anterior: Produccion) {
    && v.primaUf == actual.totalPrimaUf - anterior.totalPrimaUf
    && v.polizas == actual.cantidad - anterior.cantidad
    && (anterior.totalPrimaUf > 0.0 ==> v.primaPorcentaje * anterior.totalPrimaUf == v.primaUf * 100.0)
    && (anterior.totalPrimaUf <= 0.0 ==> v.primaPorcentaje == 0.0)
    && (anterior.cantidad == 0 ==> v.polizasPorcentaje == 0.0)
    && (anterior.cantidad > 0 ==> v.polizasPorcentaje * anterior.cantidad as real == v.polizas as real * 100.0)
  }

  function VariacionEntre(actual: Produccion, anterior: Produccion): (v: Variacion)
    ensures VariacionDe(v, actual, anterior)
  {
    var dPrima := actual.totalPrimaUf - anterior.totalPrimaUf;
    var dPolizas := actual.cantidad - anterior.cantidad;
    Variacion(dPrima, Porcentaje(dPrima, anterior.totalPrimaUf),
              dPolizas, Porcentaje(dPolizas as real, anterior.cantidad as real))
  }

  /** reporte_produccion_mensual with the current month's window ending at
      `limite`. Going back from January to December of year 0 fails as
      Python's date does. */
  function ProduccionMensualHasta(ps: seq<Poliza>, t: Date, limite: int): (r: Result<Mensual>)
    requires Valid(t)
    ensures r.Err? <==> t.year == 1 && t.month == 1
    ensures r.Ok? ==>
              var m := r.value;
              m.mes == MesInicio(t) && m.mesAnterior == PrevMonth(t.year, t.month)
              && m.actual == ProduccionEntre(ps, ToDays(MesInicio(t)), limite)
              && m.anterior == ProduccionEntre(ps, ToDays(m.mesAnterior), ToDays(MesInicio(t)))
              && VariacionDe(m.variacion, m.actual, m.anterior)
              && m.totalVigentes == CuentaVigentes(ps)
  {
    var prev := PrevMonth(t.year, t.month);
    if prev.year < 1 then Err("year 0 is out of range")
    else
      var fin := NextMonth(prev.year, prev.month);
      PrevThenNext(t.year, t.month);
      var actual := ProduccionEntre(ps, ToDays(MesInicio(t)), limite);
      var anterior := ProduccionEntre(ps, ToDays(prev), ToDays(fin));
      Ok(Mensual(MesInicio(t), prev, actual, anterior, VariacionEntre(actual, anterior),
                 CuentaVigentes(ps)))
  }

  /** The report as the code computes it: the current window ends at day 28
      plus four days. */
  function ReporteProduccionMensualEscrito(ps: seq<Poliza>, t: Date): (r: Result<Mensual>)
    requires Valid(t)
    ensures r == ProduccionMensualHasta(ps, t, LimiteEscrito(t))
  {
    ProduccionMensualHasta(ps, t, LimiteEscrito(t))
  }

  /** The report with the current window ending at the next month's first
      day, as intended. */
  function ReporteProduccionMensual(ps: seq<Poliza>, t: Date): (r: Result<Mensual>)
    requires Valid(t)
    ensures r == ProduccionMensualHasta(ps, t, LimiteMes(t))
  {
    ProduccionMensualHasta(ps, t, LimiteMes(t))
  }

  /** With the intended bound, consecutive months' windows meet: the previous
      month's window of one report is the current window of the report made
      a month earlier, so no policy is counted twice or skipped. */
  lemma MesesContiguos(ps: seq<Poliza>, t: Date, s: Date)
    requires Valid(t) && Valid(s) && !(t.year == 1 && t.month == 1)
    requires MesInicio(s) == PrevMonth(t.year, t.month)
    ensures ReporteProduccionMensual(ps, t).Ok?
    ensures ReporteProduccionMensual(ps, s).Ok? ==>
              ReporteProduccionMensual(ps, t).value.anterior == ReporteProduccionMensual(ps, s).value.actual
  {
    PrevThenNext(t.year, t.month);
  }

  // ---------------------------------------------------------------------
  // reporte_top_clientes
  // ---------------------------------------------------------------------

  predicate DescendingTotal(s: seq<Acum>) {
    forall i, j :: 0 <= i < j < |s| ==> s[i].totalUf >= s[j].totalUf
  }

  function InsertTotal(x: Acum, s: seq<Acum>): (r: seq<Acum>)
    ensures multiset(r) == multiset(s) + multiset{x}
  {
    if |s| == 0 then [x]
    else if x.totalUf > s[0].totalUf then [x] + s
    else
      assert s == [s[0]] + s[1..];
      [s[0]] + InsertTotal(x, s[1..])
  }

  /** Inserting into a list sorted largest first keeps it sorted. */
  lemma {:induction false} InsertTotalSorted(x: Acum, s: seq<Acum>)
    requires DescendingTotal(s)
    ensures DescendingTotal(InsertTotal(x, s))
  {
    if |s| > 0 && x.totalUf <= s[0].totalUf {
      var t := InsertTotal(x, s[1..]);
      DescendingTail(s);
      InsertTotalSorted(x, s[1..]);
      HeadAboveInsert(x, s, t);
      DescendingCons(s[0], t);
      assert InsertTotal(x, s) == [s[0]] + t;
    }
  }

  lemma DescendingTail(s: seq<Acum>)
    requires |s| > 0 && DescendingTotal(s)
    ensures DescendingTotal(s[1..])
  {
    forall i, j | 0 <= i < j < |s[1..]| ensures s[1..][i].totalUf >= s[1..][j].totalUf {
      assert s[1..][i] == s[i + 1] && s[1..][j] == s[j + 1];
    }
  }

  /** The head of a sorted list bounds everything in its tail with x added,
      when it bounds x. */
  lemma HeadAboveInsert(x: Acum, s: seq<Acum>, t: seq<Acum>)
    requires |s| > 0 && x.totalUf <= s[0].totalUf && DescendingTotal(s)
    requires multiset(t) == multiset(s[1..]) + multiset{x}
    ensures forall k :: 0 <= k < |t| ==> s[0].totalUf >= t[k].totalUf
  {
    forall k | 0 <= k < |t|
      ensures s[0].totalUf >= t[k].totalUf
    {
      assert t[k] in multiset(t);
      if t[k] != x {
        assert t[k] in multiset(s[1..]);
        var i :| 0 <= i < |s[1..]| && s[1..][i] == t[k];
        assert s[i + 1] == t[k];
      }
    }
  }

  lemma DescendingCons(h: Acum, t: seq<Acum>)
    requires DescendingTotal(t) && forall k :: 0 <= k < |t| ==> h.totalUf >= t[k].totalUf
    ensures DescendingTotal([h] + t)
  {
    var s := [h] + t;
    forall i, j | 0 <= i < j < |s| ensures s[i].totalUf >= s[j].totalUf {
      assert s[j] == t[j - 1];
      if i > 0 { assert s[i] == t[i - 1]; }
    }
  }

  /** order_by('-total_uf') */
  function SortByTotal(s: seq<Acum>): (r: seq<Acum>)
    ensures multiset(r) == multiset(s)
    ensures DescendingTotal(r)
  {
    if |s| == 0 then []
    else
      assert s == s[..|s| - 1] + [s[|s| - 1]];
      var sorted := SortByTotal(s[..|s| - 1]);
      InsertTotalSorted(s[|s| - 1], sorted);
      InsertTotal(s[|s| - 1], sorted)
  }

  /** The number of rows of the ranking. */
  const TopN := 10

  datatype FilaTop = FilaTop(posicion: nat, rut: string, totalUf: real, cantidad: nat, participacion: real,
                             primaPromedio: real)

  datatype TopClientes = TopClientes(mes: Date, totalPrimaMes: real, grupos: seq<Acum>, filas: seq<FilaTop>)

  /** g lists every client of the policies once each, with its total and
      its (positive) number of policies. */
  ghost predicate Agrupa(g: seq<Acum>, ps: seq<Poliza>) {
    Distinct(g)
    && (forall a :: a in g ==> a.totalUf == SumaRut(ps, a.rut) && a.polizas == CuentaRut(ps, a.rut) > 0)
    && (forall p :: p in ps ==> exists a :: a in g && a.rut == p.cliente)
  }

  /** The per-client totals, largest first. */
  function Grupos(ps: seq<Poliza>): (g: seq<Acum>)
    ensures DescendingTotal(g) && Agrupa(g, ps)
  {
    var acc := Acumular(ps);
    var g := SortByTotal(acc);
    AcumularAgrupa(ps);
    AgrupaPermuted(acc, g, ps);
    g
  }

  /** The accumulated totals group the policies, before any sorting. */
  lemma AcumularAgrupa(ps: seq<Poliza>)
    ensures Agrupa(Acumular(ps), ps)
  {
    var acc := Acumular(ps);
    forall a | a in acc
      ensures a.totalUf == SumaRut(ps, a.rut) && a.polizas == CuentaRut(ps, a.rut) > 0
    {
      var i :| 0 <= i < |acc| && acc[i] == a;
      assert FindAcum(acc, a.rut).Some?;
    }
    forall p | p in ps
      ensures exists a :: a in acc && a.rut == p.cliente
    {
      PresentCounted(ps, p);
      var k := FindAcum(acc, p.cliente).value;
      assert acc[k] in acc;
    }
  }

  /** Grouping depends only on which rows there are, not on their order. */
  lemma AgrupaPermuted(acc: seq<Acum>, g: seq<Acum>, ps: seq<Poliza>)
    requires multiset(g) == multiset(acc) && Agrupa(acc, ps)
    ensures Agrupa(g, ps)
  {
    DistinctPermuted(acc, g);
    forall a ensures a in g <==> a in acc {
      assert a in g <==> a in multiset(g);
    }
  }

  /** Tallies with distinct clients hold each tally at most once. */
  lemma {:induction false} DistinctOnce(s: seq<Acum>)
    requires Distinct(s)
    ensures forall x :: multiset(s)[x] <= 1
  {
    if |s| > 0 {
      var init := s[..|s| - 1];
      assert Distinct(init);
      DistinctOnce(init);
      assert s == init + [s[|s| - 1]];
      assert s[|s| - 1] !in init;
    }
  }

  /** Reordering tallies with distinct clients keeps the clients distinct. */
  lemma DistinctPermuted(acc: seq<Acum>, g: seq<Acum>)
    requires multiset(g) == multiset(acc) && Distinct(acc)
    ensures Distinct(g)
  {
    DistinctOnce(acc);
    forall i, j | 0 <= i < j < |g| ensures g[i].rut != g[j].rut {
      assert g == g[..i] + [g[i]] + g[i + 1..j] + [g[j]] + g[j + 1..];
      assert multiset(g)[g[i]] >= 1 + multiset{g[j]}[g[i]];
      assert g[i] in multiset(acc) && g[j] in multiset(acc);
      var a :| 0 <= a < |acc| && acc[a] == g[i];
      var b :| 0 <= b < |acc| && acc[b] == g[j];
      assert a != b;
    }
  }

  /** A ranking row for a client at a position: its share of the month's
      total in percent (0 when that total is not positive) and its average
      amount per policy. */
  predicate FilaCorrecta(f: FilaTop, a: Acum, posicion: nat, total: real) {
    f.posicion == posicion && f.rut == a.rut && f.totalUf == a.totalUf && f.cantidad == a.polizas
    && (total > 0.0 ==> f.participacion * total == a.totalUf * 100.0)
    && (total <= 0.0 ==> f.participacion == 0.0)
    && f.primaPromedio * a.polizas as real == a.totalUf
  }

  /** One ranking row. */
  function FilaDe(a: Acum, posicion: nat, total: real): (f: FilaTop)
    requires a.polizas > 0
    ensures FilaCorrecta(f, a, posicion, total)
  {
    FilaTop(posicion, a.rut, a.totalUf, a.polizas, Porcentaje(a.totalUf, total),
            if a.polizas > 0 then a.totalUf / a.polizas as real else 0.0)
  }

  /** The rows of the first n clients. */
  function Filas(g: seq<Acum>, n: nat, total: real): (f: seq<FilaTop>)
    requires n <= |g| && forall i :: 0 <= i < n ==> g[i].polizas > 0
    ensures |f| == n
    ensures forall i :: 0 <= i < n ==> FilaCorrecta(f[i], g[i], i + 1, total)
  {
    if n == 0 then []
    else
      var f := Filas(g, n - 1, total);
      f + [FilaDe(g[n - 1], n, total)]
  }

  /** reporte_top_clientes: the policies starting since the first of the
      month, grouped by client, the ten largest totals first, with positions
      1..n and each client's share of the month's total (0 when that total is
      not positive). */
  function ReporteTopClientes(ps: seq<Poliza>, t: Date): (r: TopClientes)
    requires Valid(t)
    ensures var desde := Filter(ps, (p: Poliza) => p.fechaInicio >= ToDays(MesInicio(t)));
            r.totalPrimaMes == SumaTotal(desde) && Agrupa(r.grupos, desde)
    ensures |r.filas| <= TopN && |r.filas| <= |r.grupos|
    ensures forall i :: 0 <= i < |r.filas| ==> FilaCorrecta(r.filas[i], r.grupos[i], i + 1, r.totalPrimaMes)
    ensures forall i, j :: 0 <= i < j < |r.filas| ==> r.filas[i].totalUf >= r.filas[j].totalUf
    ensures forall i, j :: 0 <= i < j < |r.filas| ==> r.filas[i].rut != r.filas[j].rut
    ensures forall j :: |r.filas| <= j < |r.grupos| ==>
              forall i :: 0 <= i < |r.filas| ==> r.grupos[j].totalUf <= r.filas[i].totalUf
  {
    var desde := Filter(ps, (p: Poliza) => p.fechaInicio >= ToDays(MesInicio(t)));
    var total := SumaTotal(desde);
    var grupos := Grupos(desde);
    var n := if |grupos| < TopN then |grupos| else TopN;
    assert forall i :: 0 <= i < n ==> grupos[i].polizas > 0 by {
      forall i | 0 <= i < n ensures grupos[i].polizas > 0 {
        assert grupos[i] in grupos;
      }
    }
    var filas := Filas(grupos, n, total);
    TopClientes(MesInicio(t), total, grupos, filas)
  }

  /** A client with a policy in the sequence has a positive count. */
  lemma {:induction false} PresentCounted(ps: seq<Poliza>, p: Poliza)
    requires p in ps
    ensures CuentaRut(ps, p.cliente) > 0
  {
    if ps[|ps| - 1] != p {
      assert p in ps[..|ps| - 1] by {
        var i :| 0 <= i < |ps| && ps[i] == p;
        assert ps[..|ps| - 1][i] == p;
      }
      PresentCounted(ps[..|ps| - 1], p);
    }
  }

  function SumaTotal(ps: seq<Poliza>): real {
    if |ps| == 0 then 0.0 else SumaTotal(ps[..|ps| - 1]) + ps[|ps| - 1].montoUf
  }
}

=== FILE: risk.dfy ===
/** The risk levels of the client-segmentation analytics: the per-cluster
    level from a weighted score, and the per-client mapping from the
    delinquency rate and alert count. Python floats are modelled as reals. */
module Riesgo {

  datatype Nivel = Bajo | Medio | Alto | Critico {
    function Code(): string {
      match this
      case Bajo => "BAJO"
      case Medio => "MEDIO"
      case Alto => "ALTO"
      case Critico => "CRÍTICO"
    }

    function Rank(): nat {
      match this
      case Bajo => 0
      case Medio => 1
      case Alto => 2
      case Critico => 3
    }
  }

  /** mapear_riesgo_individual: the level from the delinquency rate and the
      number of alerts; the cluster id and the pending collections are taken
      but not used. */
  function MapearRiesgoIndividual(clusterId: int, tasaMora: real, alertas: int, cobranzasPendientes: int): (n: Nivel)
    ensures n == Critico <==> tasaMora > 0.5 || alertas > 5
    ensures n == Alto <==> !(tasaMora > 0.5 || alertas > 5) && (tasaMora > 0.3 || alertas > 2)
    ensures n == Medio <==> tasaMora <= 0.3 && alertas <= 2 && (tasaMora > 0.1 || alertas > 0)
    ensures n == Bajo <==> tasaMora <= 0.1 && alertas <= 0
  {
    if tasaMora > 0.5 || alertas > 5 then Critico
    else if tasaMora > 0.3 || alertas > 2 then Alto
    else if tasaMora > 0.1 || alertas > 0 then Medio
    else Bajo
  }

  /** Raising the rate or the alert count never lowers the level, and the
      cluster id and pending collections never change it. */
  lemma MapearRiesgoMonotone(c1: int, m1: real, a1: int, p1: int, c2: int, m2: real, a2: int, p2: int)
    requires m1 <= m2 && a1 <= a2
    ensures MapearRiesgoIndividual(c1, m1, a1, p1).Rank() <= MapearRiesgoIndividual(c2, m2, a2, p2).Rank()
    ensures m1 == m2 && a1 == a2 ==> MapearRiesgoIndividual(c1, m1, a1, p1) == MapearRiesgoIndividual(c2, m2, a2, p2)
  {
  }

  /** The cluster level from its score: above 0.7, 0.5 and 0.3. */
  function NivelPorScore(score: real): (n: Nivel)
    ensures n == Critico <==> score > 0.7
    ensures n == Alto <==> 0.5 < score <= 0.7
    ensures n == Medio <==> 0.3 < score <= 0.5
    ensures n == Bajo <==> score <= 0.3
  {
    if score > 0.7 then Critico
    else if score > 0.5 then Alto
    else if score > 0.3 then Medio
    else Bajo
  }

  lemma NivelPorScoreMonotone(a: real, b: real)
    requires a <= b
    ensures NivelPorScore(a).Rank() <= NivelPorScore(b).Rank()
  {
  }

  /** One client row of a cluster. */
  datatype Fila = Fila(tasaMora: real, densidadAlertas: real, cobranzasPendientes: int)

  function SumaMora(rows: seq<Fila>): real {
    if |rows| == 0 then 0.0 else SumaMora(rows[..|rows| - 1]) + rows[|rows| - 1].tasaMora
  }

  function SumaDensidad(rows: seq<Fila>): real {
    if |rows| == 0 then 0.0 else SumaDensidad(rows[..|rows| - 1]) + rows[|rows| - 1].densidadAlertas
  }

  function ConPendientes(rows: seq<Fila>): (n: nat)
    ensures n <= |rows|
  {
    if |rows| == 0 then 0
    else ConPendientes(rows[..|rows| - 1]) + (if rows[|rows| - 1].cobranzasPendientes > 0 then 1 else 0)
  }

  /** The score: 0.4 times the mean rate, 0.3 times the mean alert density,
      0.3 times the share of clients with pending collections. */
  function Score(rows: seq<Fila>): real
    requires |rows| > 0
  {
    var n := |rows| as real;
    SumaMora(rows) / n * 0.4 + SumaDensidad(rows) / n * 0.3 + ConPendientes(rows) as real / n * 0.3
  }

  /** determinar_riesgo. For an empty cluster the means are NaN, every
      comparison fails and the level is BAJO. */
  function DeterminarRiesgo(rows: seq<Fila>): (n: Nivel)
    ensures |rows| == 0 ==> n == Bajo
    ensures |rows| > 0 ==> (n == Critico <==> Score(rows) > 0.7) && (n == Bajo <==> Score(rows) <= 0.3)
    ensures |rows| > 0 ==> (n == Alto <==> 0.5 < Score(rows) <= 0.7) && (n == Medio <==> 0.3 < Score(rows) <= 0.5)
  {
    if |rows| == 0 then Bajo else NivelPorScore(Score(rows))
  }

  predicate EnUnidad(x: real) {
    0.0 <= x <= 1.0
  }

  lemma {:induction false} SumasBounded(rows: seq<Fila>)
    requires forall i :: 0 <= i < |rows| ==> EnUnidad(rows[i].tasaMora) && EnUnidad(rows[i].densidadAlertas)
    ensures 0.0 <= SumaMora(rows) <= |rows| as real
    ensures 0.0 <= SumaDensidad(rows) <= |rows| as real
  {
    if |rows| > 0 {
      SumasBounded(rows[..|rows| - 1]);
    }
  }

  /** With rates and densities in [0, 1] the score is in [0, 1]. */
  lemma ScoreBounded(rows: seq<Fila>)
    requires |rows| > 0
    requires forall i :: 0 <= i < |rows| ==> EnUnidad(rows[i].tasaMora) && EnUnidad(rows[i].densidadAlertas)
    ensures 0.0 <= Score(rows) <= 1.0
  {
    SumasBounded(rows);
    var n := |rows| as real;
    MeanInUnit(SumaMora(rows), n);
    MeanInUnit(SumaDensidad(rows), n);
    MeanInUnit(ConPendientes(rows) as real, n);
  }

  lemma MeanInUnit(x: real, n: real)
    requires 0.0 <= x <= n && n > 0.0
    ensures 0.0 <= x / n <= 1.0
  {
    assert x / n * n == x;
  }

  /** A client fully delinquent, at full alert density and owing. */
  predicate Saturada(f: Fila) {
    f.tasaMora == 1.0 && f.densidadAlertas == 1.0 && f.cobranzasPendientes > 0
  }

  /** A cluster where every client pays on time, has no alerts and owes
      nothing is BAJO; one where every client is fully delinquent, at full
      alert density and owing is CRÍTICO. */
  lemma {:induction false} DeterminarRiesgoExtremes(rows: seq<Fila>)
    requires |rows| > 0
    ensures (forall i :: 0 <= i < |rows| ==> rows[i] == Fila(0.0, 0.0, 0)) ==> DeterminarRiesgo(rows) == Bajo
    ensures (forall i :: 0 <= i < |rows| ==> Saturada(rows[i])) ==> DeterminarRiesgo(rows) == Critico
  {
    var n := |rows| as real;
    if forall i :: 0 <= i < |rows| ==> rows[i] == Fila(0.0, 0.0, 0) {
      Constant(rows, 0.0, 0.0, false);
      assert Score(rows) == 0.0;
    }
    if forall i :: 0 <= i < |rows| ==> Saturada(rows[i]) {
      Constant(rows, 1.0, 1.0, true);
      DivSelf(n);
    }
  }

  lemma DivSelf(n: real)
    requires n > 0.0
    ensures (1.0 * n) / n == 1.0 && n / n == 1.0
  {
  }

  /** The sums over a cluster whose rows all share rate, density and owing. */
  lemma {:induction false} Constant(rows: seq<Fila>, m: real, d: real, owing: bool)
    requires forall i :: 0 <= i < |rows| ==>
               rows[i].tasaMora == m && rows[i].densidadAlertas == d && (rows[i].cobranzasPendientes > 0 <==> owing)
    ensures SumaMora(rows) == m * |rows| as real && SumaDensidad(rows) == d * |rows| as real
    ensures ConPendientes(rows) == if owing then |rows| else 0
  {
    if |rows| > 0 {
      Constant(rows[..|rows| - 1], m, d, owing);
    }
  }
}

=== FILE: rules.dfy ===
/** The rule registry: business-rule codes mapped to the Python functions
    that implement them, kept in first-registration order as a dict keeps
    its keys. A function is named by its identity, a natural number. */
module Registry {
  import opened Base

  type Handler = nat

  datatype Reg = Reg(order: seq<string>, funcs: map<string, Handler>)

  /** The order lists each registered code exactly once. */
  ghost predicate Valid(r: Reg) {
    (forall c :: c in r.order <==> c in r.funcs)
    && (forall i, j :: 0 <= i < j < |r.order| ==> r.order[i] != r.order[j])
  }

  const Empty := Reg([], map[])

  /** register_rule(codigo)(func): stores the function under the code and
      hands it back unchanged; a code keeps its place when registered again. */
  function RegisterRule(r: Reg, codigo: string, f: Handler): (o: (Reg, Handler))
    requires Valid(r)
    ensures Valid(o.0)
    ensures o.1 == f
    ensures o.0.funcs.Keys == r.funcs.Keys + {codigo} && o.0.funcs[codigo] == f
    ensures forall c :: c in r.funcs && c != codigo ==> o.0.funcs[c] == r.funcs[c]
    ensures codigo in r.funcs ==> o.0.order == r.order
    ensures codigo !in r.funcs ==> o.0.order == r.order + [codigo]
  {
    if codigo in r.funcs then (Reg(r.order, r.funcs[codigo := f]), f)
    else (Reg(r.order + [codigo], r.funcs[codigo := f]), f)
  }

  /** get_rule: the function, or None. */
  function GetRule(r: Reg, codigo: string): (o: Option<Handler>)
    ensures o.Some? <==> codigo in r.funcs
    ensures o.Some? ==> o.value == r.funcs[codigo]
  {
    if codigo in r.funcs then Some(r.funcs[codigo]) else None
  }

  /** is_rule_registered */
  function IsRuleRegistered(r: Reg, codigo: string): (b: bool)
    ensures b <==> GetRule(r, codigo).Some?
  {
    codigo in r.funcs
  }

  /** get_registered_rules: a copy of the code-to-function table; being a
      value, changing it cannot reach the registry. */
  function GetRegisteredRules(r: Reg): (m: map<string, Handler>)
    ensures forall c :: c in m <==> IsRuleRegistered(r, c)
    ensures forall c :: c in m ==> GetRule(r, c) == Some(m[c])
  {
    r.funcs
  }

  /** list_rule_codes: every registered code once, in registration order. */
  function ListRuleCodes(r: Reg): (s: seq<string>)
    requires Valid(r)
    ensures forall c :: c in s <==> IsRuleRegistered(r, c)
    ensures forall i, j :: 0 <= i < j < |s| ==> s[i] != s[j]
  {
    r.order
  }

  /** The last registration of a code wins, and the code keeps its first place. */
  lemma LastRegistrationWins(r: Reg, codigo: string, f: Handler, g: Handler)
    requires Valid(r)
    ensures var r1 := RegisterRule(r, codigo, f).0;
            var r2 := RegisterRule(r1, codigo, g).0;
            GetRule(r2, codigo) == Some(g) && ListRuleCodes(r2) == ListRuleCodes(r1)
  {
  }

  /** Registering one code leaves every other lookup as it was. */
  lemma RegisterKeepsOthers(r: Reg, codigo: string, f: Handler, other: string)
    requires Valid(r) && other != codigo
    ensures GetRule(RegisterRule(r, codigo, f).0, other) == GetRule(r, other)
  {
  }
}

/** The rule engine: the Rule table, the execution log, the executor that
    runs all selected rules (or one) isolating each rule's failure, and the
    computations of the built-in rules. Instants are seconds, dates day
    numbers. */
module Rules {
  import opened Base
  import opened Text
  import opened Registry
  import opened Polizas
  import Alerts
  import Freshness
  import opened Agrupacion

  const DaySeconds := 86400

  /** A JSON value, as stored in the JSON columns. */
  datatype Json = JNull | JBool(b: bool) | JInt(i: int) | JReal(x: real) | JStr(s: string)

  type Params = map<string, Json>

  type Resultado = map<string, Json>

  /** One Rule row. */
  datatype Rule = Rule(
    nombre: string,
    codigo: string,
    activa: bool,
    orden: int,
    parametros: Params,
    ultimaEjecucion: Option<int>,
    proximaEjecucion: Option<int>,
    ultimoResultado: Option<Resultado>,
    ultimoError: Option<string>,
    total: int,
    exitosas: int,
    fallidas: int)

  /** A new rule: active, first in order, no parameters, counters at 0. */
  function NuevaRegla(nombre: string, codigo: string): (r: Rule)
    ensures r.activa && r.orden == 0 && r.parametros == map[]
    ensures r.total == 0 && r.exitosas == 0 && r.fallidas == 0
  {
    Rule(nombre, codigo, true, 0, map[], None, None, None, None, 0, 0, 0)
  }

  /** tasa_exito: the share of successful runs, in percent. */
  function TasaExito(r: Rule): (t: real)
    ensures r.total == 0 ==> t == 0.0
    ensures r.total != 0 ==> t * r.total as real == r.exitosas as real * 100.0
    ensures 0 <= r.exitosas <= r.total ==> 0.0 <= t <= 100.0
  {
    if r.total == 0 then 0.0 else r.exitosas as real / r.total as real * 100.0
  }

  /** habilitada is an alias of activa. */
  function Habilitada(r: Rule): (b: bool)
    ensures b <==> r.activa
  {
    r.activa
  }

  datatype ExecEstado = EPendiente | Ejecutando | Exitosa | Fallida | Parcial {
    function Code(): string {
      match this
      case EPendiente => "pendiente"
      case Ejecutando => "ejecutando"
      case Exitosa => "exitosa"
      case Fallida => "error"
      case Parcial => "parcial"
    }
  }

  /** One RuleExecution row. */
  datatype Execution = Execution(
    codigo: string,
    estado: ExecEstado,
    resultado: Resultado,
    errorMensaje: string,
    errorTraceback: string,
    duracion: Option<real>,
    parametros: Params)

  /** RuleExecution.exitosa */
  function ExecExitosa(e: Execution): (b: bool)
    ensures b <==> e.estado.Code() == "exitosa"
  {
    e.estado == Exitosa
  }

  /** tiempo_ejecucion, before formatting with two decimals and a unit. */
  datatype Tiempo = NA | Segundos(s: real) | Minutos(m: real)

  function TiempoEjecucion(e: Execution): (t: Tiempo)
    ensures e.duracion.None? <==> t.NA?
    ensures t.Segundos? ==> t.s == e.duracion.value && t.s < 60.0
    ensures t.Minutos? ==> t.m * 60.0 == e.duracion.value && t.m >= 1.0
  {
    if e.duracion.None? then NA
    else if e.duracion.value < 60.0 then Segundos(e.duracion.value)
    else Minutos(e.duracion.value / 60.0)
  }

  // ---------------------------------------------------------------------
  // Running one rule
  // ---------------------------------------------------------------------

  /** What calling a rule's function did: its result, or the exception, with
      the instants before and after the call. */
  datatype Outcome =
    | Returned(resultado: Resultado, inicio: int, fin: int)
    | Raised(error: string, traceback: string, inicio: int, fin: int)

  /** The counters of a rule not yet explained by a success or a failure. */
  function Unbalanced(r: Rule): int {
    r.total - r.exitosas - r.fallidas
  }

  /** The rule and the log row after one call. `setProxima` is the engine's
      run-all path, which schedules the next run a day after the end. */
  function Execute(r: Rule, o: Outcome, setProxima: bool): (x: (Rule, Execution))
    ensures x.0.total == r.total + 1 && Unbalanced(x.0) == Unbalanced(r)
    ensures x.0.(ultimaEjecucion := r.ultimaEjecucion, proximaEjecucion := r.proximaEjecucion,
                 ultimoResultado := r.ultimoResultado, ultimoError := r.ultimoError,
                 total := r.total, exitosas := r.exitosas, fallidas := r.fallidas) == r
    ensures x.1.codigo == r.codigo && x.1.parametros == r.parametros
    ensures x.1.duracion == Some((o.fin - o.inicio) as real)
    ensures o.Returned? ==>
              x.0.exitosas == r.exitosas + 1 && x.0.fallidas == r.fallidas
              && x.0.ultimaEjecucion == Some(o.fin) && x.0.ultimoResultado == Some(o.resultado)
              && x.0.ultimoError.None? && x.1.estado == Exitosa && x.1.resultado == o.resultado
              && x.0.proximaEjecucion == (if setProxima then Some(o.fin + DaySeconds) else r.proximaEjecucion)
    ensures o.Raised? ==>
              x.0.fallidas == r.fallidas + 1 && x.0.exitosas == r.exitosas
              && x.0.ultimoError == Some(o.error) && x.0.ultimaEjecucion == r.ultimaEjecucion
              && x.0.proximaEjecucion == r.proximaEjecucion && x.0.ultimoResultado == r.ultimoResultado
              && x.1.estado == Fallida && x.1.errorMensaje == o.error && x.1.errorTraceback == o.traceback
  {
    var d := Some((o.fin - o.inicio) as real);
    match o
    case Returned(res, _, fin) =>
      var r2 := r.(ultimaEjecucion := Some(fin),
                   proximaEjecucion := if setProxima then Some(fin + DaySeconds) else r.proximaEjecucion,
                   ultimoResultado := Some(res), ultimoError := None,
                   total := r.total + 1, exitosas := r.exitosas + 1);
      (r2, Execution(r.codigo, Exitosa, res, "", "", d, r.parametros))
    case Raised(err, tb, _, _) =>
      var r2 := r.(ultimoError := Some(err), total := r.total + 1, fallidas := r.fallidas + 1);
      (r2, Execution(r.codigo, Fallida, map[], err, tb, d, r.parametros))
  }

  // ---------------------------------------------------------------------
  // Selecting and ordering the rules of a run
  // ---------------------------------------------------------------------

  /** Rule ids 0..n-1 that the run selects, in table order. */
  function Seleccion(rules: seq<Rule>, soloActivas: bool, n: nat): (s: seq<nat>)
    requires n <= |rules|
    ensures forall j: nat :: j in s <==> j < n && (!soloActivas || rules[j].activa)
    ensures forall i, k :: 0 <= i < k < |s| ==> s[i] < s[k]
  {
    if n == 0 then []
    else
      var s := Seleccion(rules, soloActivas, n - 1);
      assert forall i :: 0 <= i < |s| ==> s[i] in s;
      if !soloActivas || rules[n - 1].activa then s + [n - 1] else s
  }

  /** The sort key of a rule id. */
  function Key(rules: seq<Rule>, j: nat): int {
    if j < |rules| then rules[j].orden else 0
  }

  predicate SortedBy(rules: seq<Rule>, s: seq<nat>) {
    forall i, k :: 0 <= i < k < |s| ==> Key(rules, s[i]) <= Key(rules, s[k])
  }

  predicate Distinct(s: seq<nat>) {
    forall i, k :: 0 <= i < k < |s| ==> s[i] != s[k]
  }

  /** Insert an id after every id whose key is not larger. */
  function Insert(rules: seq<Rule>, x: nat, s: seq<nat>): (r: seq<nat>)
    ensures |r| == |s| + 1
    ensures forall y :: y in r <==> y == x || y in s
    ensures Distinct(s) && x !in s ==> Distinct(r)
  {
    if |s| == 0 then [x]
    else if Key(rules, x) < Key(rules, s[0]) then [x] + s
    else
      var t := Insert(rules, x, s[1..]);
      assert forall y :: y in s <==> y == s[0] || y in s[1..];
      assert Distinct(s) && x !in s ==> Distinct([s[0]] + t) by {
        if Distinct(s) && x !in s {
          assert s[0] !in s[1..];
          assert s[0] !in t;
        }
      }
      [s[0]] + t
  }

  /** Inserting into a sorted list keeps it sorted. */
  lemma {:induction false} InsertSorted(rules: seq<Rule>, x: nat, s: seq<nat>)
    requires SortedBy(rules, s)
    ensures SortedBy(rules, Insert(rules, x, s))
  {
    if |s| > 0 && Key(rules, x) >= Key(rules, s[0]) {
      var t := Insert(rules, x, s[1..]);
      InsertSorted(rules, x, s[1..]);
      forall k | 0 <= k < |t|
        ensures Key(rules, s[0]) <= Key(rules, t[k])
      {
        assert t[k] in t;
        if t[k] != x {
          var i :| 0 <= i < |s[1..]| && s[1..][i] == t[k];
          assert s[i + 1] == t[k];
        }
      }
      assert Insert(rules, x, s) == [s[0]] + t;
    }
  }

  /** order_by('orden_ejecucion'): a stable insertion sort of the ids. */
  function SortByOrden(rules: seq<Rule>, s: seq<nat>): (r: seq<nat>)
    ensures |r| == |s|
    ensures forall y :: y in r <==> y in s
    ensures SortedBy(rules, r)
    ensures Distinct(s) ==> Distinct(r)
  {
    if |s| == 0 then []
    else
      var init := s[..|s| - 1];
      assert forall y :: y in s <==> y == s[|s| - 1] || y in init;
      assert Distinct(s) ==> s[|s| - 1] !in init;
      InsertSorted(rules, s[|s| - 1], SortByOrden(rules, init));
      Insert(rules, s[|s| - 1], SortByOrden(rules, init))
  }

  // ---------------------------------------------------------------------
  // ejecutar_motor_reglas
  // ---------------------------------------------------------------------

  /** The per-rule entry of the run's answer. */
  datatype Entry = EntryOk(resultado: Resultado, duracion: real) | EntryError(error: string) | EntryNotRegistered(mensaje: string)

  /** The state the loop carries: the rule table, the log, the counters and the per-code entries. */
  datatype Motor = Motor(rules: seq<Rule>, log: seq<Execution>, ejecutadas: nat, exitosas: nat, fallidas: nat,
                         reglas: map<string, Entry>)

  /** Ids of the sequence whose code is registered. */
  function CountRegistered(rules: seq<Rule>, ids: seq<nat>, reg: Reg): (n: nat)
    ensures n <= |ids|
  {
    if |ids| == 0 then 0
    else CountRegistered(rules, ids[..|ids| - 1], reg)
         + (if ids[|ids| - 1] < |rules| && rules[ids[|ids| - 1]].codigo in reg.funcs then 1 else 0)
  }

  /** One rule of the loop: an unregistered code only gets an error entry;
      otherwise the rule runs, and its success or failure is counted. */
  function MotorStep(m: Motor, j: nat, reg: Reg, run: (Handler, Rule) -> Outcome): (o: Motor)
    requires j < |m.rules|
    ensures |o.rules| == |m.rules|
    ensures forall k :: 0 <= k < |m.rules| && k != j ==> o.rules[k] == m.rules[k]
    ensures o.rules[j].codigo == m.rules[j].codigo && Unbalanced(o.rules[j]) == Unbalanced(m.rules[j])
    ensures m.rules[j].codigo !in reg.funcs ==>
              o.rules == m.rules && o.log == m.log
              && o.(reglas := m.reglas) == m && o.reglas == m.reglas[m.rules[j].codigo := EntryNotRegistered("Regla " + m.rules[j].codigo + " no está registrada")]
    ensures m.rules[j].codigo in reg.funcs ==>
              o.ejecutadas == m.ejecutadas + 1 && o.exitosas + o.fallidas == m.exitosas + m.fallidas + 1
              && o.rules[j].total == m.rules[j].total + 1 && |o.log| == |m.log| + 1 && o.log[..|m.log|] == m.log
    ensures o.reglas.Keys == m.reglas.Keys + {m.rules[j].codigo}
  {
    var r := m.rules[j];
    if r.codigo !in reg.funcs then
      m.(reglas := m.reglas[r.codigo := EntryNotRegistered("Regla " + r.codigo + " no está registrada")])
    else
      var o := run(reg.funcs[r.codigo], r);
      var (r2, e) := Execute(r, o, true);
      var entry := if o.Returned? then EntryOk(o.resultado, (o.fin - o.inicio) as real) else EntryError(o.error);
      Motor(m.rules[j := r2], m.log + [e], m.ejecutadas + 1,
            m.exitosas + (if o.Returned? then 1 else 0), m.fallidas + (if o.Raised? then 1 else 0),
            m.reglas[r.codigo := entry])
  }

  /** What a run does to one rule: code and balance kept; one more run when
      it was called, no change at all otherwise. */
  predicate RuleEffect(before: Rule, after: Rule, called: bool) {
    after.codigo == before.codigo && Unbalanced(after) == Unbalanced(before)
    && (called ==> after.total == before.total + 1)
    && (!called ==> after == before)
  }

  /** Whether the loop calls the function of rule k. */
  predicate Called(rules: seq<Rule>, ids: seq<nat>, reg: Reg, k: nat) {
    k in ids && k < |rules| && rules[k].codigo in reg.funcs
  }

  /** The loop over the ordered ids. */
  function MotorLoop(m: Motor, ids: seq<nat>, reg: Reg, run: (Handler, Rule) -> Outcome): (o: Motor)
    requires forall i :: 0 <= i < |ids| ==> ids[i] < |m.rules|
    requires Distinct(ids)
    ensures |o.rules| == |m.rules|
    ensures o.ejecutadas == m.ejecutadas + CountRegistered(m.rules, ids, reg)
    ensures o.exitosas + o.fallidas - o.ejecutadas == m.exitosas + m.fallidas - m.ejecutadas
    ensures |o.log| == |m.log| + CountRegistered(m.rules, ids, reg) && o.log[..|m.log|] == m.log
    decreases |ids|, 0
  {
    if |ids| == 0 then m
    else
      var init := ids[..|ids| - 1];
      var j := ids[|ids| - 1];
      var mid := MotorLoop(m, init, reg, run);
      assert RuleEffect(m.rules[j], mid.rules[j], false) by {
        assert j !in init;
        MotorLoopRules(m, init, reg, run);
      }
      var o := MotorStep(mid, j, reg, run);
      assert o.log[..|m.log|] == m.log by {
        assert o.log[..|m.log|] == o.log[..|mid.log|][..|m.log|];
      }
      o
  }

  /** The loop's effect on each rule, and the codes it answers for. */
  lemma {:induction false} MotorLoopRules(m: Motor, ids: seq<nat>, reg: Reg, run: (Handler, Rule) -> Outcome)
    requires forall i :: 0 <= i < |ids| ==> ids[i] < |m.rules|
    requires Distinct(ids)
    ensures var o := MotorLoop(m, ids, reg, run);
            forall k: nat :: k < |m.rules| ==> RuleEffect(m.rules[k], o.rules[k], Called(m.rules, ids, reg, k))
    ensures forall k :: k in ids ==> m.rules[k].codigo in MotorLoop(m, ids, reg, run).reglas
    decreases |ids|, 1
  {
    if |ids| > 0 {
      var init := ids[..|ids| - 1];
      var j := ids[|ids| - 1];
      assert forall y :: y in ids <==> y == j || y in init;
      assert j !in init;
      MotorLoopRules(m, init, reg, run);
      var mid := MotorLoop(m, init, reg, run);
      var o := MotorStep(mid, j, reg, run);
      assert o == MotorLoop(m, ids, reg, run);
      forall k: nat | k < |m.rules|
        ensures RuleEffect(m.rules[k], o.rules[k], Called(m.rules, ids, reg, k))
      {
        assert Called(m.rules, ids, reg, k) <==> (k == j && m.rules[j].codigo in reg.funcs) || Called(m.rules, init, reg, k);
      }
    }
  }

  /** The answer of ejecutar_motor_reglas. */
  datatype Resultados = Resultados(ejecutadas: nat, exitosas: nat, fallidas: nat, reglas: map<string, Entry>)

  /** The ids the run visits: the selected ones, by orden_ejecucion. */
  function Orden(rules: seq<Rule>, soloActivas: bool): (ids: seq<nat>)
    ensures Distinct(ids) && SortedBy(rules, ids)
    ensures forall k: nat :: k in ids <==> k < |rules| && (!soloActivas || rules[k].activa)
    ensures forall i :: 0 <= i < |ids| ==> ids[i] < |rules|
  {
    var sel := Seleccion(rules, soloActivas, |rules|);
    var ids := SortByOrden(rules, sel);
    assert forall i :: 0 <= i < |ids| ==> ids[i] in sel;
    ids
  }

  /** ejecutar_motor_reglas(solo_activas): selects the rules (the active ones
      when asked), runs them in orden_ejecucion order, and counts. */
  function EjecutarMotorReglas(rules: seq<Rule>, log: seq<Execution>, reg: Reg, soloActivas: bool,
                               run: (Handler, Rule) -> Outcome): (r: (seq<Rule>, seq<Execution>, Resultados))
    ensures r.2.ejecutadas == r.2.exitosas + r.2.fallidas
    ensures r.2.ejecutadas == CountRegistered(rules, Orden(rules, soloActivas), reg) <= |Orden(rules, soloActivas)|
    ensures |r.1| == |log| + r.2.ejecutadas && r.1[..|log|] == log
    ensures |r.0| == |rules|
  {
    var m := MotorLoop(Motor(rules, log, 0, 0, 0, map[]), Orden(rules, soloActivas), reg, run);
    (m.rules, m.log, Resultados(m.ejecutadas, m.exitosas, m.fallidas, m.reglas))
  }

  /** Each selected rule with a registered code runs once, every other rule
      is untouched (inactive ones when only active rules run), and every
      selected code has an entry in the answer. */
  lemma EjecutarMotorReglasEffects(rules: seq<Rule>, log: seq<Execution>, reg: Reg, soloActivas: bool,
                                   run: (Handler, Rule) -> Outcome)
    ensures var r := EjecutarMotorReglas(rules, log, reg, soloActivas, run);
            forall k: nat :: k < |rules| ==>
              RuleEffect(rules[k], r.0[k], (!soloActivas || rules[k].activa) && rules[k].codigo in reg.funcs)
    ensures var r := EjecutarMotorReglas(rules, log, reg, soloActivas, run);
            forall k :: 0 <= k < |rules| && (!soloActivas || rules[k].activa) ==> rules[k].codigo in r.2.reglas
  {
    var ids := Orden(rules, soloActivas);
    MotorLoopRules(Motor(rules, log, 0, 0, 0, map[]), ids, reg, run);
  }

  // ---------------------------------------------------------------------
  // ejecutar_regla_individual
  // ---------------------------------------------------------------------

  /** The id of the rule with a code (codes are unique). */
  function FindCodigo(rules: seq<Rule>, codigo: string): (o: Option<nat>)
    ensures o.None? <==> forall k :: 0 <= k < |rules| ==> rules[k].codigo != codigo
    ensures o.Some? ==> o.value < |rules| && rules[o.value].codigo == codigo
  {
    if |rules| == 0 then None
    else if rules[|rules| - 1].codigo == codigo then Some(|rules| - 1)
    else FindCodigo(rules[..|rules| - 1], codigo)
  }

  datatype Individual =
    | NoEncontrada(mensaje: string)
    | NoRegistrada(mensaje: string)
    | Ejecutada(rules: seq<Rule>, log: seq<Execution>, outcome: Outcome)

  /** ejecutar_regla_individual: an unknown or unregistered code is an error
      that changes nothing; otherwise the same update as a run of all rules,
      except that the next run is not scheduled. */
  function EjecutarReglaIndividual(rules: seq<Rule>, log: seq<Execution>, reg: Reg, codigo: string,
                                   run: (Handler, Rule) -> Outcome): (r: Individual)
    ensures r.NoEncontrada? <==> FindCodigo(rules, codigo).None?
    ensures r.NoEncontrada? ==> r.mensaje == "Regla " + codigo + " no encontrada"
    ensures r.NoRegistrada? <==> FindCodigo(rules, codigo).Some? && codigo !in reg.funcs
    ensures r.NoRegistrada? ==> r.mensaje == "Regla " + codigo + " no está registrada"
    ensures r.Ejecutada? ==>
              var k := FindCodigo(rules, codigo).value;
              |r.rules| == |rules| && |r.log| == |log| + 1 && r.log[..|log|] == log
              && (forall i :: 0 <= i < |rules| && i != k ==> r.rules[i] == rules[i])
              && r.rules[k].total == rules[k].total + 1 && Unbalanced(r.rules[k]) == Unbalanced(rules[k])
              && r.rules[k].proximaEjecucion == rules[k].proximaEjecucion
              && (r.outcome.Returned? <==> r.rules[k].exitosas == rules[k].exitosas + 1)
  {
    match FindCodigo(rules, codigo)
    case None => NoEncontrada("Regla " + codigo + " no encontrada")
    case Some(k) =>
      if codigo !in reg.funcs then NoRegistrada("Regla " + codigo + " no está registrada")
      else
        var o := run(reg.funcs[codigo], rules[k]);
        var (r2, e) := Execute(rules[k], o, false);
        Ejecutada(rules[k := r2], log + [e], o)
  }

  // ---------------------------------------------------------------------
  // Built-in rules
  // ---------------------------------------------------------------------

  /** PRODUCCION_BAJA_DETECTADA's drop, in percent of the earlier count. */
  function Caida(anterior: nat, actual: nat): (c: real)
    ensures anterior == 0 ==> c == 0.0
    ensures anterior > 0 ==> c * anterior as real == (anterior as real - actual as real) * 100.0
    ensures c <= 100.0
  {
    if anterior > 0 then (anterior as real - actual as real) / anterior as real * 100.0 else 0.0
  }

  /** A lower current count never means a smaller drop. */
  lemma CaidaMonotone(anterior: nat, a1: nat, a2: nat)
    requires a1 <= a2
    ensures Caida(anterior, a1) >= Caida(anterior, a2)
  {
    if anterior > 0 {
      var d := anterior as real;
      assert Caida(anterior, a1) - Caida(anterior, a2) == (a2 as real - a1 as real) / d * 100.0;
    }
  }

  /** Policies whose start day lies in [lo, hi). */
  function InicioEn(m: PolicyStore, lo: int, hi: int): nat {
    |set k | k in m && lo <= m[k].fechaInicio < hi|
  }

  datatype ProduccionBajaResult = ProduccionBajaResult(anterior: nat, actual: nat, caida: real, alerta: bool)

  /** The comparison windows and the decision of PRODUCCION_BAJA_DETECTADA. */
  function ProduccionBaja(m: PolicyStore, today: int, dias: int, umbral: real): (r: ProduccionBajaResult)
    ensures r.anterior == InicioEn(m, today - dias, today - (dias - 1))
    ensures r.actual == Alerts.ProduccionEntre(m, today - (dias - 1), today)
    ensures r.caida == Caida(r.anterior, r.actual)
    ensures r.alerta <==> r.caida >= umbral
  {
    var anterior := InicioEn(m, today - dias, today - (dias - 1));
    var actual := Alerts.ProduccionEntre(m, today - (dias - 1), today);
    var c := Caida(anterior, actual);
    ProduccionBajaResult(anterior, actual, c, c >= umbral)
  }

  /** The "earlier" window is the single day today - dias, and a rule whose
      threshold is positive never alerts when that day had no production. */
  lemma ProduccionBajaWindow(m: PolicyStore, today: int, dias: int, umbral: real)
    ensures ProduccionBaja(m, today, dias, umbral).anterior == Alerts.ProduccionDia(m, today - dias)
    ensures umbral > 0.0 && Alerts.ProduccionDia(m, today - dias) == 0 ==> !ProduccionBaja(m, today, dias, umbral).alerta
  {
    assert (set k | k in m && today - dias <= m[k].fechaInicio < today - (dias - 1))
        == (set k | k in m && m[k].fechaInicio == today - dias);
  }

  /** A policy that counts: VIGENTE with a non-zero amount. */
  predicate Elegible(p: Poliza) {
    p.estado == Vigente && p.montoUf != 0.0
  }

  /** The counting policies, in the queryset's order. */
  function Elegibles(ps: seq<Poliza>): (r: seq<Poliza>)
    ensures forall p :: p in r <==> p in ps && Elegible(p)
  {
    if |ps| == 0 then []
    else
      var r := Elegibles(ps[..|ps| - 1]);
      assert forall p :: p in ps <==> p in ps[..|ps| - 1] || p == ps[|ps| - 1];
      if Elegible(ps[|ps| - 1]) then r + [ps[|ps| - 1]] else r
  }

  /** The clients whose total reaches the threshold, in the same order. */
  function Top(acc: seq<Acum>, minUf: real): (r: seq<Acum>)
    ensures forall a :: a in r <==> a in acc && a.totalUf >= minUf
    ensures |r| <= |acc|
  {
    if |acc| == 0 then []
    else
      var t := Top(acc[1..], minUf);
      assert forall a :: a in acc <==> a == acc[0] || a in acc[1..];
      if acc[0].totalUf >= minUf then [acc[0]] + t else t
  }

  datatype ClientesTopResult = ClientesTopResult(detectados: nat, alertasCreadas: nat, detalles: seq<Acum>)

  /** An alert of the top-clients rule for a client. */
  predicate AlertaTop(a: Alerts.Alerta, rut: string) {
    a.tipo == "cliente_top" && a.severidad == "info" && a.cliente == Some(rut) && a.poliza.None?
  }

  /** The factory call for one top client. */
  function AlertarCliente(db: Alerts.Db, fs: Freshness.FreshStore, store: PolicyStore, a: Acum, mensaje: string,
                          now: int, today: int): (c: Alerts.Creada)
    ensures Grows(c.db.alertas, db.alertas, 1)
    ensures AlertaTop(c.db.alertas[|db.alertas|], a.rut)
  {
    Alerts.CrearAlerta(db, fs, store, "cliente_top", mensaje, "info", None, None,
                       Some(a.rut), Some("CLIENTE TOP DETECTADO"), now, today)
  }

  /** From position `from` on, one top-client alert per client of `top`, in order. */
  predicate TopAlerts(alertas: seq<Alerts.Alerta>, from: nat, top: seq<Acum>) {
    from + |top| <= |alertas|
    && forall i :: 0 <= i < |top| ==> AlertaTop(alertas[from + i], top[i].rut)
  }

  /** The alerts for the top clients: one per client, each naming the client
      and no policy, so the factory never returns an earlier one. */
  function AlertarClientes(db: Alerts.Db, fs: Freshness.FreshStore, store: PolicyStore, top: seq<Acum>,
                           texto: Acum -> string, now: int, today: int): (r: (Alerts.Db, Freshness.FreshStore))
    ensures Grows(r.0.alertas, db.alertas, |top|)
    ensures TopAlerts(r.0.alertas, |db.alertas|, top)
    decreases |top|
  {
    if |top| == 0 then
      assert db.alertas[..|db.alertas|] == db.alertas;
      (db, fs)
    else
      var last := top[|top| - 1];
      var r := AlertarClientes(db, fs, store, top[..|top| - 1], texto, now, today);
      var c := AlertarCliente(r.0, r.1, store, last, texto(last), now, today);
      TopAlertsSnoc(db.alertas, r.0.alertas, c.db.alertas, top);
      (c.db, c.fs)
  }

  /** One more client's alert appended after the earlier ones keeps them in place. */
  lemma TopAlertsSnoc(a0: seq<Alerts.Alerta>, a1: seq<Alerts.Alerta>, a2: seq<Alerts.Alerta>, top: seq<Acum>)
    requires |top| > 0
    requires Grows(a1, a0, |top| - 1) && TopAlerts(a1, |a0|, top[..|top| - 1])
    requires Grows(a2, a1, 1) && AlertaTop(a2[|a1|], top[|top| - 1].rut)
    ensures Grows(a2, a0, |top|) && TopAlerts(a2, |a0|, top)
  {
    GrowsTrans(a0, a1, a2, |top| - 1, 1);
    forall i | 0 <= i < |top|
      ensures AlertaTop(a2[|a0| + i], top[i].rut)
    {
      if i < |top| - 1 {
        assert top[..|top| - 1][i] == top[i];
      }
    }
  }

  /** CLIENTES_TOP_PRODUCCION over the policies in the queryset's order: totals per
      client of the VIGENTE policies with an amount, the clients reaching
      min_uf, one alert each when asked. `detalles` are the first ten clients
      met, not the ten largest. `texto` formats an alert's message. */
  function ClientesTop(db: Alerts.Db, fs: Freshness.FreshStore, store: PolicyStore, ps: seq<Poliza>, minUf: real,
                       generarAlerta: bool, texto: Acum -> string, now: int, today: int)
    : (r: (Alerts.Db, Freshness.FreshStore, ClientesTopResult))
    ensures var top := Top(Acumular(Elegibles(ps)), minUf);
            Resume(r.2, top, generarAlerta)
    ensures forall a :: a in r.2.detalles ==> a.totalUf >= minUf && a.totalUf == SumaRut(Elegibles(ps), a.rut)
    ensures Grows(r.0.alertas, db.alertas, r.2.alertasCreadas)
  {
    var top := Top(Acumular(Elegibles(ps)), minUf);
    var res := Resumir(top, generarAlerta);
    TopTotals(ps, minUf);
    if generarAlerta then
      var (db2, fs2) := AlertarClientes(db, fs, store, top, texto, now, today);
      (db2, fs2, res)
    else
      assert db.alertas[..|db.alertas|] == db.alertas;
      (db, fs, res)
  }

  /** The answer describes the clients found: how many, the first ten of
      them, and how many alerts were asked for. */
  predicate Resume(res: ClientesTopResult, top: seq<Acum>, generarAlerta: bool) {
    && res.detectados == |top|
    && |res.detalles| == (if |top| < 10 then |top| else 10)
    && (forall i :: 0 <= i < |res.detalles| ==> res.detalles[i] == top[i])
    && res.alertasCreadas == (if generarAlerta then |top| else 0)
  }

  function Resumir(top: seq<Acum>, generarAlerta: bool): (res: ClientesTopResult)
    ensures Resume(res, top, generarAlerta)
    ensures forall a :: a in res.detalles ==> a in top
  {
    var res := ClientesTopResult(|top|, if generarAlerta then |top| else 0, Prefix(top, 10));
    forall a | a in res.detalles ensures a in top {
      var i :| 0 <= i < |res.detalles| && res.detalles[i] == a;
      assert top[i] == a;
    }
    res
  }

  /** Every client reaching the threshold has its total over the counting policies. */
  lemma TopTotals(ps: seq<Poliza>, minUf: real)
    ensures forall a :: a in Top(Acumular(Elegibles(ps)), minUf) ==>
              a.totalUf >= minUf && a.totalUf == SumaRut(Elegibles(ps), a.rut)
  {
    var acc := Acumular(Elegibles(ps));
    forall a | a in Top(acc, minUf) ensures a.totalUf >= minUf && a.totalUf == SumaRut(Elegibles(ps), a.rut) {
      var i :| 0 <= i < |acc| && acc[i] == a;
    }
  }

  /** SANIDAD_DATOS: the policy table declares client and start date NOT NULL,
      so only the check for past-due policies not marked VENCIDA or CANCELADA
      can report a problem. */
  function SanidadDatos(ps: seq<Poliza>, today: int, alertarVacios: bool, alertarFechas: bool): (problemas: seq<string>)
    ensures |problemas| <= 1
    ensures |problemas| == 1 <==> alertarFechas && exists p :: p in ps && Inconsistente(p, today)
  {
    var inconsistentes := Inconsistentes(ps, today);
    if alertarFechas && inconsistentes > 0 then
      [IntToString(inconsistentes) + " pólizas con vencimiento pasado pero estado incorrecto"]
    else []
  }

  /** A policy past its end date whose state is neither VENCIDA nor CANCELADA. */
  predicate Inconsistente(p: Poliza, today: int) {
    p.fechaVencimiento < today && p.estado != Vencida && p.estado != Cancelada
  }

  /** The number of inconsistent policies. */
  function Inconsistentes(ps: seq<Poliza>, today: int): (n: nat)
    ensures n <= |ps|
    ensures n > 0 <==> exists p :: p in ps && Inconsistente(p, today)
  {
    if |ps| == 0 then 0
    else
      var rest := Inconsistentes(ps[..|ps| - 1], today);
      var last := ps[|ps| - 1];
      assert forall p :: p in ps <==> p in ps[..|ps| - 1] || p == last by {
        assert ps == ps[..|ps| - 1] + [last];
      }
      rest + (if Inconsistente(last, today) then 1 else 0)
  }

  /** The policies of the client starting on or after `today - dias`. */
  function RecientesDe(m: PolicyStore, rut: string, today: int, dias: int): nat {
    |set k | k in m && m[k].cliente == rut && m[k].fechaInicio >= today - dias|
  }

  /** VIGENCIA_IRREGULAR_DETECTADA: clients with at least `minRenov` policies
      starting in the last `dias` days. */
  function VigenciaIrregular(m: PolicyStore, today: int, dias: int, minRenov: int): (s: set<string>)
    ensures forall rut :: rut in s <==>
              && (exists k :: k in m && m[k].cliente == rut && m[k].fechaInicio >= today - dias)
              && RecientesDe(m, rut, today, dias) >= minRenov
    ensures forall rut :: rut in s ==> exists k :: k in m && m[k].cliente == rut && m[k].fechaInicio >= today - dias
    ensures minRenov <= 1 ==> forall k :: k in m && m[k].fechaInicio >= today - dias ==> m[k].cliente in s
  {
    var recientes := set k | k in m && m[k].fechaInicio >= today - dias :: m[k].cliente;
    var s := set rut | rut in recientes && RecientesDe(m, rut, today, dias) >= minRenov;
    assert forall rut :: rut in recientes <==> exists k :: k in m && m[k].cliente == rut && m[k].fechaInicio >= today - dias;
    assert minRenov <= 1 ==> forall k :: k in m && m[k].fechaInicio >= today - dias ==> m[k].cliente in s by {
      if minRenov <= 1 {
        forall k | k in m && m[k].fechaInicio >= today - dias
          ensures m[k].cliente in s
        {
          var rut := m[k].cliente;
          var mine := set k | k in m && m[k].cliente == rut && m[k].fechaInicio >= today - dias;
          assert k in mine;
          Alerts.SubsetCard({k}, mine);
          assert rut in recientes;
        }
      }
    }
    s
  }

  /** POLIZAS_POR_EXPIRAR's selection: VIGENTE or POR_RENOVAR, expiring
      between today and today + dias. */
  predicate PorExpirar(p: Poliza, today: int, dias: int) {
    (p.estado == Vigente || p.estado == "POR_RENOVAR") && today <= p.fechaVencimiento <= today + dias
  }

  function SeleccionPorExpirar(ps: seq<Poliza>, today: int, dias: int): (r: seq<Poliza>)
    ensures forall p :: p in r <==> p in ps && PorExpirar(p, today, dias)
    ensures |r| <= |ps|
  {
    if |ps| == 0 then []
    else
      var r := SeleccionPorExpirar(ps[..|ps| - 1], today, dias);
      assert forall p :: p in ps <==> p in ps[..|ps| - 1] || p == ps[|ps| - 1];
      if PorExpirar(ps[|ps| - 1], today, dias) then r + [ps[|ps| - 1]] else r
  }

  /** The message of one expiry alert. */
  function MensajePorExpirar(p: Poliza, today: int): string {
    "La póliza " + p.numero + " vence en " + IntToString(p.fechaVencimiento - today) + " días"
  }

  /** POLIZAS_POR_EXPIRAR: one factory call per selected policy, with the
      configured severity. alertas_creadas is the number of calls. */
  function PolizasPorExpirar(db: Alerts.Db, fs: Freshness.FreshStore, store: PolicyStore, ps: seq<Poliza>,
                             today: int, now: int, dias: int, severidad: string): (r: (Alerts.Db, Freshness.FreshStore, nat))
    requires forall p :: p in ps ==> p.numero in store
    ensures r.2 == |SeleccionPorExpirar(ps, today, dias)|
    ensures |r.0.alertas| >= |db.alertas| && r.0.alertas[..|db.alertas|] == db.alertas
  {
    var sel := SeleccionPorExpirar(ps, today, dias);
    Alerts.AlertarPolizas(db, fs, store, sel, "PÓLIZA POR VENCER", _ => severidad,
                          p => MensajePorExpirar(p, today), now, today)
  }

  /** Every selected policy ends with an active expiry alert; run again the
      rule creates nothing, but reports the same count of alerts created. */
  lemma PolizasPorExpirarRepeated(db: Alerts.Db, fs: Freshness.FreshStore, store: PolicyStore, ps: seq<Poliza>,
                                  today: int, now: int, later: int, dias: int, severidad: string)
    requires forall p :: p in ps ==> p.numero in store
    ensures var first := PolizasPorExpirar(db, fs, store, ps, today, now, dias, severidad);
            (forall p :: p in ps && PorExpirar(p, today, dias) ==> Alerts.Covered(first.0.alertas, p.numero))
            && var again := PolizasPorExpirar(first.0, first.1, store, ps, today, later, dias, severidad);
               again.0 == first.0 && again.2 == first.2
  {
    var sel := SeleccionPorExpirar(ps, today, dias);
    var sev: Poliza -> string := _ => severidad;
    var msg: Poliza -> string := p => MensajePorExpirar(p, today);
    Alerts.AlertarPolizasCovers(db, fs, store, sel, "PÓLIZA POR VENCER", sev, msg, now, today);
    var first := Alerts.AlertarPolizas(db, fs, store, sel, "PÓLIZA POR VENCER", sev, msg, now, today);
    Alerts.AlertarPolizasCovered(first.0, first.1, store, sel, "PÓLIZA POR VENCER", sev,
                                 p => MensajePorExpirar(p, today), later, today);
  }
}

=== FILE: rut.dfy ===
/** Chilean national identifiers (RUT) as the batch importer cleans and checks
    them: separators are deleted, the rest is upper-cased and re-grouped as
    NN.NNN.NNN-D, and the result is checked against a shape pattern only. */
module Rut {
  import opened Base
  import opened Text

  /** The text left once every '.', ' ' and '-' is deleted and the rest upper-cased. */
  function Stripped(s: string): string {
    Upper(Delete(Delete(Delete(s, '.'), ' '), '-'))
  }

  /** The body (all but the last character) grouped in threes from the right,
      then '-' and the check character. */
  function Format(body: string, dv: char): string {
    if |body| <= 3 then body + "-" + [dv]
    else if |body| <= 6 then body[..|body| - 3] + "." + body[|body| - 3..] + "-" + [dv]
    else body[..|body| - 6] + "." + body[|body| - 6..|body| - 3] + "." + body[|body| - 3..] + "-" + [dv]
  }

  /** The grouping a normalised identifier always has: a head of at least one
      character, '.', three, '.', three, '-', the check character. */
  predicate Grouped(r: string, s: string) {
    |s| >= 8 && |r| == |s| + 3
    && r[..|s| - 7] == s[..|s| - 7]
    && r[|s| - 7] == '.'
    && r[|s| - 6..|s| - 3] == s[|s| - 7..|s| - 4]
    && r[|s| - 3] == '.'
    && r[|s| - 2..|s| + 1] == s[|s| - 4..|s| - 1]
    && r[|s| + 1] == '-'
    && r[|s| + 2] == s[|s| - 1]
  }

  /** normalize_rut: None for anything that is not a string and for fewer than
      eight significant characters; otherwise the grouped form. */
  function NormalizeRut(c: Cell): (r: Option<string>)
    ensures !c.Text? ==> r == None
    ensures c.Text? ==> (r.None? <==> |Stripped(c.s)| < 8)
    ensures r.Some? ==> Grouped(r.value, Stripped(c.s))
  {
    if !c.Text? then None
    else
      var s := Stripped(c.s);
      if |s| < 8 then None
      else
        var r := Format(s[..|s| - 1], s[|s| - 1]);
        LongFormat(s);
        Some(r)
  }

  /** Any string long enough to be accepted has a body of seven or more
      characters, so only the last branch of the grouping is ever taken, and
      it lays out the characters as Grouped describes. */
  lemma LongFormat(s: string)
    requires |s| >= 8
    ensures |s[..|s| - 1]| >= 7
    ensures Grouped(Format(s[..|s| - 1], s[|s| - 1]), s)
  {
    var body := s[..|s| - 1];
    var m := |body|;
    var r := Format(body, s[|s| - 1]);
    assert r == body[..m - 6] + "." + body[m - 6..m - 3] + "." + body[m - 3..] + "-" + [s[|s| - 1]];
    assert r[..m - 6] == body[..m - 6] == s[..m - 6];
    assert r[m - 5..m - 2] == body[m - 6..m - 3] == s[m - 6..m - 3];
    assert r[m - 1..m + 2] == body[m - 3..] == s[m - 3..m];
  }

  // ---------------------------------------------------------------------------
  // Shape check

  predicate CheckChar(c: char) {
    IsDigit(c) || c == 'K' || c == 'k'
  }

  /** One or two digits, '.', three digits, '.', three digits, '-', check character. */
  predicate DottedShape(x: string) {
    (|x| == 11 || |x| == 12)
    && AllDigits(x[..|x| - 10]) && x[|x| - 10] == '.'
    && AllDigits(x[|x| - 9..|x| - 6]) && x[|x| - 6] == '.'
    && AllDigits(x[|x| - 5..|x| - 2]) && x[|x| - 2] == '-'
    && CheckChar(x[|x| - 1])
  }

  /** Seven or eight digits, '-', check character. */
  predicate PlainShape(x: string) {
    (|x| == 9 || |x| == 10) && AllDigits(x[..|x| - 2]) && x[|x| - 2] == '-' && CheckChar(x[|x| - 1])
  }

  /** The pattern anchored with ^ and $; Python's $ also matches just before a
      final newline. */
  predicate PatternMatches(x: string) {
    DottedShape(x) || PlainShape(x)
    || (|x| > 0 && x[|x| - 1] == '\n' && (DottedShape(x[..|x| - 1]) || PlainShape(x[..|x| - 1])))
  }

  /** is_valid_rut: a falsy value (None, "") is rejected, anything else must match the pattern. */
  function IsValidRut(r: Option<string>): (ok: bool)
    ensures r.None? ==> !ok
    ensures ok ==> |r.value| >= 9
    ensures r.Some? && (DottedShape(r.value) || PlainShape(r.value)) ==> ok
  {
    match r
    case None => false
    case Some(x) => |x| > 0 && PatternMatches(x)
  }

  /** The significant characters of an accepted identifier: eight or nine,
      all digits except a final digit or K. */
  predicate WellFormedStripped(s: string) {
    (|s| == 8 || |s| == 9) && AllDigits(s[..|s| - 1]) && (IsDigit(s[|s| - 1]) || s[|s| - 1] == 'K')
  }

  lemma AllDigitsSplit(s: string, i: int, j: int)
    requires 0 <= i <= j <= |s|
    ensures AllDigits(s) ==> AllDigits(s[..i]) && AllDigits(s[i..j]) && AllDigits(s[j..])
    ensures AllDigits(s[..i]) && AllDigits(s[i..j]) && AllDigits(s[j..]) ==> AllDigits(s)
  {
    if AllDigits(s[..i]) && AllDigits(s[i..j]) && AllDigits(s[j..]) {
      forall k | 0 <= k < |s| ensures IsDigit(s[k]) {
        if k < i { assert s[k] == s[..i][k]; }
        else if k < j { assert s[k] == s[i..j][k - i]; }
        else { assert s[k] == s[j..][k - j]; }
      }
    }
  }

  /** Normalise-then-validate accepts exactly the inputs whose significant
      characters are eight or nine long, digits but for a final digit or K.
      The check digit itself is never verified. */
  lemma NormalizeThenValidate(x: string)
    ensures IsValidRut(NormalizeRut(Text(x))) <==> WellFormedStripped(Stripped(x))
  {
    var s := Stripped(x);
    if |s| >= 8 {
      var n := |s|;
      assert s[n - 1] != 'k' by {
        assert s[n - 1] == UpperChar(Delete(Delete(Delete(x, '.'), ' '), '-')[n - 1]);
      }
      GroupedValid(NormalizeRut(Text(x)).value, s);
    }
  }

  /** A grouped identifier passes the shape check exactly when its
      significant characters are well formed. */
  lemma GroupedValid(r: string, s: string)
    requires Grouped(r, s) && s[|s| - 1] != 'k'
    ensures IsValidRut(Some(r)) <==> WellFormedStripped(s)
  {
    // the pattern without dots never matches: position |r| - 6 holds a '.'
    assert !PlainShape(r);
    // nor does a trailing newline: the last character sits after '-'
    assert r[|r| - 1] != '\n' || !(DottedShape(r[..|r| - 1]) || PlainShape(r[..|r| - 1]));
    if WellFormedStripped(s) {
      WellFormedDotted(r, s);
    }
    if IsValidRut(Some(r)) {
      DottedWellFormed(r, s);
    }
  }

  lemma WellFormedDotted(r: string, s: string)
    requires Grouped(r, s) && WellFormedStripped(s)
    ensures DottedShape(r)
  {
    var n := |s|;
    AllDigitsSplit(s[..n - 1], n - 7, n - 4);
    assert r[..|r| - 10] == s[..n - 7];
    assert s[..n - 1][..n - 7] == s[..n - 7];
    assert s[..n - 1][n - 7..n - 4] == s[n - 7..n - 4];
    assert s[..n - 1][n - 4..] == s[n - 4..n - 1];
  }

  lemma DottedWellFormed(r: string, s: string)
    requires Grouped(r, s) && DottedShape(r) && s[|s| - 1] != 'k'
    ensures WellFormedStripped(s)
  {
    var n := |s|;
    assert s[..n - 1][..n - 7] == s[..n - 7];
    assert s[..n - 1][n - 7..n - 4] == s[n - 7..n - 4];
    assert s[..n - 1][n - 4..] == s[n - 4..n - 1];
    AllDigitsSplit(s[..n - 1], n - 7, n - 4);
  }

  /** Normalisation only inserts separators: deleting them from the result
      gives back the significant characters, and normalising the result
      again changes nothing. */
  lemma NormalizeIdempotent(x: string)
    requires NormalizeRut(Text(x)).Some?
    ensures Stripped(NormalizeRut(Text(x)).value) == Stripped(x)
    ensures NormalizeRut(Text(NormalizeRut(Text(x)).value)) == NormalizeRut(Text(x))
  {
    var r := NormalizeRut(Text(x)).value;
    StrippedOfNormalized(x);
    SameStrippedSameResult(x, r);
  }

  lemma StrippedOfNormalized(x: string)
    requires NormalizeRut(Text(x)).Some?
    ensures Stripped(NormalizeRut(Text(x)).value) == Stripped(x)
  {
    StrippedIsClean(x);
    StrippedOfGrouped(NormalizeRut(Text(x)).value, Stripped(x));
  }

  lemma SameStrippedSameResult(x: string, y: string)
    requires Stripped(x) == Stripped(y)
    ensures NormalizeRut(Text(x)) == NormalizeRut(Text(y))
  {
  }

  /** Deleting the separators of a grouped identifier and upper-casing gives
      back its significant characters. */
  lemma StrippedOfGrouped(r: string, s: string)
    requires Grouped(r, s) && SeparatorFree(s) && Upper(s) == s
    ensures Stripped(r) == s
  {
    UngroupedParts(r, s);
    assert Stripped(r) == Upper(s);
  }

  /** Deleting the separators of a grouped identifier leaves its characters. */
  lemma UngroupedParts(r: string, s: string)
    requires Grouped(r, s) && SeparatorFree(s)
    ensures Delete(Delete(Delete(r, '.'), ' '), '-') == s
  {
    var n := |s|;
    var a, b, c, dv := s[..n - 7], s[n - 7..n - 4], s[n - 4..n - 1], s[n - 1];
    var g := a + "." + b + "." + c + "-" + [dv];
    assert r == g by { GroupedParts(r, s); }
    assert Delete(Delete(Delete(g, '.'), ' '), '-') == a + b + c + [dv] by {
      GroupsSeparatorFree(s);
      DeleteGrouped(a, b, c, dv);
    }
    PartsJoin(s);
  }

  lemma PartsJoin(s: string)
    requires |s| >= 8
    ensures s == s[..|s| - 7] + s[|s| - 7..|s| - 4] + s[|s| - 4..|s| - 1] + [s[|s| - 1]]
  {
  }

  lemma GroupsSeparatorFree(s: string)
    requires SeparatorFree(s) && |s| >= 8
    ensures SeparatorFree(s[..|s| - 7]) && SeparatorFree(s[|s| - 7..|s| - 4])
    ensures SeparatorFree(s[|s| - 4..|s| - 1]) && SeparatorFree([s[|s| - 1]])
  {
    var n := |s|;
    SeparatorFreeSlice(s, 0, n - 7);
    assert s[0..n - 7] == s[..n - 7];
    SeparatorFreeSlice(s, n - 7, n - 4);
    SeparatorFreeSlice(s, n - 4, n - 1);
    assert s[n - 1] in s;
  }

  /** The stripped form is already upper-case and free of separators. */
  lemma StrippedIsClean(x: string)
    ensures SeparatorFree(Stripped(x)) && Upper(Stripped(x)) == Stripped(x)
  {
    StrippedSeparatorFree(x);
    UpperIdempotent(Delete(Delete(Delete(x, '.'), ' '), '-'));
  }

  /** The pieces of a grouped identifier, written as a concatenation. */
  lemma GroupedParts(r: string, s: string)
    requires Grouped(r, s)
    ensures r == s[..|s| - 7] + "." + s[|s| - 7..|s| - 4] + "." + s[|s| - 4..|s| - 1] + "-" + [s[|s| - 1]]
  {
  }

  predicate SeparatorFree(p: string) {
    '.' !in p && ' ' !in p && '-' !in p
  }

  lemma SeparatorFreeSlice(s: string, i: int, j: int)
    requires SeparatorFree(s) && 0 <= i <= j <= |s|
    ensures SeparatorFree(s[i..j])
  {
    forall k | 0 <= k < j - i ensures s[i..j][k] in s {
      assert s[i..j][k] == s[i + k];
    }
  }

  lemma StrippedSeparatorFree(x: string)
    ensures SeparatorFree(Stripped(x))
  {
    var d1 := Delete(x, '.');
    var d2 := Delete(d1, ' ');
    var d3 := Delete(d2, '-');
    DeleteKeeps(d1, ' ', '.');
    DeleteKeeps(d2, '-', '.');
    DeleteKeeps(d2, '-', ' ');
    var s := Stripped(x);
    forall k | 0 <= k < |s| ensures s[k] != '.' && s[k] != ' ' && s[k] != '-' {
      assert s[k] == UpperChar(d3[k]);
      assert d3[k] in d3;
    }
  }

  /** A string without separators or lower-case letters is its own stripped form. */
  lemma StrippedClean(x: string)
    requires SeparatorFree(x) && Upper(x) == x
    ensures Stripped(x) == x
  {
    assert Delete(x, '.') == x by { DeleteAbsent(x, '.'); }
    assert Delete(x, ' ') == x by { DeleteAbsent(x, ' '); }
    assert Delete(x, '-') == x by { DeleteAbsent(x, '-'); }
  }

  /** Deleting '.', ' ' and '-' from a grouped identifier leaves its characters. */
  lemma DeleteGrouped(a: string, b: string, c: string, dv: char)
    requires SeparatorFree(a) && SeparatorFree(b) && SeparatorFree(c) && SeparatorFree([dv])
    ensures Delete(Delete(Delete(a + "." + b + "." + c + "-" + [dv], '.'), ' '), '-') == a + b + c + [dv]
  {
    DeleteDots(a, b, c, dv);
    var q := a + b + c;
    var d := q + "-" + [dv];
    assert Delete(d, ' ') == d by { assert ' ' !in d; DeleteAbsent(d, ' '); }
    assert Delete(q + "-", '-') == q by { assert '-' !in q; DeleteAbsent(q, '-'); DeleteAppend(q, "-", '-'); }
    assert Delete(d, '-') == q + [dv] by { DeleteAppend(q + "-", [dv], '-'); DeleteAbsent([dv], '-'); }
  }

  lemma DeleteDots(a: string, b: string, c: string, dv: char)
    requires SeparatorFree(a) && SeparatorFree(b) && SeparatorFree(c) && SeparatorFree([dv])
    ensures Delete(a + "." + b + "." + c + "-" + [dv], '.') == a + b + c + "-" + [dv]
  {
    var p1 := a + ".";
    assert Delete(p1, '.') == a by { DeleteAppend(a, ".", '.'); DeleteAbsent(a, '.'); }
    var p2 := p1 + b;
    assert Delete(p2, '.') == a + b by { DeleteAppend(p1, b, '.'); DeleteAbsent(b, '.'); }
    var p3 := p2 + ".";
    assert Delete(p3, '.') == a + b by { DeleteAppend(p2, ".", '.'); }
    var p4 := p3 + c;
    assert Delete(p4, '.') == a + b + c by { DeleteAppend(p3, c, '.'); DeleteAbsent(c, '.'); }
    var p5 := p4 + "-";
    assert Delete(p5, '.') == a + b + c + "-" by { DeleteAppend(p4, "-", '.'); }
    var p6 := p5 + [dv];
    assert Delete(p6, '.') == a + b + c + "-" + [dv] by { DeleteAppend(p5, [dv], '.'); DeleteAbsent([dv], '.'); }
  }

  /** Any input whose significant characters are 123456789 normalises to 12.345.678-9. */
  lemma GroupsNineDigits(x: string)
    requires Stripped(x) == "123456789"
    ensures NormalizeRut(Text(x)) == Some("12.345.678-9")
  {
    var body := "12345678";
    assert "123456789"[..8] == body;
    assert body[..2] == "12" && body[2..5] == "345" && body[5..] == "678";
    assert "12" + "." + "345" + "." + "678" + "-" + ['9'] == "12.345.678-9";
  }

  /** A clean body, '-' and a clean check character strip to body and check character. */
  lemma StrippedDashedForm(d: string, dv: char)
    requires SeparatorFree(d) && SeparatorFree([dv]) && Upper(d) == d && UpperChar(dv) == dv
    ensures Stripped(d + "-" + [dv]) == d + [dv]
  {
    var x := d + "-" + [dv];
    assert Delete(x, '.') == x by { assert '.' !in x; DeleteAbsent(x, '.'); }
    assert Delete(x, ' ') == x by { assert ' ' !in x; DeleteAbsent(x, ' '); }
    assert Delete(x, '-') == d + [dv] by {
      DeleteAppend(d + "-", [dv], '-');
      DeleteAppend(d, "-", '-');
      DeleteAbsent(d, '-');
      DeleteAbsent([dv], '-');
    }
  }

  /** Worked example: the dashed spelling 12345678-9 normalises to the grouped form. */
  lemma ExampleDashed(x: string)
    requires x == "12345678-9"
    ensures NormalizeRut(Text(x)) == Some("12.345.678-9")
  {
    var d := "12345678";
    assert SeparatorFree(d) && Upper(d) == d;
    assert x == d + "-" + ['9'];
    StrippedDashedForm(d, '9');
    GroupsNineDigits(x);
  }

  /** Worked example: the bare spelling 123456789 normalises to the same grouped form. */
  lemma ExampleBare(x: string)
    requires x == "123456789"
    ensures NormalizeRut(Text(x)) == Some("12.345.678-9")
  {
    assert SeparatorFree(x) && Upper(x) == x;
    StrippedClean(x);
    GroupsNineDigits(x);
  }

  /** Only the shape is checked: any check digit after a well-formed dotted
      body is accepted. */
  lemma CheckDigitIgnored(a: string, b: string, c: string, dv: char)
    requires |a| == 2 && |b| == 3 && |c| == 3
    requires AllDigits(a) && AllDigits(b) && AllDigits(c) && IsDigit(dv)
    ensures IsValidRut(NormalizeRut(Text(a + "." + b + "." + c + "-" + [dv])))
  {
    var x := a + "." + b + "." + c + "-" + [dv];
    var s := a + b + c + [dv];
    assert AllDigits(s) by {
      forall i | 0 <= i < |s| ensures IsDigit(s[i]) {
        if i < 2 { assert s[i] == a[i]; }
        else if i < 5 { assert s[i] == b[i - 2]; }
        else if i < 8 { assert s[i] == c[i - 5]; }
      }
    }
    assert Stripped(x) == s by {
      DeleteGrouped(a, b, c, dv);
      UpperDigits(s);
    }
    assert s[..8] == a + b + c;
    NormalizeThenValidate(x);
  }

  /** 12.345.678-5 would be the right check digit for this body, yet
      12.345.678-0 is accepted. */
  lemma ExampleWrongCheckDigit(x: string)
    requires x == "12.345.678-0"
    ensures IsValidRut(NormalizeRut(Text(x)))
  {
    assert x == "12" + "." + "345" + "." + "678" + "-" + ['0'];
    CheckDigitIgnored("12", "345", "678", '0');
  }
}

=== FILE: text.dfy ===
/** Python string operations the import and alert code relies on, written out
    so that their corner cases (every-occurrence split, non-overlapping count,
    whitespace set of strip) are explicit. */
module Text {
  import opened Base

  /** Python's str.isspace: the characters strip() and split() treat as blanks. */
  predicate IsSpace(c: char) {
    c == ' ' || ('\U{0009}' <= c <= '\U{000D}') || ('\U{001C}' <= c <= '\U{001F}')
    || c == '\U{0085}' || c == '\U{00A0}' || c == '\U{1680}'
    || ('\U{2000}' <= c <= '\U{200A}') || c == '\U{2028}' || c == '\U{2029}'
    || c == '\U{202F}' || c == '\U{205F}' || c == '\U{3000}'
  }

  predicate IsDigit(c: char) {
    '0' <= c <= '9'
  }

  predicate AllDigits(s: string) {
    forall i :: 0 <= i < |s| ==> IsDigit(s[i])
  }

  predicate IsAscii(c: char) {
    c < '\U{0080}'
  }

  // ---------------------------------------------------------------------------
  // Case mapping (ASCII and Latin-1 letters)

  function UpperChar(c: char): (u: char)
    ensures IsDigit(c) ==> u == c
    ensures IsSpace(c) ==> u == c
  {
    if 'a' <= c <= 'z' then (c as int - 32) as char
    else if '\U{00E0}' <= c <= '\U{00FE}' && c != '\U{00F7}' then (c as int - 32) as char
    else if c == '\U{00FF}' then '\U{0178}'
    else if c == '\U{00B5}' then '\U{039C}'
    else c
  }

  function LowerChar(c: char): (l: char)
    ensures IsDigit(c) ==> l == c
  {
    if 'A' <= c <= 'Z' then (c as int + 32) as char
    else if '\U{00C0}' <= c <= '\U{00DE}' && c != '\U{00D7}' then (c as int + 32) as char
    else c
  }

  /** str.upper() */
  function Upper(s: string): (r: string)
    ensures |r| == |s|
    ensures forall i :: 0 <= i < |s| ==> r[i] == UpperChar(s[i])
  {
    seq(|s|, i requires 0 <= i < |s| => UpperChar(s[i]))
  }

  /** str.lower() */
  function Lower(s: string): (r: string)
    ensures |r| == |s|
    ensures forall i :: 0 <= i < |s| ==> r[i] == LowerChar(s[i])
  {
    seq(|s|, i requires 0 <= i < |s| => LowerChar(s[i]))
  }

  lemma UpperCharIdempotent(c: char)
    ensures UpperChar(UpperChar(c)) == UpperChar(c)
  {
  }

  /** Upper-casing twice is upper-casing once. */
  lemma UpperIdempotent(s: string)
    ensures Upper(Upper(s)) == Upper(s)
  {
    forall i | 0 <= i < |s|
      ensures Upper(Upper(s))[i] == Upper(s)[i]
    {
      UpperCharIdempotent(s[i]);
    }
  }

  /** Digits have no case. */
  lemma UpperDigits(s: string)
    requires AllDigits(s)
    ensures Upper(s) == s
  {
    assert forall i :: 0 <= i < |s| ==> Upper(s)[i] == s[i];
  }

  lemma UpperAppend(a: string, b: string)
    ensures Upper(a + b) == Upper(a) + Upper(b)
  {
  }

  // ---------------------------------------------------------------------------
  // Deletion and replacement of single characters

  /** str.replace(c, '') */
  function Delete(s: string, c: char): (r: string)
    ensures c !in r
    ensures |r| <= |s|
    decreases |s|
  {
    if |s| == 0 then []
    else (if s[0] == c then [] else [s[0]]) + Delete(s[1..], c)
  }

  /** Deleting c keeps every other character that occurs, and adds none. */
  lemma {:induction false} DeleteKeeps(s: string, c: char, x: char)
    requires x != c
    ensures x in Delete(s, c) <==> x in s
    decreases |s|
  {
    if |s| > 0 {
      DeleteKeeps(s[1..], c, x);
      assert x in s <==> x == s[0] || x in s[1..];
    }
  }

  /** Deleting distributes over concatenation. */
  lemma {:induction false} DeleteAppend(a: string, b: string, c: char)
    ensures Delete(a + b, c) == Delete(a, c) + Delete(b, c)
    decreases |a|
  {
    if |a| == 0 {
      assert a + b == b;
    } else {
      assert (a + b)[1..] == a[1..] + b;
      DeleteAppend(a[1..], b, c);
    }
  }

  /** Deleting c around one occurrence of c. */
  lemma DeleteAround(p: string, q: string, c: char)
    ensures Delete(p + [c] + q, c) == Delete(p, c) + Delete(q, c)
  {
    DeleteAppend(p + [c], q, c);
    DeleteAppend(p, [c], c);
  }

  /** A string without c is left unchanged by deleting c. */
  lemma {:induction false} DeleteAbsent(s: string, c: char)
    requires c !in s
    ensures Delete(s, c) == s
    decreases |s|
  {
    if |s| > 0 {
      assert s == [s[0]] + s[1..];
      DeleteAbsent(s[1..], c);
    }
  }

  /** str.replace(a, b) for single characters. */
  function ReplaceChar(s: string, a: char, b: char): (r: string)
    ensures |r| == |s|
    ensures a != b ==> a !in r
    ensures forall i :: 0 <= i < |s| && s[i] != a ==> r[i] == s[i]
  {
    seq(|s|, i requires 0 <= i < |s| => if s[i] == a then b else s[i])
  }

  /** Replacing distributes over concatenation. */
  lemma ReplaceAppend(x: string, y: string, a: char, b: char)
    ensures ReplaceChar(x + y, a, b) == ReplaceChar(x, a, b) + ReplaceChar(y, a, b)
  {
    var l := ReplaceChar(x + y, a, b);
    var r := ReplaceChar(x, a, b) + ReplaceChar(y, a, b);
    forall i | 0 <= i < |x| + |y| ensures l[i] == r[i] {
      if i < |x| {
        assert (x + y)[i] == x[i];
      } else {
        assert (x + y)[i] == y[i - |x|];
      }
    }
  }

  /** Replacing a character that does not occur changes nothing. */
  lemma ReplaceAbsent(s: string, a: char, b: char)
    requires a !in s
    ensures ReplaceChar(s, a, b) == s
  {
    forall i | 0 <= i < |s| ensures ReplaceChar(s, a, b)[i] == s[i] {
      assert s[i] in s;
    }
  }

  // ---------------------------------------------------------------------------
  // Searching, splitting, counting

  predicate OccursAt(s: string, sep: string, i: int) {
    0 <= i && i + |sep| <= |s| && s[i..i + |sep|] == sep
  }

  /** str.find(sep), as an Option: the first position where sep occurs. */
  function Find(s: string, sep: string): (r: Option<nat>)
    ensures r.Some? ==> OccursAt(s, sep, r.value)
    ensures r.Some? ==> forall j :: 0 <= j < r.value ==> !OccursAt(s, sep, j)
    ensures r.None? ==> forall j :: 0 <= j <= |s| ==> !OccursAt(s, sep, j)
    decreases |s|
  {
    if |s| < |sep| then None
    else if s[..|sep|] == sep then Some(0)
    else
      match Find(s[1..], sep)
      case None =>
        forall j | 1 <= j <= |s| ensures !OccursAt(s, sep, j) { OccursShift(s, sep, j); }
        None
      case Some(k) =>
        forall j | 1 <= j <= k ensures !OccursAt(s, sep, j) { OccursShift(s, sep, j); }
        OccursShift(s, sep, k + 1);
        Some(k + 1)
  }

  /** An occurrence past the first character is an occurrence in the tail. */
  lemma OccursShift(s: string, sep: string, j: int)
    requires |s| > 0 && j >= 1
    ensures OccursAt(s, sep, j) == OccursAt(s[1..], sep, j - 1)
  {
    if j + |sep| <= |s| {
      assert s[1..][j - 1..j - 1 + |sep|] == s[j..j + |sep|];
    }
  }

  /** str.endswith(suffix) */
  predicate EndsWith(s: string, suffix: string) {
    |suffix| <= |s| && s[|s| - |suffix|..] == suffix
  }

  /** Python's `sep in s`. */
  predicate Contains(s: string, sep: string) {
    Find(s, sep).Some?
  }

  lemma ContainsWitness(s: string, sep: string, i: int)
    requires OccursAt(s, sep, i)
    ensures Contains(s, sep)
  {
  }

  /** A character that does not occur is not found. */
  lemma FindAbsentChar(s: string, c: char)
    requires c !in s
    ensures Find(s, [c]) == None
  {
    forall j | 0 <= j < |s| ensures !OccursAt(s, [c], j) {
      assert s[j] in s;
    }
  }

  /** str.split(sep): cut at every non-overlapping occurrence, scanning left to right. */
  function Split(s: string, sep: string): (r: seq<string>)
    requires |sep| > 0
    ensures |r| >= 1
    ensures !Contains(s, sep) ==> r == [s]
    decreases |s|
  {
    match Find(s, sep)
    case None => [s]
    case Some(i) => [s[..i]] + Split(s[i + |sep|..], sep)
  }

  /** str.split(sep, 1): cut at the first occurrence only. */
  function SplitOnce(s: string, sep: string): (r: seq<string>)
    requires |sep| > 0
    ensures 1 <= |r| <= 2
    ensures |r| == 2 <==> Contains(s, sep)
    ensures |r| == 2 ==> r[0] + sep + r[1] == s
  {
    match Find(s, sep)
    case None => [s]
    case Some(i) =>
      assert s[..i] + sep + s[i + |sep|..] == s by {
        assert s[i..i + |sep|] == sep;
        assert s == s[..i] + s[i..i + |sep|] + s[i + |sep|..];
      }
      [s[..i], s[i + |sep|..]]
  }

  /** str.count(sep): the number of non-overlapping occurrences. */
  function Count(s: string, sep: string): nat
    requires |sep| > 0
    decreases |s|
  {
    match Find(s, sep)
    case None => 0
    case Some(i) => 1 + Count(s[i + |sep|..], sep)
  }

  /** split yields one more piece than count finds separators. */
  lemma {:induction false} SplitCount(s: string, sep: string)
    requires |sep| > 0
    ensures |Split(s, sep)| == Count(s, sep) + 1
    decreases |s|
  {
    match Find(s, sep)
    case None =>
    case Some(i) => SplitCount(s[i + |sep|..], sep);
  }

  /** `sep in s` holds exactly when split produces two pieces or more. */
  lemma SplitContains(s: string, sep: string)
    requires |sep| > 0
    ensures Contains(s, sep) <==> |Split(s, sep)| >= 2
  {
    match Find(s, sep)
    case None =>
    case Some(i) =>
  }

  /** The first piece of split and of split-once coincide. */
  lemma SplitFirstPieces(s: string, sep: string)
    requires |sep| > 0
    ensures Split(s, sep)[0] == SplitOnce(s, sep)[0]
  {
  }

  // ---------------------------------------------------------------------------
  // Whitespace

  function LStrip(s: string): (r: string)
    ensures |r| <= |s| && r == s[|s| - |r|..]
    ensures |r| > 0 ==> !IsSpace(r[0])
    ensures forall i :: 0 <= i < |s| - |r| ==> IsSpace(s[i])
    decreases |s|
  {
    if |s| > 0 && IsSpace(s[0]) then LStrip(s[1..]) else s
  }

  function RStrip(s: string): (r: string)
    ensures |r| <= |s| && r == s[..|r|]
    ensures |r| > 0 ==> !IsSpace(r[|r| - 1])
    ensures forall i :: |r| <= i < |s| ==> IsSpace(s[i])
    decreases |s|
  {
    if |s| > 0 && IsSpace(s[|s| - 1]) then RStrip(s[..|s| - 1]) else s
  }

  /** str.strip() */
  function Strip(s: string): (r: string)
    ensures |r| <= |s|
    ensures |r| > 0 ==> !IsSpace(r[0]) && !IsSpace(r[|r| - 1])
  {
    RStrip(LStrip(s))
  }

  /** A string with no blank at either end is its own strip. */
  lemma StripTrimmed(s: string)
    requires |s| > 0 ==> !IsSpace(s[0]) && !IsSpace(s[|s| - 1])
    ensures Strip(s) == s
  {
  }

  /** Stripping twice is stripping once. */
  lemma StripIdempotent(s: string)
    ensures Strip(Strip(s)) == Strip(s)
  {
    StripTrimmed(Strip(s));
  }

  /** A string made only of blanks strips to the empty string, and only such a string does. */
  lemma StripEmpty(s: string)
    ensures Strip(s) == [] <==> forall i :: 0 <= i < |s| ==> IsSpace(s[i])
  {
  }

  predicate NoSpace(w: string) {
    forall k :: 0 <= k < |w| ==> !IsSpace(w[k])
  }

  /** The longest prefix of s without blanks. */
  function Word(s: string): (w: string)
    ensures |w| <= |s| && w == s[..|w|]
    ensures NoSpace(w)
    ensures |w| < |s| ==> IsSpace(s[|w|])
    decreases |s|
  {
    if |s| == 0 || IsSpace(s[0]) then [] else [s[0]] + Word(s[1..])
  }

  /** Non-empty words without blanks. */
  predicate AllWords(r: seq<string>) {
    forall i :: 0 <= i < |r| ==> |r[i]| > 0 && NoSpace(r[i])
  }

  lemma AllWordsCons(w: string, rest: seq<string>)
    requires |w| > 0 && NoSpace(w) && AllWords(rest)
    ensures AllWords([w] + rest)
  {
    var r := [w] + rest;
    forall i | 0 <= i < |r| ensures |r[i]| > 0 && NoSpace(r[i]) {
      if i > 0 {
        assert r[i] == rest[i - 1];
      }
    }
  }

  /** str.split() with no argument: the maximal runs of non-blank characters. */
  function Tokens(s: string): (r: seq<string>)
    ensures AllWords(r)
    decreases |s|
  {
    var t := LStrip(s);
    if |t| == 0 then []
    else
      var w := Word(t);
      assert |w| > 0 by { assert !IsSpace(t[0]); }
      var rest := Tokens(t[|w|..]);
      AllWordsCons(w, rest);
      [w] + rest
  }

  /** sep.join(parts) */
  function Join(sep: string, parts: seq<string>): string
  {
    if |parts| == 0 then ""
    else if |parts| == 1 then parts[0]
    else parts[0] + sep + Join(sep, parts[1..])
  }

  /** s[:n] */
  function Prefix<T>(s: seq<T>, n: nat): (r: seq<T>)
    ensures |r| == if |s| < n then |s| else n
    ensures r == s[..|r|]
  {
    if |s| <= n then s else s[..n]
  }

  // ---------------------------------------------------------------------------
  // Decimal numerals

  function DigitChar(d: nat): (c: char)
    requires d < 10
    ensures IsDigit(c)
  {
    ('0' as int + d) as char
  }

  function DigitValue(c: char): nat
    requires IsDigit(c)
  {
    c as int - '0' as int
  }

  /** The value of a string of decimal digits. */
  function DigitsValue(s: string): nat
    requires AllDigits(s)
  {
    if |s| == 0 then 0 else DigitsValue(s[..|s| - 1]) * 10 + DigitValue(s[|s| - 1])
  }

  /** str(n) for n >= 0 */
  function NatToString(n: nat): (r: string)
    ensures |r| > 0 && AllDigits(r)
  {
    if n < 10 then [DigitChar(n)] else NatToString(n / 10) + [DigitChar(n % 10)]
  }

  /** str(n) */
  function IntToString(n: int): string
  {
    if n < 0 then "-" + NatToString(-n) else NatToString(n)
  }

  /** Reading back the numeral gives the number. */
  lemma {:induction false} NatToStringRoundTrip(n: nat)
    ensures DigitsValue(NatToString(n)) == n
  {
    var r := NatToString(n);
    if n >= 10 {
      NatToStringRoundTrip(n / 10);
      assert r[..|r| - 1] == NatToString(n / 10);
    }
  }
}

=== FILE: uploads.dfy ===
/** The record of one uploaded spreadsheet as it moves through the import
    pipeline, and the helpers that move it. */
module Uploads {
  import opened Base

  /** The seven pipeline states of an upload. */
  datatype Status = Pendiente | Validando | Limpiando | Procesando | Ml | Completado | Error {
    /** The stored code. */
    function Code(): string {
      match this
      case Pendiente => "pendiente"
      case Validando => "validando"
      case Limpiando => "limpiando"
      case Procesando => "procesando"
      case Ml => "ml"
      case Completado => "completado"
      case Error => "error"
    }

    /** The label shown for the code. */
    function Label(): string {
      match this
      case Pendiente => "Pendiente"
      case Validando => "Validando"
      case Limpiando => "Limpiando"
      case Procesando => "Procesando"
      case Ml => "Aplicando ML"
      case Completado => "Completado"
      case Error => "Error"
    }
  }

  /** Reading a stored code back: the seven codes and nothing else. */
  function StatusOf(code: string): (r: Option<Status>)
    ensures r.Some? ==> r.value.Code() == code
  {
    if code == "pendiente" then Some(Pendiente)
    else if code == "validando" then Some(Validando)
    else if code == "limpiando" then Some(Limpiando)
    else if code == "procesando" then Some(Procesando)
    else if code == "ml" then Some(Ml)
    else if code == "completado" then Some(Completado)
    else if code == "error" then Some(Error)
    else None
  }

  /** Every state has a code, and distinct states have distinct codes. */
  lemma StatusCodeRoundTrip(s: Status)
    ensures StatusOf(s.Code()) == Some(s)
  {
  }

  /** Processing details, a JSON object; an empty object is falsy. */
  type Details = map<string, string>

  /** The fields of an upload that the pipeline writes. */
  datatype Upload = Upload(
    estado: Status,
    mensajeError: Option<string>,
    detalles: Option<Details>,
    processedRows: int,
    insertedRows: int,
    updatedRows: int)

  /** A new upload: state pendiente, no message, counters at zero. */
  function NewUpload(): (u: Upload)
    ensures u.estado == Pendiente && u.mensajeError.None? && u.detalles.None?
    ensures u.processedRows == 0 && u.insertedRows == 0 && u.updatedRows == 0
  {
    Upload(Pendiente, None, None, 0, 0, 0)
  }

  predicate TruthyText(m: Option<string>) {
    m.Some? && |m.value| > 0
  }

  predicate TruthyDetails(d: Option<Details>) {
    d.Some? && |d.value| > 0
  }

  /** update_upload_status: the state is always overwritten; the message and
      the details only when the new ones are truthy. */
  function UpdateStatus(u: Upload, status: Status, message: Option<string>, detalles: Option<Details>): (r: Upload)
    ensures r.estado == status
    ensures TruthyText(message) ==> r.mensajeError == message
    ensures !TruthyText(message) ==> r.mensajeError == u.mensajeError
    ensures TruthyDetails(detalles) ==> r.detalles == detalles
    ensures !TruthyDetails(detalles) ==> r.detalles == u.detalles
    ensures r.processedRows == u.processedRows && r.insertedRows == u.insertedRows
            && r.updatedRows == u.updatedRows
  {
    var u1 := u.(estado := status);
    var u2 := if TruthyText(message) then u1.(mensajeError := message) else u1;
    if TruthyDetails(detalles) then u2.(detalles := detalles) else u2
  }

  /** mark_upload_error */
  function MarkUploadError(u: Upload, message: string): (r: Upload)
    ensures r.estado == Error
    ensures |message| > 0 ==> r.mensajeError == Some(message)
    ensures |message| == 0 ==> r.mensajeError == u.mensajeError
    ensures r.detalles == u.detalles
  {
    UpdateStatus(u, Error, Some(message), None)
  }

  /** mark_upload_completed: the previous error message is left in place. */
  function MarkUploadCompleted(u: Upload, detalles: Option<Details>): (r: Upload)
    ensures r.estado == Completado
    ensures r.mensajeError == u.mensajeError
    ensures !TruthyDetails(detalles) ==> r.detalles == u.detalles
  {
    UpdateStatus(u, Completado, None, detalles)
  }

  /** Repeating an update changes nothing more. */
  lemma UpdateStatusIdempotent(u: Upload, status: Status, message: Option<string>, detalles: Option<Details>)
    ensures UpdateStatus(UpdateStatus(u, status, message, detalles), status, message, detalles)
            == UpdateStatus(u, status, message, detalles)
  {
  }

  /** A later update decides the state; the message survives any number of
      updates that carry none. */
  lemma StatusOnlyUpdatesKeepMessage(u: Upload, s1: Status, s2: Status)
    ensures var r := UpdateStatus(UpdateStatus(u, s1, None, None), s2, None, None);
            r.estado == s2 && r.mensajeError == u.mensajeError && r.detalles == u.detalles
  {
  }

  /** get_resumen */
  datatype Resumen = Resumen(estado: string, procesadas: int, insertadas: int, actualizadas: int, errores: int)

  /** The summary derives the error count from the three stored counters. */
  function GetResumen(u: Upload): (r: Resumen)
    ensures r.procesadas == u.processedRows
    ensures r.insertadas + r.actualizadas + r.errores == r.procesadas
    ensures r.estado == u.estado.Label()
  {
    Resumen(u.estado.Label(), u.processedRows, u.insertedRows, u.updatedRows,
            u.processedRows - u.insertedRows - u.updatedRows)
  }
}

=== FILE: usuarios.dfy ===
/** Users, roles and permissions: the role predicates of the user model, the
    permission classes and helpers that decide access, and the guards of the
    administrators' user-management actions. */
module Usuarios {
  import opened Base
  import Text

  const Admin := "admin"
  const Comercial := "comercial"
  const Auditor := "auditor"

  /** The role choices, in declaration order; new users get "comercial". */
  const Roles: seq<string> := [Admin, Comercial, Auditor]
  const RolPorDefecto := Comercial

  /** A user. The role is a free-text column whose choices are `Roles`. */
  datatype Usuario = Usuario(
    id: nat,
    username: string,
    email: string,
    firstName: string,
    lastName: string,
    role: string,
    isActive: bool)
  {
    predicate IsAdmin() {
      role == Admin
    }

    predicate IsComercial() {
      role in [Admin, Comercial]
    }

    predicate IsAuditor() {
      role == Auditor
    }
  }

  /** A user created with only the identifying fields: role "comercial",
      active. */
  function NuevoUsuario(id: nat, username: string, email: string): (u: Usuario)
    ensures u.IsComercial() && !u.IsAdmin() && !u.IsAuditor() && u.isActive
    ensures u.role in Roles
  {
    Usuario(id, username, email, "", "", RolPorDefecto, true)
  }

  /** Every administrator is a commercial user, nobody is both administrator
      and auditor, and a role among the choices makes exactly one of
      "administrator", "commercial but not administrator", "auditor" hold. */
  lemma RolesJerarquia(u: Usuario)
    ensures u.IsAdmin() ==> u.IsComercial()
    ensures !(u.IsAdmin() && u.IsAuditor()) && !(u.IsComercial() && u.IsAuditor())
    ensures u.role in Roles <==> u.IsComercial() || u.IsAuditor()
  {
  }

  // ---------------------------------------------------------------------
  // The requester and the permission classes
  // ---------------------------------------------------------------------

  /** The requester: the anonymous user or an authenticated one. */
  datatype Solicitante = Anonimo | Autenticado(u: Usuario) {
    /** The requester's role, when authenticated. */
    predicate TieneRol(roles: seq<string>) {
      Autenticado? && u.role in roles
    }

    /** Model equality: the same primary key. */
    predicate Es(obj: Usuario) {
      Autenticado? && u.id == obj.id
    }
  }

  const SafeMethods: seq<string> := ["GET", "HEAD", "OPTIONS"]

  /** IsAdmin, CanAccessAdminPanel and CanAccessSystemLogs. */
  predicate EsAdmin(s: Solicitante) {
    s.Autenticado? && s.u.IsAdmin()
  }

  predicate CanAccessAdminPanel(s: Solicitante) {
    s.Autenticado? && s.u.role == Admin
  }

  predicate CanAccessSystemLogs(s: Solicitante) {
    s.Autenticado? && s.u.role == Admin
  }

  /** IsGestor: administrators and commercial users. */
  predicate EsGestor(s: Solicitante) {
    s.Autenticado? && s.u.IsComercial()
  }

  /** IsEjecutivo and CanUploadFiles: any authenticated user. */
  predicate EsEjecutivo(s: Solicitante) {
    s.Autenticado?
  }

  predicate CanUploadFiles(s: Solicitante) {
    s.Autenticado?
  }

  predicate CanAccessAuditorias(s: Solicitante) {
    s.TieneRol([Admin, Auditor])
  }

  predicate CanAccessAnalytics(s: Solicitante) {
    s.TieneRol([Admin, Comercial])
  }

  predicate CanAccessAlerts(s: Solicitante) {
    s.TieneRol([Admin, Comercial])
  }

  predicate IsAdminOrReadOnly(s: Solicitante, verb: string) {
    verb in SafeMethods || EsAdmin(s)
  }

  predicate IsGestorOrReadOnly(s: Solicitante, verb: string) {
    verb in SafeMethods || EsGestor(s)
  }

  /** The class-level check of CanDeleteUser. */
  predicate CanDeleteUser(s: Solicitante) {
    s.Autenticado? && s.u.role == Admin
  }

  /** The object-level check of CanDeleteUser: nobody may delete themselves. */
  predicate CanDeleteUserObject(s: Solicitante, obj: Usuario) {
    !s.Es(obj)
  }

  /** The access ladder: the three administrator-only classes agree; the
      commercial classes agree and admit every administrator; every class
      admits only authenticated users; read-only classes admit safe methods
      for anyone and otherwise coincide with their role class. */
  lemma PermisosJerarquia(s: Solicitante, verb: string)
    ensures EsAdmin(s) == CanAccessAdminPanel(s) == CanAccessSystemLogs(s) == CanDeleteUser(s)
    ensures EsGestor(s) == CanAccessAnalytics(s) == CanAccessAlerts(s)
    ensures EsAdmin(s) ==> EsGestor(s) && CanAccessAuditorias(s)
    ensures EsGestor(s) || CanAccessAuditorias(s) ==> EsEjecutivo(s) && CanUploadFiles(s)
    ensures CanAccessAuditorias(s) <==> EsAdmin(s) || (s.Autenticado? && s.u.IsAuditor())
    ensures verb in SafeMethods ==> IsAdminOrReadOnly(s, verb) && IsGestorOrReadOnly(s, verb)
    ensures verb !in SafeMethods ==> (IsAdminOrReadOnly(s, verb) <==> EsAdmin(s))
    ensures IsAdminOrReadOnly(s, verb) ==> IsGestorOrReadOnly(s, verb)
  {
  }

  /** An object-level decision, or the AttributeError the anonymous user
      raises when a check reads its role. */
  datatype Decision = Permitir | Denegar | SinRol {
    predicate Permite() {
      this == Permitir
    }
  }

  function DecisionDe(b: bool): (d: Decision)
    ensures d.Permite() <==> b
    ensures d != SinRol
  {
    if b then Permitir else Denegar
  }

  /** CanViewAllUsers (object level): administrators see everyone, others
      only themselves. */
  function CanViewAllUsers(s: Solicitante, obj: Usuario): (d: Decision)
    ensures s.Anonimo? <==> d == SinRol
    ensures d.Permite() <==> s.Autenticado? && (s.u.IsAdmin() || s.u.id == obj.id)
  {
    if s.Anonimo? then SinRol else DecisionDe(s.u.IsAdmin() || s.Es(obj))
  }

  /** CanModifyUser (object level): an administrator may modify anyone; a
      user may modify themselves as long as the request does not carry a
      different role; everyone else is refused. `role` is the role field of
      the request, when present. */
  function CanModifyUser(s: Solicitante, obj: Usuario, role: Option<string>): (d: Decision)
    ensures s.Anonimo? <==> d == SinRol
    ensures s.Autenticado? && s.u.IsAdmin() ==> d.Permite()
    ensures s.Autenticado? && !s.u.IsAdmin() && !s.Es(obj) ==> d == Denegar
    ensures s.Es(obj) && !s.u.IsAdmin() ==> (d.Permite() <==> role.None? || role.value == obj.role)
  {
    if s.Anonimo? then SinRol
    else if s.u.role == Admin then Permitir
    else if s.Es(obj) then DecisionDe(!(role.Some? && role.value != obj.role))
    else Denegar
  }

  /** IsOwnerOrAdmin: `owner` and `user` are the primary keys the object's
      attributes of those names hold, None when it has no such attribute or
      it is empty. */
  function IsOwnerOrAdmin(s: Solicitante, user: Option<nat>, owner: Option<nat>): (d: Decision)
    ensures s.Anonimo? <==> d == SinRol
    ensures d.Permite() <==> s.Autenticado? && (s.u.IsAdmin() || user == Some(s.u.id) || owner == Some(s.u.id))
  {
    if s.Anonimo? then SinRol
    else DecisionDe(s.u.role == Admin || user == Some(s.u.id) || owner == Some(s.u.id))
  }

  /** RoleBasedPermission: `roleMap` is the view's table from HTTP method to
      the roles allowed, None when the view defines none. */
  function RoleBasedPermission(s: Solicitante, verb: string, roleMap: Option<map<string, seq<string>>>): (b: bool)
    ensures s.Anonimo? ==> !b
    ensures s.Autenticado? && roleMap.None? ==> b
    ensures roleMap.Some? && verb !in roleMap.value ==> !b
    ensures roleMap.Some? && verb in roleMap.value ==> (b <==> s.TieneRol(roleMap.value[verb]))
  {
    if s.Anonimo? then false
    else if roleMap.Some? then
      var allowed := if verb in roleMap.value then roleMap.value[verb] else [];
      s.u.role in allowed
    else true
  }

  // ---------------------------------------------------------------------
  // Role checks of the decorators and the view mixin
  // ---------------------------------------------------------------------

  /** The answer of a decorator: None lets the view run, otherwise the
      status and message it returns instead. */
  datatype Rechazo = Rechazo(status: nat, error: string)

  const NoAutenticado := "Usuario no autenticado"

  /** require_role. */
  function RequireRole(s: Solicitante, allowed: seq<string>): (r: Option<Rechazo>)
    ensures r.None? <==> s.TieneRol(allowed)
    ensures s.Anonimo? ==> r == Some(Rechazo(401, NoAutenticado))
    ensures s.Autenticado? && r.Some? ==> r.value.status == 403
  {
    if s.Anonimo? then Some(Rechazo(401, NoAutenticado))
    else if s.u.role !in allowed then Some(Rechazo(403, "Permiso denegado"))
    else None
  }

  /** require_admin: the same as require_role with the single role admin. */
  function RequireAdmin(s: Solicitante): (r: Option<Rechazo>)
    ensures r.None? <==> EsAdmin(s)
    ensures r.Some? ==> r.value.status == RequireRole(s, [Admin]).value.status
  {
    if s.Anonimo? then Some(Rechazo(401, NoAutenticado))
    else if s.u.role != Admin then Some(Rechazo(403, "Se requiere rol de administrador"))
    else None
  }

  /** The role an action of the mixin requires: none, one role, or a list. */
  datatype Requisito = Ninguno | Uno(rol: string) | Lista(roles: seq<string>)

  /** check_role_permission: Ok(true) when the action may proceed, Err with
      the message of the PermissionDenied it raises otherwise. */
  function CheckRolePermission(s: Solicitante, req: Requisito): (r: Result<bool>)
    ensures r.Ok? ==> r.value
    ensures req.Ninguno? ==> r.Ok?
    ensures !req.Ninguno? && s.Anonimo? ==> r == Err(NoAutenticado)
    ensures EsAdmin(s) ==> r.Ok?
    ensures s.Autenticado? && !s.u.IsAdmin() && req.Lista? ==> (r.Ok? <==> s.u.role in req.roles)
    ensures s.Autenticado? && !s.u.IsAdmin() && req.Uno? ==> (r.Ok? <==> s.u.role == req.rol)
  {
    if req.Ninguno? then Ok(true)
    else if s.Anonimo? then Err(NoAutenticado)
    else if s.u.role == Admin then Ok(true)
    else if req.Lista? then
      if s.u.role !in req.roles then Err("Se requiere uno de estos roles: " + Text.Join(", ", req.roles)) else Ok(true)
    else if s.u.role != req.rol then Err("Se requiere rol: " + req.rol)
    else Ok(true)
  }

  /** A single role and the one-element list of it decide alike, and widening
      a list never refuses someone it admitted. */
  lemma CheckRolePermissionLista(s: Solicitante, rol: string, roles: seq<string>, more: seq<string>)
    ensures CheckRolePermission(s, Uno(rol)).Ok? == CheckRolePermission(s, Lista([rol])).Ok?
    ensures CheckRolePermission(s, Lista(roles)).Ok? ==> CheckRolePermission(s, Lista(roles + more)).Ok?
  {
  }

  // ---------------------------------------------------------------------
  // The permission flags shown to the front end
  // ---------------------------------------------------------------------

  datatype Permisos = Permisos(
    crearUploads: bool,
    procesarMl: bool,
    verAuditorias: bool,
    cambiarRoles: bool,
    descargarExcel: bool,
    verErrores: bool)
  {
    function Flags(): seq<bool> {
      [crearUploads, procesarMl, verAuditorias, cambiarRoles, descargarExcel, verErrores]
    }

    /** Every flag this set grants, `other` grants too. */
    predicate Within(other: Permisos) {
      forall i :: 0 <= i < 6 ==> Flags()[i] ==> other.Flags()[i]
    }
  }

  /** get_user_permissions: six flags by role; any role other than admin and
      comercial gets the auditor's set. */
  function GetUserPermissions(role: string): (p: Permisos)
    ensures role == Admin <==> p.Flags() == [true, true, true, true, true, true]
    ensures p.cambiarRoles <==> role == Admin
    ensures p.procesarMl <==> role == Admin
    ensures p.verErrores
    ensures p.verAuditorias <==> role != Comercial
    ensures p.crearUploads <==> role in [Admin, Comercial]
  {
    if role == Admin then Permisos(true, true, true, true, true, true)
    else if role == Comercial then Permisos(true, false, false, false, true, true)
    else Permisos(false, false, true, false, false, true)
  }

  /** Every flag granted to any role is granted to the administrator, and
      every role outside the choices is treated as an auditor. */
  lemma GetUserPermissionsAdminMaximal(role: string)
    ensures GetUserPermissions(role).Within(GetUserPermissions(Admin))
    ensures role !in [Admin, Comercial] ==> GetUserPermissions(role) == GetUserPermissions(Auditor)
  {
    var p := GetUserPermissions(role);
    var a := GetUserPermissions(Admin);
    forall i | 0 <= i < 6
      ensures p.Flags()[i] ==> a.Flags()[i]
    {
      assert a.Flags()[i];
    }
  }

  /** The flags agree with the permission classes: auditing with
      CanAccessAuditorias, changing roles with IsAdmin. */
  lemma PermisosVsClases(u: Usuario)
    ensures GetUserPermissions(u.role).verAuditorias <==> CanAccessAuditorias(Autenticado(u)) || u.role !in Roles
    ensures GetUserPermissions(u.role).cambiarRoles <==> EsAdmin(Autenticado(u))
  {
  }

  // ---------------------------------------------------------------------
  // The administrators' user-management actions
  // ---------------------------------------------------------------------

  /** The answer of an action: refused by the viewset's IsAdmin class,
      rejected with 400 and a message, or done with the user as saved. */
  datatype Respuesta = Denegada | Rechazada(error: string) | Hecha(user: Usuario)

  const PropiaCuenta := "No puedes desactivar tu propia cuenta"

  /** destroy and deactivate: a soft delete that refuses the requester's own
      account. */
  function Desactivar(s: Solicitante, target: Usuario): (r: Respuesta)
    ensures !EsAdmin(s) <==> r.Denegada?
    ensures EsAdmin(s) && s.Es(target) <==> r == Rechazada(PropiaCuenta)
    ensures r.Hecha? ==> r.user == target.(isActive := false)
    ensures EsAdmin(s) ==> (r.Hecha? <==> CanDeleteUserObject(s, target))
  {
    if !EsAdmin(s) then Denegada
    else if target.id == s.u.id then Rechazada(PropiaCuenta)
    else Hecha(target.(isActive := false))
  }

  /** activate: reactivates unconditionally. */
  function Activar(s: Solicitante, target: Usuario): (r: Respuesta)
    ensures !EsAdmin(s) <==> r.Denegada?
    ensures EsAdmin(s) ==> r == Hecha(target.(isActive := true))
  {
    if !EsAdmin(s) then Denegada else Hecha(target.(isActive := true))
  }

  /** Deactivating then activating restores an active user exactly, and
      both actions are idempotent. */
  lemma DesactivarActivar(s: Solicitante, target: Usuario)
    requires EsAdmin(s) && !s.Es(target)
    ensures Activar(s, Desactivar(s, target).user) == Hecha(target.(isActive := true))
    ensures target.isActive ==> Activar(s, Desactivar(s, target).user) == Hecha(target)
    ensures Desactivar(s, Desactivar(s, target).user) == Desactivar(s, target)
    ensures Activar(s, Activar(s, target).user) == Activar(s, target)
  {
  }

  /** The answer of change_role, with the (old, new) pair it logs. */
  datatype CambioRol = CambioRol(respuesta: Respuesta, log: Option<(string, string)>)

  const RolRequerido := "Campo \"role\" requerido"

  /** change_role: a missing or empty role, or one outside the choices, is
      rejected with the user unchanged; otherwise the role is replaced and the
      old and new values are logged. The requester's own account is not
      protected. */
  function ChangeRole(s: Solicitante, target: Usuario, role: Option<string>): (r: CambioRol)
    ensures !EsAdmin(s) ==> r.respuesta.Denegada? && r.log.None?
    ensures EsAdmin(s) && (role.None? || role.value == "") ==> r.respuesta == Rechazada(RolRequerido)
    ensures r.respuesta.Hecha? <==> EsAdmin(s) && role.Some? && role.value in Roles
    ensures r.respuesta.Hecha? ==> r.respuesta.user == target.(role := role.value) && r.respuesta.user.role in Roles
    ensures r.log.Some? <==> r.respuesta.Hecha?
    ensures r.log.Some? ==> r.log.value == (target.role, role.value)
  {
    if !EsAdmin(s) then CambioRol(Denegada, None)
    else if role.None? || role.value == "" then CambioRol(Rechazada(RolRequerido), None)
    else if role.value !in Roles then CambioRol(Rechazada("Rol inválido. Roles válidos: " + Text.Join(", ", Roles)), None)
    else CambioRol(Hecha(target.(role := role.value)), Some((target.role, role.value)))
  }

  /** Changing to a role and back restores the user. */
  lemma ChangeRoleRoundTrip(s: Solicitante, target: Usuario, role: string)
    requires EsAdmin(s) && role in Roles && target.role in Roles
    ensures var once := ChangeRole(s, target, Some(role)).respuesta.user;
            ChangeRole(s, once, Some(target.role)).respuesta == Hecha(target)
  {
  }

  /** The five fields whose change the update action audits. */
  datatype Auditados = Auditados(email: string, firstName: string, lastName: string, role: string, isActive: bool)

  function AuditadosDe(u: Usuario): Auditados {
    Auditados(u.email, u.firstName, u.lastName, u.role, u.isActive)
  }

  /** The names of the audited fields that differ, in the source's order. */
  function Cambios(antes: Usuario, despues: Usuario): (c: seq<string>)
    ensures |c| <= 5
    ensures "role" in c <==> antes.role != despues.role
    ensures "is_active" in c <==> antes.isActive != despues.isActive
  {
    (if antes.email != despues.email then ["email"] else [])
    + (if antes.firstName != despues.firstName then ["first_name"] else [])
    + (if antes.lastName != despues.lastName then ["last_name"] else [])
    + (if antes.role != despues.role then ["role"] else [])
    + (if antes.isActive != despues.isActive then ["is_active"] else [])
  }

  /** update: given the user as the serializer saved it, the audit row the
      action writes, holding the old and new audited values, if any. */
  function AuditoriaUpdate(antes: Usuario, despues: Usuario): (r: Option<(Auditados, Auditados)>)
    ensures r.Some? <==> AuditadosDe(antes) != AuditadosDe(despues)
    ensures r.Some? ==> r.value.0 == AuditadosDe(antes) && r.value.1 == AuditadosDe(despues)
  {
    if |Cambios(antes, despues)| > 0 then Some((AuditadosDe(antes), AuditadosDe(despues))) else None
  }

  /** A change confined to fields outside the five (the username, say) is
      never audited. */
  lemma UpdateSinAuditoria(antes: Usuario, username: string, id: nat)
    ensures AuditoriaUpdate(antes, antes.(username := username, id := id)).None?
  {
  }

  const BusquedaCorta := "La búsqueda debe tener al menos 2 caracteres"
  const MaxResultados := 20

  /** Case-insensitive containment of the query in one of the searched
      fields. */
  predicate Coincide(u: Usuario, q: string) {
    var lq := Text.Lower(q);
    || Text.Contains(Text.Lower(u.username), lq)
    || Text.Contains(Text.Lower(u.email), lq)
    || Text.Contains(Text.Lower(u.firstName), lq)
    || Text.Contains(Text.Lower(u.lastName), lq)
  }

  /** The users matching the query, in the queryset's order. */
  function Coincidentes(users: seq<Usuario>, q: string): (r: seq<Usuario>)
    ensures |r| <= |users|
    ensures forall u :: u in r <==> u in users && Coincide(u, q)
  {
    if |users| == 0 then []
    else
      var rest := Coincidentes(users[1..], q);
      assert forall u :: u in users <==> u == users[0] || u in users[1..];
      if Coincide(users[0], q) then [users[0]] + rest else rest
  }

  /** Filtering keeps the queryset's order: the matches of two lists one
      after the other are the matches of the first, then those of the
      second, and a single user is kept exactly when it matches. */
  lemma {:induction false} CoincidentesConcat(a: seq<Usuario>, b: seq<Usuario>, q: string)
    ensures Coincidentes(a + b, q) == Coincidentes(a, q) + Coincidentes(b, q)
    ensures forall u :: Coincidentes([u], q) == if Coincide(u, q) then [u] else []
  {
    if |a| > 0 {
      assert (a + b)[1..] == a[1..] + b;
      CoincidentesConcat(a[1..], b, q);
    } else {
      assert a + b == b;
    }
    forall u ensures Coincidentes([u], q) == if Coincide(u, q) then [u] else [] {
      assert [u][1..] == [];
    }
  }

  /** search: queries shorter than two characters are rejected; otherwise the
      first twenty matches, in order. */
  function Search(users: seq<Usuario>, q: string): (r: Result<seq<Usuario>>)
    ensures r.Err? <==> |q| < 2
    ensures r.Err? ==> r.msg == BusquedaCorta
    ensures r.Ok? ==> |r.value| <= MaxResultados
    ensures r.Ok? ==>
              && |r.value| == (if |Coincidentes(users, q)| < MaxResultados then |Coincidentes(users, q)| else MaxResultados)
              && r.value == Coincidentes(users, q)[..|r.value|]
    ensures r.Ok? ==> forall u :: u in r.value ==> u in users && Coincide(u, q)
    ensures r.Ok? && |Coincidentes(users, q)| <= MaxResultados ==>
              forall u :: u in users && Coincide(u, q) ==> u in r.value
  {
    if |q| < 2 then Err(BusquedaCorta)
    else
      var all := Coincidentes(users, q);
      var top := Text.Prefix(all, MaxResultados);
      assert forall u :: u in top ==> u in all;
      Ok(top)
  }
}

=== FILE: validators.dfy ===
/** The structural check run on an uploaded spreadsheet before it is imported:
    file checks, the guess of what kind of load it is, and the verdict, in
    which errors block and advisories do not. */
module Validators {
  import opened Base
  import opened Text

  /** The size limit, 50 MiB. */
  const MaxBytes := 50 * 1024 * 1024

  /** What the file on disk looks like before it is opened. */
  datatype FileInfo = FileInfo(path: string, present: bool, size: nat)

  /** Which reader the loader picks. */
  datatype Reader = CsvReader | ExcelReader

  /** A loaded table: header names and rows of cells. The CSV reader pads a
      short row with NaN, which `CellAt` reproduces. */
  datatype Frame = Frame(columns: seq<string>, rows: seq<seq<Cell>>)

  function CellAt(row: seq<Cell>, j: nat): Cell {
    if j < |row| then row[j] else NaN
  }

  datatype LoadKind = Polizas | Cobranzas | Clientes

  /** The blocking findings. */
  datatype Problem =
    | NotFound(path: string)
    | BadExtension
    | TooLarge
    | LoadFailed(reason: string)
    | TooManyNulls(column: string, nulls: nat, rows: nat)
    | Crashed(reason: string)

  /** The findings that are reported but never block. */
  datatype Advice =
    | MissingColumns(columns: set<string>)
    | EmptyRows(count: nat)

  /** The report handed back with the verdict. */
  datatype Report = Report(
    columnasDetectadas: seq<string>,
    filasTotales: nat,
    filasVacias: nat,
    errores: seq<Problem>,
    advertencias: seq<Advice>,
    esValido: bool)

  /** The text of the ValueError pandas raises when a column selection that
      matched several columns is used as a truth value. */
  const AmbiguousSeries := "The truth value of a Series is ambiguous. Use a.empty, a.bool(), a.item(), a.any() or a.all()."

  // ---------------------------------------------------------------------------
  // The file

  predicate AcceptedExtension(path: string) {
    var p := Lower(path);
    EndsWith(p, ".xlsx") || EndsWith(p, ".xls") || EndsWith(p, ".csv")
  }

  /** _validar_archivo: the first failing check adds the one error and stops. */
  function CheckFile(f: FileInfo): (r: Option<Problem>)
    ensures r.None? <==> f.present && AcceptedExtension(f.path) && f.size <= MaxBytes
    ensures !f.present ==> r == Some(NotFound(f.path))
    ensures f.present && !AcceptedExtension(f.path) ==> r == Some(BadExtension)
    ensures f.present && AcceptedExtension(f.path) && f.size > MaxBytes ==> r == Some(TooLarge)
  {
    if !f.present then Some(NotFound(f.path))
    else if !AcceptedExtension(f.path) then Some(BadExtension)
    else if f.size > MaxBytes then Some(TooLarge)
    else None
  }

  /** The CSV reader is chosen on a case-sensitive ".csv" suffix, so a file
      named "X.CSV" passes the extension check and goes to the Excel reader. */
  function ReaderFor(path: string): (r: Reader)
    ensures r == CsvReader <==> EndsWith(path, ".csv")
  {
    if EndsWith(path, ".csv") then CsvReader else ExcelReader
  }

  lemma UpperCaseCsvGoesToExcelReader(path: string)
    requires path == "X.CSV"
    ensures AcceptedExtension(path) && ReaderFor(path) == ExcelReader
  {
    assert Lower(path) == "x.csv";
    assert Lower(path)[|Lower(path)| - 4..] == ".csv";
    assert path[|path| - 4..] == ".CSV";
  }

  // ---------------------------------------------------------------------------
  // Columns

  /** Header normalisation: lower-case, trim, spaces to underscores. */
  function NormalizeHeader(c: string): (r: string)
    ensures ' ' !in r
    ensures |r| <= |c|
  {
    ReplaceChar(Strip(Lower(c)), ' ', '_')
  }

  function NormalizeHeaders(cols: seq<string>): (r: seq<string>)
    ensures |r| == |cols|
    ensures forall i :: 0 <= i < |cols| ==> r[i] == NormalizeHeader(cols[i])
  {
    seq(|cols|, i requires 0 <= i < |cols| => NormalizeHeader(cols[i]))
  }

  /** Some lower-cased column name contains `w`. */
  predicate Mentions(cols: seq<string>, w: string) {
    exists i :: 0 <= i < |cols| && Contains(Lower(cols[i]), w)
  }

  /** _detectar_tipo_carga: policies beat collections, which beat clients. */
  function DetectType(cols: seq<string>): (r: Option<LoadKind>)
    ensures r == Some(Polizas) <==> Mentions(cols, "poliza")
    ensures r == Some(Cobranzas) <==> !Mentions(cols, "poliza") && (Mentions(cols, "pago") || Mentions(cols, "cobranza"))
    ensures r.None? <==> !Mentions(cols, "poliza") && !Mentions(cols, "pago") && !Mentions(cols, "cobranza")
                         && !Mentions(cols, "rut") && !Mentions(cols, "cliente")
  {
    if Mentions(cols, "poliza") then Some(Polizas)
    else if Mentions(cols, "pago") || Mentions(cols, "cobranza") then Some(Cobranzas)
    else if Mentions(cols, "rut") || Mentions(cols, "cliente") then Some(Clientes)
    else None
  }

  /** The precedence as a number: lower wins. */
  function Rank(k: Option<LoadKind>): nat {
    match k
    case Some(Polizas) => 0
    case Some(Cobranzas) => 1
    case Some(Clientes) => 2
    case None => 3
  }

  /** An extra column can only move the guess to a kind of higher precedence. */
  lemma DetectTypeExtraColumn(cols: seq<string>, c: string)
    ensures Rank(DetectType(cols + [c])) <= Rank(DetectType(cols))
  {
    var all := cols + [c];
    forall w | Mentions(cols, w) ensures Mentions(all, w) {
      var i :| 0 <= i < |cols| && Contains(Lower(cols[i]), w);
      assert all[i] == cols[i];
    }
  }

  /** The guess depends on the set of names, not on their order or repetition. */
  lemma DetectTypeOrderFree(a: seq<string>, b: seq<string>)
    requires forall c :: c in a <==> c in b
    ensures DetectType(a) == DetectType(b)
  {
    MentionsSame(a, b, "poliza");
    MentionsSame(a, b, "pago");
    MentionsSame(a, b, "cobranza");
    MentionsSame(a, b, "rut");
    MentionsSame(a, b, "cliente");
  }

  /** Two lists holding the same names mention the same words. */
  lemma MentionsSame(a: seq<string>, b: seq<string>, w: string)
    requires forall c :: c in a <==> c in b
    ensures Mentions(a, w) == Mentions(b, w)
  {
    if Mentions(a, w) {
      var i :| 0 <= i < |a| && Contains(Lower(a[i]), w);
      assert a[i] in b;
      var j :| 0 <= j < |b| && b[j] == a[i];
    }
    if Mentions(b, w) {
      var i :| 0 <= i < |b| && Contains(Lower(b[i]), w);
      assert b[i] in a;
      var j :| 0 <= j < |a| && a[j] == b[i];
    }
  }

  /** COLUMNAS_ESPERADAS */
  function Expected(k: LoadKind): set<string> {
    match k
    case Polizas => {"numero_poliza", "cliente", "producto", "fecha_inicio", "fecha_vencimiento", "monto", "estado", "asegurado"}
    case Cobranzas => {"numero_poliza", "cliente", "monto", "fecha_pago", "estado", "metodo_pago"}
    case Clientes => {"rut", "nombre", "email", "telefono", "direccion", "ciudad"}
  }

  /** _validar_columnas: at most one advisory naming the expected columns that
      are absent; it never produces an error. */
  function ColumnAdvice(cols: seq<string>): (r: seq<Advice>)
    ensures |r| <= 1
    ensures |r| == 1 <==> DetectType(cols).Some? && exists e :: e in Expected(DetectType(cols).value) && e !in cols
    ensures |r| == 1 ==> r[0] == MissingColumns(Expected(DetectType(cols).value) - set c | c in cols)
  {
    match DetectType(cols)
    case None => []
    case Some(k) =>
      var missing := Expected(k) - set c | c in cols;
      if missing == {} then
        assert forall e :: e in Expected(k) ==> e in cols by {
          forall e | e in Expected(k) ensures e in cols {
            assert e !in missing;
          }
        }
        []
      else
        assert exists e :: e in Expected(k) && e !in cols by {
          var e :| e in missing;
        }
        [MissingColumns(missing)]
  }

  // ---------------------------------------------------------------------------
  // Values

  predicate AllNull(row: seq<Cell>, width: nat) {
    forall j :: 0 <= j < width ==> CellAt(row, j).IsNull()
  }

  /** The number of rows in which every cell is null. */
  function EmptyRowCount(rows: seq<seq<Cell>>, width: nat): (n: nat)
    ensures n <= |rows|
  {
    if rows == [] then 0
    else EmptyRowCount(rows[..|rows| - 1], width) + (if AllNull(rows[|rows| - 1], width) then 1 else 0)
  }

  function EmptyRowSet(rows: seq<seq<Cell>>, width: nat): set<nat> {
    set i: nat | i < |rows| && AllNull(rows[i], width)
  }

  /** The count is the number of row positions holding an all-null row. */
  lemma {:induction false} EmptyRowCountIsSize(rows: seq<seq<Cell>>, width: nat)
    ensures EmptyRowCount(rows, width) == |EmptyRowSet(rows, width)|
  {
    if rows != [] {
      var init := rows[..|rows| - 1];
      var last := |rows| - 1;
      EmptyRowCountIsSize(init, width);
      EmptyRowSetSnoc(rows, width);
      assert last !in EmptyRowSet(init, width);
    }
  }

  lemma EmptyRowSetSnoc(rows: seq<seq<Cell>>, width: nat)
    requires rows != []
    ensures EmptyRowSet(rows, width)
            == EmptyRowSet(rows[..|rows| - 1], width) + (if AllNull(rows[|rows| - 1], width) then {|rows| - 1} else {})
  {
    var init := rows[..|rows| - 1];
    var right := EmptyRowSet(init, width) + (if AllNull(rows[|rows| - 1], width) then {|rows| - 1} else {});
    forall i: nat | i in EmptyRowSet(rows, width) ensures i in right {
      if i < |init| {
        assert rows[i] == init[i];
      }
    }
    forall i: nat | i in right ensures i in EmptyRowSet(rows, width) {
      if i < |init| {
        assert rows[i] == init[i];
      }
    }
  }

  /** The number of null cells in column j. */
  function NullCount(rows: seq<seq<Cell>>, j: nat): (n: nat)
    ensures n <= |rows|
  {
    if rows == [] then 0
    else NullCount(rows[..|rows| - 1], j) + (if CellAt(rows[|rows| - 1], j).IsNull() then 1 else 0)
  }

  /** How many columns carry the name c. */
  function Occurrences(cols: seq<string>, c: string): (n: nat)
    ensures n <= |cols|
    ensures n == 0 <==> c !in cols
  {
    if cols == [] then 0 else (if cols[0] == c then 1 else 0) + Occurrences(cols[1..], c)
  }

  /** The first column with the name c. */
  function IndexOf(cols: seq<string>, c: string): (r: Option<nat>)
    ensures r.Some? <==> c in cols
    ensures r.Some? ==> r.value < |cols| && cols[r.value] == c
  {
    if cols == [] then None
    else if cols[0] == c then Some(0)
    else match IndexOf(cols[1..], c)
         case None => None
         case Some(j) => Some(j + 1)
  }

  /** A percentage strictly above 10, compared on integers: nulls / rows * 100 > 10. */
  predicate OverThreshold(nulls: nat, rows: nat) {
    10 * nulls > rows
  }

  /** The critical columns, checked in this order. */
  const Critical := ["numero_poliza", "cliente", "rut"]

  /** A critical name is harmless when absent, or present once with few enough nulls. */
  predicate ColumnClean(cols: seq<string>, rows: seq<seq<Cell>>, c: string) {
    match IndexOf(cols, c)
    case None => true
    case Some(j) => Occurrences(cols, c) == 1 && !OverThreshold(NullCount(rows, j), |rows|)
  }

  predicate AllClean(cs: seq<string>, cols: seq<string>, rows: seq<seq<Cell>>) {
    forall i :: 0 <= i < |cs| ==> ColumnClean(cols, rows, cs[i])
  }

  /** The loop over the critical columns: one error per column over the
      threshold, and a crash (ending the loop) at a name that selects several
      columns. */
  function CheckCritical(cs: seq<string>, cols: seq<string>, rows: seq<seq<Cell>>): (r: (seq<Problem>, Option<string>))
    ensures (r.0 == [] && r.1.None?) <==> AllClean(cs, cols, rows)
    ensures r.1.Some? ==> r.1 == Some(AmbiguousSeries)
    ensures forall k :: 0 <= k < |r.0| ==>
              r.0[k].TooManyNulls? && OverThreshold(r.0[k].nulls, r.0[k].rows) && r.0[k].rows == |rows|
  {
    if cs == [] then ([], None)
    else
      var c := cs[0];
      var rest := CheckCritical(cs[1..], cols, rows);
      assert AllClean(cs, cols, rows) <==> ColumnClean(cols, rows, c) && AllClean(cs[1..], cols, rows) by {
        if ColumnClean(cols, rows, c) && AllClean(cs[1..], cols, rows) {
          forall i | 0 <= i < |cs| ensures ColumnClean(cols, rows, cs[i]) {
            if i > 0 { assert cs[i] == cs[1..][i - 1]; }
          }
        }
      }
      match IndexOf(cols, c)
      case None => rest
      case Some(j) =>
        if Occurrences(cols, c) > 1 then ([], Some(AmbiguousSeries))
        else
          var nulls := NullCount(rows, j);
          var e := if OverThreshold(nulls, |rows|) then [TooManyNulls(c, nulls, |rows|)] else [];
          (e + rest.0, rest.1)
  }

  // ---------------------------------------------------------------------------
  // The verdict

  /** The report of a run that stopped before a table was loaded. */
  function EarlyReport(p: Problem): (r: Report)
    ensures !r.esValido && r.errores == [p] && r.advertencias == []
  {
    Report([], 0, 0, [p], [], false)
  }

  /** validar: the file checks, the load, then the column, empty-row and
      critical-column checks. Valid exactly when no error was recorded. */
  function Validar(f: FileInfo, load: Reader -> Result<Frame>): (r: (bool, Report))
    ensures r.0 == r.1.esValido
    ensures r.0 <==> r.1.errores == []
    ensures CheckFile(f).Some? ==> r.1 == EarlyReport(CheckFile(f).value)
    ensures CheckFile(f).None? && load(ReaderFor(f.path)).Err?
            ==> r.1 == EarlyReport(LoadFailed(load(ReaderFor(f.path)).msg))
    ensures CheckFile(f).None? && load(ReaderFor(f.path)).Ok?
            ==> var frame := load(ReaderFor(f.path)).value;
                && (r.0 <==> AllClean(Critical, NormalizeHeaders(frame.columns), frame.rows))
                && r.1.columnasDetectadas == frame.columns
                && r.1.filasTotales == |frame.rows|
                && r.1.filasVacias == |EmptyRowSet(frame.rows, |frame.columns|)|
  {
    match CheckFile(f)
    case Some(p) => (false, EarlyReport(p))
    case None =>
      match load(ReaderFor(f.path))
      case Err(m) => (false, EarlyReport(LoadFailed(m)))
      case Ok(frame) =>
        var cols := NormalizeHeaders(frame.columns);
        var width := |frame.columns|;
        var empty := EmptyRowCount(frame.rows, width);
        EmptyRowCountIsSize(frame.rows, width);
        var advice := ColumnAdvice(cols) + (if empty > 0 then [EmptyRows(empty)] else []);
        var checked := CheckCritical(Critical, cols, frame.rows);
        var errores := checked.0 + (if checked.1.Some? then [Crashed(checked.1.value)] else []);
        (errores == [], Report(frame.columns, |frame.rows|, empty, errores, advice, errores == []))
  }

  /** A failed file check decides the outcome without the file being read. */
  lemma FileErrorSkipsLoad(f: FileInfo, load1: Reader -> Result<Frame>, load2: Reader -> Result<Frame>)
    requires CheckFile(f).Some?
    ensures Validar(f, load1) == Validar(f, load2)
    ensures !Validar(f, load1).0 && |Validar(f, load1).1.errores| == 1
  {
  }
}

=== FILE: vigencia.dfy ===
/** The batch importer's reading of a validity window written "DD/MM/YYYY AL DD/MM/YYYY". */
module Vigencia {
  import opened Base
  import opened Text

  /** pandas' to_datetime(s, dayfirst=True).date(): a day number, or the text
      of the exception it raises. Date parsing is not modelled. */
  type DateParser = string -> Result<int>

  /** A validity window as two day numbers. The importer does not require start <= end. */
  datatype Window = Window(start: int, end: int)

  /** The text the separators are looked for in: trimmed and upper-cased. */
  function Normal(raw: string): string {
    Upper(Strip(raw))
  }

  /** The pieces the text is cut into: on every "AL" when there is one,
      otherwise on every "A". */
  function Pieces(s: string): (r: seq<string>)
    ensures |r| >= 1
  {
    if Contains(s, "AL") then Split(s, "AL") else Split(s, "A")
  }

  /** Both ends are parsed, the start first; the first failure is reported. */
  function ParseEnds(s: string, a: string, b: string, toDate: DateParser): (r: Result<Window>)
    ensures r.Ok? <==> toDate(Strip(a)).Ok? && toDate(Strip(b)).Ok?
    ensures r.Ok? ==> r.value == Window(toDate(Strip(a)).value, toDate(Strip(b)).value)
  {
    var prefix := "Error al parsear vigencia '" + s + "': ";
    match toDate(Strip(a))
    case Err(m) => Err(prefix + m)
    case Ok(inicio) =>
      match toDate(Strip(b))
      case Err(m) => Err(prefix + m)
      case Ok(fin) => Ok(Window(inicio, fin))
  }

  /** parse_vigencia, applied to the str() of a cell. */
  function ParseVigencia(raw: string, toDate: DateParser): (r: Result<Window>)
    ensures raw == [] ==> r.Err?
    ensures raw != [] && !Contains(Normal(raw), "A")
            ==> r == Err("Vigencia inválida (no contiene 'AL'): " + Normal(raw))
    ensures r.Ok? ==> raw != [] && Contains(Normal(raw), "A")
  {
    if raw == [] then Err("Vigencia inválida: " + raw)
    else
      var s := Normal(raw);
      assert Contains(s, "AL") ==> Contains(s, "A") by {
        if Contains(s, "AL") { ContainsALContainsA(s); }
      }
      if !Contains(s, "AL") && !Contains(s, "A") then
        Err("Vigencia inválida (no contiene 'AL'): " + s)
      else
        var parts := Pieces(s);
        if |parts| < 2 then Err("Vigencia inválida (no tiene dos fechas): " + s)
        else ParseEnds(s, parts[0], parts[1], toDate)
  }

  // ---------------------------------------------------------------------------
  // What the cutting means

  /** Text containing "AL" contains "A". */
  lemma ContainsALContainsA(s: string)
    requires Contains(s, "AL")
    ensures Contains(s, "A")
  {
    var i := Find(s, "AL").value;
    assert s[i..i + 1] == "A" by {
      assert s[i..i + 2] == "AL";
      assert s[i] == s[i..i + 2][0];
    }
    ContainsWitness(s, "A", i);
  }

  /** Whenever a separator was found, the cut yields at least two pieces,
      so the "no tiene dos fechas" error is never raised. */
  lemma {:induction false} PiecesAtLeastTwo(s: string)
    requires Contains(s, "A")
    ensures |Pieces(s)| >= 2
  {
    if Contains(s, "AL") {
      SplitContains(s, "AL");
    } else {
      SplitContains(s, "A");
    }
  }

  /** parse_vigencia fails only with an empty input, without an "A", or
      because a date does not parse. */
  lemma ParseVigenciaErrors(raw: string, toDate: DateParser)
    requires raw != [] && Contains(Normal(raw), "A")
    ensures ParseVigencia(raw, toDate)
            == ParseEnds(Normal(raw), Pieces(Normal(raw))[0], Pieces(Normal(raw))[1], toDate)
  {
    PiecesAtLeastTwo(Normal(raw));
  }

  /** The first "AL" of a + "AL" + b, when a has none, is the one after a:
      a two-letter separator whose letters differ cannot straddle the joint. */
  lemma FindAfterLeft(a: string, b: string)
    requires !Contains(a, "AL")
    ensures Find(a + "AL" + b, "AL") == Some(|a|)
  {
    var u := a + "AL" + b;
    assert u == a + ("AL" + b);
    assert OccursAt(u, "AL", |a|) by { assert u[|a|..|a| + 2] == "AL"; }
    forall j | 0 <= j < |a| ensures !OccursAt(u, "AL", j) {
      if j + 2 <= |a| {
        assert !OccursAt(a, "AL", j);
        assert u[j..j + 2] == a[j..j + 2];
      } else {
        assert u[j..j + 2][1] == u[|a|] == 'A';
      }
    }
  }

  /** Cutting a + "AL" + b on "AL", with no "AL" in a: a, then the pieces of b. */
  lemma SplitAfterLeft(a: string, b: string)
    requires !Contains(a, "AL")
    ensures Split(a + "AL" + b, "AL") == [a] + Split(b, "AL")
  {
    var u := a + "AL" + b;
    FindAfterLeft(a, b);
    assert u[..|a|] == a;
    assert u[|a| + 2..] == b;
  }

  /** The window is read from the text before the first "AL" and the text
      between the first and the second "AL"; anything after a second "AL" is ignored. */
  lemma WindowFromFirstTwo(raw: string, a: string, b: string, toDate: DateParser)
    requires raw != [] && Normal(raw) == a + "AL" + b && !Contains(a, "AL")
    ensures ParseVigencia(raw, toDate) == ParseEnds(Normal(raw), a, Split(b, "AL")[0], toDate)
  {
    var s := Normal(raw);
    ContainsWitness(s, "AL", |a|) by {
      assert s[|a|..|a| + 2] == "AL";
    }
    ContainsALContainsA(s);
    SplitAfterLeft(a, b);
    ParseVigenciaErrors(raw, toDate);
  }

  /** Without any "AL", a lone "A" separates the dates. */
  lemma WindowFromA(raw: string, toDate: DateParser)
    requires raw != [] && !Contains(Normal(raw), "AL") && Contains(Normal(raw), "A")
    ensures ParseVigencia(raw, toDate)
            == ParseEnds(Normal(raw), Split(Normal(raw), "A")[0], Split(Normal(raw), "A")[1], toDate)
  {
    ParseVigenciaErrors(raw, toDate);
  }
}
